=== FILE: README.md ===
# Enterprise Workflow Choreographer in Dafny

A model of the incident-response core of the Enterprise Workflow
Choreographer, with proofs about it. The system receives alerts and manual
incident reports. It classifies them into incidents and drives a response
across a service desk (ServiceNow), chat (Slack), source hosting (GitHub), a
wiki (Confluence), an issue tracker (Jira) and a language model.

The model covers these parts, one module per source file:

- `Models`: the data model, with its enumerations, records and field defaults.
- `Choreographer`: the generic step executor. It dispatches each step to a
  handler, keeps the action-keyed context and maps results onto the incident.
  It also holds the team selection and the available-tools list.
- `IncidentWorkflow`: the fixed seven-step pipeline, together with its
  priority, recommendation, assignee and response-team rules.
- `Selection`: the list helpers both team selectors share.
- `Orchestrator`: the rule-based parts of the AI orchestrator, covering the
  fallback decision, step parsing with defaults and the default plan.
- `IncidentAgent`: keyword classification, alert field and tag extraction,
  enrichment, and building an incident from an alert.
- `AnalysisAgent`: the log scan, the recommendation rules, change
  correlation and the similar-incident query.
- `ServiceNow`, `Slack`, `GitHubConnector`, `JiraConnector`, `Confluence`:
  each connector's own logic.
- `Routes`: the request helpers of the HTTP layer.

Shared modules:

- `Wrappers` provides `Option` and `Result`.
- `Text` provides the Python string operations used, with their laws.
- `Values` provides Python's dynamic values. A dict keeps insertion order.
- `Collaborators` provides the calls the workflows make.

## How external systems are modelled

No external system is modelled directly. Instead:

- Every call a workflow makes is appended to a trace.
- The answer to the k-th call is an arbitrary function of k and the call,
  passed in as part of the environment. A call can succeed with a payload,
  fail with an error, or raise.
- A connector function takes the answers to its own requests as `Result`
  parameters. It returns its result together with the requests it made, in
  order.
- The clock, uuids and formatted dates are parameters.

## Model

| member | source | states |
|---|---|---|
| Models.SeverityOf | src/models.py:12-17 | parsing yields the severity whose value is the text, and nothing exactly when no severity has that value |
| Models.StatusOf | src/models.py:20-27 | parsing yields the status whose value is the text, and nothing exactly when no status has that value |
| Models.CategoryOf | src/models.py:30-39 | parsing yields the category whose value is the text, and nothing exactly when no category has that value |
| Models.EnumerationsComplete | src/models.py:12-39 | there are exactly 4 severities, 6 statuses and 8 categories with distinct values, and parsing each member's value gives the member back |
| Models.SeveritiesComplete | src/models.py:12-17 | every severity is listed, with distinct values that parse back to it |
| Models.StatusesComplete | src/models.py:20-27 | every status is listed, with distinct values that parse back to it |
| Models.CategoriesComplete | src/models.py:30-39 | every category is listed, with distinct values that parse back to it |
| Models.NoOpenStatus | src/models.py:20-27 | there is no "open" status |
| Models.NewIncident | src/models.py:42-81 | a new incident is detected, of unknown category, with empty lists, no external references, responders, hypothesis or later timestamps, and keeps its id, title, description, severity and detection time |
| Models.NewStep | src/models.py:84-97 | a new step is pending with no result, error or timestamps, and keeps its name, action, tool and parameters |
| Models.NewWorkflow | src/models.py:100-114 | a new workflow is pending with no steps, step index 0 and no start or end time |
| Models.NewActionResult | src/models.py:130-138 | a new action result has no data and no error, and keeps its outcome, action, tool and message |
| Choreographer.HandlerOf | src/workflows/choreographer.py:69-81 | an action has a handler exactly when it is one of the eleven registered actions |
| Choreographer.HandleCreateTicket | src/workflows/choreographer.py:241-276 | with auto-ticketing off the step succeeds as skipped with no call; otherwise one ticket call, and on success the ticket is recorded on the incident; a failed result leaves the incident alone |
| Choreographer.HandleUpdateTicket | src/workflows/choreographer.py:278-310 | without a ticket id the step fails with no call; updates that are not a dict raise before any call; the only call made is one work note on the incident's ticket |
| Choreographer.HandleCreateChannel | src/workflows/choreographer.py:312-347 | with Slack notifications off the step succeeds as skipped with no call; otherwise one channel call, and on success the channel is recorded on the incident |
| Choreographer.HandleNotifyTeam | src/workflows/choreographer.py:349-386 | the channel is the incident's, else the step's; without one the step fails with no call, otherwise one notification with the step's message or the default text |
| Choreographer.Ids | src/workflows/choreographer.py:426-427 | the responders are the ids of the selected members, in order |
| Choreographer.HandleAssembleTeam | src/workflows/choreographer.py:388-435 | an empty team or a missing channel fails the step with no call; otherwise one call with the relevant members, and on success their ids become the responders |
| Choreographer.HandleAnalyzeCommits | src/workflows/choreographer.py:437-469 | with GitHub analysis off the step succeeds as skipped with no call; otherwise one commit analysis of the step's repository (default: the organisation's main-app) over the step's hours (default 24) and the affected services |
| Choreographer.HandleGatherLogs | src/workflows/choreographer.py:471-488 | log gathering always succeeds, makes no call, and reports no logs |
| Choreographer.HandleCreatePostmortem | src/workflows/choreographer.py:490-525 | with Confluence docs off the step succeeds as skipped with no call; otherwise one page call, and on success the page id is recorded on the incident |
| Choreographer.EarlierData | src/workflows/choreographer.py:536-543 | an action with no earlier result reads as `None`; otherwise the key of that result's data |
| Choreographer.HandleGenerateHypothesis | src/workflows/choreographer.py:527-553 | one model call with the logs and commits of the earlier steps, and a successful result carrying the hypothesis |
| Choreographer.KnowledgeQuery | src/workflows/choreographer.py:563 | the query opens with the category and names each of the first two affected services |
| Choreographer.HandleSearchKnowledge | src/workflows/choreographer.py:555-572 | one knowledge-base search with that query, and the incident is left alone |
| Choreographer.HandlePostUpdate | src/workflows/choreographer.py:574-609 | without a channel the step fails with no call; otherwise one update posted to the incident's channel |
| Choreographer.ExecuteStep | src/workflows/choreographer.py:207-237 | an action without a handler fails with "No handler registered for action" and calls nothing; a handler that raises gives a failed result carrying the exception text; otherwise the handler's result; the result always names the step's action |
| Choreographer.UpdateIncidentFromResult | src/workflows/choreographer.py:668-687 | a failed result or an unmapped action changes nothing; a successful result of a mapped action writes that action's field from its data key, `None` when the key is missing, and nothing else |
| Choreographer.FieldsDistinct | src/workflows/choreographer.py:680-687 | the four mapped actions write four different fields |
| Choreographer.UpdateIncidentIdempotent | src/workflows/choreographer.py:668-687 | applying the same result twice gives the incident that applying it once gives |
| Choreographer.SkippedResultClearsField | src/workflows/choreographer.py:678-687 | a successful skipped result sets the mapped field to `None` |
| Choreographer.RunStepWith | src/workflows/choreographer.py:166-177 | the step ends "completed" exactly when its result succeeded and "failed" otherwise, keeps the result's data, is stamped, is stored under its action, and its mapped field is copied onto the incident |
| Choreographer.RunStep | src/workflows/choreographer.py:166-225 | the result names the step's action, calls are only appended, and an unknown action calls nothing, keeps the incident and fails |
| Choreographer.ExecuteStepSound | src/workflows/choreographer.py:207-237 | executing a step only appends to the calls made before it |
| Choreographer.RunFrom | src/workflows/choreographer.py:156-195 | the loop yields one ended step and one result per step, and starts from the given state |
| Choreographer.RunFromChain | src/workflows/choreographer.py:156-177 | every step is attempted in list order, each on the state the previous step left, whatever the earlier results |
| Choreographer.RunFromStatuses | src/workflows/choreographer.py:169-185 | every step ends "completed" exactly when its result succeeded and "failed" otherwise, including a failed `create_ticket` |
| Choreographer.Actions | src/workflows/choreographer.py:174 | the set holds exactly the steps' actions |
| Choreographer.RunFromRecords | src/workflows/choreographer.py:174 | each step's result is stored under its action before the next step runs, and the final results record every outcome in step order |
| Choreographer.RecordAlong | src/workflows/choreographer.py:174 | states that each store one more outcome end with all of them stored |
| Choreographer.RecordKeys | src/workflows/choreographer.py:174 | storing the outcomes adds exactly the steps' actions to the keys |
| Choreographer.RecordKeeps | src/workflows/choreographer.py:174 | an entry whose action no step has is kept |
| Choreographer.RecordLatest | src/workflows/choreographer.py:174 | an action's entry is the outcome of the last step with that action |
| Choreographer.RunFromKeys | src/workflows/choreographer.py:150-174 | after the loop the results hold exactly the earlier keys and the steps' actions |
| Choreographer.RunFromKeeps | src/workflows/choreographer.py:174 | an earlier result whose action no step has survives the loop |
| Choreographer.RunFromLatest | src/workflows/choreographer.py:174 | after the loop each action's entry is the result of its last step |
| Choreographer.ExecuteWorkflow | src/workflows/choreographer.py:134-205 | every step is run with `current_step_index` ending at the last index, each ends "completed" iff it succeeded and "failed" otherwise, the results hold exactly the steps' actions, and the workflow always ends "completed" with start and end times set; nothing else changes |
| Choreographer.RunFromCalls | src/workflows/choreographer.py:156-225 | with the choreographer's handlers, each step's result names its action, each step only appends calls, and an unknown action calls nothing, keeps the incident and fails |
| Choreographer.RunStepCalls | src/workflows/choreographer.py:166-177 | one step run by the choreographer keeps those three facts |
| Choreographer.OrchestrateIncidentResponse | src/workflows/choreographer.py:83-132 | a new workflow named after the first 50 characters of the title and described by the severity holds the recommended steps, runs them all in order from empty results, and ends "completed" |
| Choreographer.AvailableTools | src/workflows/choreographer.py:611-626 | the tools come in the fixed order servicenow, slack, github, confluence, and "ai" is always the last |
| Choreographer.AvailableToolsSwitches | src/workflows/choreographer.py:615-622 | each connector is offered exactly when its feature switch is on |
| Choreographer.RunHandler | src/workflows/choreographer.py:227-229 | every registered handler returns a result naming the step's action and only appends to the trace of collaborator calls |
| IncidentWorkflow.GetPriority | src/workflows/incident_workflow.py:650-657 | the priority is "P" followed by the severity's position, 1 to 4, in the order critical, high, medium, low |
| IncidentWorkflow.GetPriorityInjective | src/workflows/incident_workflow.py:650-657 | different severities get different priorities |
| IncidentWorkflow.Step1CreateTicket | src/workflows/incident_workflow.py:158-206 | one ticket call; the step completes exactly when it succeeds, and then the ticket number is written on the incident and reported with the classification; otherwise the incident is unchanged and the error (or the exception text) is reported |
| IncidentWorkflow.ServicesOrTbd | src/workflows/incident_workflow.py:250 | the services line is never empty: the joined services, or "TBD" when the join is empty |
| IncidentWorkflow.AlertMessageAgrees | src/workflows/incident_workflow.py:246-254 | the intended alert always opens with the whole body, adds the channel line exactly when there is a channel, and then equals the message as written |
| IncidentWorkflow.AlertMessageAsWrittenDropsAlert | src/workflows/incident_workflow.py:246-254 | without an incident channel the message as written is empty, while the intended one names the title |
| IncidentWorkflow.AlertMessageAsWrittenExample | src/workflows/incident_workflow.py:246-254 | an instance of `AlertMessageAsWrittenDropsAlert`: a new incident titled "DB down" with no channel gets an empty alert as written |
| IncidentWorkflow.AlertMessageNamesTitle | src/workflows/incident_workflow.py:246-248 | the intended alert always carries the title |
| IncidentWorkflow.Step2SendAlert | src/workflows/incident_workflow.py:210-277 | the channel is created first and its id is written only on success; then one alert to "#incident-response", carrying the corrected alert text of the first finding; the step completes exactly when the alert succeeds, is partial exactly when it reports a failure, and fails when either call raises, with the error reported |
| IncidentWorkflow.Repos | src/workflows/incident_workflow.py:304 | the given repositories, or the organisation's main-app when none are given |
| IncidentWorkflow.LookBack | src/workflows/incident_workflow.py:311 | 48 hours for critical and high incidents, 72 for medium and low |
| IncidentWorkflow.ProbeCalls | src/workflows/incident_workflow.py:308-353 | a sweep makes one call per repository |
| IncidentWorkflow.ProbeCallsEach | src/workflows/incident_workflow.py:308-353 | the i-th call of a sweep probes the i-th repository |
| IncidentWorkflow.Entry | src/workflows/incident_workflow.py:315-353 | a successful repository is recorded with its name and at most 10 commits, 5 deployments or 5 failed runs, the first ones of the reply |
| IncidentWorkflow.EntryRead | src/workflows/incident_workflow.py:316-353 | the recorded dict gives back the repository and the kept items |
| IncidentWorkflow.RunProbe | src/workflows/incident_workflow.py:308-353 | a finished sweep made one call per repository, in order, and recorded at most one capped entry per repository; a raise ends it after a proper prefix of those calls |
| IncidentWorkflow.SweepRows | src/workflows/incident_workflow.py:316-353 | one dict per recorded entry, in order |
| IncidentWorkflow.SweepsValue | src/workflows/incident_workflow.py:323-355 | the finished sweeps are filed in order under "recent_commits", "recent_deployments" and "failed_workflows" |
| IncidentWorkflow.SweepRead | src/workflows/incident_workflow.py:323-355 | reading a sweep's key gives its rows when that sweep finished, and nothing otherwise |
| IncidentWorkflow.SweepReadFinished | src/workflows/incident_workflow.py:323-355 | a finished sweep's key reads back its rows |
| IncidentWorkflow.SweepReadMissing | src/workflows/incident_workflow.py:323-355 | a sweep that did not run is missing from the report |
| IncidentWorkflow.MetricsRead | src/workflows/incident_workflow.py:358-368 | the log and metrics summaries are reported exactly when every sweep finished |
| IncidentWorkflow.Gather | src/workflows/incident_workflow.py:307-355 | the sweeps run in order until one raises; no failure is reported exactly when all of them finished, and then every planned call was made; every entry is capped |
| IncidentWorkflow.Step3GatherDiagnostics | src/workflows/incident_workflow.py:281-378 | the step completes exactly when all three sweeps finish, and then every per-repository call was made in order; otherwise it fails with the error, keeping the findings of the sweeps that finished |
| IncidentWorkflow.SweepItemsBound | src/workflows/incident_workflow.py:320-352 | a capped sweep holds at most the cap times its entries |
| IncidentWorkflow.FlattenRows | src/workflows/incident_workflow.py:405-406 | flattening the commit rows gives back the recorded commits, in order |
| IncidentWorkflow.CommitsFromDiagnostics | src/workflows/incident_workflow.py:404-406 | the commits step 4 reads from step 3's report are the commit sweep's items, or none when that sweep did not finish |
| IncidentWorkflow.AnalyzedCommitsBound | src/workflows/incident_workflow.py:404-425 | step 4 counts at most ten commits per repository |
| IncidentWorkflow.FlagLines | src/workflows/incident_workflow.py:668-681 | at most one line per row |
| IncidentWorkflow.Flagged | src/workflows/incident_workflow.py:668-681 | at most one line per entry |
| IncidentWorkflow.FlaggedMembers | src/workflows/incident_workflow.py:668-681 | a line is flagged exactly when some entry with items names its repository in it |
| IncidentWorkflow.FlagRows | src/workflows/incident_workflow.py:668-681 | reading the rows of a sweep flags exactly its entries with items |
| IncidentWorkflow.CategoryAdvice | src/workflows/incident_workflow.py:684-693 | five categories have their own advice; performance, integration and unknown have none |
| IncidentWorkflow.Recommendations | src/workflows/incident_workflow.py:659-695 | at most one line per deployment row and failed-run row plus one, and the category's advice, when it has one, comes last |
| IncidentWorkflow.FlagsFromDiagnostics | src/workflows/incident_workflow.py:668-681 | reading a sweep's rows from step 3's report flags that sweep's entries with items, and nothing when the sweep did not finish |
| IncidentWorkflow.RecommendationsFromDiagnostics | src/workflows/incident_workflow.py:659-695 | given step 3's report, the recommendations are the rollback hints, then the build hints, then the category advice |
| IncidentWorkflow.RecommendationsBound | src/workflows/incident_workflow.py:659-695 | at most two hints per repository plus the advice |
| IncidentWorkflow.HypothesisRequest | src/workflows/incident_workflow.py:409-414 | the model is asked about the incident with no logs and at most ten recent commits |
| IncidentWorkflow.AnalysisDetails | src/workflows/incident_workflow.py:421-425 | the report holds the hypothesis, the recommendations, confidence "medium" and the number of commits read |
| IncidentWorkflow.Step4AnalyzeRootCause | src/workflows/incident_workflow.py:382-443 | the hypothesis is written on the incident and reported with the recommendations and commit count; the analysis is posted exactly when there is a channel; only a raise of that post fails the step |
| IncidentWorkflow.PostAnalysis | src/workflows/incident_workflow.py:430-440 | one post exactly when there is a channel; the step fails exactly when that post raises |
| IncidentWorkflow.AnalysisReport | src/workflows/incident_workflow.py:421-440 | the step fails exactly when a call raised |
| IncidentWorkflow.RunUntilRaise | src/workflows/incident_workflow.py:524-644 | the calls made are a prefix of the plan; all of it when nothing raised, otherwise up to and including the call that raised |
| IncidentWorkflow.RunUntilRaiseStops | src/workflows/incident_workflow.py:524-644 | only the last call made can have raised, and it did exactly when a message is returned |
| IncidentWorkflow.Step5CreatePage | src/workflows/incident_workflow.py:447-500 | a failed or raising page creation fails the step and leaves the incident alone; on success the page id is written and reported, the link is posted exactly when there is a channel, and a raise of that post fails the step |
| IncidentWorkflow.Assigned | src/workflows/incident_workflow.py:533-541 | the assignee joins the responders exactly when the issue was created and an assignee with an email was picked |
| IncidentWorkflow.AssignPlan | src/workflows/incident_workflow.py:533-568 | after the issue: the assignment to the picked member's email when the issue was created and the member has an email, the team assembly when there is a team and a channel, and the "team_assigned" post last when there is a channel |
| IncidentWorkflow.AssignDetails | src/workflows/incident_workflow.py:528-551 | a created issue is reported by its key |
| IncidentWorkflow.Step6AssignAndNotify | src/workflows/incident_workflow.py:504-578 | the issue is created first; a raise there fails the step; otherwise the planned calls are made until one raises, which fails the step; the assignee joins the responders on completion |
| IncidentWorkflow.AssignAfterIssue | src/workflows/incident_workflow.py:528-575 | after the issue, the calls made and the status follow the plan, and a created issue is reported by its key |
| IncidentWorkflow.AssigneeKept | src/workflows/incident_workflow.py:536-541 | the incident keeps the assignee once the assignment returned, and is otherwise unchanged |
| IncidentWorkflow.AssignReport | src/workflows/incident_workflow.py:570-575 | the step fails exactly when a call raised |
| IncidentWorkflow.Step7Monitor | src/workflows/incident_workflow.py:582-646 | the incident becomes in progress and acknowledged now before any call; the work note and the channel message are made until one raises, which fails the step; on completion the status and the tracking flags are reported |
| IncidentWorkflow.TicketEffect | src/workflows/incident_workflow.py:158-206 | step 1 settles its report, writes at most the ticket field and makes one call |
| IncidentWorkflow.AlertEffect | src/workflows/incident_workflow.py:210-277 | step 2 settles its report or leaves it partial and writes at most the channel field |
| IncidentWorkflow.AlertSteps | src/workflows/incident_workflow.py:114-120 | steps 1 and 2 write at most the ticket and channel fields, and the ticket call comes first |
| IncidentWorkflow.AnalysisSteps | src/workflows/incident_workflow.py:122-128 | steps 3 and 4 write only the hypothesis, and step 4 counts at most ten commits and two hints per repository plus one |
| IncidentWorkflow.PageEffect | src/workflows/incident_workflow.py:447-500 | step 5 settles its report and writes at most the page field |
| IncidentWorkflow.AssignEffect | src/workflows/incident_workflow.py:504-578 | step 6 settles its report and writes at most the responders |
| IncidentWorkflow.MonitorEffect | src/workflows/incident_workflow.py:582-646 | step 7 settles its report and marks the incident in progress and acknowledged |
| IncidentWorkflow.TrackingSteps | src/workflows/incident_workflow.py:130-140 | steps 5 to 7 write only the page, the responders, the status and the acknowledgement |
| IncidentWorkflow.StepTable | src/workflows/incident_workflow.py:98-140 | the seven reports are filed under their keys, in order, none left pending |
| IncidentWorkflow.ExecuteIncidentWorkflow | src/workflows/incident_workflow.py:73-154 | the seven steps run in order; each catches its own failures, so the workflow reports success with no errors; the incident ends in progress, acknowledged and with a hypothesis, and only the fields the steps write change |
| Selection.OnCall | src/workflows/choreographer.py:635 | the on-call list holds exactly the members with `on_call` set, none more often than in the input |
| Selection.OnCallHead | src/workflows/incident_workflow.py:706-708 | the first on-call member in the list is the earliest member with `on_call` set |
| Selection.WithSkills | src/workflows/choreographer.py:649-652 | the skilled list holds exactly the members having one of the relevant skills |
| Selection.FillUpTo | src/workflows/choreographer.py:657-664 | the fill keeps the selection in front, stops at five, appends only candidates not yet selected, and leaves out a candidate only when the selection is full |
| Selection.FillUpToCounts | src/workflows/choreographer.py:657-664 | the fill takes no member more often than the selection and the candidates together hold it |
| Selection.FillUpToWithin | src/workflows/choreographer.py:657-664 | a fill from candidates drawn from the team, started from a selection drawn from it, stays drawn from it |
| Selection.SelectTeamBounds | src/workflows/choreographer.py:628-666 | at most five members, drawn from the input without repeating anyone more often than they occur, opening with the first at most two on-call members |
| Selection.SelectTeamWithin | src/workflows/choreographer.py:655-664 | every selected member comes from the input, as often as it occurs there at most |
| Selection.SelectTeamPrefix | src/workflows/choreographer.py:655 | the selection opens with the first at most two on-call members in input order |
| Selection.SelectTeamSkilledFirst | src/workflows/choreographer.py:657-664 | a member without a relevant skill is added only once every skilled member is in the selection |
| Selection.SelectTeamDistinct | src/workflows/choreographer.py:655-664 | a duplicate-free input gives a duplicate-free selection, and an input of at most five members is selected whole |
| Selection.FirstWithSkill | src/workflows/incident_workflow.py:721-723 | no member is found exactly when nobody has one of the relevant skills |
| Selection.FirstWithSkillIndex | src/workflows/incident_workflow.py:721-723 | the member found is the earliest one with a relevant skill |
| Selection.PickAssignee | src/workflows/incident_workflow.py:697-726 | nobody is picked exactly when the team is empty; otherwise the first on-call member, else the first skilled member, else the first member |
| Selection.PickAssigneeIndex | src/workflows/incident_workflow.py:703-726 | the assignee sits at an index before which no member qualifies at the same or a higher priority |
| Selection.ResponseTeamIsSelectTeam | src/workflows/incident_workflow.py:728-745 | the response team is the team selection with no relevant skills, so at most five members, on-call members first, duplicate-free for a duplicate-free team and whole for a team of at most five |
| Orchestrator.FallbackDecision | src/agents/orchestrator.py:140-152 | the fallback is an "incident_classification" decision with the fallback confidence, whose context reads severity "medium" and category "unknown" and has no affected systems or priority |
| Orchestrator.ClassifyIncident | src/agents/orchestrator.py:119-152 | an unusable answer gives the fallback decision; a reasoning that is not a string, or a confidence that is present but not a number, makes the decision record reject the answer, which also ends in the fallback; otherwise the reasoning is the answer's, the confidence is the model's figure as a float when present and the 0.5 default otherwise, and the context is the classification context |
| Orchestrator.WordConfidenceFallsBack | src/agents/orchestrator.py:126-152 | a confidence given as the word "high" is rejected by the decision record, so the classification is the 0.1 medium/unknown fallback |
| Orchestrator.ConfidenceValue | src/models.py:148 | the decision's confidence is always a float: the model's figure, 0.5 by default, 0.1 in the fallback |
| Orchestrator.ClassificationContext | src/agents/orchestrator.py:132-137 | the context gives back the answer's severity, category and recommended priority (`None` when absent) and its affected systems (`[]` when absent) |
| Orchestrator.MissingSeverityIsNone | src/agents/orchestrator.py:126-140 | an answer without a severity, whose reasoning and confidence the record accepts, still puts a severity entry in the context, holding `None` |
| Orchestrator.DefaultWorkflowSteps | src/agents/orchestrator.py:370-408 | the default plan has five pending steps for a critical or high incident and three otherwise, none with a result |
| Orchestrator.DefaultPlanShape | src/agents/orchestrator.py:370-408 | ticket and channel come first, the notification and the 24-hour commit analysis appear exactly for critical and high incidents, the post-mortem comes last, each step goes to its tool, and every action has a handler in the choreographer |
| Orchestrator.ParseStep | src/agents/orchestrator.py:266-275 | a recommended step is read exactly when it is a dict whose name, action and tool are strings and whose parameters are a dict; missing fields take "Unknown Step", "unknown", "unknown" and `{}` |
| Orchestrator.ParseSteps | src/agents/orchestrator.py:266-278 | the steps are read one per item, in order |
| Orchestrator.RecommendWorkflowSteps | src/agents/orchestrator.py:258-285 | an unusable answer, a parsed answer that cannot be iterated, or any item it yields that cannot be read as a step, gives the default plan; otherwise one step per item, in order |
| Orchestrator.NonListAnswers | src/agents/orchestrator.py:269-278 | an empty object or empty text iterates over nothing and gives the empty plan, not the default one; a non-empty text or object yields strings, which are not steps, so it gives the default plan |
| Orchestrator.EmptyStepDefaults | src/agents/orchestrator.py:268-273 | an empty object reads as a step with every default |
| Collaborators.HypothesisText | src/agents/orchestrator.py:208-217 | the hypothesis is the model's text, or the fixed "Unable to generate AI hypothesis" text with the error when the model fails |
| IncidentAgent.MatchCount | src/agents/incident_agent.py:211 | the number of keywords found is at most the number of keywords, and zero exactly when the text mentions none of them |
| IncidentAgent.ClassifySeverity | src/agents/incident_agent.py:200-205 | the severity is that of the first level whose keywords the text mentions, and medium when it mentions none |
| IncidentAgent.ClassifyCategory | src/agents/incident_agent.py:207-214 | the category is unknown exactly when no category scores; otherwise it is the first category with the highest score |
| IncidentAgent.QuickClassify | src/agents/incident_agent.py:188-216 | both picks are made over the lowercased title and description, with the severity and category keyword tables of lines 33-76 |
| IncidentAgent.ExtractField | src/agents/incident_agent.py:284-300 | the result is the value of the first dotted path that leads through dicts to a non-empty string, and `None` exactly when no path does |
| IncidentAgent.ExtractAlertInfo | src/agents/incident_agent.py:250-282 | the title is the field found through the source's mapping, or "Unknown Alert" (so it is never empty); the description is the field found, or "" |
| IncidentAgent.UnknownSourceUsesDefault | src/agents/incident_agent.py:277 | a source other than datadog, pagerduty and prometheus is read with the default mapping |
| IncidentAgent.FieldTags | src/agents/incident_agent.py:308-313 | a list contributes its items as strings, a dict its "key:value" pairs in order, anything else nothing |
| IncidentAgent.ExtractTags | src/agents/incident_agent.py:302-315 | the tags are those of "tags", then "labels", then "attributes" |
| IncidentAgent.ListTagsExample | src/agents/incident_agent.py:310-311 | an instance of `FieldTags`: a list of tag strings is kept as it is |
| IncidentAgent.DictTagsExample | src/agents/incident_agent.py:312-313 | an instance of `FieldTags`: a dict of labels becomes "key:value" tags |
| IncidentAgent.ExtendNew | src/agents/incident_agent.py:232-233 | the list keeps its old items in front and afterwards holds exactly the old and the new values; each added value was absent before and is added once |
| IncidentAgent.ExtendNewPresent | src/agents/incident_agent.py:232-233 | when every new value is present already nothing is added |
| IncidentAgent.ExtendNewIdempotent | src/agents/incident_agent.py:232-233 | extending twice with the same values is the same as extending once |
| IncidentAgent.EnrichIncident | src/agents/incident_agent.py:218-248 | only the services, components, tags and metadata change, and a list whose key is missing is left as it was |
| IncidentAgent.EnrichUnion | src/agents/incident_agent.py:230-243 | after enriching, each of the services, components and tags lists holds exactly the union of its old values and the new ones and opens with its old list; none gains a duplicate, and enriching again changes none of them |
| IncidentAgent.ExtendNoDup | src/agents/incident_agent.py:230-243 | enriching a list without duplicates leaves it without duplicates |
| IncidentAgent.SeverityIn | src/agents/incident_agent.py:114 | the context's severity, "medium" when missing, is read exactly when it is the value of a severity; otherwise the incident is rejected with that value |
| IncidentAgent.CategoryIn | src/agents/incident_agent.py:115 | the context's category, "unknown" when missing, is read exactly when it is the value of a category; otherwise the incident is rejected with that value |
| IncidentAgent.AlertMetadata | src/agents/incident_agent.py:121-125 | the metadata holds exactly the classification's confidence as a float, its reasoning and the original alert, in that order |
| IncidentAgent.AlertIncident | src/agents/incident_agent.py:108-126 | the incident is built exactly when severity, category and affected systems are valid; it is then a detected incident with the alert's title, description, source, alert id and tags and the confidence, reasoning and alert as metadata, and the first invalid field is what rejects it otherwise |
| IncidentAgent.ProcessAlert | src/agents/incident_agent.py:81-126 | the incident is built exactly when the classification's severity, category and affected systems and the alert's id are valid; it is then a detected incident from the given source with the extracted title and description, the classified severity and category, the alert's id and tags and the decision's confidence, reasoning and the alert as metadata; an invalid severity is reported first |
| IncidentAgent.ProcessAlertFallback | src/agents/incident_agent.py:99-126 | when the model cannot be used, the alert becomes a detected medium incident of unknown category with no affected services |
| IncidentAgent.ProcessAlertMissingSeverity | src/agents/incident_agent.py:114 | an answer without a severity, and otherwise accepted by the decision record, makes the context hold `None`, which is not a severity, so processing the alert raises |
| AnalysisAgent.FirstMatch | src/agents/analysis_agent.py:218-228 | the pattern picked for a line is the first one, in list order, that matches it, and there is none exactly when no pattern matches |
| AnalysisAgent.ListedSnoc | src/agents/analysis_agent.py:220-224 | appending an entry lists exactly the lines listed before plus the entry's own line |
| AnalysisAgent.Stamps | src/agents/analysis_agent.py:230-236 | at most one timestamp is found per line |
| AnalysisAgent.TakeSnoc | src/agents/analysis_agent.py:235-236 | keeping a found timestamp only while fewer than 100 are kept keeps the first 100 found |
| AnalysisAgent.ErrorLinesMiss | src/agents/analysis_agent.py:218-228 | a line that no pattern matches adds no entry |
| AnalysisAgent.ErrorLinesHit | src/agents/analysis_agent.py:218-228 | a line that some pattern matches adds one entry, with its 1-based number, its first 200 characters and the first matching pattern |
| AnalysisAgent.HitDescribes | src/agents/analysis_agent.py:220-224 | after a hit every entry still describes a line scanned so far |
| AnalysisAgent.HitOrdered | src/agents/analysis_agent.py:214-224 | after a hit the entries are still in strictly increasing line order, so no line has two entries |
| AnalysisAgent.HitComplete | src/agents/analysis_agent.py:214-228 | after a hit a scanned line has an entry exactly when some pattern matches it |
| AnalysisAgent.PatternsStep | src/agents/analysis_agent.py:226-227 | recording an entry's pattern only when it is new keeps the patterns found equal to those of the entries, each listed once |
| AnalysisAgent.StampsStep | src/agents/analysis_agent.py:231-236 | one line keeps its timestamp only while fewer than 100 are kept, which keeps the first 100 found so far |
| AnalysisAgent.ScanLineStep | src/agents/analysis_agent.py:214-236 | one pass of the line loop takes the scan of the first i lines to the scan of the first i + 1 lines |
| AnalysisAgent.ScanEntries | src/agents/analysis_agent.py:218-228 | line i adds its entry, and its pattern when new, exactly when a pattern matches it |
| AnalysisAgent.AnalyzeLogs | src/agents/analysis_agent.py:197-249 | one entry per line that matches a pattern, in line order and for its first matching pattern; the patterns found are those of the entries with no duplicates; the timestamps are the first 100 found |
| AnalysisAgent.Occurrences | src/agents/analysis_agent.py:244 | a pattern's count is positive exactly when some entry carries it |
| AnalysisAgent.MostCommon | src/agents/analysis_agent.py:242-246 | the most common error is `None` exactly when no pattern was found; otherwise it is the first found pattern with the highest count |
| AnalysisAgent.MetricsOf | src/agents/analysis_agent.py:239-247 | the unique-pattern count is the number of patterns found, and the most common error is one of them, or `None` when there are none |
| AnalysisAgent.CategoryRecommendations | src/agents/analysis_agent.py:295-332 | six categories have four fixed recommendations each, and integration and unknown have none |
| AnalysisAgent.PatternAdvice | src/agents/analysis_agent.py:345-352 | at most one line of advice for the most common error, chosen in the order timeout, memory, connection |
| AnalysisAgent.TimeoutPatternsAdvice | src/agents/analysis_agent.py:347-348 | both the timeout pattern and the deadlock pattern, which mentions "lock timeout", get the timeout advice |
| AnalysisAgent.LogAdvice | src/agents/analysis_agent.py:339-352 | no log analysis gives no advice; otherwise the high-error-rate line appears exactly when the rate is high, next to at most one pattern line |
| AnalysisAgent.ChangeAdvice | src/agents/analysis_agent.py:355-365 | each repository adds at most two lines |
| AnalysisAgent.RollbackAdviceDistinct | src/agents/analysis_agent.py:358-365 | different repositories get different rollback lines, and none of them is the failed-workflow line |
| AnalysisAgent.ChangeAdviceLines | src/agents/analysis_agent.py:355-365 | a repository's rollback line appears exactly when that repository has recent deployments, and the failed-workflow line exactly when some repository has failed workflows |
| AnalysisAgent.GenerateRecommendations | src/agents/analysis_agent.py:285-367 | at most seven recommendations: the category's, then the log advice, then the change advice, cut only when there are more than seven |
| AnalysisAgent.RecommendationsOpenWithCategory | src/agents/analysis_agent.py:334-336 | the recommendations open with the first three of the category's own, and integration and unknown incidents contribute none |
| AnalysisAgent.CorrelationWindow | src/agents/analysis_agent.py:129-135 | the window is 12 hours for critical, 24 for high and 72 for medium and low incidents |
| AnalysisAgent.CorrelationWindowOrder | src/agents/analysis_agent.py:129-135 | the more severe the incident, the shorter the window |
| AnalysisAgent.HighRelevance | src/agents/analysis_agent.py:147 | the high-relevance commits are exactly the commits marked "high" |
| AnalysisAgent.DeploymentRelated | src/agents/analysis_agent.py:150-154 | the deployment commits are exactly the commits whose lowercased message names a deployment keyword |
| AnalysisAgent.Culprits | src/agents/analysis_agent.py:162 | at most three culprits: the first high-relevance commits when there are any, otherwise the first deployment commits, exactly three of them or all when there are fewer |
| Values.Iterate | src/agents/analysis_agent.py:147-152 | iterating a list gives its items, a string its one-character strings and a dict its keys; nothing else can be iterated |
| AnalysisAgent.CommitDicts | src/agents/analysis_agent.py:147-154 | readable commit items are read as dicts, one per item |
| AnalysisAgent.Correlate | src/agents/analysis_agent.py:143-163 | a raised call is raised on, a failed analysis gives a failed correlation with its error, a successful reply raises exactly when its commits cannot be iterated or one of them cannot be read, and otherwise a success reports the total, the window, as high-relevance and deployment commits exactly the reply's commits of high relevance and those naming a deployment, and as culprits those the culprit rule picks from the reply's commits |
| AnalysisAgent.CorrelateWithChanges | src/agents/analysis_agent.py:112-163 | exactly one call to the commit analyser, over the severity's window and the given paths |
| AnalysisAgent.NonEmpty | src/agents/analysis_agent.py:188 | the terms kept are exactly the non-empty ones, in order |
| AnalysisAgent.SimilarQueryNames | src/agents/analysis_agent.py:181-188 | the query names the category, the title when it is not empty, and each non-empty one of the first two services and first three tags |
| AnalysisAgent.SearchSimilarIncidents | src/agents/analysis_agent.py:165-195 | without a knowledge base the result is `[]` and no call is made; with one, one search with the query; a successful search's "results" are returned (`[]` when absent), a failed one gives `[]`, and a raised one is raised on |
| ServiceNow.ImpactUrgencyScale | src/connectors/servicenow.py:28-40 | impact and urgency run from 1 to 4 with urgency never below impact's pressure; impact tells the severities apart, only critical has impact 1, and urgency follows the order of impact |
| ServiceNow.AssignmentGroupRouting | src/connectors/servicenow.py:246-260 | exactly integration and unknown incidents go to "IT Support", and the six routed categories reach six different groups |
| ServiceNow.ListLine | src/connectors/servicenow.py:235-242 | a list contributes one "caption: a, b" line when it is not empty, and none otherwise |
| ServiceNow.DescriptionParts | src/connectors/servicenow.py:224-244 | the description opens with the incident's own description, carries the internal id, and ends with the services, components and tags lines, each present only for a non-empty list |
| ServiceNow.DescriptionBare | src/connectors/servicenow.py:235-242 | with no services, components or tags there are only the six fixed lines |
| ServiceNow.DescriptionFull | src/connectors/servicenow.py:235-242 | with every list present the last three lines are the services, components and tags lines, in that order |
| ServiceNow.Description | src/connectors/servicenow.py:244 | the joined description starts with the incident's description |
| ServiceNow.JoinHead | src/connectors/servicenow.py:244 | a newline join of several parts opens with the first |
| ServiceNow.Payload | src/connectors/servicenow.py:79-91 | the ticket payload has eleven fields |
| ServiceNow.PayloadTitle | src/connectors/servicenow.py:80 | the short description is the incident's title |
| ServiceNow.PayloadScales | src/connectors/servicenow.py:82-83 | the payload carries the severity's impact and urgency |
| ServiceNow.PayloadGroup | src/connectors/servicenow.py:88 | the payload routes the ticket to the category's group |
| ServiceNow.PayloadServices | src/connectors/servicenow.py:89 | the payload names the affected services joined by ", " |
| ServiceNow.PayloadReference | src/connectors/servicenow.py:90 | the payload refers back to the internal incident id |
| ServiceNow.ResultOf | src/connectors/servicenow.py:101 | a body without a result reads as `{}`; a result that is not a dict cannot be read |
| ServiceNow.CreateIncident | src/connectors/servicenow.py:67-122 | one post of the payload; a transport error is returned as the error; on success the system id and number are the result's and the link opens the ticket by its system id |
| ServiceNow.UpdateIncident | src/connectors/servicenow.py:124-154 | one patch of the ticket's path with the updates; it succeeds exactly when the request does, a transport error is returned as the error, and a success passes on the response's result whatever its type, `{}` when absent |
| ServiceNow.AddWorkNote | src/connectors/servicenow.py:156-158 | the update carries exactly the work note and succeeds exactly when the request does |
| ServiceNow.AddComment | src/connectors/servicenow.py:160-162 | the update carries exactly the comment and succeeds exactly when the request does |
| ServiceNow.ResolveIncident | src/connectors/servicenow.py:164-182 | the update patches the ticket with exactly state 6, the close code and the close notes, and succeeds exactly when the request does |
| Slack.SeverityEmojiDistinct | src/connectors/slack_connector.py:30-35 | each severity has its own circle marker, so the white default is never shown |
| Slack.SafeTitle | src/connectors/slack_connector.py:64 | the title part of a channel name is at most 30 characters, each the lower-cased title character or a dash, so only lower-case letters, digits and dashes |
| Slack.SafeTitleKeepsSafe | src/connectors/slack_connector.py:64 | a short title already made of channel characters passes through unchanged |
| Slack.ChannelName | src/connectors/slack_connector.py:62-65 | the channel name is "inc-", the severity's first four letters, the date, then the safe title, and is at most 40 characters longer than the date |
| Slack.ChannelSeverityPart | src/connectors/slack_connector.py:63 | the severity part reads crit, high, medi or low |
| Slack.Topic | src/connectors/slack_connector.py:79-82 | the topic is a prefix of the siren, upper-cased severity and title, at most 250 characters, and whole when the title is at most 200 characters |
| Slack.SummaryBlocks | src/connectors/slack_connector.py:316-386 | the summary has header, title section, divider and fields, plus a services section exactly when services are known and a ticket section exactly when a ticket id is set |
| Slack.NotificationBlocks | src/connectors/slack_connector.py:388-416 | the message section always comes first; the incident context line is present exactly when an incident is given |
| Slack.MentionList | src/connectors/slack_connector.py:163 | every listed user's mention occurs in the mention line |
| Slack.WithMentions | src/connectors/slack_connector.py:162-164 | with no users the message is sent unchanged; otherwise the mentions and a blank line precede it |
| Slack.WithMentionsKeepsMessage | src/connectors/slack_connector.py:162-164 | the message always ends the text sent and every user is mentioned in it |
| Slack.CreateIncidentChannel | src/connectors/slack_connector.py:48-113 | the channel is created first; the call succeeds exactly when creation, topic, purpose and summary all succeed, and then returns the id, name and redirect link after four requests; a failed creation stops after one |
| Slack.NotifyTeam | src/connectors/slack_connector.py:144-184 | one message to the channel whose text carries the mentions and whose blocks are built from that text; the chat answer is returned |
| Slack.UpdateEmojiKnown | src/connectors/slack_connector.py:224-233 | the memo marker is used exactly for update types outside the six known ones, and the known types have distinct markers |
| Slack.PostIncidentUpdate | src/connectors/slack_connector.py:208-263 | one message whose text is "Incident Update: " then the details, with a section opening with the update's marker and holding the details, and a context line holding the incident's status |
| Slack.SendDirectMessage | src/connectors/slack_connector.py:186-206 | nothing is posted when the conversation cannot be opened; otherwise the message goes to the opened conversation after the open request |
| Slack.WithChatIds | src/connectors/slack_connector.py:280-283 | the kept members all have a non-empty chat id and are no more than the members given |
| Slack.WithChatIdsMembers | src/connectors/slack_connector.py:280-283 | a member is kept exactly when it is among the members and has a chat id |
| Slack.ChatIds | src/connectors/slack_connector.py:286 | the invited ids are the members' chat ids, one per member, in order |
| Slack.Roster | src/connectors/slack_connector.py:289-295 | the roster has a heading, one line per member in order, and a closing request |
| Slack.DirectMessages | src/connectors/slack_connector.py:302-308 | every member gets an open request and at most one message, so between one and two requests per member |
| Slack.TeamRequests | src/connectors/slack_connector.py:286-308 | the team's requests start with the invitation of all chat ids and the roster post, then at least one request per member |
| Slack.AssembleResponseTeam | src/connectors/slack_connector.py:265-314 | with no member holding a chat id the call fails with no request made; otherwise it reports the count of such members and makes the team's requests for exactly them |
| Slack.InviteUsers | src/connectors/slack_connector.py:115-142 | one invitation with the comma-joined ids; it succeeds exactly when the chat service does, reporting the number of ids |
| GitHubConnector.IncidentLabels | src/connectors/github_connector.py:357-368 | the labels are "incident" and the severity label, plus the category exactly when it is not unknown |
| GitHubConnector.IncidentLabelsDistinct | src/connectors/github_connector.py:357-368 | no label is repeated |
| GitHubConnector.ServicesSection | src/connectors/github_connector.py:333-339 | the services section is absent without services; otherwise a heading, a blank line, one bullet per service in order, and a closing blank line |
| GitHubConnector.HypothesisSection | src/connectors/github_connector.py:341-347 | the hypothesis section is present exactly when a hypothesis is set, and then holds it |
| GitHubConnector.DetailsSection | src/connectors/github_connector.py:319-331 | the details section has eleven lines, with the upper-cased severity and the description in place |
| GitHubConnector.IssueBodyParts | src/connectors/github_connector.py:317-355 | the body lines are the details, the services section, the hypothesis section and the three footer lines ending with the internal id; a hypothesis that is set but not text makes the join raise, naming that item's index |
| GitHubConnector.IssueBody | src/connectors/github_connector.py:355 | the body is built exactly when its lines are, and when no line holds a newline, splitting the body at newlines gives back the lines |
| GitHubConnector.FirstTouched | src/connectors/github_connector.py:136-140 | the first affected path that some changed file contains, and none exactly when no path is touched |
| GitHubConnector.RelevanceOf | src/connectors/github_connector.py:134-144 | relevance is unknown exactly without paths, low exactly when paths are given and none is touched, and high with the first touched path otherwise |
| GitHubConnector.InfoOf | src/connectors/github_connector.py:125-131 | the reported sha is a prefix of at most 8 characters and the message is one line of at most 100 characters |
| GitHubConnector.InfosOf | src/connectors/github_connector.py:124-146 | one report per commit, in order |
| GitHubConnector.Insert | src/connectors/github_connector.py:149-152 | inserting into a sorted list keeps it sorted and adds exactly the one commit |
| GitHubConnector.InsertStep | src/connectors/github_connector.py:149-152 | the head of a sorted list may precede the insertion into its tail |
| GitHubConnector.SortCommits | src/connectors/github_connector.py:149-152 | the sorted commits are a permutation of the analysed ones, high relevance first and newest first within each group |
| GitHubConnector.SortedHighFirst | src/connectors/github_connector.py:149-152 | in the sorted order no high-relevance commit follows another commit |
| GitHubConnector.HighCount | src/connectors/github_connector.py:159 | the high count is at most the number of commits and zero exactly when none is of high relevance |
| GitHubConnector.AnalyzeRecentCommits | src/connectors/github_connector.py:97-164 | a missing repository is reported after the lookup alone; otherwise it reports the total, the first 50 analysed, as commits the first 20 of those 50 in sorted order, and the high count over all analysed |
| GitHubConnector.SortedPrefix | src/connectors/github_connector.py:158 | cutting the sorted list to 20 keeps it sorted |
| GitHubConnector.NoHighCommitDropped | src/connectors/github_connector.py:149-159 | when a returned commit is not of high relevance, the returned commits hold every high-relevance one that was analysed |
| GitHubConnector.HighCountSplit | src/connectors/github_connector.py:159 | the high count of a list is the sum over a prefix and the rest |
| GitHubConnector.HighCountNone | src/connectors/github_connector.py:159 | a list without high-relevance commits has high count zero |
| GitHubConnector.HighCountInsert | src/connectors/github_connector.py:149-159 | insertion adds the inserted commit's own relevance to the high count |
| GitHubConnector.HighCountSort | src/connectors/github_connector.py:149-159 | sorting does not change the high count |
| GitHubConnector.DeploymentInfoOf | src/connectors/github_connector.py:228-239 | a deployment keeps its id and environment, takes its newest status or "unknown", and its creator or "Unknown" |
| GitHubConnector.FilterDeployments | src/connectors/github_connector.py:223-239 | every reported deployment is one of the input deployments, and exactly those in the requested environment are reported, all of them with no environment given |
| GitHubConnector.GetRecentDeployments | src/connectors/github_connector.py:203-248 | a missing repository is reported after the lookup alone; otherwise at most ten deployments, each one of the first ten listed and in the environment, and each of the first ten in the environment is reported |
| GitHubConnector.FailureCount | src/connectors/github_connector.py:285 | the failure count is zero exactly when no run failed and equals the number of runs exactly when all failed |
| GitHubConnector.GetWorkflowRuns | src/connectors/github_connector.py:250-290 | a missing repository is reported after the lookup alone; otherwise the first 20 runs and a failure count that is zero exactly when none of them failed |
| GitHubConnector.CreateIncidentIssue | src/connectors/github_connector.py:48-95 | a missing repository is reported after the lookup alone; otherwise one issue titled "[INCIDENT] " and the title, with the built body and the incident's labels, and the service's answer is returned |
| JiraConnector.PriorityFaithful | src/connectors/jira_connector.py:28-33 | distinct severities get distinct priorities, only critical gets "Highest", so the default "Medium" is never needed |
| JiraConnector.RawLabels | src/connectors/jira_connector.py:308-314 | the labels are "incident", the severity, the category exactly when it is not unknown, then the first at most three tags |
| JiraConnector.Labels | src/connectors/jira_connector.py:306-317 | one cleaned label per raw label, each with its spaces turned into dashes |
| JiraConnector.LabelsClean | src/connectors/jira_connector.py:316-317 | no label holds a space, and a label without spaces is kept as it was |
| JiraConnector.DetailsSection | src/connectors/jira_connector.py:271-282 | the details have ten lines, with the upper-cased severity and the description in place |
| JiraConnector.ServicesSection | src/connectors/jira_connector.py:284-289 | the services section is absent without services; otherwise a heading, one bullet per service in order, and a blank line |
| JiraConnector.HypothesisSection | src/connectors/jira_connector.py:291-296 | the root-cause section is present exactly when a hypothesis is set, and then holds it |
| JiraConnector.DescriptionParts | src/connectors/jira_connector.py:269-304 | the lines are the details, the services section, the hypothesis section and the footer ending with the internal id; a set hypothesis that is not text makes the join raise, naming that item's index |
| JiraConnector.Description | src/connectors/jira_connector.py:304 | the description is built exactly when its lines are, and when no line holds a newline, splitting it at newlines gives back the lines |
| JiraConnector.IssueFields | src/connectors/jira_connector.py:77-84 | the issue names the project, is summarised as "[INCIDENT] " and the title, and carries the severity's priority and the cleaned labels |
| JiraConnector.CreateIncidentIssue | src/connectors/jira_connector.py:51-106 | the issue goes to the given project or else the configured one; a failed creation reports the tracker's error; a created issue reports the returned key and id and the browse address of the key |
| JiraConnector.IssueUrlNamesKey | src/connectors/jira_connector.py:88-89 | the address is the tracker URL, "/browse/" and the key, so the key can be read back from it |
| JiraConnector.AssignIssue | src/connectors/jira_connector.py:108-144 | the user is looked up by email; no user found means failure with no assignment; otherwise the first user's account is assigned and success reports the email exactly when the assignment succeeds |
| JiraConnector.MatchTransition | src/connectors/jira_connector.py:178-182 | the index of the first offered transition whose name equals the requested one ignoring case, and none exactly when no name matches |
| JiraConnector.TransitionIssue | src/connectors/jira_connector.py:161-202 | when the first case-insensitive match is missing or has no usable id the request fails and no transition is made; otherwise that transition is issued and success reports the name exactly when it goes through |
| JiraConnector.TransitionIgnoresCase | src/connectors/jira_connector.py:180 | an instance of `MatchTransition`: asking for "done" picks an offered "Done" |
| Confluence.PostmortemTitle | src/connectors/confluence.py:59-60 | the title is "Post-Mortem: ", the date, " - " and the incident title, each in place |
| Confluence.PostmortemTitleNames | src/connectors/confluence.py:59-60 | for dates of one width, equal titles mean equal dates and equal incident titles |
| Confluence.PageUrl | src/connectors/confluence.py:77 | a page's link is the space's pages path followed by the id as text |
| Confluence.PageUrlNamesPage | src/connectors/confluence.py:77 | within a space, two links are equal exactly when the ids read the same |
| Confluence.SeverityColourDistinct | src/connectors/confluence.py:251-256 | severities get distinct colours and none gets the grey fallback |
| Confluence.ListItems | src/connectors/confluence.py:258-264 | the items markup is empty exactly for an empty list |
| Confluence.ListItemsAppend | src/connectors/confluence.py:258-264 | the items of a concatenation are the items of its parts, in order |
| Confluence.ListItemsShowEach | src/connectors/confluence.py:258-264 | every element has its own item in the markup |
| Confluence.ItemsOr | src/connectors/confluence.py:258-264 | an empty list shows only the placeholder item; otherwise every element has its own item |
| Confluence.Fills | src/connectors/confluence.py:249-400 | the template shows every affected service and resolution step or their placeholders, the ticket id or the ticket placeholder, the hypothesis or its placeholder, and never the grey colour |
| Confluence.MarkerHeadUnique | src/connectors/confluence.py:150 | the timeline marker opens with a character it does not use again |
| Confluence.PostmortemPage | src/connectors/confluence.py:266-400 | a fresh post-mortem page holds the timeline marker |
| Confluence.PostmortemPageShows | src/connectors/confluence.py:266-400 | every filled value appears on the page |
| Confluence.PostmortemBody | src/connectors/confluence.py:249-400 | the page for an incident shows its id, description, the three times, every affected service and resolution step (or their placeholders), the ticket id or the ticket placeholder, the hypothesis or its placeholder, and the timeline marker |
| Confluence.TimelineUpdate | src/connectors/confluence.py:149-158 | with a marker present, the result holds the entry directly before a marker; without one, the entry is appended to the content |
| Confluence.TimelineInsertsBeforeMarker | src/connectors/confluence.py:149-155 | with a single marker, the entry is placed just before it and the rest of the content is unchanged |
| Confluence.TemplateTimeline | src/connectors/confluence.py:141-158 | on a page built from the template, a new entry lands right after the rows already there and nothing else changes |
| Confluence.CreatePostmortem | src/connectors/confluence.py:43-94 | one page is created in the space under the post-mortem title and parent, holding the post-mortem template filled for the incident, so it carries the timeline marker; success exactly when the wiki answers, reporting the returned id, its link and the title |
| Confluence.UpdatePage | src/connectors/confluence.py:96-117 | the page is fetched first; a failed fetch stops there; otherwise it is revised with the new body under the given title or, for none or an empty one, its own title; success reports the page id exactly when both requests succeed |
| Confluence.StoredContent | src/connectors/confluence.py:137-138 | a page without a body reads as empty content, and content is read only through a body dict |
| Confluence.AddTimelineEntry | src/connectors/confluence.py:119-164 | the page is fetched first; a failed fetch or unreadable content stops there; otherwise the edited content is saved through the page update |
| Confluence.TimelineEntryStored | src/connectors/confluence.py:119-160 | when every answer succeeds on a page with a marker, the page is fetched twice and revised with a body holding the entry just before a marker |
| Confluence.RunbookPage | src/connectors/confluence.py:402-444 | the runbook's page opens with its title and incident type |
| Confluence.CreateRunbook | src/connectors/confluence.py:166-210 | the space is searched by title first; a found page is revised and never re-created, reporting its id; otherwise exactly one page is created, and success reports the new id and link exactly when creation succeeds; a found page without an id fails with the text of the `KeyError`, "'id'" |
| Confluence.RunbookRevisesExisting | src/connectors/confluence.py:191-192 | an existing runbook is fetched and revised under its id with the runbook's title and new body |
| Routes.AlertBase | src/api/routes.py:105-110 | the alert payload's fixed keys are the alert id, title, message, severity and tags, in that order |
| Routes.AlertDataTags | src/api/routes.py:105-112 | the payload's tags are the metadata's tags when it has them, else the request's tags, else an empty list |
| Routes.AlertDataKeepsMetadata | src/api/routes.py:111 | every metadata entry reaches the payload unchanged, overriding a fixed key it repeats |
| Routes.RequestSeverity | src/api/routes.py:144-148 | a severity is read only from a non-empty request value whose lower-case form names it, and always then |
| Routes.RequestSeverityIff | src/api/routes.py:144-148 | a request value yields a severity exactly when its lower-case form is that severity's name |
| Routes.LowerIdempotent | src/api/routes.py:146 | lower-casing twice is lower-casing once |
| Routes.RequestSeverityIgnoresCase | src/api/routes.py:146 | letter case never changes the severity read |
| Routes.ManualSeverity | src/api/routes.py:142-148 | the manual route has a severity exactly when the request names one; an unknown name is dropped, not refused |
| Routes.OrchestrateSeverity | src/api/routes.py:259-265 | the orchestrate route takes the named severity, and medium when none is named |
| Routes.OrchestrateSeverityNamed | src/api/routes.py:259-265 | a severity other than medium comes only from a request naming it, and no severity given means medium |
| Routes.LaxBool | src/api/routes.py:286 | a boolean on-call value is kept, and none, lists and dicts are refused |
| Routes.Strings | src/api/routes.py:285 | a skills value is accepted only as a list whose items are all strings, which it keeps in order |
| Routes.StringItems | src/api/routes.py:285 | items are accepted exactly when all are strings, and then kept in order |
| Routes.MemberAsWritten | src/api/routes.py:280-287 | a member takes the given id, name, email, skills and on-call flag or their defaults, refuses a missing email, and never has a chat id |
| Routes.MemberDefaults | src/api/routes.py:281-286 | a dict with only an email gives id "tm-" and the index, name "Unknown", no skills and not on call |
| Routes.RequestChatId | src/api/routes.py:284 | the request's chat id is none when absent and the string when given |
| Routes.Member | src/api/routes.py:280-287 | the member as intended is the member as written with the request's chat id kept, and is refused exactly when either part is |
| Routes.MembersFrom | src/api/routes.py:279-289 | every dict becomes the member at its own index, in order, and the conversion fails only with the failure of some dict |
| Routes.TeamAsWritten | src/api/routes.py:277-289 | no list, or an empty one, gives no team; otherwise one member per dict, converted as written |
| Routes.Team | src/api/routes.py:277-289 | no list, or an empty one, gives no team; otherwise one member per dict, keeping chat ids |
| Routes.TeamAsWrittenCannotAssemble | src/api/routes.py:284 | as written, assembling a response team from the route's members always fails without a chat request |
| Routes.NoChatIdsNoTeam | src/connectors/slack_connector.py:280 | members none of whom has a chat id leave an empty chat team |
| Routes.TeamCanAssemble | src/api/routes.py:284 | as intended, a member given a non-empty chat id has one, and assembling the team succeeds |
| Routes.CountStatus | src/api/routes.py:345-346 | a status count never exceeds the number of steps |
| Routes.StatusCountsPartition | src/api/routes.py:344-346 | the pending, running, completed and failed counts add up to the number of steps |
| Routes.CountStatusExtremes | src/api/routes.py:345-346 | a count equals the number of steps exactly when every step has that status, and is zero exactly when none does |
| Routes.WorkflowResponse | src/api/routes.py:336-349 | the summary keeps the workflow's id, incident and status, counts every step, and its completed and failed counts are the steps in those statuses, together at most the total |

## Left out

- Network clients, logging, configuration loading and the module-level singletons are left out. Only the logic around the calls is modelled.
- `async`/`await` is modelled as plain sequential code, and background tasks as direct calls.
- Clocks, uuid generation and `strftime` become parameters. Times are opaque naturals and formatted dates are strings passed in.
- The language model's prompts and the parsing of its JSON text are left out. The model's answer arrives already parsed, or as a failure.
- Floats are values held as their `repr` text (`Values.VFloat`). Float arithmetic is not modelled. Only truthiness and the confidence figures need floats.
- Orchestrator.ClassifyIncident: a confidence given as text is accepted when it is a plain decimal numeral. Exponents, "inf", "nan", surrounding spaces and underscores, which pydantic may also accept, are treated as rejected. An accepted numeral is kept as written instead of being re-rendered by `repr`, and an integer figure is rendered with ".0" even where Python would switch to exponent form. When both reasoning and confidence are invalid, only the reasoning error is reported.
- The log scan's regular expressions are a matcher parameter. Which patterns are tried, and in what order, is modelled; regular-expression matching itself is not.
- `str.lower` and `str.isalnum` are modelled for ASCII only. Characters outside ASCII are kept as they are and count as not alphanumeric.
- Emoji and other non-ASCII characters are written as Unicode escapes. The full HTML markup of the post-mortem and runbook templates is reduced to the filled values, joined around the timeline marker. Only the filled values and the marker are reasoned about.
- pydantic's validation error texts are reduced to the index and field that failed (`Routes.Invalid`). The `min_length` constraints of the request models are left out.
- IncidentWorkflow.Entry: a successful reply is assumed to hold a list (or nothing) under "commits", "deployments" and "runs", as the connectors' success payloads do. Any other value is read as an empty list. The source slices it instead: `None` and numbers raise, a string is kept as its first characters, and a dict raises with a text that depends on the Python version.
- The hypothesis request is assumed to carry commit reports as the GitHub connector builds them (`src/connectors/github_connector.py:125-131`): dicts whose "sha" and "message" are strings. `generate_root_cause_hypothesis` formats the recent changes before its `try` (`src/agents/orchestrator.py:173-178`), so an item that is not a dict, or one with a sha or message that cannot be sliced, raises there. The model gives a hypothesis for any item, in `Collaborators.HypothesisText`, `Choreographer.HandleGenerateHypothesis` and `IncidentWorkflow.Step4AnalyzeRootCause` alike.
- `_is_critical_step` in `src/workflows/choreographer.py` is left out. It only chooses which log line a failed step gets; the step loop goes on either way.
- Routes.LaxBool: approximates pydantic's lax boolean parsing by the usual words, 0 and 1, and the floats 0.0 and 1.0. Other inputs pydantic may accept, such as surrounding spaces, are not modelled.
- The routes `health_check`, `get_incident`, `list_workflows`, `get_workflow` and `trigger_analysis` are left out, as are `_incident_to_response`, `process_manual_report` and the FastAPI wiring. They only read stores or hand work to other functions.
- `recommend_team_assignment` and `summarize_incident_for_communication` in `src/agents/orchestrator.py` are left out. They only build prompts and parse the model's text.
- `analyze_incident` and `_analyze_changes` in `src/agents/analysis_agent.py` are left out. They orchestrate pieces modelled here: the log scan, the recommendations, the hypothesis and per-repository GitHub calls. They sit outside the incident pipeline that is modelled.
- The Jira operations `add_comment`, `search_similar_issues` and `get_team_members` are left out. They are single pass-through calls that no modelled workflow uses.
- The ServiceNow operations `get_incident` and `search_incidents` are left out for the same reason.
- The GitHub operations `search_code` and `add_issue_comment` are left out for the same reason.
- The Confluence operation `search_knowledge_base` is left out for the same reason. The pipeline's call to it is a collaborator call.
- GitHub commits without an author are not modelled. Every commit carries a date.
- In the commit sort, commits whose sort keys tie may appear in any order. Python's stable order among them is not modelled.
- Exceptions a connector catches and exceptions it lets escape both become `Err` carrying the exception's `str(e)` text, without the exception class. The callers in the workflows tell them apart through `Failed` and `Raised` replies. Transport errors are parameters, so their texts are whatever the parameter holds. Only pydantic validation texts are approximated, as stated above.
- IncidentWorkflow.Step2SendAlert: sends the corrected alert text (`IncidentWorkflow.AlertMessage`). When the channel was not created, the source sends the empty text instead, as the first row of "## Findings" shows with `IncidentWorkflow.AlertMessageAsWrittenDropsAlert`.
- The outer `except` of `_execute_workflow` (`src/workflows/choreographer.py:187-195`) cannot be reached in the model and is not modelled. `_execute_step` catches every handler exception, and `_update_incident_from_result` cannot raise.
- The step status "skipped" appears only in a comment of `src/models.py`, so it is not modelled. The workflow status "cancelled" of `src/workflows/choreographer.py:31-38` is declared but never set, so it is not modelled either. "paused" is modelled as a status, but no operation sets it.
- ServiceNow.Payload: its contract states only the payload's size. What it holds is stated by the `ServiceNow.Payload*` lemmas.
- Slack.DirectMessages: its contract states only the count of requests per member. The order and contents follow from its definition, which `Slack.TeamRequests` uses.
- Confluence.RunbookPage: its contract states only that the page opens with the title and incident type. The rest of the runbook markup is reduced.

## Findings

| source | as written | input that shows it | evidently intended | confidence | as-written member | corrected member |
|---|---|---|---|---|---|---|
| src/workflows/incident_workflow.py:246-254 | the adjacent f-string pieces are joined first, so the trailing conditional covers the whole alert, and with no incident channel the alert text is empty | a new incident titled "DB down" with no chat channel | the conditional only decides whether the channel line is appended | not executed | IncidentWorkflow.AlertMessageAsWrittenDropsAlert | IncidentWorkflow.AlertMessageAgrees |
| src/api/routes.py:284 | the member is built with `slack_id=`, which is not a `TeamMember` field (`slack_user_id` is), so the chat id is dropped and assembling a response team from these members always fails | `team_members=[{"email": "a@b.c", "slack_id": "U1"}]` | the request's `slack_id` becomes the member's `slack_user_id` | not executed | Routes.TeamAsWrittenCannotAssemble | Routes.TeamCanAssemble |

=== FILE: analysis_agent.dfy ===
/** The analysis agent's rule-based parts: the log scan (with the regular
    expressions abstracted as a matcher), the most common error pattern, the
    recommendation rules, the change-correlation window and culprit choice,
    and the query used to look for similar incidents. */
module AnalysisAgent {
  import opened Wrappers
  import opened Text
  import opened Values
  import opened Models
  import opened Selection
  import opened Collaborators

  /** The error patterns a log line is checked against, in this order. */
  const ErrorPatterns: seq<string> := [
    "error|exception|failed|failure",
    "timeout|timed out",
    "connection refused|connection reset",
    "out of memory|oom|memory allocation failed",
    "permission denied|access denied|unauthorized",
    "null pointer|nullpointerexception|none type",
    "stack overflow|recursion",
    "deadlock|lock timeout"]

  /** The first pattern the matcher finds in the line. `matches(p, line)`
      stands for `re.search(p, line)` succeeding. */
  function FirstMatch(patterns: seq<string>, matches: (string, string) -> bool, line: string): (r: Option<string>)
    ensures r.None? <==> forall k :: 0 <= k < |patterns| ==> !matches(patterns[k], line)
    ensures r.Some? ==> exists k :: (0 <= k < |patterns| && patterns[k] == r.value && matches(patterns[k], line)
      && forall j :: 0 <= j < k ==> !matches(patterns[j], line))
    decreases |patterns|
  {
    if |patterns| == 0 then None
    else if matches(patterns[0], line) then Some(patterns[0])
    else
      assert forall k :: 1 <= k < |patterns| ==> patterns[1..][k - 1] == patterns[k];
      FirstMatch(patterns[1..], matches, line)
  }

  /** One entry of `error_lines`. */
  datatype ErrorLine = ErrorLine(lineNumber: nat, content: string, pattern: string)

  /** What `_analyze_logs` gathers before computing its metrics. */
  datatype LogAnalysis = LogAnalysis(
    totalLines: nat,
    errorLines: seq<ErrorLine>,
    patternsFound: seq<string>,
    timestamps: seq<string>)

  /** An entry describes its line: the 1-based number of an existing line,
      the line's first 200 characters, and the first pattern found in the
      lower-cased line. */
  predicate DescribesLine(lines: seq<string>, patterns: seq<string>, matches: (string, string) -> bool, e: ErrorLine) {
    && 1 <= e.lineNumber <= |lines|
    && e.content == Take(lines[e.lineNumber - 1], 200)
    && Some(e.pattern) == FirstMatch(patterns, matches, Lower(lines[e.lineNumber - 1]))
  }

  /** The entries for the first `n` lines: one per line in which some pattern
      is found, in line order, and none for the other lines. */
  predicate ErrorLinesUpTo(lines: seq<string>, patterns: seq<string>, matches: (string, string) -> bool,
                           el: seq<ErrorLine>, n: nat)
    requires n <= |lines|
  {
    && EntriesDescribe(lines, patterns, matches, el, n)
    && EntriesOrdered(el)
    && EntriesComplete(lines, patterns, matches, el, n)
  }

  predicate EntriesDescribe(lines: seq<string>, patterns: seq<string>, matches: (string, string) -> bool,
                            el: seq<ErrorLine>, n: nat)
  {
    forall j :: 0 <= j < |el| ==> DescribesLine(lines, patterns, matches, el[j]) && el[j].lineNumber <= n
  }

  predicate EntriesOrdered(el: seq<ErrorLine>) {
    forall j, k :: 0 <= j < k < |el| ==> el[j].lineNumber < el[k].lineNumber
  }

  predicate EntriesComplete(lines: seq<string>, patterns: seq<string>, matches: (string, string) -> bool,
                            el: seq<ErrorLine>, n: nat)
    requires n <= |lines|
  {
    forall i :: 0 <= i < n ==> (FirstMatch(patterns, matches, Lower(lines[i])).Some? <==> Listed(el, i + 1))
  }

  /** Some entry is for the line with this number. */
  predicate Listed(el: seq<ErrorLine>, number: nat) {
    exists j :: 0 <= j < |el| && el[j].lineNumber == number
  }

  lemma ListedSnoc(el: seq<ErrorLine>, e: ErrorLine, number: nat)
    ensures Listed(el + [e], number) <==> Listed(el, number) || e.lineNumber == number
  {
    var el2 := el + [e];
    if Listed(el, number) {
      var j :| 0 <= j < |el| && el[j].lineNumber == number;
      assert el2[j] == el[j];
    }
    if Listed(el2, number) {
      var j :| 0 <= j < |el2| && el2[j].lineNumber == number;
      if j < |el| {
        assert el2[j] == el[j];
      }
    }
    assert el2[|el|] == e;
  }

  /** The patterns found are those of the entries, each listed once. */
  predicate PatternsOf(el: seq<ErrorLine>, found: seq<string>) {
    && NoDup(found)
    && (forall p :: p in found ==> exists j :: 0 <= j < |el| && el[j].pattern == p)
    && (forall j :: 0 <= j < |el| ==> el[j].pattern in found)
  }

  /** Every timestamp the extractor finds, line by line. `stamp(line)` stands
      for the timestamp regular expression's first match in the line. */
  function Stamps(lines: seq<string>, stamp: string -> Option<string>): (r: seq<string>)
    ensures |r| <= |lines|
    decreases |lines|
  {
    if |lines| == 0 then []
    else
      var t := stamp(lines[|lines| - 1]);
      Stamps(lines[..|lines| - 1], stamp) + (if t.Some? then [t.value] else [])
  }

  /** Keeping a new item only while fewer than `n` are kept keeps the first `n`. */
  lemma TakeSnoc(s: seq<string>, x: seq<string>, n: nat)
    requires |x| <= 1
    ensures Take(s + x, n) == if |Take(s, n)| < n then Take(s, n) + x else Take(s, n)
  {
    if |Take(s, n)| >= n {
      assert (s + x)[..n] == s[..n];
    }
  }

  /** A line without a pattern adds no entry. */
  lemma ErrorLinesMiss(lines: seq<string>, patterns: seq<string>, matches: (string, string) -> bool,
                       el: seq<ErrorLine>, i: nat)
    requires i < |lines| && ErrorLinesUpTo(lines, patterns, matches, el, i)
    requires FirstMatch(patterns, matches, Lower(lines[i])).None?
    ensures ErrorLinesUpTo(lines, patterns, matches, el, i + 1)
  {
    assert !Listed(el, i + 1);
  }

  /** A line with a pattern adds its entry. */
  lemma ErrorLinesHit(lines: seq<string>, patterns: seq<string>, matches: (string, string) -> bool,
                      el: seq<ErrorLine>, i: nat, e: ErrorLine)
    requires i < |lines| && ErrorLinesUpTo(lines, patterns, matches, el, i)
    requires e.lineNumber == i + 1 && DescribesLine(lines, patterns, matches, e)
    ensures ErrorLinesUpTo(lines, patterns, matches, el + [e], i + 1)
  {
    HitDescribes(lines, patterns, matches, el, i, e);
    HitOrdered(el, i, e);
    HitComplete(lines, patterns, matches, el, i, e);
  }

  lemma HitDescribes(lines: seq<string>, patterns: seq<string>, matches: (string, string) -> bool,
                     el: seq<ErrorLine>, i: nat, e: ErrorLine)
    requires EntriesDescribe(lines, patterns, matches, el, i)
    requires e.lineNumber == i + 1 && DescribesLine(lines, patterns, matches, e)
    ensures EntriesDescribe(lines, patterns, matches, el + [e], i + 1)
  {
    var el2 := el + [e];
    forall j | 0 <= j < |el2|
      ensures DescribesLine(lines, patterns, matches, el2[j]) && el2[j].lineNumber <= i + 1
    {
      if j < |el| {
        assert el2[j] == el[j];
      }
    }
  }

  lemma HitOrdered(el: seq<ErrorLine>, i: nat, e: ErrorLine)
    requires EntriesOrdered(el) && forall j :: 0 <= j < |el| ==> el[j].lineNumber <= i
    requires e.lineNumber == i + 1
    ensures EntriesOrdered(el + [e])
  {
    var el2 := el + [e];
    forall j, k | 0 <= j < k < |el2| ensures el2[j].lineNumber < el2[k].lineNumber {
      assert el2[j] == el[j];
      if k < |el| {
        assert el2[k] == el[k];
      }
    }
  }

  lemma HitComplete(lines: seq<string>, patterns: seq<string>, matches: (string, string) -> bool,
                    el: seq<ErrorLine>, i: nat, e: ErrorLine)
    requires i < |lines| && EntriesComplete(lines, patterns, matches, el, i)
    requires forall j :: 0 <= j < |el| ==> el[j].lineNumber <= i
    requires e.lineNumber == i + 1 && FirstMatch(patterns, matches, Lower(lines[i])).Some?
    ensures EntriesComplete(lines, patterns, matches, el + [e], i + 1)
  {
    forall n | 0 <= n < i + 1
      ensures FirstMatch(patterns, matches, Lower(lines[n])).Some? <==> Listed(el + [e], n + 1)
    {
      ListedSnoc(el, e, n + 1);
    }
  }

  /** Recording an entry's pattern once keeps the pattern list right. */
  lemma PatternsStep(el: seq<ErrorLine>, found: seq<string>, e: ErrorLine)
    requires PatternsOf(el, found)
    ensures PatternsOf(el + [e], if e.pattern in found then found else found + [e.pattern])
  {
    var el2 := el + [e];
    assert forall j :: 0 <= j < |el| ==> el2[j] == el[j];
    assert el2[|el|] == e;
    var found2 := if e.pattern in found then found else found + [e.pattern];
    forall p | p in found2 ensures exists j :: 0 <= j < |el2| && el2[j].pattern == p {
      if p in found {
        var j :| 0 <= j < |el| && el[j].pattern == p;
        assert el2[j].pattern == p;
      }
    }
  }

  /** Scanning line `i` keeps a timestamp it finds only while fewer than
      100 are kept. */
  lemma StampsStep(lines: seq<string>, stamp: string -> Option<string>, i: nat, ts: seq<string>)
    requires i < |lines| && ts == Take(Stamps(lines[..i], stamp), 100)
    ensures var t := stamp(lines[i]);
      (if t.Some? && |ts| < 100 then ts + [t.value] else ts) == Take(Stamps(lines[..i + 1], stamp), 100)
  {
    var t := stamp(lines[i]);
    assert lines[..i + 1][..i] == lines[..i];
    TakeSnoc(Stamps(lines[..i], stamp), if t.Some? then [t.value] else [], 100);
  }

  /** The scan's state after some lines: entries, patterns found, timestamps. */
  datatype Scan = Scan(errorLines: seq<ErrorLine>, patternsFound: seq<string>, timestamps: seq<string>)

  /** One pass of the line loop: the entry for the first pattern found in the
      lower-cased line, its pattern if new, and the line's timestamp while
      fewer than 100 are kept. */
  function ScanLine(patterns: seq<string>, matches: (string, string) -> bool, stamp: string -> Option<string>,
                    s: Scan, line: string, number: nat): Scan
  {
    var hit := FirstMatch(patterns, matches, Lower(line));
    var t := stamp(line);
    Scan(if hit.Some? then s.errorLines + [ErrorLine(number, Take(line, 200), hit.value)] else s.errorLines,
         if hit.Some? && hit.value !in s.patternsFound then s.patternsFound + [hit.value] else s.patternsFound,
         if t.Some? && |s.timestamps| < 100 then s.timestamps + [t.value] else s.timestamps)
  }

  /** The state is the one described for the first `n` lines. */
  predicate Scanned(lines: seq<string>, patterns: seq<string>, matches: (string, string) -> bool,
                    stamp: string -> Option<string>, s: Scan, n: nat)
    requires n <= |lines|
  {
    && ErrorLinesUpTo(lines, patterns, matches, s.errorLines, n)
    && PatternsOf(s.errorLines, s.patternsFound)
    && s.timestamps == Take(Stamps(lines[..n], stamp), 100)
  }

  lemma ScanLineStep(lines: seq<string>, patterns: seq<string>, matches: (string, string) -> bool,
                     stamp: string -> Option<string>, s: Scan, i: nat)
    requires i < |lines| && Scanned(lines, patterns, matches, stamp, s, i)
    ensures Scanned(lines, patterns, matches, stamp, ScanLine(patterns, matches, stamp, s, lines[i], i + 1), i + 1)
  {
    var hit := FirstMatch(patterns, matches, Lower(lines[i]));
    var s2 := ScanLine(patterns, matches, stamp, s, lines[i], i + 1);
    ScanEntries(lines, patterns, matches, s.errorLines, s.patternsFound, i);
    if hit.Some? {
      assert s2.errorLines == s.errorLines + [ErrorLine(i + 1, Take(lines[i], 200), hit.value)];
    } else {
      assert s2.errorLines == s.errorLines && s2.patternsFound == s.patternsFound;
    }
    StampsStep(lines, stamp, i, s.timestamps);
    assert s2.timestamps == Take(Stamps(lines[..i + 1], stamp), 100);
  }

  /** Line `i` adds its entry, and its pattern if new, exactly when it
      matches a pattern. */
  lemma ScanEntries(lines: seq<string>, patterns: seq<string>, matches: (string, string) -> bool,
                    el: seq<ErrorLine>, found: seq<string>, i: nat)
    requires i < |lines| && ErrorLinesUpTo(lines, patterns, matches, el, i) && PatternsOf(el, found)
    ensures var hit := FirstMatch(patterns, matches, Lower(lines[i]));
      && (hit.None? ==> ErrorLinesUpTo(lines, patterns, matches, el, i + 1))
      && (hit.Some? ==>
            var e := ErrorLine(i + 1, Take(lines[i], 200), hit.value);
            && ErrorLinesUpTo(lines, patterns, matches, el + [e], i + 1)
            && PatternsOf(el + [e], if hit.value in found then found else found + [hit.value]))
  {
    var hit := FirstMatch(patterns, matches, Lower(lines[i]));
    if hit.Some? {
      var e := ErrorLine(i + 1, Take(lines[i], 200), hit.value);
      ErrorLinesHit(lines, patterns, matches, el, i, e);
      PatternsStep(el, found, e);
    } else {
      ErrorLinesMiss(lines, patterns, matches, el, i);
    }
  }

  /** `_analyze_logs`: the lines of the log, one entry per line that matches
      a pattern (the first matching pattern, in pattern order), the distinct
      patterns found, and the first 100 timestamps. */
  method AnalyzeLogs(logs: string, patterns: seq<string>, matches: (string, string) -> bool,
                     stamp: string -> Option<string>) returns (a: LogAnalysis)
    ensures a.totalLines == |Split(logs, '\n')|
    ensures ErrorLinesUpTo(Split(logs, '\n'), patterns, matches, a.errorLines, a.totalLines)
    ensures PatternsOf(a.errorLines, a.patternsFound)
    ensures a.timestamps == Take(Stamps(Split(logs, '\n'), stamp), 100) && |a.timestamps| <= 100
  {
    var lines := Split(logs, '\n');
    var s := Scan([], [], []);
    var i := 0;
    while i < |lines|
      invariant 0 <= i <= |lines|
      invariant Scanned(lines, patterns, matches, stamp, s, i)
    {
      ScanLineStep(lines, patterns, matches, stamp, s, i);
      s := ScanLine(patterns, matches, stamp, s, lines[i], i + 1);
      i := i + 1;
    }
    assert lines[..i] == lines;
    a := LogAnalysis(|lines|, s.errorLines, s.patternsFound, s.timestamps);
  }

  /** How many entries carry the pattern. */
  function Occurrences(el: seq<ErrorLine>, p: string): (n: nat)
    ensures n <= |el|
    ensures n > 0 <==> exists j :: 0 <= j < |el| && el[j].pattern == p
    decreases |el|
  {
    if |el| == 0 then 0
    else
      assert forall j :: 1 <= j < |el| ==> el[1..][j - 1] == el[j];
      (if el[0].pattern == p then 1 else 0) + Occurrences(el[1..], p)
  }

  /** `max(patterns_found, key=count)`: the first pattern with the largest
      number of entries, or none when no pattern was found. */
  function MostCommon(found: seq<string>, el: seq<ErrorLine>): (r: Option<string>)
    ensures r.None? <==> |found| == 0
    ensures r.Some? ==> exists k :: (0 <= k < |found| && found[k] == r.value
      && (forall j :: 0 <= j < |found| ==> Occurrences(el, found[j]) <= Occurrences(el, r.value))
      && (forall j :: 0 <= j < k ==> Occurrences(el, found[j]) < Occurrences(el, r.value)))
    decreases |found|
  {
    if |found| == 0 then None
    else
      var best := MostCommon(found[..|found| - 1], el);
      var last := found[|found| - 1];
      assert forall j :: 0 <= j < |found| - 1 ==> found[..|found| - 1][j] == found[j];
      if best.None? || Occurrences(el, last) > Occurrences(el, best.value) then Some(last) else best
  }

  /** The metrics of a log analysis. Whether the error rate exceeds 0.1 is a
      floating-point comparison and is given, not computed. */
  datatype Metrics = Metrics(highErrorRate: bool, uniquePatterns: nat, mostCommonError: Option<string>)

  function MetricsOf(a: LogAnalysis, highErrorRate: bool): (m: Metrics)
    ensures m.uniquePatterns == |a.patternsFound|
    ensures m.mostCommonError.None? <==> |a.patternsFound| == 0
    ensures m.mostCommonError.Some? ==> m.mostCommonError.value in a.patternsFound
  {
    Metrics(highErrorRate, |a.patternsFound|, MostCommon(a.patternsFound, a.errorLines))
  }

  /** The fixed recommendations for each category; integration and unknown
      incidents have none. */
  const DatabaseAdvice: seq<string> := [
    "Check database connection pool utilization",
    "Review recent schema migrations",
    "Verify database server resources (CPU, memory, disk)",
    "Check for long-running queries or locks"]
  const InfrastructureAdvice: seq<string> := [
    "Check server/container resource utilization",
    "Review recent infrastructure changes",
    "Verify network connectivity between services",
    "Check for scaling events or failures"]
  const NetworkAdvice: seq<string> := [
    "Check DNS resolution",
    "Verify load balancer health checks",
    "Review firewall rules and security groups",
    "Check for network saturation"]
  const SecurityAdvice: seq<string> := [
    "Review authentication logs",
    "Check for unusual access patterns",
    "Verify API key and certificate validity",
    "Review security group changes"]
  const ApplicationAdvice: seq<string> := [
    "Review application error logs",
    "Check for recent deployments",
    "Verify configuration changes",
    "Check external service dependencies"]
  const PerformanceAdvice: seq<string> := [
    "Review application metrics and traces",
    "Check for resource contention",
    "Profile slow endpoints or queries",
    "Review caching effectiveness"]

  /** The fixed recommendations for each category; integration and unknown
      incidents have none. */
  function CategoryRecommendations(c: Category): (r: seq<string>)
    ensures |r| == if c == Integration || c == Unknown then 0 else 4
  {
    match c
    case Database => DatabaseAdvice
    case Infrastructure => InfrastructureAdvice
    case Network => NetworkAdvice
    case Security => SecurityAdvice
    case Application => ApplicationAdvice
    case Performance => PerformanceAdvice
    case Integration => []
    case Unknown => []
  }

  const HighErrorRateAdvice: string := "High error rate detected - prioritize error log investigation"
  const TimeoutAdvice: string := "Investigate timeout issues - check dependent service health"
  const MemoryAdvice: string := "Memory issues detected - consider scaling or leak investigation"
  const ConnectionAdvice: string := "Connection issues detected - verify network and service availability"
  const FailedWorkflowsAdvice: string := "Failed CI/CD workflows detected" + " - verify build and deployment status"

  function RollbackAdvice(repository: string): string {
    "Recent deployment detected in " + repository + " - consider rollback if needed"
  }

  /** The advice for the most common error pattern: at most one line, chosen
      by the first of "timeout", "memory" and "connection" the pattern
      contains. */
  function PatternAdvice(p: string): (r: seq<string>)
    ensures |r| <= 1
    ensures r == [] <==> !Contains(p, "timeout") && !Contains(p, "memory") && !Contains(p, "connection")
    ensures Contains(p, "timeout") ==> r == [TimeoutAdvice]
    ensures r == [MemoryAdvice] <==> !Contains(p, "timeout") && Contains(p, "memory")
  {
    if Contains(p, "timeout") then [TimeoutAdvice]
    else if Contains(p, "memory") then [MemoryAdvice]
    else if Contains(p, "connection") then [ConnectionAdvice]
    else []
  }

  /** A deadlock pattern is advised as a timeout, since it mentions "lock
      timeout"; the plain timeout pattern is advised the same way. */
  lemma TimeoutPatternsAdvice()
    ensures PatternAdvice(ErrorPatterns[7]) == [TimeoutAdvice]
    ensures PatternAdvice(ErrorPatterns[1]) == [TimeoutAdvice]
  {
    assert ErrorPatterns[7][14..21] == "timeout";
    ContainsAt(ErrorPatterns[7], "timeout", 14);
    assert ErrorPatterns[1][0..7] == "timeout";
    ContainsAt(ErrorPatterns[1], "timeout", 0);
  }

  /** The advice drawn from the log metrics. */
  function LogAdvice(m: Option<Metrics>): (r: seq<string>)
    ensures |r| <= 2
    ensures m.None? ==> r == []
    ensures m.Some? ==> (HighErrorRateAdvice in r <==> m.value.highErrorRate)
  {
    if m.None? then []
    else
      var mc := m.value.mostCommonError;
      (if m.value.highErrorRate then [HighErrorRateAdvice] else [])
      + (if mc.Some? && mc.value != "" then PatternAdvice(mc.value) else [])
  }

  /** One repository's changes as the recommendations read them. */
  datatype RepoChanges = RepoChanges(repository: string, recentDeployments: seq<Value>, failedWorkflows: seq<Value>)

  function RepoAdvice(c: RepoChanges): seq<string> {
    (if |c.recentDeployments| > 0 then [RollbackAdvice(c.repository)] else [])
    + (if |c.failedWorkflows| > 0 then [FailedWorkflowsAdvice] else [])
  }

  /** The advice for each repository, in order. */
  function ChangeAdvice(cs: seq<RepoChanges>): (r: seq<string>)
    ensures |r| <= 2 * |cs|
    decreases |cs|
  {
    if |cs| == 0 then [] else RepoAdvice(cs[0]) + ChangeAdvice(cs[1..])
  }

  /** Different repositories get different rollback lines, and none of them
      is the workflow line. */
  lemma RollbackAdviceDistinct(a: string, b: string)
    ensures RollbackAdvice(a) == RollbackAdvice(b) <==> a == b
    ensures RollbackAdvice(a) != FailedWorkflowsAdvice
  {
    var p := "Recent deployment detected in ";
    var s := " - consider rollback if needed";
    if RollbackAdvice(a) == RollbackAdvice(b) {
      assert |a| == |b|;
      assert a == RollbackAdvice(a)[|p|..|p| + |a|];
      assert b == RollbackAdvice(b)[|p|..|p| + |b|];
    }
    assert FailedWorkflowsAdvice[0] == 'F';
    assert RollbackAdvice(a)[0] == 'R';
  }

  /** A repository's rollback line is advised exactly when that repository
      had recent deployments, and the workflow line exactly when some
      repository had failed workflows. */
  lemma {:induction false} ChangeAdviceLines(cs: seq<RepoChanges>, name: string)
    ensures RollbackAdvice(name) in ChangeAdvice(cs) <==>
      exists i :: 0 <= i < |cs| && cs[i].repository == name && |cs[i].recentDeployments| > 0
    ensures FailedWorkflowsAdvice in ChangeAdvice(cs) <==>
      exists i :: 0 <= i < |cs| && |cs[i].failedWorkflows| > 0
    decreases |cs|
  {
    if |cs| > 0 {
      ChangeAdviceLines(cs[1..], name);
      RollbackAdviceDistinct(name, cs[0].repository);
      RollbackAdviceDistinct(cs[0].repository, name);
      assert forall i :: 1 <= i < |cs| ==> cs[1..][i - 1] == cs[i];
      assert ChangeAdvice(cs) == RepoAdvice(cs[0]) + ChangeAdvice(cs[1..]);
    }
  }

  /** Every recommendation before the limit: category, then logs, then changes. */
  function AllRecommendations(c: Category, logs: Option<Metrics>, changes: seq<RepoChanges>): seq<string> {
    Take(CategoryRecommendations(c), 3) + LogAdvice(logs) + ChangeAdvice(changes)
  }

  /** `_generate_recommendations`: at most seven recommendations, opening with
      the first three of the category's own, and cut only at the limit. */
  function GenerateRecommendations(c: Category, logs: Option<Metrics>, changes: seq<RepoChanges>): (r: seq<string>)
    ensures |r| <= 7
    ensures r <= AllRecommendations(c, logs, changes)
    ensures |r| < 7 ==> r == AllRecommendations(c, logs, changes)
  {
    Take(AllRecommendations(c, logs, changes), 7)
  }

  /** The recommendations open with the first three of the category's own;
      an integration or unknown incident gets only log and change advice. */
  lemma RecommendationsOpenWithCategory(c: Category, logs: Option<Metrics>, changes: seq<RepoChanges>)
    ensures Take(CategoryRecommendations(c), 3) <= GenerateRecommendations(c, logs, changes)
    ensures c == Integration || c == Unknown ==>
      GenerateRecommendations(c, logs, changes) == Take(LogAdvice(logs) + ChangeAdvice(changes), 7)
  {
    var head := Take(CategoryRecommendations(c), 3);
    var rest := LogAdvice(logs) + ChangeAdvice(changes);
    assert AllRecommendations(c, logs, changes) == head + rest;
    TakeKeepsShortHead(head, rest, 7);
    if c == Integration || c == Unknown {
      assert head + rest == rest;
    }
  }

  /** Cutting a list at `n` keeps a head no longer than `n`. */
  lemma TakeKeepsShortHead(head: seq<string>, rest: seq<string>, n: nat)
    requires |head| <= n
    ensures head <= Take(head + rest, n)
  {
    assert (head + rest)[..|head|] == head;
  }

  /** The look-back window of the change correlation: 12 hours for critical
      incidents, 24 for high ones and 72 otherwise. */
  function CorrelationWindow(severity: Severity): (hours: nat)
    ensures hours == 72 <==> severity == Medium || severity == Low
    ensures severity == Critical ==> hours == 12
    ensures severity == High ==> hours == 24
  {
    match severity
    case Critical => 12
    case High => 24
    case _ => 72
  }

  /** The more severe the incident, the shorter the window looked at. */
  lemma CorrelationWindowOrder()
    ensures CorrelationWindow(Critical) < CorrelationWindow(High) < CorrelationWindow(Medium)
    ensures CorrelationWindow(Medium) == CorrelationWindow(Low)
  {
  }

  const DeployKeywords: seq<string> := ["deploy", "release", "hotfix", "rollback", "config change"]

  predicate IsHigh(c: Dict) {
    At(c, "relevance") == VStr("high")
  }

  function MessageOf(c: Dict): Value {
    GetOr(c, "message", VStr(""))
  }

  /** A commit whose lower-cased message names a deployment keyword. */
  predicate IsDeploy(c: Dict) {
    MessageOf(c).VStr? && Mentions(Lower(MessageOf(c).s), DeployKeywords)
  }

  /** The high-relevance commits, in order. */
  function HighRelevance(cs: seq<Dict>): (r: seq<Dict>)
    ensures |r| <= |cs|
    ensures forall c :: c in r <==> c in cs && IsHigh(c)
    decreases |cs|
  {
    if |cs| == 0 then []
    else
      assert forall c :: c in cs <==> c == cs[0] || c in cs[1..];
      (if IsHigh(cs[0]) then [cs[0]] else []) + HighRelevance(cs[1..])
  }

  /** The deployment-related commits, in order. */
  function DeploymentRelated(cs: seq<Dict>): (r: seq<Dict>)
    ensures |r| <= |cs|
    ensures forall c :: c in r <==> c in cs && IsDeploy(c)
    decreases |cs|
  {
    if |cs| == 0 then []
    else
      assert forall c :: c in cs <==> c == cs[0] || c in cs[1..];
      (if IsDeploy(cs[0]) then [cs[0]] else []) + DeploymentRelated(cs[1..])
  }

  /** `potential_culprits`: the first three high-relevance commits, or when
      there are none the first three deployment-related ones. */
  function Culprits(cs: seq<Dict>): (r: seq<Dict>)
    ensures |r| <= 3
    ensures HighRelevance(cs) != [] ==> r <= HighRelevance(cs) && |r| == if |HighRelevance(cs)| < 3 then |HighRelevance(cs)| else 3
    ensures HighRelevance(cs) == [] ==>
      r <= DeploymentRelated(cs) && |r| == if |DeploymentRelated(cs)| < 3 then |DeploymentRelated(cs)| else 3
    ensures forall c :: c in r ==> c in cs && (IsHigh(c) || IsDeploy(c))
  {
    var high := HighRelevance(cs);
    if high != [] then Take(high, 3) else Take(DeploymentRelated(cs), 3)
  }

  /** Every item is a commit dict whose message, when present, is a string:
      otherwise reading it raises. */
  predicate ReadableCommits(items: seq<Value>) {
    forall i :: 0 <= i < |items| ==> items[i].VDict? && MessageOf(items[i].entries).VStr?
  }

  /** The index of the first item `ok` rejects, if any. */
  function FirstRejected(items: seq<Value>, ok: Value -> bool): (r: Option<nat>)
    ensures r.None? <==> forall i :: 0 <= i < |items| ==> ok(items[i])
    ensures r.Some? ==> r.value < |items| && !ok(items[r.value]) && forall i :: 0 <= i < r.value ==> ok(items[i])
  {
    if |items| == 0 then None
    else if !ok(items[0]) then Some(0)
    else match FirstRejected(items[1..], ok)
      case None => None
      case Some(i) => Some(i + 1)
  }

  /** What reading unreadable commits raises: the relevance scan calls
      `.get` on every item first, so the first item that is not a dict
      raises there; when all are dicts, the keyword scan lowercases the
      first message that is not a string. */
  function UnreadableCommitsError(items: seq<Value>): (r: string)
    requires !ReadableCommits(items)
  {
    match FirstRejected(items, (v: Value) => v.VDict?)
    case Some(i) => "'" + TypeName(items[i]) + "' object has no attribute 'get'"
    case None =>
      match FirstRejected(items, (v: Value) => v.VDict? && MessageOf(v.entries).VStr?)
      case Some(i) => "'" + TypeName(MessageOf(items[i].entries)) + "' object has no attribute 'lower'"
      case None => assert false; ""
  }

  function CommitDicts(items: seq<Value>): (r: seq<Dict>)
    requires ReadableCommits(items)
    ensures |r| == |items| && forall i :: 0 <= i < |items| ==> items[i] == VDict(r[i])
  {
    seq(|items|, i requires 0 <= i < |items| => items[i].entries)
  }

  /** What `correlate_with_changes` returns when it does not raise. */
  datatype Correlation =
    | CorrelationFailed(error: Value)
    | Correlated(totalCommits: Value, highRelevance: seq<Dict>, deploymentRelated: seq<Dict>,
                 hoursAnalyzed: nat, culprits: seq<Dict>)

  /** The correlation read from the commit analyser's reply. A failed
      analysis is passed on as a failure; a reply whose commits cannot be
      read raises. */
  function Correlate(hours: nat, reply: Reply): (r: Result<Correlation, string>)
    ensures reply.Raised? ==> r == Err(reply.message)
    ensures reply.Failed? ==> r == Ok(CorrelationFailed(VStr(reply.error)))
    ensures reply.Succeeded? ==>
      var items := Iterate(GetOr(reply.payload, "commits", VList([])));
      (r.Err? <==> items.None? || !ReadableCommits(items.value))
    ensures r.Ok? && r.value.Correlated? ==>
      && reply.Succeeded?
      && r.value.hoursAnalyzed == hours
      && r.value.totalCommits == GetOr(reply.payload, "total_commits", VInt(0))
      && |r.value.culprits| <= 3
      && (forall c :: c in r.value.highRelevance ==> IsHigh(c))
      && (forall c :: c in r.value.deploymentRelated ==> IsDeploy(c))
      && (r.value.highRelevance != [] ==> r.value.culprits <= r.value.highRelevance)
      && (r.value.highRelevance == [] ==> r.value.culprits <= r.value.deploymentRelated)
    ensures r.Ok? && r.value.Correlated? ==>
      var items := Iterate(GetOr(reply.payload, "commits", VList([])));
      && items.Some? && ReadableCommits(items.value)
      && var cs := CommitDicts(items.value);
      && (forall c :: c in r.value.highRelevance <==> c in cs && IsHigh(c))
      && (forall c :: c in r.value.deploymentRelated <==> c in cs && IsDeploy(c))
      && r.value.culprits == Culprits(cs)
  {
    match reply
    case Raised(m) => Err(m)
    case Failed(e) => Ok(CorrelationFailed(VStr(e)))
    case Succeeded(p) =>
      var items := Iterate(GetOr(p, "commits", VList([])));
      if items.None? then Err("'" + TypeName(GetOr(p, "commits", VList([]))) + "' object is not iterable")
      else if !ReadableCommits(items.value) then Err(UnreadableCommitsError(items.value))
      else
        var cs := CommitDicts(items.value);
        Ok(Correlated(GetOr(p, "total_commits", VInt(0)), HighRelevance(cs), DeploymentRelated(cs),
                      hours, Culprits(cs)))
  }

  /** `correlate_with_changes`: one call to the commit analyser, over the
      window the incident's severity calls for. */
  function CorrelateWithChanges(env: Env, trace: seq<Call>, incident: Incident, repo: string, paths: seq<string>)
    : (r: (Result<Correlation, string>, seq<Call>))
    ensures r.1 == trace + [AnalyzeCommits(VStr(repo), VInt(CorrelationWindow(incident.severity)), paths)]
    ensures r.0.Ok? && r.0.value.Correlated? ==> r.0.value.hoursAnalyzed == CorrelationWindow(incident.severity)
  {
    var hours := CorrelationWindow(incident.severity);
    var (reply, calls) := Invoke(env, trace, AnalyzeCommits(VStr(repo), VInt(hours), paths));
    (Correlate(hours, reply), calls)
  }

  /** `filter(None, terms)`: the non-empty terms, in order. */
  function NonEmpty(xs: seq<string>): (r: seq<string>)
    ensures forall x :: x in r <==> x in xs && x != ""
    ensures |r| <= |xs|
    decreases |xs|
  {
    if |xs| == 0 then []
    else
      assert forall x :: x in xs <==> x == xs[0] || x in xs[1..];
      (if xs[0] != "" then [xs[0]] else []) + NonEmpty(xs[1..])
  }

  /** The search terms: title, category, the first two services and the
      first three tags. */
  function SearchTerms(incident: Incident): seq<string> {
    [incident.title, incident.category.Value()] + Take(incident.affectedServices, 2) + Take(incident.tags, 3)
  }

  function SimilarQuery(incident: Incident): string {
    Join(" ", NonEmpty(SearchTerms(incident)))
  }

  /** Every non-empty search term shows in the query. */
  lemma QueryHoldsTerm(incident: Incident, j: nat)
    requires j < |SearchTerms(incident)| && SearchTerms(incident)[j] != ""
    ensures Contains(SimilarQuery(incident), SearchTerms(incident)[j])
  {
    var ne := NonEmpty(SearchTerms(incident));
    assert SearchTerms(incident)[j] in ne;
    var i :| 0 <= i < |ne| && ne[i] == SearchTerms(incident)[j];
    JoinContainsPart(" ", ne, i);
  }

  /** The query names the incident's category, its title when it has one,
      and each of its first two services and first three tags that is not
      empty. */
  lemma SimilarQueryNames(incident: Incident, k: nat)
    ensures Contains(SimilarQuery(incident), incident.category.Value())
    ensures incident.title != "" ==> Contains(SimilarQuery(incident), incident.title)
    ensures k < |incident.affectedServices| && k < 2 && incident.affectedServices[k] != "" ==>
      Contains(SimilarQuery(incident), incident.affectedServices[k])
    ensures k < |incident.tags| && k < 3 && incident.tags[k] != "" ==>
      Contains(SimilarQuery(incident), incident.tags[k])
  {
    var terms := SearchTerms(incident);
    var services := Take(incident.affectedServices, 2);
    assert terms[1] == incident.category.Value() != "";
    QueryHoldsTerm(incident, 1);
    if incident.title != "" {
      assert terms[0] == incident.title;
      QueryHoldsTerm(incident, 0);
    }
    if k < |incident.affectedServices| && k < 2 && incident.affectedServices[k] != "" {
      assert services[k] == incident.affectedServices[k];
      assert terms[2 + k] == incident.affectedServices[k];
      QueryHoldsTerm(incident, 2 + k);
    }
    if k < |incident.tags| && k < 3 && incident.tags[k] != "" {
      assert Take(incident.tags, 3)[k] == incident.tags[k];
      assert terms[2 + |services| + k] == incident.tags[k];
      QueryHoldsTerm(incident, 2 + |services| + k);
    }
  }

  /** `search_similar_incidents`: with a knowledge base, one search with the
      query and the `results` of its reply (`[]` when absent); without one,
      `[]` and no call. */
  function SearchSimilarIncidents(env: Env, trace: seq<Call>, incident: Incident, hasKnowledgeBase: bool)
    : (r: (Result<Value, string>, seq<Call>))
    ensures !hasKnowledgeBase ==> r == (Ok(VList([])), trace)
    ensures hasKnowledgeBase ==> r.1 == trace + [SearchKnowledge(SimilarQuery(incident))]
    ensures hasKnowledgeBase && env.answer(|trace|, SearchKnowledge(SimilarQuery(incident))).Failed? ==>
      r.0 == Ok(VList([]))
    ensures hasKnowledgeBase && env.answer(|trace|, SearchKnowledge(SimilarQuery(incident))).Raised? ==>
      r.0 == Err(env.answer(|trace|, SearchKnowledge(SimilarQuery(incident))).message)
    ensures hasKnowledgeBase && env.answer(|trace|, SearchKnowledge(SimilarQuery(incident))).Succeeded? ==>
      var payload := env.answer(|trace|, SearchKnowledge(SimilarQuery(incident))).payload;
      r.0 == Ok(if HasKey(payload, "results") then At(payload, "results") else VList([]))
  {
    if !hasKnowledgeBase then (Ok(VList([])), trace)
    else
      var (reply, calls) := Invoke(env, trace, SearchKnowledge(SimilarQuery(incident)));
      if reply.Raised? then (Err(reply.message), calls)
      else (Ok(GetOr(ReplyDict(reply), "results", VList([]))), calls)
  }
}

=== FILE: choreographer.dfy ===
/** The generic workflow choreographer: runs a workflow's steps in order,
    dispatching each step's action to its handler, turning unknown actions and
    raised exceptions into failed results, storing each result under its
    action, and copying selected result fields onto the incident. */
module Choreographer {
  import opened Wrappers
  import opened Text
  import opened Values
  import opened Models
  import opened Selection
  import opened Collaborators

  /** The actions with a registered handler. */
  const HandlerActions: seq<string> := [
    "create_ticket", "update_ticket", "create_channel", "notify_team",
    "assemble_team", "analyze_commits", "gather_logs", "create_postmortem",
    "generate_hypothesis", "search_knowledge", "post_update"]

  datatype Handler =
    | CreateTicketH | UpdateTicketH | CreateChannelH | NotifyTeamH
    | AssembleTeamH | AnalyzeCommitsH | GatherLogsH | CreatePostmortemH
    | GenerateHypothesisH | SearchKnowledgeH | PostUpdateH

  /** The handler registered for `action`, if any. */
  function HandlerOf(action: string): (r: Option<Handler>)
    ensures r.Some? <==> action in HandlerActions
  {
    if action == "create_ticket" then Some(CreateTicketH)
    else if action == "update_ticket" then Some(UpdateTicketH)
    else if action == "create_channel" then Some(CreateChannelH)
    else if action == "notify_team" then Some(NotifyTeamH)
    else if action == "assemble_team" then Some(AssembleTeamH)
    else if action == "analyze_commits" then Some(AnalyzeCommitsH)
    else if action == "gather_logs" then Some(GatherLogsH)
    else if action == "create_postmortem" then Some(CreatePostmortemH)
    else if action == "generate_hypothesis" then Some(GenerateHypothesisH)
    else if action == "search_knowledge" then Some(SearchKnowledgeH)
    else if action == "post_update" then Some(PostUpdateH)
    else None
  }

  /** What the steps of one run share: the incident, the team members, and
      the latest result of each action so far. */
  datatype Context = Context(incident: Incident, teamMembers: seq<TeamMember>, results: map<string, ActionResult>)

  /** How a handler ends: with a result, or by raising. */
  datatype HandlerOutcome = Returned(result: ActionResult) | Threw(message: string)

  /** A handler's outcome together with the incident it leaves and the trace
      of collaborator calls it extended. */
  datatype Effect = Effect(outcome: HandlerOutcome, incident: Incident, trace: seq<Call>)

  /** A handler's result names the step's action, and the handler only
      appends to the trace. */
  predicate Sound(e: Effect, step: WorkflowStep, trace: seq<Call>) {
    && (e.outcome.Returned? ==> e.outcome.result.action == step.action)
    && |trace| <= |e.trace| && e.trace[..|trace|] == trace
  }

  const Skipped: Dict := [("skipped", VBool(true))]

  function Succeed(env: Env, step: WorkflowStep, tool: string, message: string, data: Dict): ActionResult {
    ActionResult(true, step.action, tool, message, Some(data), None, env.now)
  }

  function Fail(env: Env, step: WorkflowStep, tool: string, message: string, error: string): ActionResult {
    ActionResult(false, step.action, tool, message, None, Some(error), env.now)
  }

  /** A result whose success is the connector's reported success, carrying
      the connector's dict as data. */
  function Reported(env: Env, step: WorkflowStep, tool: string, reply: Reply, ifOk: string, ifNot: string): ActionResult
    requires !reply.Raised?
  {
    ActionResult(reply.Succeeded?, step.action, tool, if reply.Succeeded? then ifOk else ifNot,
                 Some(ReplyDict(reply)), None, env.now)
  }

  // ============ Action handlers ============

  /** Create the ticket unless auto-ticketing is off; on success the ticket
      number becomes the incident's ticket id. */
  function HandleCreateTicket(env: Env, step: WorkflowStep, ctx: Context, trace: seq<Call>): (e: Effect)
    ensures Sound(e, step, trace)
    ensures !env.features.autoTicketing ==>
      e == Effect(Returned(Succeed(env, step, "servicenow", "Auto-ticketing disabled", Skipped)), ctx.incident, trace)
    ensures env.features.autoTicketing ==> e.trace == trace + [CreateTicket(ctx.incident)]
    ensures env.features.autoTicketing && env.answer(|trace|, CreateTicket(ctx.incident)).Succeeded? ==>
      var d := ReplyDict(env.answer(|trace|, CreateTicket(ctx.incident)));
      e.incident == ctx.incident.(servicenowTicketId := At(d, "number")) && e.outcome.Returned? && e.outcome.result.success
    ensures e.outcome.Returned? && !e.outcome.result.success ==> e.incident == ctx.incident
  {
    if !env.features.autoTicketing then
      Effect(Returned(Succeed(env, step, "servicenow", "Auto-ticketing disabled", Skipped)), ctx.incident, trace)
    else
      var (reply, t) := Invoke(env, trace, CreateTicket(ctx.incident));
      match reply
      case Raised(m) => Effect(Threw(m), ctx.incident, t)
      case Failed(err) => Effect(Returned(Fail(env, step, "servicenow", "Failed to create ticket", err)), ctx.incident, t)
      case Succeeded(_) =>
        var d := ReplyDict(reply);
        var number := At(d, "number");
        Effect(Returned(Succeed(env, step, "servicenow", "Created ticket " + Show(number), d)),
               ctx.incident.(servicenowTicketId := number), t)
  }

  /** Add a work note to the incident's ticket; there must be a ticket id. */
  function HandleUpdateTicket(env: Env, step: WorkflowStep, ctx: Context, trace: seq<Call>): (e: Effect)
    ensures Sound(e, step, trace)
    ensures e.incident == ctx.incident
    ensures !Truthy(ctx.incident.servicenowTicketId) ==>
      e == Effect(Returned(Fail(env, step, "servicenow", "No ticket ID available", "servicenow_ticket_id not set")), ctx.incident, trace)
    ensures Truthy(ctx.incident.servicenowTicketId) && !GetOr(step.parameters, "updates", VDict([])).VDict? ==>
      e.outcome.Threw? && e.trace == trace
    ensures e.trace != trace ==> exists note :: e.trace == trace + [AddWorkNote(ctx.incident.servicenowTicketId, note)]
  {
    var ticket := ctx.incident.servicenowTicketId;
    if !Truthy(ticket) then
      Effect(Returned(Fail(env, step, "servicenow", "No ticket ID available", "servicenow_ticket_id not set")), ctx.incident, trace)
    else
      var updates := GetOr(step.parameters, "updates", VDict([]));
      if !updates.VDict? then
        Effect(Threw("'" + TypeName(updates) + "' object has no attribute 'get'"), ctx.incident, trace)
      else
        var note := GetOr(updates.entries, "note", VStr("Automated update from Workflow Choreographer"));
        var (reply, t) := Invoke(env, trace, AddWorkNote(ticket, note));
        if reply.Raised? then Effect(Threw(reply.message), ctx.incident, t)
        else Effect(Returned(Reported(env, step, "servicenow", reply, "Ticket updated", "Update failed")), ctx.incident, t)
  }

  /** Create the incident channel unless Slack notifications are off; on
      success the channel id is recorded on the incident. */
  function HandleCreateChannel(env: Env, step: WorkflowStep, ctx: Context, trace: seq<Call>): (e: Effect)
    ensures Sound(e, step, trace)
    ensures !env.features.slackNotifications ==>
      e == Effect(Returned(Succeed(env, step, "slack", "Slack notifications disabled", Skipped)), ctx.incident, trace)
    ensures env.features.slackNotifications ==> e.trace == trace + [CreateChannel(ctx.incident)]
    ensures env.features.slackNotifications && env.answer(|trace|, CreateChannel(ctx.incident)).Succeeded? ==>
      var d := ReplyDict(env.answer(|trace|, CreateChannel(ctx.incident)));
      e.incident == ctx.incident.(slackChannelId := At(d, "channel_id")) && e.outcome.Returned? && e.outcome.result.success
    ensures e.outcome.Returned? && !e.outcome.result.success ==> e.incident == ctx.incident
  {
    if !env.features.slackNotifications then
      Effect(Returned(Succeed(env, step, "slack", "Slack notifications disabled", Skipped)), ctx.incident, trace)
    else
      var (reply, t) := Invoke(env, trace, CreateChannel(ctx.incident));
      match reply
      case Raised(m) => Effect(Threw(m), ctx.incident, t)
      case Failed(err) => Effect(Returned(Fail(env, step, "slack", "Failed to create channel", err)), ctx.incident, t)
      case Succeeded(_) =>
        var d := ReplyDict(reply);
        Effect(Returned(Succeed(env, step, "slack", "Created channel " + Show(At(d, "channel_name")), d)),
               ctx.incident.(slackChannelId := At(d, "channel_id")), t)
  }

  /** The notification text used when the step gives no message. */
  function DefaultNotification(incident: Incident): string {
    "\U{1F6A8} *" + incident.severity.Upper() + " Incident Detected*\n\n"
    + incident.title + "\n\n"
    + "Team members have been notified. Please acknowledge."
  }

  /** Notify the incident's channel, or the channel the step names. */
  function HandleNotifyTeam(env: Env, step: WorkflowStep, ctx: Context, trace: seq<Call>): (e: Effect)
    ensures Sound(e, step, trace)
    ensures e.incident == ctx.incident
    ensures var channel := Or(ctx.incident.slackChannelId, At(step.parameters, "channel"));
      && (!Truthy(channel) ==>
            e == Effect(Returned(Fail(env, step, "slack", "No channel available for notification", "No channel_id")), ctx.incident, trace))
      && (Truthy(channel) ==>
            e.trace == trace + [NotifyTeam(channel, GetOr(step.parameters, "message", VStr(DefaultNotification(ctx.incident))), ctx.incident)])
  {
    var channel := Or(ctx.incident.slackChannelId, At(step.parameters, "channel"));
    if !Truthy(channel) then
      Effect(Returned(Fail(env, step, "slack", "No channel available for notification", "No channel_id")), ctx.incident, trace)
    else
      var message := GetOr(step.parameters, "message", VStr(DefaultNotification(ctx.incident)));
      var (reply, t) := Invoke(env, trace, NotifyTeam(channel, message, ctx.incident));
      if reply.Raised? then Effect(Threw(reply.message), ctx.incident, t)
      else Effect(Returned(Reported(env, step, "slack", reply, "Team notified", "Notification failed")), ctx.incident, t)
  }

  /** The skills that make a member relevant to a category. */
  function CategorySkills(c: Category): seq<string> {
    match c
    case Database => ["postgresql", "mysql", "mongodb", "dba", "sql"]
    case Infrastructure => ["kubernetes", "aws", "docker", "sre", "devops"]
    case Network => ["networking", "dns", "load-balancer", "firewall"]
    case Security => ["security", "soc", "incident-response"]
    case Application => ["backend", "frontend", "java", "python", "nodejs"]
    case Performance => ["performance", "optimization", "profiling"]
    case _ => []
  }

  /** At most two on-call members, then members with a relevant skill, then
      anyone, never repeating a member and stopping at five. */
  function SelectRelevantTeamMembers(incident: Incident, all: seq<TeamMember>): seq<TeamMember> {
    SelectTeam(all, CategorySkills(incident.category))
  }

  function Ids(ms: seq<TeamMember>): (r: seq<string>)
    ensures |r| == |ms| && forall i :: 0 <= i < |ms| ==> r[i] == ms[i].id
  {
    seq(|ms|, i requires 0 <= i < |ms| => ms[i].id)
  }

  /** Add the relevant members to the incident channel; there must be team
      members and a channel. On success they become the responders. */
  function HandleAssembleTeam(env: Env, step: WorkflowStep, ctx: Context, trace: seq<Call>): (e: Effect)
    ensures Sound(e, step, trace)
    ensures |ctx.teamMembers| == 0 ==>
      e == Effect(Returned(Fail(env, step, "slack", "No team members available", "Empty team_members list")), ctx.incident, trace)
    ensures |ctx.teamMembers| > 0 && !Truthy(ctx.incident.slackChannelId) ==>
      e == Effect(Returned(Fail(env, step, "slack", "No incident channel available", "Create channel first")), ctx.incident, trace)
    ensures var call := AssembleTeam(ctx.incident, SelectRelevantTeamMembers(ctx.incident, ctx.teamMembers), ctx.incident.slackChannelId);
      |ctx.teamMembers| > 0 && Truthy(ctx.incident.slackChannelId) ==>
        && e.trace == trace + [call]
        && e.incident == (if env.answer(|trace|, call).Succeeded?
                          then ctx.incident.(assignedResponders := Ids(call.members))
                          else ctx.incident)
  {
    if |ctx.teamMembers| == 0 then
      Effect(Returned(Fail(env, step, "slack", "No team members available", "Empty team_members list")), ctx.incident, trace)
    else if !Truthy(ctx.incident.slackChannelId) then
      Effect(Returned(Fail(env, step, "slack", "No incident channel available", "Create channel first")), ctx.incident, trace)
    else
      var relevant := SelectRelevantTeamMembers(ctx.incident, ctx.teamMembers);
      var (reply, t) := Invoke(env, trace, AssembleTeam(ctx.incident, relevant, ctx.incident.slackChannelId));
      match reply
      case Raised(m) => Effect(Threw(m), ctx.incident, t)
      case _ =>
        var d := ReplyDict(reply);
        var incident := if reply.Succeeded? then ctx.incident.(assignedResponders := Ids(relevant)) else ctx.incident;
        var count := GetOr(d, "assembled_count", VInt(0));
        Effect(Returned(ActionResult(reply.Succeeded?, step.action, "slack", "Assembled " + Show(count) + " team members",
                                     Some(d), None, env.now)), incident, t)
  }

  /** Analyze recent commits of the step's repository (default: the
      organisation's main application) unless GitHub analysis is off. */
  function HandleAnalyzeCommits(env: Env, step: WorkflowStep, ctx: Context, trace: seq<Call>): (e: Effect)
    ensures Sound(e, step, trace)
    ensures e.incident == ctx.incident
    ensures !env.features.githubAnalysis ==>
      e == Effect(Returned(Succeed(env, step, "github", "GitHub analysis disabled", Skipped)), ctx.incident, trace)
    ensures env.features.githubAnalysis ==>
      e.trace == trace + [AnalyzeCommits(Or(At(step.parameters, "repo"), VStr(env.githubOrg + "/main-app")),
                                         GetOr(step.parameters, "hours_back", VInt(24)),
                                         ctx.incident.affectedServices)]
  {
    if !env.features.githubAnalysis then
      Effect(Returned(Succeed(env, step, "github", "GitHub analysis disabled", Skipped)), ctx.incident, trace)
    else
      var repo := Or(At(step.parameters, "repo"), VStr(env.githubOrg + "/main-app"));
      var hoursBack := GetOr(step.parameters, "hours_back", VInt(24));
      var (reply, t) := Invoke(env, trace, AnalyzeCommits(repo, hoursBack, ctx.incident.affectedServices));
      if reply.Raised? then Effect(Threw(reply.message), ctx.incident, t)
      else
        var d := ReplyDict(reply);
        var total := GetOr(d, "total_commits", VInt(0));
        Effect(Returned(ActionResult(reply.Succeeded?, step.action, "github", "Analyzed " + Show(total) + " commits",
                                     Some(d), None, env.now)), ctx.incident, t)
  }

  const LogGatheringData: Dict := [
    ("sources", StrList(["application", "infrastructure"])),
    ("status", VStr("collecting"))]

  /** Log gathering is a placeholder that always succeeds without a call. */
  function HandleGatherLogs(env: Env, step: WorkflowStep, ctx: Context, trace: seq<Call>): (e: Effect)
    ensures Sound(e, step, trace)
    ensures e.trace == trace && e.incident == ctx.incident
    ensures e.outcome.Returned? && e.outcome.result.success && e.outcome.result.data == Some(LogGatheringData)
    ensures At(e.outcome.result.data.value, "logs") == VNone
  {
    Effect(Returned(Succeed(env, step, "logging", "Log gathering initiated", LogGatheringData)), ctx.incident, trace)
  }

  /** Create the post-mortem page unless Confluence docs are off; on success
      the page id is recorded on the incident. */
  function HandleCreatePostmortem(env: Env, step: WorkflowStep, ctx: Context, trace: seq<Call>): (e: Effect)
    ensures Sound(e, step, trace)
    ensures !env.features.confluenceDocs ==>
      e == Effect(Returned(Succeed(env, step, "confluence", "Confluence docs disabled", Skipped)), ctx.incident, trace)
    ensures env.features.confluenceDocs ==> e.trace == trace + [CreatePostmortem(ctx.incident)]
    ensures env.features.confluenceDocs && env.answer(|trace|, CreatePostmortem(ctx.incident)).Succeeded? ==>
      var d := ReplyDict(env.answer(|trace|, CreatePostmortem(ctx.incident)));
      e.incident == ctx.incident.(confluencePageId := At(d, "page_id")) && e.outcome.Returned? && e.outcome.result.success
    ensures e.outcome.Returned? && !e.outcome.result.success ==> e.incident == ctx.incident
  {
    if !env.features.confluenceDocs then
      Effect(Returned(Succeed(env, step, "confluence", "Confluence docs disabled", Skipped)), ctx.incident, trace)
    else
      var (reply, t) := Invoke(env, trace, CreatePostmortem(ctx.incident));
      match reply
      case Raised(m) => Effect(Threw(m), ctx.incident, t)
      case Failed(err) => Effect(Returned(Fail(env, step, "confluence", "Failed to create post-mortem", err)), ctx.incident, t)
      case Succeeded(_) =>
        var d := ReplyDict(reply);
        Effect(Returned(Succeed(env, step, "confluence", "Created post-mortem: " + Show(At(d, "title")), d)),
               ctx.incident.(confluencePageId := At(d, "page_id")), t)
  }

  /** `key` of an earlier action's result data, or None when that action has
      no result or its result has no (or empty) data. */
  function EarlierData(ctx: Context, action: string, key: string): (v: Value)
    ensures action !in ctx.results ==> v == VNone
    ensures action in ctx.results && ctx.results[action].data.Some? && HasKey(ctx.results[action].data.value, key) ==>
      Some(v) == Get(ctx.results[action].data.value, key)
  {
    if action in ctx.results && ctx.results[action].data.Some? && |ctx.results[action].data.value| > 0
    then At(ctx.results[action].data.value, key)
    else VNone
  }

  /** Ask the model for a root-cause hypothesis from earlier logs and commits;
      always succeeds and records the hypothesis on the incident. */
  function HandleGenerateHypothesis(env: Env, step: WorkflowStep, ctx: Context, trace: seq<Call>): (e: Effect)
    ensures Sound(e, step, trace)
    ensures var call := GenerateHypothesis(ctx.incident, EarlierData(ctx, "gather_logs", "logs"),
                                           EarlierData(ctx, "analyze_commits", "commits"), VNone);
      var h := HypothesisText(env.generate(|trace|, call));
      && e.trace == trace + [call]
      && e.incident == ctx.incident.(rootCauseHypothesis := VStr(h))
      && e.outcome == Returned(Succeed(env, step, "ai", "Generated root cause hypothesis", [("hypothesis", VStr(h))]))
  {
    var logs := EarlierData(ctx, "gather_logs", "logs");
    var commits := EarlierData(ctx, "analyze_commits", "commits");
    var (reply, t) := Ask(env, trace, GenerateHypothesis(ctx.incident, logs, commits, VNone));
    var h := HypothesisText(reply);
    Effect(Returned(Succeed(env, step, "ai", "Generated root cause hypothesis", [("hypothesis", VStr(h))])),
           ctx.incident.(rootCauseHypothesis := VStr(h)), t)
  }

  /** The knowledge-base query: the category and the first two services. */
  function KnowledgeQuery(incident: Incident): (q: string)
    ensures IsPrefix(incident.category.Value() + " ", q)
    ensures forall i :: 0 <= i < |incident.affectedServices| && i < 2 ==> Contains(q, incident.affectedServices[i])
  {
    var services := Take(incident.affectedServices, 2);
    var q := incident.category.Value() + " " + Join(" ", services);
    assert q[..|incident.category.Value() + " "|] == incident.category.Value() + " ";
    forall i | 0 <= i < |incident.affectedServices| && i < 2
      ensures Contains(q, incident.affectedServices[i])
    {
      assert services[i] == incident.affectedServices[i];
      JoinContainsPart(" ", services, i);
      ContainsPrefixed(incident.category.Value() + " ", Join(" ", services), services[i]);
    }
    q
  }

  /** Search the knowledge base for the incident's category and services. */
  function HandleSearchKnowledge(env: Env, step: WorkflowStep, ctx: Context, trace: seq<Call>): (e: Effect)
    ensures Sound(e, step, trace)
    ensures e.incident == ctx.incident
    ensures e.trace == trace + [SearchKnowledge(KnowledgeQuery(ctx.incident))]
  {
    var (reply, t) := Invoke(env, trace, SearchKnowledge(KnowledgeQuery(ctx.incident)));
    if reply.Raised? then Effect(Threw(reply.message), ctx.incident, t)
    else
      var d := ReplyDict(reply);
      var total := GetOr(d, "total", VInt(0));
      Effect(Returned(ActionResult(reply.Succeeded?, step.action, "confluence", "Found " + Show(total) + " relevant articles",
                                   Some(d), None, env.now)), ctx.incident, t)
  }

  /** Post a status update to the incident channel; there must be one. */
  function HandlePostUpdate(env: Env, step: WorkflowStep, ctx: Context, trace: seq<Call>): (e: Effect)
    ensures Sound(e, step, trace)
    ensures e.incident == ctx.incident
    ensures !Truthy(ctx.incident.slackChannelId) ==>
      e == Effect(Returned(Fail(env, step, "slack", "No channel available", "No slack_channel_id")), ctx.incident, trace)
    ensures Truthy(ctx.incident.slackChannelId) ==>
      e.trace == trace + [PostUpdate(ctx.incident.slackChannelId, ctx.incident,
                                     GetOr(step.parameters, "update_type", VStr("status_change")),
                                     GetOr(step.parameters, "details", VStr("Workflow step completed")))]
  {
    if !Truthy(ctx.incident.slackChannelId) then
      Effect(Returned(Fail(env, step, "slack", "No channel available", "No slack_channel_id")), ctx.incident, trace)
    else
      var updateType := GetOr(step.parameters, "update_type", VStr("status_change"));
      var details := GetOr(step.parameters, "details", VStr("Workflow step completed"));
      var (reply, t) := Invoke(env, trace, PostUpdate(ctx.incident.slackChannelId, ctx.incident, updateType, details));
      if reply.Raised? then Effect(Threw(reply.message), ctx.incident, t)
      else Effect(Returned(Reported(env, step, "slack", reply, "Update posted", "Post failed")), ctx.incident, t)
  }

  function RunHandler(h: Handler, env: Env, step: WorkflowStep, ctx: Context, trace: seq<Call>): (e: Effect)
    ensures Sound(e, step, trace)
  {
    match h
    case CreateTicketH => HandleCreateTicket(env, step, ctx, trace)
    case UpdateTicketH => HandleUpdateTicket(env, step, ctx, trace)
    case CreateChannelH => HandleCreateChannel(env, step, ctx, trace)
    case NotifyTeamH => HandleNotifyTeam(env, step, ctx, trace)
    case AssembleTeamH => HandleAssembleTeam(env, step, ctx, trace)
    case AnalyzeCommitsH => HandleAnalyzeCommits(env, step, ctx, trace)
    case GatherLogsH => HandleGatherLogs(env, step, ctx, trace)
    case CreatePostmortemH => HandleCreatePostmortem(env, step, ctx, trace)
    case GenerateHypothesisH => HandleGenerateHypothesis(env, step, ctx, trace)
    case SearchKnowledgeH => HandleSearchKnowledge(env, step, ctx, trace)
    case PostUpdateH => HandlePostUpdate(env, step, ctx, trace)
  }

  /** The result of executing a step, the incident its handler left, and
      the extended trace. */
  datatype StepEffect = StepEffect(result: ActionResult, incident: Incident, trace: seq<Call>)

  /** Dispatch a step to its handler. An unregistered action fails without
      any call; a handler that raises yields a failed result carrying the
      exception text. The result always names the step's action. */
  function ExecuteStep(env: Env, step: WorkflowStep, ctx: Context, trace: seq<Call>): (e: StepEffect)
    ensures e.result.action == step.action
    ensures step.action !in HandlerActions ==>
      e == StepEffect(ActionResult(false, step.action, step.targetTool, "Unknown action: " + step.action,
                                   None, Some("No handler registered for action"), env.now), ctx.incident, trace)
    ensures step.action in HandlerActions ==>
      var h := RunHandler(HandlerOf(step.action).value, env, step, ctx, trace);
      && e.incident == h.incident && e.trace == h.trace
      && (h.outcome.Threw? ==>
            e.result == ActionResult(false, step.action, step.targetTool, "Action failed: " + h.outcome.message,
                                     None, Some(h.outcome.message), env.now))
      && (h.outcome.Returned? ==> e.result == h.outcome.result)
  {
    match HandlerOf(step.action)
    case None =>
      StepEffect(ActionResult(false, step.action, step.targetTool, "Unknown action: " + step.action,
                              None, Some("No handler registered for action"), env.now), ctx.incident, trace)
    case Some(h) =>
      var eff := RunHandler(h, env, step, ctx, trace);
      match eff.outcome
      case Threw(m) =>
        StepEffect(ActionResult(false, step.action, step.targetTool, "Action failed: " + m, None, Some(m), env.now),
                   eff.incident, eff.trace)
      case Returned(r) =>
        StepEffect(r, eff.incident, eff.trace)
  }

  // ============ Incident updates from results ============

  /** The incident fields a step result can be copied into. */
  datatype Field = TicketField | ChannelField | PageField | HypothesisField

  /** Which field each action's result is copied into. */
  function FieldOf(action: string): Option<Field> {
    if action == "create_ticket" then Some(TicketField)
    else if action == "create_channel" then Some(ChannelField)
    else if action == "create_postmortem" then Some(PageField)
    else if action == "generate_hypothesis" then Some(HypothesisField)
    else None
  }

  /** The result-data key each field is copied from. */
  function KeyOf(f: Field): string {
    match f
    case TicketField => "number"
    case ChannelField => "channel_id"
    case PageField => "page_id"
    case HypothesisField => "hypothesis"
  }

  function ReadField(i: Incident, f: Field): Value {
    match f
    case TicketField => i.servicenowTicketId
    case ChannelField => i.slackChannelId
    case PageField => i.confluencePageId
    case HypothesisField => i.rootCauseHypothesis
  }

  function WriteField(i: Incident, f: Field, v: Value): Incident {
    match f
    case TicketField => i.(servicenowTicketId := v)
    case ChannelField => i.(slackChannelId := v)
    case PageField => i.(confluencePageId := v)
    case HypothesisField => i.(rootCauseHypothesis := v)
  }

  /** `a` and `b` agree on every field except possibly `f`. */
  predicate AgreeExcept(a: Incident, b: Incident, f: Option<Field>) {
    forall g: Field :: Some(g) != f ==> ReadField(a, g) == ReadField(b, g)
  }

  /** Copy the mapped field of a successful result onto the incident; a key
      missing from the data reads as None. */
  function UpdateIncidentFromResult(incident: Incident, action: string, result: ActionResult): (r: Incident)
    ensures !result.success ==> r == incident
    ensures FieldOf(action).None? ==> r == incident
    ensures result.success && FieldOf(action).Some? ==>
      && ReadField(r, FieldOf(action).value) == At(result.data.GetOr([]), KeyOf(FieldOf(action).value))
      && AgreeExcept(r, incident, FieldOf(action))
      && r == WriteField(incident, FieldOf(action).value, ReadField(r, FieldOf(action).value))
  {
    if !result.success then incident
    else
      var data := if result.data.Some? then result.data.value else [];
      match FieldOf(action)
      case None => incident
      case Some(f) => WriteField(incident, f, At(data, KeyOf(f)))
  }

  /** Each of the four mapped actions writes its own field: no two share one. */
  lemma FieldsDistinct()
    ensures forall a, b :: FieldOf(a).Some? && FieldOf(b).Some? && a != b ==> FieldOf(a) != FieldOf(b)
    ensures FieldOf("create_ticket") == Some(TicketField) && FieldOf("create_channel") == Some(ChannelField)
    ensures FieldOf("create_postmortem") == Some(PageField) && FieldOf("generate_hypothesis") == Some(HypothesisField)
  {
  }

  /** Copying the same result twice leaves the incident as copying it once. */
  lemma {:induction false} UpdateIncidentIdempotent(incident: Incident, action: string, result: ActionResult)
    ensures var once := UpdateIncidentFromResult(incident, action, result);
      UpdateIncidentFromResult(once, action, result) == once
  {
  }

  /** A successful skipped result clears the mapped field to None. */
  lemma {:induction false} SkippedResultClearsField(incident: Incident, action: string, result: ActionResult)
    requires result.success && result.data == Some(Skipped) && FieldOf(action).Some?
    ensures ReadField(UpdateIncidentFromResult(incident, action, result), FieldOf(action).value) == VNone
  {
  }

  // ============ The step loop ============

  /** What one run carries from step to step. */
  datatype RunState = RunState(incident: Incident, results: map<string, ActionResult>, trace: seq<Call>)

  /** A step after it ran, its result, and the state the next step sees. */
  datatype StepRun = StepRun(step: WorkflowStep, result: ActionResult, state: RunState)

  /** How a step is executed: its result, the incident it leaves and the
      calls made, given the step, the context and the calls made so far. */
  type Executor = (WorkflowStep, Context, seq<Call>) -> StepEffect

  /** The choreographer's own executor: dispatch by action to a handler. */
  function Executes(env: Env): Executor {
    (step, ctx, trace) => ExecuteStep(env, step, ctx, trace)
  }

  /** Run one step with executor `exec` at time `now` on state `s`: the step
      ends "completed" iff its result succeeded, its data becomes the step's
      result, the result is stored under the action, and the mapped field is
      copied onto the incident the executor left. */
  function RunStepWith(exec: Executor, now: Time, team: seq<TeamMember>, step: WorkflowStep, s: RunState): (r: StepRun)
    ensures var e := exec(step, Context(s.incident, team, s.results), s.trace);
      && r.result == e.result && r.state.trace == e.trace
      && r.state.incident == UpdateIncidentFromResult(e.incident, step.action, e.result)
    ensures (r.step.status == StepCompleted <==> r.result.success) && (r.step.status == StepCompleted || r.step.status == StepFailed)
    ensures r.step.result == r.result.data && r.step.error == step.error
    ensures r.step.startedAt == Some(now) && r.step.completedAt == Some(now)
    ensures r.step.(status := step.status, result := step.result, startedAt := step.startedAt, completedAt := step.completedAt) == step
    ensures r.state.results == s.results[step.action := r.result]
  {
    var e := exec(step, Context(s.incident, team, s.results), s.trace);
    var done := step.(status := if e.result.success then StepCompleted else StepFailed,
                      result := e.result.data, startedAt := Some(now), completedAt := Some(now));
    StepRun(done, e.result, RunState(UpdateIncidentFromResult(e.incident, step.action, e.result),
                                      s.results[step.action := e.result], e.trace))
  }

  /** One step run by the choreographer: its result names the step's action,
      collaborator calls are only appended, and an unknown action calls no
      collaborator and leaves the incident alone. */
  function RunStep(env: Env, team: seq<TeamMember>, step: WorkflowStep, s: RunState): (r: StepRun)
    ensures r.result.action == step.action
    ensures |s.trace| <= |r.state.trace| && r.state.trace[..|s.trace|] == s.trace
    ensures step.action !in HandlerActions ==> r.state.trace == s.trace && r.state.incident == s.incident && !r.result.success
  {
    var r := RunStepWith(Executes(env), env.now, team, step, s);
    ExecuteStepSound(env, step, Context(s.incident, team, s.results), s.trace);
    r
  }

  /** The trace a step execution leaves extends the one it started from. */
  lemma ExecuteStepSound(env: Env, step: WorkflowStep, ctx: Context, trace: seq<Call>)
    ensures var e := ExecuteStep(env, step, ctx, trace);
      |trace| <= |e.trace| && e.trace[..|trace|] == trace
  {
    if step.action in HandlerActions {
      var h := RunHandler(HandlerOf(step.action).value, env, step, ctx, trace);
    }
  }

  /** Every step of a run, in order: the steps as they ended, their results,
      and the states before the first step and after each step. */
  datatype Run = Run(steps: seq<WorkflowStep>, outcomes: seq<ActionResult>, states: seq<RunState>)

  /** The step loop as a fold: run `steps` in order from state `s`, each step
      on the state the previous one left. No failure stops the fold. */
  function RunFrom(exec: Executor, now: Time, team: seq<TeamMember>, steps: seq<WorkflowStep>, s: RunState): (r: Run)
    ensures |r.steps| == |steps| && |r.outcomes| == |steps| && |r.states| == |steps| + 1
    ensures r.states[0] == s
    decreases |steps|
  {
    if |steps| == 0 then Run([], [], [s])
    else
      var x := RunStepWith(exec, now, team, steps[0], s);
      var rest := RunFrom(exec, now, team, steps[1..], x.state);
      Run([x.step] + rest.steps, [x.result] + rest.outcomes, [s] + rest.states)
  }

  /** Step i of `r` is step i of `steps` run on state i, leaving state i+1. */
  predicate Chained(exec: Executor, now: Time, team: seq<TeamMember>, steps: seq<WorkflowStep>, r: Run) {
    && |r.steps| == |steps| && |r.outcomes| == |steps| && |r.states| == |steps| + 1
    && forall i :: 0 <= i < |steps| ==>
      RunStepWith(exec, now, team, steps[i], r.states[i]) == StepRun(r.steps[i], r.outcomes[i], r.states[i + 1])
  }

  /** Every step is attempted, in list order: step i runs on the state step
      i-1 left and its run is recorded at index i. */
  lemma {:induction false} RunFromChain(exec: Executor, now: Time, team: seq<TeamMember>, steps: seq<WorkflowStep>, s: RunState)
    ensures Chained(exec, now, team, steps, RunFrom(exec, now, team, steps, s))
    decreases |steps|
  {
    if |steps| > 0 {
      var r := RunFrom(exec, now, team, steps, s);
      var x := RunStepWith(exec, now, team, steps[0], s);
      var rest := RunFrom(exec, now, team, steps[1..], x.state);
      RunFromChain(exec, now, team, steps[1..], x.state);
      forall i | 0 < i < |steps|
        ensures RunStepWith(exec, now, team, steps[i], r.states[i]) == StepRun(r.steps[i], r.outcomes[i], r.states[i + 1])
      {
        assert r == Run([x.step] + rest.steps, [x.result] + rest.outcomes, [s] + rest.states);
        assert steps[i] == steps[1..][i - 1];
        assert RunStepWith(exec, now, team, steps[1..][i - 1], rest.states[i - 1])
            == StepRun(rest.steps[i - 1], rest.outcomes[i - 1], rest.states[i]);
        assert r.states[i] == rest.states[i - 1] && r.states[i + 1] == rest.states[i];
        assert r.steps[i] == rest.steps[i - 1] && r.outcomes[i] == rest.outcomes[i - 1];
      }
    }
  }

  /** Every step ends "completed" iff its result succeeded, otherwise "failed";
      none is left pending or running. */
  lemma RunFromStatuses(exec: Executor, now: Time, team: seq<TeamMember>, steps: seq<WorkflowStep>, s: RunState)
    ensures var r := RunFrom(exec, now, team, steps, s);
      forall i :: 0 <= i < |steps| ==>
        && (r.steps[i].status == StepCompleted <==> r.outcomes[i].success)
        && (r.steps[i].status == StepCompleted || r.steps[i].status == StepFailed)
        && r.steps[i].result == r.outcomes[i].data && r.steps[i].completedAt == Some(now)
        && r.steps[i].action == steps[i].action
  {
    var r := RunFrom(exec, now, team, steps, s);
    RunFromChain(exec, now, team, steps, s);
    forall i | 0 <= i < |steps|
      ensures && (r.steps[i].status == StepCompleted <==> r.outcomes[i].success)
              && (r.steps[i].status == StepCompleted || r.steps[i].status == StepFailed)
              && r.steps[i].result == r.outcomes[i].data && r.steps[i].completedAt == Some(now)
              && r.steps[i].action == steps[i].action
    {
      assert RunStepWith(exec, now, team, steps[i], r.states[i]) == StepRun(r.steps[i], r.outcomes[i], r.states[i + 1]);
    }
  }

  /** The index of the last step before `n` whose action is that of step `i`. */
  predicate IsLastWithAction(steps: seq<WorkflowStep>, n: nat, i: nat)
    requires i < n <= |steps|
  {
    forall j :: i < j < n ==> steps[j].action != steps[i].action
  }

  /** No step of `steps` has action `a`. */
  predicate Untouched(steps: seq<WorkflowStep>, a: string) {
    forall i :: 0 <= i < |steps| ==> steps[i].action != a
  }

  /** The actions of a list of steps, as a set. */
  function Actions(steps: seq<WorkflowStep>): (r: set<string>)
    ensures forall i :: 0 <= i < |steps| ==> steps[i].action in r
    ensures forall a :: a in r ==> !Untouched(steps, a)
    decreases |steps|
  {
    if |steps| == 0 then {} else {steps[0].action} + Actions(steps[1..])
  }

  /** The results after recording each outcome under its step's action, in
      step order. */
  function Record(steps: seq<WorkflowStep>, outcomes: seq<ActionResult>, m: map<string, ActionResult>)
    : map<string, ActionResult>
    requires |outcomes| == |steps|
    decreases |steps|
  {
    if |steps| == 0 then m else Record(steps[1..], outcomes[1..], m[steps[0].action := outcomes[0]])
  }

  /** The fold's last results are the earlier ones with every outcome
      recorded. */
  lemma RunFromRecords(exec: Executor, now: Time, team: seq<TeamMember>, steps: seq<WorkflowStep>, s: RunState)
    ensures var r := RunFrom(exec, now, team, steps, s);
      r.states[|steps|].results == Record(steps, r.outcomes, s.results)
  {
    var r := RunFrom(exec, now, team, steps, s);
    RunFromChain(exec, now, team, steps, s);
    forall i | 0 <= i < |steps|
      ensures r.states[i + 1].results == r.states[i].results[steps[i].action := r.outcomes[i]]
    {
      assert RunStepWith(exec, now, team, steps[i], r.states[i]) == StepRun(r.steps[i], r.outcomes[i], r.states[i + 1]);
    }
    RecordAlong(steps, r.outcomes, r.states);
  }

  /** States that each record one more outcome end with all of them
      recorded. */
  lemma {:induction false} RecordAlong(steps: seq<WorkflowStep>, outcomes: seq<ActionResult>, states: seq<RunState>)
    requires |outcomes| == |steps| && |states| == |steps| + 1
    requires forall i :: 0 <= i < |steps| ==> states[i + 1].results == states[i].results[steps[i].action := outcomes[i]]
    ensures states[|steps|].results == Record(steps, outcomes, states[0].results)
    decreases |steps|
  {
    if |steps| > 0 {
      assert forall i :: 0 <= i < |steps| - 1 ==>
        steps[1..][i] == steps[i + 1] && outcomes[1..][i] == outcomes[i + 1] && states[1..][i + 1] == states[i + 2];
      RecordAlong(steps[1..], outcomes[1..], states[1..]);
    }
  }

  lemma {:induction false} RecordKeys(steps: seq<WorkflowStep>, outcomes: seq<ActionResult>, m: map<string, ActionResult>)
    requires |outcomes| == |steps|
    ensures Record(steps, outcomes, m).Keys == m.Keys + Actions(steps)
    decreases |steps|
  {
    if |steps| > 0 {
      RecordKeys(steps[1..], outcomes[1..], m[steps[0].action := outcomes[0]]);
    }
  }

  lemma {:induction false} RecordKeeps(steps: seq<WorkflowStep>, outcomes: seq<ActionResult>, m: map<string, ActionResult>, a: string)
    requires |outcomes| == |steps| && a in m && Untouched(steps, a)
    ensures a in Record(steps, outcomes, m) && Record(steps, outcomes, m)[a] == m[a]
    decreases |steps|
  {
    if |steps| > 0 {
      assert steps[0].action != a;
      assert Untouched(steps[1..], a) by {
        forall j | 0 <= j < |steps| - 1 ensures steps[1..][j].action != a {
          assert steps[1..][j] == steps[j + 1];
        }
      }
      RecordKeeps(steps[1..], outcomes[1..], m[steps[0].action := outcomes[0]], a);
    }
  }

  lemma {:induction false} RecordLatest(steps: seq<WorkflowStep>, outcomes: seq<ActionResult>, m: map<string, ActionResult>, i: nat)
    requires |outcomes| == |steps| && i < |steps| && IsLastWithAction(steps, |steps|, i)
    ensures steps[i].action in Record(steps, outcomes, m)
    ensures Record(steps, outcomes, m)[steps[i].action] == outcomes[i]
    decreases |steps|
  {
    var n := |steps|;
    var m1 := m[steps[0].action := outcomes[0]];
    if i == 0 {
      assert Untouched(steps[1..], steps[0].action) by {
        forall j | 0 <= j < n - 1 ensures steps[1..][j].action != steps[0].action {
          assert steps[1..][j] == steps[j + 1];
        }
      }
      RecordKeeps(steps[1..], outcomes[1..], m1, steps[0].action);
    } else {
      assert steps[1..][i - 1] == steps[i] && outcomes[1..][i - 1] == outcomes[i];
      assert IsLastWithAction(steps[1..], n - 1, i - 1) by {
        forall j | i - 1 < j < n - 1 ensures steps[1..][j].action != steps[1..][i - 1].action {
          assert steps[1..][j] == steps[j + 1];
        }
      }
      RecordLatest(steps[1..], outcomes[1..], m1, i - 1);
    }
  }

  /** After the fold the results hold exactly the earlier keys and the
      actions of the steps. */
  lemma RunFromKeys(exec: Executor, now: Time, team: seq<TeamMember>, steps: seq<WorkflowStep>, s: RunState)
    ensures RunFrom(exec, now, team, steps, s).states[|steps|].results.Keys == s.results.Keys + Actions(steps)
  {
    RunFromRecords(exec, now, team, steps, s);
    RecordKeys(steps, RunFrom(exec, now, team, steps, s).outcomes, s.results);
  }

  /** An earlier result whose action no step has is kept by the fold. */
  lemma RunFromKeeps(exec: Executor, now: Time, team: seq<TeamMember>, steps: seq<WorkflowStep>, s: RunState, a: string)
    requires a in s.results && Untouched(steps, a)
    ensures var last := RunFrom(exec, now, team, steps, s).states[|steps|].results;
      a in last && last[a] == s.results[a]
  {
    RunFromRecords(exec, now, team, steps, s);
    RecordKeeps(steps, RunFrom(exec, now, team, steps, s).outcomes, s.results, a);
  }

  /** Each action's entry after the fold is the result of its last step. */
  lemma RunFromLatest(exec: Executor, now: Time, team: seq<TeamMember>, steps: seq<WorkflowStep>, s: RunState, i: nat)
    requires i < |steps| && IsLastWithAction(steps, |steps|, i)
    ensures var r := RunFrom(exec, now, team, steps, s);
      steps[i].action in r.states[|steps|].results && r.states[|steps|].results[steps[i].action] == r.outcomes[i]
  {
    RunFromRecords(exec, now, team, steps, s);
    RecordLatest(steps, RunFrom(exec, now, team, steps, s).outcomes, s.results, i);
  }

  /** A workflow after it ran, with the record of every step's run. */
  datatype WorkflowRun = WorkflowRun(workflow: Workflow, run: Run)

  /** Run every step of the workflow in order with executor `exec`. The
      workflow is marked running with `started_at` set, every step is attempted
      with `current_step_index` set to its index, and the workflow always ends
      "completed" with `completed_at` set — even when the critical step failed. */
  function ExecuteWorkflow(exec: Executor, now: Time, wf: Workflow, incident: Incident, team: seq<TeamMember>, trace: seq<Call>): (r: WorkflowRun)
    ensures |r.run.states| == |wf.steps| + 1 && r.run.states[0] == RunState(incident, map[], trace)
    ensures |r.workflow.steps| == |wf.steps| && |r.run.outcomes| == |wf.steps|
    ensures r.workflow.status == WfCompleted && r.workflow.startedAt == Some(now) && r.workflow.completedAt == Some(now)
    ensures r.workflow.currentStepIndex == (if |wf.steps| == 0 then wf.currentStepIndex else |wf.steps| - 1)
    ensures r.workflow.(steps := wf.steps, currentStepIndex := wf.currentStepIndex, status := wf.status,
                        startedAt := wf.startedAt, completedAt := wf.completedAt) == wf
    ensures forall i :: 0 <= i < |wf.steps| ==>
      && (r.workflow.steps[i].status == StepCompleted <==> r.run.outcomes[i].success)
      && (r.workflow.steps[i].status == StepCompleted || r.workflow.steps[i].status == StepFailed)
      && r.workflow.steps[i].action == wf.steps[i].action
    ensures r.run.states[|wf.steps|].results.Keys == Actions(wf.steps)
  {
    var s0 := RunState(incident, map[], trace);
    var run := RunFrom(exec, now, team, wf.steps, s0);
    RunFromStatuses(exec, now, team, wf.steps, s0);
    RunFromKeys(exec, now, team, wf.steps, s0);
    WorkflowRun(wf.(steps := run.steps, status := WfCompleted, startedAt := Some(now), completedAt := Some(now),
                    currentStepIndex := if |wf.steps| == 0 then wf.currentStepIndex else |wf.steps| - 1), run)
  }

  /** With the choreographer's own executor, every step's result names its
      action, each step only appends collaborator calls to those made before
      it, and a step with an unregistered action calls nothing, leaves the
      incident alone and fails. */
  lemma RunFromCalls(env: Env, team: seq<TeamMember>, steps: seq<WorkflowStep>, s: RunState)
    ensures var r := RunFrom(Executes(env), env.now, team, steps, s);
      forall i :: 0 <= i < |steps| ==> StepCalls(env, steps[i], r.outcomes[i], r.states[i], r.states[i + 1])
  {
    var r := RunFrom(Executes(env), env.now, team, steps, s);
    RunFromChain(Executes(env), env.now, team, steps, s);
    forall i | 0 <= i < |steps|
      ensures StepCalls(env, steps[i], r.outcomes[i], r.states[i], r.states[i + 1])
    {
      assert RunStepWith(Executes(env), env.now, team, steps[i], r.states[i])
          == StepRun(r.steps[i], r.outcomes[i], r.states[i + 1]);
      RunStepCalls(env, team, steps[i], r.states[i]);
    }
  }

  /** The result names the step's action, the calls are only appended, and an
      unregistered action calls nothing, keeps the incident and fails. */
  predicate StepCalls(env: Env, step: WorkflowStep, result: ActionResult, before: RunState, after: RunState) {
    && result.action == step.action
    && before.trace <= after.trace
    && (step.action !in HandlerActions ==>
          after.trace == before.trace && after.incident == before.incident && !result.success)
  }

  lemma RunStepCalls(env: Env, team: seq<TeamMember>, step: WorkflowStep, s: RunState)
    ensures var r := RunStepWith(Executes(env), env.now, team, step, s);
      StepCalls(env, step, r.result, s, r.state)
  {
    var r := RunStep(env, team, step, s);
  }

  /** `orchestrate_incident_response`: a fresh workflow named after the first
      50 characters of the title, holding the recommended steps, run to
      completion with the choreographer's executor. The recommended steps are
      an input: producing them is the AI layer's business. */
  function OrchestrateIncidentResponse(env: Env, incident: Incident, team: seq<TeamMember>,
                                       recommended: seq<WorkflowStep>, workflowId: string): (r: WorkflowRun)
    ensures r.workflow.id == workflowId && r.workflow.incidentId == incident.id
    ensures r.workflow.name == "Incident Response: " + Take(incident.title, 50)
    ensures r.workflow.description == "Automated response workflow for " + incident.severity.Value() + " incident"
    ensures r.workflow.status == WfCompleted && r.workflow.completedAt == Some(env.now)
    ensures |r.workflow.steps| == |recommended| && |r.run.outcomes| == |recommended| && |r.run.states| == |recommended| + 1
    ensures r.run.states[0] == RunState(incident, map[], [])
    ensures forall i :: 0 <= i < |recommended| ==>
      && r.workflow.steps[i].action == recommended[i].action
      && (r.workflow.steps[i].status == StepCompleted <==> r.run.outcomes[i].success)
  {
    var wf := NewWorkflow(workflowId, incident.id, "Incident Response: " + Take(incident.title, 50),
                          "Automated response workflow for " + incident.severity.Value() + " incident", env.now);
    var w := wf.(steps := recommended);
    ExecuteWorkflow(Executes(env), env.now, w, incident, team, [])
  }

  /** The tools whose feature switch is on, in a fixed order, then "ai". */
  function AvailableTools(f: Features): (r: seq<string>)
    ensures |r| >= 1 && r[|r| - 1] == "ai"
    ensures forall i :: 0 <= i < |r| - 1 ==> ToolRank(r[i]) < ToolRank(r[i + 1])
  {
    (if f.autoTicketing then ["servicenow"] else [])
    + (if f.slackNotifications then ["slack"] else [])
    + (if f.githubAnalysis then ["github"] else [])
    + (if f.confluenceDocs then ["confluence"] else [])
    + ["ai"]
  }

  /** Each connector is offered exactly when its feature switch is on. */
  lemma AvailableToolsSwitches(f: Features)
    ensures var r := AvailableTools(f);
      && ("servicenow" in r <==> f.autoTicketing) && ("slack" in r <==> f.slackNotifications)
      && ("github" in r <==> f.githubAnalysis) && ("confluence" in r <==> f.confluenceDocs)
  {
    assert "servicenow" != "confluence" by { assert "servicenow"[0] != "confluence"[0]; }
  }

  function ToolRank(t: string): nat {
    if t == "servicenow" then 0
    else if t == "slack" then 1
    else if t == "github" then 2
    else if t == "confluence" then 3
    else 4
  }
}

=== FILE: collaborators.dfy ===
/** The external systems the workflows call (ticketing, chat, source hosting,
    wiki, issue tracker and the language model), seen from the caller: every
    call is recorded in a trace, and the k-th call of a run is answered by an
    arbitrary environment function of k and the call. */
module Collaborators {
  import opened Wrappers
  import opened Values
  import opened Models

  /** One call into a connector or the language model, with its arguments. */
  datatype Call =
    | CreateTicket(incident: Incident)
    | AddWorkNote(sysId: Value, note: Value)
    | CreateChannel(incident: Incident)
    | NotifyTeam(channel: Value, message: Value, incident: Incident)
    | PostUpdate(channelId: Value, incident: Incident, updateType: Value, details: Value)
    | AssembleTeam(incident: Incident, members: seq<TeamMember>, channelId: Value)
    | AnalyzeCommits(repo: Value, hoursBack: Value, paths: seq<string>)
    | GetDeployments(repo: Value, environment: string)
    | GetWorkflowRuns(repo: Value, runStatus: string)
    | CreatePostmortem(incident: Incident)
    | SearchKnowledge(query: string)
    | GenerateHypothesis(incident: Incident, logs: Value, recentChanges: Value, metrics: Value)
    | CreateJiraIssue(incident: Incident)
    | AssignJiraIssue(issueKey: Value, email: string)

  /** What a connector method does: return a dict with `success` true and a
      payload, return `success` false with an error text, or raise. */
  datatype Reply =
    | Succeeded(payload: Dict)
    | Failed(error: string)
    | Raised(message: string)

  /** The dict a connector returns for a reply that did not raise. A lookup
      finds the first entry, so `success` always reads as the outcome. */
  function ReplyDict(r: Reply): (d: Dict)
    requires !r.Raised?
    ensures Get(d, "success") == Some(VBool(r.Succeeded?))
    ensures r.Failed? ==> Get(d, "error") == Some(VStr(r.error))
    ensures r.Succeeded? ==> forall k :: k != "success" ==> Get(d, k) == Get(r.payload, k)
  {
    if r.Succeeded? then [("success", VBool(true))] + r.payload
    else [("success", VBool(false)), ("error", VStr(r.error))]
  }

  /** What the language model does: produce a text or fail. The hypothesis
      generator catches the failure itself. */
  datatype AiReply = Generated(text: string) | GenerationFailed(error: string)

  const HypothesisFailed := "Unable to generate AI hypothesis. Error: "

  /** The text `generate_root_cause_hypothesis` returns. */
  function HypothesisText(r: AiReply): (h: string)
    ensures r.Generated? ==> h == r.text
    ensures r.GenerationFailed? ==> h == HypothesisFailed + r.error
  {
    match r
    case Generated(t) => t
    case GenerationFailed(e) => HypothesisFailed + e
  }

  /** The feature switches read from configuration. */
  datatype Features = Features(
    autoTicketing: bool,
    slackNotifications: bool,
    githubAnalysis: bool,
    confluenceDocs: bool)

  /** Everything a run depends on besides its arguments: configuration, the
      clock reading, and the answers of the external systems. */
  datatype Env = Env(
    features: Features,
    githubOrg: string,
    now: Time,
    answer: (nat, Call) -> Reply,
    generate: (nat, Call) -> AiReply)

  /** Perform connector call `c` after the calls in `trace`. */
  function Invoke(env: Env, trace: seq<Call>, c: Call): (r: (Reply, seq<Call>))
    ensures r.1 == trace + [c]
    ensures r.0 == env.answer(|trace|, c)
  {
    (env.answer(|trace|, c), trace + [c])
  }

  /** Ask the language model after the calls in `trace`. */
  function Ask(env: Env, trace: seq<Call>, c: Call): (r: (AiReply, seq<Call>))
    ensures r.1 == trace + [c]
    ensures r.0 == env.generate(|trace|, c)
  {
    (env.generate(|trace|, c), trace + [c])
  }
}

=== FILE: confluence.dfy ===
/** The documentation connector's own logic: the post-mortem's title, page
    link and template fills, the timeline-entry insertion, page updates and
    the runbook's create-or-update choice. The wiki is seen through its
    answers: the decoded page or response, or the transport error's text. */
module Confluence {
  import opened Wrappers
  import opened Text
  import opened Values
  import opened Models

  /** The wiki's base URL and the space pages go into. */
  datatype Config = Config(url: string, spaceKey: string)

  const PostmortemPrefix: string := "Post-Mortem: "

  /** `create_postmortem`'s page title: the detection date, then the
      incident's title. */
  function PostmortemTitle(date: string, title: string): (r: string)
    ensures |r| == |PostmortemPrefix| + |date| + 3 + |title|
    ensures r[..|PostmortemPrefix|] == PostmortemPrefix
    ensures r[|PostmortemPrefix|..|PostmortemPrefix| + |date|] == date
    ensures r[|r| - |title|..] == title
  {
    PostmortemPrefix + date + " - " + title
  }

  /** Dates have one fixed width, so a post-mortem title names its date and
      its incident title unambiguously. */
  lemma PostmortemTitleNames(d1: string, t1: string, d2: string, t2: string)
    requires |d1| == |d2|
    requires PostmortemTitle(d1, t1) == PostmortemTitle(d2, t2)
    ensures d1 == d2 && t1 == t2
  {
    var r := PostmortemTitle(d1, t1);
    assert d1 == r[|PostmortemPrefix|..|PostmortemPrefix| + |d1|] == d2;
    assert t1 == r[|r| - |t1|..] == t2;
  }

  /** The part of a page's link before its id. */
  function PagesPath(config: Config): string {
    config.url + "/spaces/" + config.spaceKey + "/pages/"
  }

  /** A page's link: the space's pages path, then the id as `str` shows it. */
  function PageUrl(config: Config, pageId: Value): (r: string)
    ensures IsPrefix(PagesPath(config), r)
    ensures r[|PagesPath(config)|..] == Show(pageId)
  {
    var r := PagesPath(config) + Show(pageId);
    assert r[..|PagesPath(config)|] == PagesPath(config);
    r
  }

  /** Within one space, links to pages are equal exactly when the ids show
      the same. */
  lemma PageUrlNamesPage(config: Config, a: Value, b: Value)
    ensures PageUrl(config, a) == PageUrl(config, b) <==> Show(a) == Show(b)
  {
    var p := PagesPath(config);
    if PageUrl(config, a) == PageUrl(config, b) {
      assert Show(a) == PageUrl(config, a)[|p|..] == Show(b);
    }
  }

  /** The severity's colour in the template, from a table whose fallback
      "#808080" no severity reaches. */
  function SeverityColour(s: Severity): string {
    match s
    case Critical => "#FF0000"
    case High => "#FF6600"
    case Medium => "#FFCC00"
    case Low => "#00CC00"
  }

  /** Severities get different colours, none of them the fallback grey. */
  lemma SeverityColourDistinct(a: Severity, b: Severity)
    ensures SeverityColour(a) != "#808080"
    ensures SeverityColour(a) == SeverityColour(b) ==> a == b
  {
  }

  /** One HTML list item. */
  function ListItem(s: string): string {
    "<li>" + s + "</li>"
  }

  /** The list items of `xs`, in order and with nothing between them. */
  function ListItems(xs: seq<string>): (r: string)
    ensures xs == [] <==> r == ""
    decreases |xs|
  {
    if xs == [] then "" else ListItem(xs[0]) + ListItems(xs[1..])
  }

  /** The items of a concatenation are the items of its parts. */
  lemma {:induction false} ListItemsAppend(xs: seq<string>, ys: seq<string>)
    ensures ListItems(xs + ys) == ListItems(xs) + ListItems(ys)
    decreases |xs|
  {
    if xs != [] {
      assert (xs + ys)[1..] == xs[1..] + ys;
      ListItemsAppend(xs[1..], ys);
    } else {
      assert xs + ys == ys;
    }
  }

  /** Every element of the list has its own item in the markup. */
  lemma {:induction false} ListItemsShowEach(xs: seq<string>, k: nat)
    requires k < |xs|
    ensures Contains(ListItems(xs), ListItem(xs[k]))
    decreases |xs|
  {
    if k == 0 {
      ContainsSelf(ListItem(xs[0]));
      ContainsLeft(ListItem(xs[0]), ListItems(xs[1..]), ListItem(xs[0]));
    } else {
      ListItemsShowEach(xs[1..], k - 1);
      assert xs[1..][k - 1] == xs[k];
      ContainsPrefixed(ListItem(xs[0]), ListItems(xs[1..]), ListItem(xs[k]));
    }
  }

  /** The items of a list, or a single placeholder item for an empty one. */
  function ItemsOr(xs: seq<string>, placeholder: string): (r: string)
    ensures xs == [] ==> r == ListItem(placeholder)
    ensures forall k :: 0 <= k < |xs| ==> Contains(r, ListItem(xs[k]))
    ensures r != ""
  {
    if xs == [] then ListItem(placeholder)
    else
      assert forall k :: 0 <= k < |xs| ==> Contains(ListItems(xs), ListItem(xs[k])) by {
        forall k | 0 <= k < |xs| {
          ListItemsShowEach(xs, k);
        }
      }
      ListItems(xs)
  }

  const ServicesPlaceholder: string := "To be determined"
  const StepsPlaceholder: string := "To be documented"
  const TicketPlaceholder: string := "[TODO: Add ticket number]"
  const HypothesisPlaceholder: string := "[AI analysis pending or not available]"

  /** The values `_build_postmortem_template` fills into its page, in the
      order they appear. */
  datatype PostmortemFills = PostmortemFills(
    id: string,
    colour: string,
    severity: string,
    category: string,
    status: string,
    detected: string,
    ticket: string,
    description: string,
    services: string,
    firstEvent: string,
    hypothesis: string,
    steps: string,
    updated: string)

  /** The fills for an incident; `detected`, `firstEvent` and `updated` are
      the formatted detection time (with and without the zone) and the
      current time. */
  function Fills(incident: Incident, detected: string, firstEvent: string, updated: string): (r: PostmortemFills)
    ensures r.colour != "#808080"
    ensures incident.affectedServices == [] ==> r.services == ListItem(ServicesPlaceholder)
    ensures incident.resolutionSteps == [] ==> r.steps == ListItem(StepsPlaceholder)
    ensures forall k :: 0 <= k < |incident.affectedServices| ==>
      Contains(r.services, ListItem(incident.affectedServices[k]))
    ensures forall k :: 0 <= k < |incident.resolutionSteps| ==>
      Contains(r.steps, ListItem(incident.resolutionSteps[k]))
    ensures Truthy(incident.servicenowTicketId) ==> r.ticket == Show(incident.servicenowTicketId)
    ensures !Truthy(incident.servicenowTicketId) ==> r.ticket == TicketPlaceholder
    ensures Truthy(incident.rootCauseHypothesis) ==> r.hypothesis == Show(incident.rootCauseHypothesis)
    ensures !Truthy(incident.rootCauseHypothesis) ==> r.hypothesis == HypothesisPlaceholder
  {
    SeverityColourDistinct(incident.severity, incident.severity);
    PostmortemFills(
      incident.id,
      SeverityColour(incident.severity),
      incident.severity.Upper(),
      incident.category.Value(),
      incident.status.Value(),
      detected,
      Show(Or(incident.servicenowTicketId, VStr(TicketPlaceholder))),
      incident.description,
      ItemsOr(incident.affectedServices, ServicesPlaceholder),
      firstEvent,
      Show(Or(incident.rootCauseHypothesis, VStr(HypothesisPlaceholder))),
      ItemsOr(incident.resolutionSteps, StepsPlaceholder),
      updated)
  }

  /** The comment that marks where timeline entries go: an opening "<"
      that does not recur in the rest. */
  const MarkerRest: string := "!-- TIMELINE_ENTRIES -->"
  const TimelineMarker: string := "<" + MarkerRest

  /** The rest of the marker has no "<". */
  lemma MarkerRestLacksOpen()
    ensures '<' !in MarkerRest
  {
  }

  /** The marker opens with a character it does not use again. */
  lemma MarkerHeadUnique()
    ensures |TimelineMarker| > 0 && TimelineMarker[0] !in TimelineMarker[1..]
  {
    MarkerRestLacksOpen();
    assert TimelineMarker[1..] == MarkerRest;
  }

  /** The page content up to the timeline marker. */
  function PageHead(f: PostmortemFills): string {
    Join("\n", [f.id, f.colour, f.severity, f.category, f.status, f.detected,
                f.ticket, f.description, f.services, f.firstEvent]) + "\n"
  }

  /** The page content after the timeline marker. */
  function PageTail(f: PostmortemFills): string {
    "\n" + Join("\n", [f.hypothesis, f.steps, f.updated])
  }

  /** The post-mortem page: the fills around the timeline marker, which
      sits after the first timeline row. */
  function PostmortemPage(f: PostmortemFills): (r: string)
    ensures Contains(r, TimelineMarker)
  {
    ContainsMiddle(PageHead(f), TimelineMarker, PageTail(f));
    PageHead(f) + TimelineMarker + PageTail(f)
  }

  /** Every fill shows on the page, on either side of the marker. */
  lemma PostmortemPageShows(f: PostmortemFills)
    ensures var page := PostmortemPage(f);
      && Contains(page, f.id) && Contains(page, f.colour) && Contains(page, f.severity)
      && Contains(page, f.category) && Contains(page, f.status) && Contains(page, f.detected)
      && Contains(page, f.ticket) && Contains(page, f.description) && Contains(page, f.services)
      && Contains(page, f.firstEvent) && Contains(page, f.hypothesis) && Contains(page, f.steps)
      && Contains(page, f.updated)
  {
    var head := [f.id, f.colour, f.severity, f.category, f.status, f.detected,
                 f.ticket, f.description, f.services, f.firstEvent];
    var tail := [f.hypothesis, f.steps, f.updated];
    forall k | 0 <= k < |head|
      ensures Contains(PostmortemPage(f), head[k])
    {
      JoinContainsPart("\n", head, k);
      ContainsLeft(Join("\n", head), "\n", head[k]);
      ContainsLeft(PageHead(f), TimelineMarker, head[k]);
      ContainsLeft(PageHead(f) + TimelineMarker, PageTail(f), head[k]);
    }
    forall k | 0 <= k < |tail|
      ensures Contains(PostmortemPage(f), tail[k])
    {
      JoinContainsPart("\n", tail, k);
      ContainsPrefixed("\n", Join("\n", tail), tail[k]);
      ContainsPrefixed(PageHead(f) + TimelineMarker, PageTail(f), tail[k]);
    }
    assert head[0] == f.id && head[1] == f.colour && head[2] == f.severity && head[3] == f.category;
    assert head[4] == f.status && head[5] == f.detected && head[6] == f.ticket && head[7] == f.description;
    assert head[8] == f.services && head[9] == f.firstEvent;
    assert tail[0] == f.hypothesis && tail[1] == f.steps && tail[2] == f.updated;
  }

  /** `_build_postmortem_template(incident)`: the page for an incident, with
      the formatted detection time (with and without the zone) and the
      current time. */
  function PostmortemBody(incident: Incident, detected: string, firstEvent: string, updated: string): (body: string)
    ensures body == PostmortemPage(Fills(incident, detected, firstEvent, updated))
    ensures Contains(body, TimelineMarker)
    ensures Contains(body, incident.id) && Contains(body, incident.description)
    ensures Contains(body, detected) && Contains(body, firstEvent) && Contains(body, updated)
    ensures forall k :: 0 <= k < |incident.affectedServices| ==>
      Contains(body, ListItem(incident.affectedServices[k]))
    ensures forall k :: 0 <= k < |incident.resolutionSteps| ==>
      Contains(body, ListItem(incident.resolutionSteps[k]))
    ensures incident.affectedServices == [] ==> Contains(body, ListItem(ServicesPlaceholder))
    ensures incident.resolutionSteps == [] ==> Contains(body, ListItem(StepsPlaceholder))
    ensures Contains(body, if Truthy(incident.servicenowTicketId) then Show(incident.servicenowTicketId) else TicketPlaceholder)
    ensures Contains(body, if Truthy(incident.rootCauseHypothesis) then Show(incident.rootCauseHypothesis)
                           else HypothesisPlaceholder)
  {
    var f := Fills(incident, detected, firstEvent, updated);
    var body := PostmortemPage(f);
    PostmortemPageShows(f);
    forall k | 0 <= k < |incident.affectedServices|
      ensures Contains(body, ListItem(incident.affectedServices[k]))
    {
      ContainsTrans(body, f.services, ListItem(incident.affectedServices[k]));
    }
    forall k | 0 <= k < |incident.resolutionSteps|
      ensures Contains(body, ListItem(incident.resolutionSteps[k]))
    {
      ContainsTrans(body, f.steps, ListItem(incident.resolutionSteps[k]));
    }
    body
  }

  const RowIndent: string := "            "
  const CellIndent: string := "                "

  /** One timeline row: time, event in bold, details. */
  function TimelineEntry(stamp: string, event: string, details: string): string {
    "\n" + RowIndent + "<tr>\n"
    + CellIndent + "<td>" + stamp + "</td>\n"
    + CellIndent + "<td><strong>" + event + "</strong></td>\n"
    + CellIndent + "<td>" + details + "</td>\n"
    + RowIndent + "</tr>\n" + RowIndent
  }

  /** `add_incident_timeline_entry`'s edit: every marker becomes the entry
      followed by the marker; without a marker the entry is appended. */
  function TimelineUpdate(current: string, entry: string): (r: string)
    ensures Contains(current, TimelineMarker) ==> Contains(r, entry + "\n" + TimelineMarker)
    ensures Contains(current, TimelineMarker) ==> Contains(r, TimelineMarker)
    ensures !Contains(current, TimelineMarker) ==> r == current + entry
  {
    if Contains(current, TimelineMarker) then
      var r := ReplaceAll(current, TimelineMarker, entry + "\n" + TimelineMarker);
      ReplaceAllKeepsOld(current, TimelineMarker, entry + "\n");
      ContainsTail(r, entry + "\n", TimelineMarker);
      r
    else current + entry
  }

  /** With a single marker, the entry goes just before it and nothing else
      changes. */
  lemma TimelineInsertsBeforeMarker(head: string, tail: string, entry: string)
    requires !Contains(head, TimelineMarker) && !Contains(tail, TimelineMarker)
    ensures TimelineUpdate(head + TimelineMarker + tail, entry) == head + (entry + "\n" + TimelineMarker) + tail
  {
    MarkerHeadUnique();
    ContainsMiddle(head, TimelineMarker, tail);
    ReplaceAllSole(head, TimelineMarker, tail, entry + "\n" + TimelineMarker);
  }

  /** On a page built from the template whose fills carry no marker, a new
      timeline entry lands right after the rows already there. */
  lemma TemplateTimeline(f: PostmortemFills, entry: string)
    requires !Contains(PageHead(f), TimelineMarker) && !Contains(PageTail(f), TimelineMarker)
    ensures TimelineUpdate(PostmortemPage(f), entry)
         == PageHead(f) + (entry + "\n" + TimelineMarker) + PageTail(f)
  {
    TimelineInsertsBeforeMarker(PageHead(f), PageTail(f), entry);
  }

  /** The requests made to the wiki, in order. */
  datatype Request =
    | CreatePage(space: string, title: string, body: string, parentId: Option<string>)
    | FetchPage(pageId: Value)
    | Revise(pageId: Value, newTitle: Value, body: string)
    | FindPage(space: string, title: string)

  /** A created page: its id, link and title. */
  datatype Published = Published(pageId: Value, pageUrl: string, title: string)

  /** `create_postmortem`: one page created in the space under the
      post-mortem title, holding the post-mortem template filled for the
      incident; the link is built from the returned id. `date`, `detected`
      and `firstEvent` are the detection time formatted three ways, and
      `updated` the current time. */
  function CreatePostmortem(config: Config, incident: Incident, date: string,
                            detected: string, firstEvent: string, updated: string,
                            parentId: Option<string>, answer: Result<Dict, string>)
    : (r: (Result<Published, string>, seq<Request>))
    ensures |r.1| == 1 && r.1[0].CreatePage?
    ensures r.1[0].space == config.spaceKey && r.1[0].title == PostmortemTitle(date, incident.title)
    ensures r.1[0].parentId == parentId
    ensures r.1[0].body == PostmortemPage(Fills(incident, detected, firstEvent, updated))
    ensures Contains(r.1[0].body, TimelineMarker)
    ensures r.0.Ok? <==> answer.Ok?
    ensures answer.Err? ==> r.0 == Err(answer.error)
    ensures answer.Ok? ==> r.0.value == Published(At(answer.value, "id"), PageUrl(config, At(answer.value, "id")),
                                                  PostmortemTitle(date, incident.title))
  {
    var title := PostmortemTitle(date, incident.title);
    var calls := [CreatePage(config.spaceKey, title, PostmortemBody(incident, detected, firstEvent, updated), parentId)];
    match answer
    case Err(e) => (Err(e), calls)
    case Ok(result) =>
      var pageId := At(result, "id");
      (Ok(Published(pageId, PageUrl(config, pageId), title)), calls)
  }

  /** `update_page`: the page is fetched, then revised with the new body
      under the given title, or its own title when none is given. */
  function UpdatePage(pageId: Value, content: string, title: Option<string>,
                      page: Result<Dict, string>, update: Result<(), string>)
    : (r: (Result<Value, string>, seq<Request>))
    ensures |r.1| >= 1 && r.1[0] == FetchPage(pageId)
    ensures page.Err? ==> r == (Err(page.error), [FetchPage(pageId)])
    ensures page.Ok? ==> |r.1| == 2 && r.1[1].Revise? && r.1[1].pageId == pageId && r.1[1].body == content
    ensures page.Ok? && title.Some? && title.value != "" ==> r.1[1].newTitle == VStr(title.value)
    ensures page.Ok? && (title.None? || title.value == "") ==> r.1[1].newTitle == At(page.value, "title")
    ensures r.0.Ok? <==> page.Ok? && update.Ok?
    ensures r.0.Ok? ==> r.0.value == pageId
  {
    match page
    case Err(e) => (Err(e), [FetchPage(pageId)])
    case Ok(p) =>
      var newTitle := if title.Some? && title.value != "" then VStr(title.value) else At(p, "title");
      var calls := [FetchPage(pageId), Revise(pageId, newTitle, content)];
      match update
      case Err(e) => (Err(e), calls)
      case Ok(_) => (Ok(pageId), calls)
  }

  /** What `marker in v` followed by the edit raises for a stored value
      that is not a string: a container holding the marker has no
      `replace`, one without it cannot be concatenated with the entry, and
      the other values cannot be searched. */
  function ContentError(v: Value): string {
    match v
    case VList(items) =>
      if VStr(TimelineMarker) in items then "'list' object has no attribute 'replace'"
      else "can only concatenate list (not \"str\") to list"
    case VDict(entries) =>
      if HasKey(entries, TimelineMarker) then "'dict' object has no attribute 'replace'"
      else "unsupported operand type(s) for +: 'dict' and 'str'"
    case _ => "argument of type '" + TypeName(v) + "' is not iterable"
  }

  /** The page's stored body, `page["body"]["storage"]["value"]` with empty
      defaults along the way. */
  function StoredContent(page: Dict): (r: Result<string, string>)
    ensures !HasKey(page, "body") ==> r == Ok("")
    ensures r.Ok? ==> SubDict(page, "body").Ok?
  {
    match SubDict(page, "body")
    case Err(e) => Err(e)
    case Ok(body) =>
      match SubDict(body, "storage")
      case Err(e) => Err(e)
      case Ok(storage) =>
        var v := GetOr(storage, "value", VStr(""));
        if v.VStr? then Ok(v.s) else Err(ContentError(v))
  }

  /** `add_incident_timeline_entry`: the page is fetched with its body, the
      entry is placed by the marker, and the page is updated (which fetches
      it once more for its title). */
  function AddTimelineEntry(pageId: string, stamp: string, event: string, details: string,
                            page: Result<Dict, string>, refetch: Result<Dict, string>, update: Result<(), string>)
    : (r: (Result<Value, string>, seq<Request>))
    ensures |r.1| >= 1 && r.1[0] == FetchPage(VStr(pageId))
    ensures page.Err? ==> r == (Err(page.error), [FetchPage(VStr(pageId))])
    ensures page.Ok? && StoredContent(page.value).Err? ==> r == (Err(StoredContent(page.value).error), [FetchPage(VStr(pageId))])
    ensures page.Ok? && StoredContent(page.value).Ok? ==>
      var edited := TimelineUpdate(StoredContent(page.value).value, TimelineEntry(stamp, event, details));
      r == (UpdatePage(VStr(pageId), edited, None, refetch, update).0,
            [FetchPage(VStr(pageId))] + UpdatePage(VStr(pageId), edited, None, refetch, update).1)
  {
    match page
    case Err(e) => (Err(e), [FetchPage(VStr(pageId))])
    case Ok(p) =>
      match StoredContent(p)
      case Err(e) => (Err(e), [FetchPage(VStr(pageId))])
      case Ok(current) =>
        var edited := TimelineUpdate(current, TimelineEntry(stamp, event, details));
        var u := UpdatePage(VStr(pageId), edited, None, refetch, update);
        (u.0, [FetchPage(VStr(pageId))] + u.1)
  }

  /** When every answer succeeds on a page with a marker, the page is
      fetched twice and revised with the entry just before a marker. */
  lemma TimelineEntryStored(pageId: string, stamp: string, event: string, details: string,
                            page: Dict, refetch: Dict, current: string)
    requires StoredContent(page) == Ok(current)
    requires Contains(current, TimelineMarker)
    ensures var r := AddTimelineEntry(pageId, stamp, event, details, Ok(page), Ok(refetch), Ok(()));
      && r.0 == Ok(VStr(pageId)) && |r.1| == 3 && r.1[2].Revise?
      && Contains(r.1[2].body, TimelineEntry(stamp, event, details) + "\n" + TimelineMarker)
  {
  }

  /** The runbook's page body, from its title, incident type, steps (with no
      placeholder when there are none) and the current time. */
  function RunbookPage(title: string, incidentType: string, steps: seq<string>, updated: string): (r: string)
    ensures IsPrefix(title + "\n" + incidentType + "\n", r)
  {
    var r := title + "\n" + incidentType + "\n" + (incidentType + "\n" + ListItems(steps) + "\n" + updated);
    assert r[..|title + "\n" + incidentType + "\n"|] == title + "\n" + incidentType + "\n";
    r
  }

  /** How a runbook was saved: as a new page, or over an existing one. */
  datatype Saved = Created(pageId: Value, pageUrl: string) | Updated(pageId: Value)

  /** A page found by title, truthy when it is a non-empty dict. */
  predicate Found(existing: Option<Dict>) {
    existing.Some? && |existing.value| > 0
  }

  /** The text of the `KeyError` that reading a missing "id" raises. */
  const MissingId: string := "'id'"

  /** `create_runbook`: the space is searched for a page with the title; a
      found page is updated in place, otherwise a new page is created. */
  function CreateRunbook(config: Config, title: string, incidentType: string, steps: seq<string>,
                         parentId: Option<string>, updated: string,
                         existing: Result<Option<Dict>, string>,
                         page: Result<Dict, string>, update: Result<(), string>, created: Result<Dict, string>)
    : (r: (Result<Saved, string>, seq<Request>))
    ensures |r.1| >= 1 && r.1[0] == FindPage(config.spaceKey, title)
    ensures existing.Err? ==> r == (Err(existing.error), [FindPage(config.spaceKey, title)])
    ensures existing.Ok? && Found(existing.value) ==>
      (forall i :: 0 <= i < |r.1| ==> !r.1[i].CreatePage?)
      && (r.0.Ok? ==> r.0.value == Updated(At(existing.value.value, "id")))
    ensures existing.Ok? && Found(existing.value) && !HasKey(existing.value.value, "id") ==>
      r == (Err(MissingId), [FindPage(config.spaceKey, title)])
    ensures existing.Ok? && !Found(existing.value) ==>
      r.1 == [FindPage(config.spaceKey, title),
              CreatePage(config.spaceKey, title, RunbookPage(title, incidentType, steps, updated), parentId)]
      && (r.0.Ok? <==> created.Ok?)
      && (r.0.Ok? ==> r.0.value == Created(At(created.value, "id"), PageUrl(config, At(created.value, "id"))))
  {
    var content := RunbookPage(title, incidentType, steps, updated);
    var find := [FindPage(config.spaceKey, title)];
    match existing
    case Err(e) => (Err(e), find)
    case Ok(found) =>
      if Found(found) then
        match Get(found.value, "id")
        case None => (Err(MissingId), find)
        case Some(id) =>
          var u := UpdatePage(id, content, Some(title), page, update);
          (if u.0.Ok? then Ok(Updated(u.0.value)) else Err(u.0.error), find + u.1)
      else
        var calls := find + [CreatePage(config.spaceKey, title, content, parentId)];
        match created
        case Err(e) => (Err(e), calls)
        case Ok(result) =>
          var pageId := At(result, "id");
          (Ok(Created(pageId, PageUrl(config, pageId))), calls)
  }

  /** An existing runbook keeps its title: the revision names the page's
      id and the runbook's title, and carries the new body. */
  lemma RunbookRevisesExisting(config: Config, title: string, incidentType: string, steps: seq<string>,
                               parentId: Option<string>, updated: string, found: Dict,
                               page: Dict, update: Result<(), string>, created: Result<Dict, string>)
    requires |found| > 0 && HasKey(found, "id") && title != ""
    ensures var r := CreateRunbook(config, title, incidentType, steps, parentId, updated,
                                   Ok(Some(found)), Ok(page), update, created);
      r.1 == [FindPage(config.spaceKey, title), FetchPage(At(found, "id")),
              Revise(At(found, "id"), VStr(title), RunbookPage(title, incidentType, steps, updated))]
  {
  }
}

=== FILE: github_connector.dfy ===
/** The source-hosting connector's own logic: issue labels and body, commit
    relevance, the order and caps of the commit analysis, the deployment and
    workflow-run filters, and the missing-repository guard. The hosting
    service is seen through the answers it gives: the repository lookup
    (absent when the lookup fails) and, for a repository, its commit,
    deployment and run listings, each a list or an error. */
module GitHubConnector {
  import opened Wrappers
  import opened Text
  import opened Values
  import opened Models
  import opened Selection

  /** `_get_incident_labels`: "incident", the severity label, and the
      category unless it is unknown. */
  function IncidentLabels(incident: Incident): (r: seq<string>)
    ensures |r| == if incident.category == Unknown then 2 else 3
    ensures r[0] == "incident" && r[1] == "severity:" + incident.severity.Value()
    ensures incident.category != Unknown ==> r[2] == incident.category.Value()
  {
    ["incident", "severity:" + incident.severity.Value()]
    + (if incident.category.Value() != "unknown" then [incident.category.Value()] else [])
  }

  /** No label is repeated. */
  lemma IncidentLabelsDistinct(incident: Incident)
    ensures NoDup(IncidentLabels(incident))
  {
    var r := IncidentLabels(incident);
    assert r[1][0] == 's';
    if |r| == 3 {
      assert r[2] == incident.category.Value();
      match incident.category
      case Infrastructure =>
      case Application =>
      case Database =>
      case Network =>
      case Security => assert r[2][1] == 'e' && r[1][1] == 'e' && r[2][2] == 'c' && r[1][2] == 'v';
      case Performance =>
      case Integration =>
    }
  }

  /** The affected-services section: a heading, one bullet per service
      and a blank line, or nothing for no services. */
  function ServicesSection(services: seq<string>): (r: seq<string>)
    ensures |services| == 0 ==> r == []
    ensures |services| > 0 ==> |r| == |services| + 3 && r[0] == "## Affected Services" && r[|r| - 1] == ""
    ensures forall k :: 0 <= k < |services| ==> r[2 + k] == "- " + services[k]
  {
    if |services| > 0 then
      ["## Affected Services", ""] + seq(|services|, k requires 0 <= k < |services| => "- " + services[k]) + [""]
    else []
  }

  /** The hypothesis section, present exactly when a hypothesis is set. */
  function HypothesisSection(h: Value): (r: seq<string>)
    requires Truthy(h) ==> h.VStr?
    ensures |r| == if Truthy(h) then 4 else 0
    ensures Truthy(h) ==> r[0] == "## Root Cause Hypothesis" && r[2] == h.s
  {
    if Truthy(h) then ["## Root Cause Hypothesis", "", h.s, ""] else []
  }

  /** The details section: severity, category, status, detection time and
      the description. */
  function DetailsSection(incident: Incident, detected: string): (r: seq<string>)
    ensures |r| == 11 && r[0] == "## Incident Details"
    ensures r[2] == "**Severity:** " + incident.severity.Upper() && r[9] == incident.description
  {
    ["## Incident Details", "",
     "**Severity:** " + incident.severity.Upper(),
     "**Category:** " + incident.category.Value(),
     "**Status:** " + incident.status.Value(),
     "**Detected:** " + detected,
     "", "## Description", "", incident.description, ""]
  }

  /** The footer line naming the generator. */
  const IssueFooter: string := "*Auto-generated by Enterprise Workflow Choreographer*"

  /** The lines of `_build_issue_body`: the details, the optional sections,
      and the footer naming the internal id. A hypothesis that is set but is
      not a string makes the join raise. */
  function IssueBodyParts(incident: Incident, detected: string): (r: Result<seq<string>, string>)
    ensures r.Err? <==> Truthy(incident.rootCauseHypothesis) && !incident.rootCauseHypothesis.VStr?
    ensures r.Err? ==>
      r.error == JoinItemError(incident.rootCauseHypothesis, 11 + |ServicesSection(incident.affectedServices)| + 2)
    ensures r.Ok? ==>
      var services := ServicesSection(incident.affectedServices);
      var n := 11 + |services| + |HypothesisSection(incident.rootCauseHypothesis)| + 3;
      && |r.value| == n
      && r.value[2] == "**Severity:** " + incident.severity.Upper()
      && r.value[9] == incident.description
      && r.value[11..11 + |services|] == services
      && r.value[11 + |services|..n - 3] == HypothesisSection(incident.rootCauseHypothesis)
      && r.value[n - 1] == "*Internal ID: " + incident.id + "*"
  {
    var h := incident.rootCauseHypothesis;
    if Truthy(h) && !h.VStr? then Err(JoinItemError(h, 11 + |ServicesSection(incident.affectedServices)| + 2))
    else
      var details := DetailsSection(incident, detected);
      var services := ServicesSection(incident.affectedServices);
      var hypothesis := HypothesisSection(h);
      var footer := ["---", IssueFooter, "*Internal ID: " + incident.id + "*"];
      var r := details + services + hypothesis + footer;
      assert r[11..11 + |services|] == services;
      assert r[11 + |services|..|r| - 3] == hypothesis;
      Ok(r)
  }

  /** No line holds a newline of its own. */
  predicate SingleLines(parts: seq<string>) {
    forall k :: 0 <= k < |parts| ==> '\n' !in parts[k]
  }

  /** `_build_issue_body`: the lines joined by newlines; when no field holds
      a newline, the body's lines are exactly the parts. */
  function IssueBody(incident: Incident, detected: string): (r: Result<string, string>)
    ensures r.Ok? <==> IssueBodyParts(incident, detected).Ok?
    ensures r.Ok? && SingleLines(IssueBodyParts(incident, detected).value) ==>
      Split(r.value, '\n') == IssueBodyParts(incident, detected).value
  {
    var parts :- IssueBodyParts(incident, detected);
    if SingleLines(parts) then JoinSplit(parts, '\n'); Ok(Join("\n", parts))
    else Ok(Join("\n", parts))
  }

  /** A commit as the hosting service lists it. The author's time is a clock
      reading; commits without an author are not modelled. */
  datatype RawCommit = RawCommit(sha: string, message: string, author: string, date: Time, url: string,
                                 files: seq<string>)

  /** How a commit relates to the affected paths. */
  datatype Relevance = PathHit(matchingPath: string) | PathMiss | NoPaths

  /** Some changed file name contains the path. */
  predicate Touches(files: seq<string>, path: string) {
    exists f :: 0 <= f < |files| && Contains(files[f], path)
  }

  /** The first affected path some changed file contains. */
  function FirstTouched(paths: seq<string>, files: seq<string>): (r: Option<string>)
    ensures r.None? <==> forall k :: 0 <= k < |paths| ==> !Touches(files, paths[k])
    ensures r.Some? ==> exists k :: (0 <= k < |paths| && paths[k] == r.value && Touches(files, paths[k])
      && forall j :: 0 <= j < k ==> !Touches(files, paths[j]))
    decreases |paths|
  {
    if |paths| == 0 then None
    else if Touches(files, paths[0]) then Some(paths[0])
    else
      assert forall k :: 1 <= k < |paths| ==> paths[1..][k - 1] == paths[k];
      FirstTouched(paths[1..], files)
  }

  /** The relevance of a commit: high with the first affected path it
      touches, low when paths are given and it touches none, and "unknown"
      when no paths are given. */
  function RelevanceOf(paths: seq<string>, files: seq<string>): (r: Relevance)
    ensures r.NoPaths? <==> paths == []
    ensures r.PathMiss? <==> paths != [] && forall k :: 0 <= k < |paths| ==> !Touches(files, paths[k])
    ensures r.PathHit? ==> Some(r.matchingPath) == FirstTouched(paths, files)
  {
    if paths == [] then NoPaths
    else
      var hit := FirstTouched(paths, files);
      if hit.Some? then PathHit(hit.value) else PathMiss
  }

  /** A commit as the analysis reports it. */
  datatype CommitInfo = CommitInfo(sha: string, message: string, author: string, date: Time, url: string,
                                   relevance: Relevance)

  /** The report for one commit: the short sha, the first line of the
      message cut to 100 characters, and its relevance. */
  function InfoOf(c: RawCommit, paths: seq<string>): (r: CommitInfo)
    ensures |r.sha| <= 8 && |r.message| <= 100 && '\n' !in r.message
    ensures r.sha <= c.sha
  {
    var firstLine := Split(c.message, '\n')[0];
    CommitInfo(Take(c.sha, 8), Take(firstLine, 100), c.author, c.date, c.url, RelevanceOf(paths, c.files))
  }

  function InfosOf(cs: seq<RawCommit>, paths: seq<string>): (r: seq<CommitInfo>)
    ensures |r| == |cs| && forall i :: 0 <= i < |cs| ==> r[i] == InfoOf(cs[i], paths)
  {
    seq(|cs|, i requires 0 <= i < |cs| => InfoOf(cs[i], paths))
  }

  /** The sort key `(relevance == "high", date)` in descending order: `a`
      may come before `b`. */
  predicate Ahead(a: CommitInfo, b: CommitInfo) {
    (a.relevance.PathHit? && !b.relevance.PathHit?) || (a.relevance.PathHit? == b.relevance.PathHit? && a.date >= b.date)
  }

  predicate SortedDesc(s: seq<CommitInfo>) {
    forall i, j :: 0 <= i < j < |s| ==> Ahead(s[i], s[j])
  }

  /** Place `x` before the first commit it may precede. */
  function Insert(x: CommitInfo, s: seq<CommitInfo>): (r: seq<CommitInfo>)
    requires SortedDesc(s)
    ensures SortedDesc(r)
    ensures multiset(r) == multiset(s) + multiset{x}
    decreases |s|
  {
    if |s| == 0 then [x]
    else if Ahead(x, s[0]) then [x] + s
    else
      var rest := Insert(x, s[1..]);
      InsertStep(x, s, rest);
      [s[0]] + rest
  }

  /** The head of a sorted list may precede whatever the insertion into its
      tail produced, when `x` may not precede the head. */
  lemma InsertStep(x: CommitInfo, s: seq<CommitInfo>, rest: seq<CommitInfo>)
    requires |s| > 0 && SortedDesc(s) && !Ahead(x, s[0])
    requires SortedDesc(rest) && multiset(rest) == multiset(s[1..]) + multiset{x}
    ensures SortedDesc([s[0]] + rest)
    ensures multiset([s[0]] + rest) == multiset(s) + multiset{x}
  {
    assert s == [s[0]] + s[1..];
    forall i | 0 <= i < |rest| ensures Ahead(s[0], rest[i]) {
      assert rest[i] in multiset(rest);
      if rest[i] != x {
        assert rest[i] in multiset(s[1..]);
        var j :| 0 <= j < |s[1..]| && s[1..][j] == rest[i];
        assert s[j + 1] == rest[i];
      }
    }
  }

  /** `relevant_commits.sort(key=..., reverse=True)`: the same commits,
      high-relevance ones first, newest first within each group. */
  function SortCommits(s: seq<CommitInfo>): (r: seq<CommitInfo>)
    ensures SortedDesc(r)
    ensures multiset(r) == multiset(s)
    decreases |s|
  {
    if |s| == 0 then []
    else
      assert s == [s[0]] + s[1..];
      Insert(s[0], SortCommits(s[1..]))
  }

  /** In a sorted list every high-relevance commit precedes every other. */
  lemma SortedHighFirst(s: seq<CommitInfo>, i: nat, j: nat)
    requires SortedDesc(s) && i < j < |s|
    ensures s[j].relevance.PathHit? ==> s[i].relevance.PathHit?
  {
  }

  /** How many commits are of high relevance. */
  function HighCount(s: seq<CommitInfo>): (n: nat)
    ensures n <= |s|
    ensures n == 0 <==> forall i :: 0 <= i < |s| ==> !s[i].relevance.PathHit?
    decreases |s|
  {
    if |s| == 0 then 0
    else
      assert forall i :: 1 <= i < |s| ==> s[1..][i - 1] == s[i];
      (if s[0].relevance.PathHit? then 1 else 0) + HighCount(s[1..])
  }

  /** What `analyze_recent_commits` returns on success. */
  datatype CommitAnalysis = CommitAnalysis(totalCommits: nat, analyzedCommits: nat, commits: seq<CommitInfo>,
                                           highRelevanceCount: nat)

  /** The requests made to the hosting service, in order. */
  datatype Request =
    | GetRepo(name: string)
    | ListCommits(name: string, hoursBack: nat)
    | ListDeployments(name: string)
    | ListRuns(name: string, status: Option<string>)
    | CreateIssue(name: string, title: string, body: string, labels: seq<string>)

  /** A repository's answers to the listing requests. */
  datatype Repository = Repository(
    commits: Result<seq<RawCommit>, string>,
    deployments: Result<seq<RawDeployment>, string>,
    runs: Result<seq<RawRun>, string>,
    issue: Result<Value, string>)

  function NotFound(name: string): string {
    "Repository not found: " + name
  }

  /** `analyze_recent_commits`: the first 50 commits of the window are
      analysed, sorted, and the first 20 returned; a missing repository is
      reported without listing anything. */
  function AnalyzeRecentCommits(name: string, hoursBack: nat, paths: seq<string>, repo: Option<Repository>)
    : (r: (Result<CommitAnalysis, string>, seq<Request>))
    ensures repo.None? ==> r == (Err(NotFound(name)), [GetRepo(name)])
    ensures repo.Some? ==> r.1 == [GetRepo(name), ListCommits(name, hoursBack)]
    ensures repo.Some? && repo.value.commits.Err? ==> r.0 == Err(repo.value.commits.error)
    ensures r.0.Ok? ==>
      var raw := repo.value.commits.value;
      var a := r.0.value;
      && a.totalCommits == |raw|
      && a.analyzedCommits == |Take(raw, 50)|
      && |a.commits| == |Take(raw, 20)|
      && SortedDesc(a.commits)
      && a.commits <= SortCommits(InfosOf(Take(raw, 50), paths))
      && a.highRelevanceCount == HighCount(InfosOf(Take(raw, 50), paths))
      && (forall c :: c in a.commits ==> c in InfosOf(Take(raw, 50), paths))
  {
    if repo.None? then (Err(NotFound(name)), [GetRepo(name)])
    else
      var calls := [GetRepo(name), ListCommits(name, hoursBack)];
      match repo.value.commits
      case Err(e) => (Err(e), calls)
      case Ok(raw) =>
        var infos := InfosOf(Take(raw, 50), paths);
        var sorted := SortCommits(infos);
        SortedPrefix(sorted, 20);
        assert forall c :: c in Take(sorted, 20) ==> c in multiset(sorted);
        (Ok(CommitAnalysis(|raw|, |infos|, Take(sorted, 20), HighCount(infos))), calls)
  }

  /** A prefix of a sorted list is sorted. */
  lemma SortedPrefix(s: seq<CommitInfo>, n: nat)
    requires SortedDesc(s)
    ensures SortedDesc(Take(s, n))
  {
  }

  /** When a returned commit is not of high relevance, no high-relevance
      commit of the analysed ones was cut off by the limit of 20. */
  lemma NoHighCommitDropped(name: string, hoursBack: nat, paths: seq<string>, repo: Option<Repository>, j: nat)
    requires AnalyzeRecentCommits(name, hoursBack, paths, repo).0.Ok?
    requires j < |AnalyzeRecentCommits(name, hoursBack, paths, repo).0.value.commits|
    requires !AnalyzeRecentCommits(name, hoursBack, paths, repo).0.value.commits[j].relevance.PathHit?
    ensures var a := AnalyzeRecentCommits(name, hoursBack, paths, repo).0.value;
      HighCount(a.commits) == a.highRelevanceCount
  {
    var raw := repo.value.commits.value;
    var infos := InfosOf(Take(raw, 50), paths);
    var sorted := SortCommits(infos);
    var kept := Take(sorted, 20);
    HighCountSort(infos);
    HighCountSplit(sorted, |kept|);
    assert sorted[..|kept|] == kept;
    assert sorted[j] == kept[j];
    forall i | |kept| <= i < |sorted| ensures !sorted[i].relevance.PathHit? {
      SortedHighFirst(sorted, j, i);
    }
    HighCountNone(sorted[|kept|..]);
  }

  /** The high count of a list is that of a prefix plus that of the rest. */
  lemma {:induction false} HighCountSplit(s: seq<CommitInfo>, n: nat)
    requires n <= |s|
    ensures HighCount(s) == HighCount(s[..n]) + HighCount(s[n..])
    decreases n
  {
    if n > 0 {
      var head := if s[0].relevance.PathHit? then 1 else 0;
      HighCountSplit(s[1..], n - 1);
      assert s[1..][..n - 1] == s[..n][1..];
      assert s[1..][n - 1..] == s[n..];
      assert HighCount(s) == head + HighCount(s[1..]);
      assert s[..n][0] == s[0];
      assert HighCount(s[..n]) == head + HighCount(s[..n][1..]);
    }
  }

  lemma HighCountNone(s: seq<CommitInfo>)
    requires forall i :: 0 <= i < |s| ==> !s[i].relevance.PathHit?
    ensures HighCount(s) == 0
  {
  }

  /** Inserting a commit adds its own relevance to the high count. */
  lemma {:induction false} HighCountInsert(x: CommitInfo, s: seq<CommitInfo>)
    requires SortedDesc(s)
    ensures HighCount(Insert(x, s)) == HighCount(s) + (if x.relevance.PathHit? then 1 else 0)
    decreases |s|
  {
    if |s| > 0 && !Ahead(x, s[0]) {
      HighCountInsert(x, s[1..]);
      assert ([s[0]] + Insert(x, s[1..]))[1..] == Insert(x, s[1..]);
    }
  }

  /** Sorting keeps the high count. */
  lemma {:induction false} HighCountSort(s: seq<CommitInfo>)
    ensures HighCount(SortCommits(s)) == HighCount(s)
    decreases |s|
  {
    if |s| > 0 {
      HighCountSort(s[1..]);
      HighCountInsert(s[0], SortCommits(s[1..]));
    }
  }

  /** A deployment as the hosting service lists it, with its statuses
      newest first. */
  datatype RawDeployment = RawDeployment(id: int, environment: string, ref: string, creator: Option<string>,
                                         statuses: seq<string>, description: Value)

  /** A deployment as reported: its latest status, "unknown" without one. */
  datatype DeploymentInfo = DeploymentInfo(id: int, environment: string, ref: string, creator: string,
                                           status: string, description: Value)

  function DeploymentInfoOf(d: RawDeployment): (r: DeploymentInfo)
    ensures r.id == d.id && r.environment == d.environment
    ensures r.status == if |d.statuses| > 0 then d.statuses[0] else "unknown"
    ensures r.creator == if d.creator.Some? then d.creator.value else "Unknown"
  {
    DeploymentInfo(d.id, d.environment, d.ref, d.creator.GetOr("Unknown"),
                   if |d.statuses| > 0 then d.statuses[0] else "unknown", d.description)
  }

  /** The deployments kept by the environment filter (an empty filter keeps
      every one), in order. */
  function FilterDeployments(ds: seq<RawDeployment>, environment: string): (r: seq<DeploymentInfo>)
    ensures |r| <= |ds|
    ensures forall x :: x in r ==> environment == "" || x.environment == environment
    ensures forall x :: x in r ==> exists i :: 0 <= i < |ds| && x == DeploymentInfoOf(ds[i])
    ensures forall i :: 0 <= i < |ds| && (environment == "" || ds[i].environment == environment) ==>
      DeploymentInfoOf(ds[i]) in r
    ensures environment == "" ==> |r| == |ds|
    decreases |ds|
  {
    if |ds| == 0 then []
    else
      var rest := FilterDeployments(ds[1..], environment);
      assert forall i :: 1 <= i < |ds| ==> ds[1..][i - 1] == ds[i];
      if environment != "" && ds[0].environment != environment then rest
      else [DeploymentInfoOf(ds[0])] + rest
  }

  /** `get_recent_deployments`: of the first ten deployments, those in the
      requested environment. */
  function GetRecentDeployments(name: string, environment: string, repo: Option<Repository>)
    : (r: (Result<seq<DeploymentInfo>, string>, seq<Request>))
    ensures repo.None? ==> r == (Err(NotFound(name)), [GetRepo(name)])
    ensures repo.Some? ==> r.1 == [GetRepo(name), ListDeployments(name)]
    ensures r.0.Ok? ==> repo.Some? && repo.value.deployments.Ok?
    ensures r.0.Ok? ==>
      && |r.0.value| <= 10
      && (forall x :: x in r.0.value ==> environment == "" || x.environment == environment)
      && (forall x :: x in r.0.value ==>
            exists i :: 0 <= i < |Take(repo.value.deployments.value, 10)| &&
              x == DeploymentInfoOf(repo.value.deployments.value[i]))
      && forall i :: 0 <= i < |Take(repo.value.deployments.value, 10)| ==>
           var d := repo.value.deployments.value[i];
           environment == "" || d.environment == environment ==> DeploymentInfoOf(d) in r.0.value
  {
    if repo.None? then (Err(NotFound(name)), [GetRepo(name)])
    else
      var calls := [GetRepo(name), ListDeployments(name)];
      match repo.value.deployments
      case Err(e) => (Err(e), calls)
      case Ok(ds) =>
        var first := Take(ds, 10);
        assert forall i :: 0 <= i < |first| ==> first[i] == ds[i];
        (Ok(FilterDeployments(first, environment)), calls)
  }

  /** A workflow run; its conclusion is `None` while it runs. */
  datatype RawRun = RawRun(id: int, name: string, status: string, conclusion: Option<string>, branch: string)

  /** How many runs concluded in failure. */
  function FailureCount(runs: seq<RawRun>): (n: nat)
    ensures n <= |runs|
    ensures n == 0 <==> forall i :: 0 <= i < |runs| ==> runs[i].conclusion != Some("failure")
    ensures n == |runs| <==> forall i :: 0 <= i < |runs| ==> runs[i].conclusion == Some("failure")
    decreases |runs|
  {
    if |runs| == 0 then 0
    else
      assert forall i :: 1 <= i < |runs| ==> runs[1..][i - 1] == runs[i];
      (if runs[0].conclusion == Some("failure") then 1 else 0) + FailureCount(runs[1..])
  }

  /** What `get_workflow_runs` returns on success. */
  datatype RunReport = RunReport(runs: seq<RawRun>, failureCount: nat)

  /** `get_workflow_runs`: the first 20 runs of the (optionally filtered)
      listing, and how many of them failed. */
  function GetWorkflowRuns(name: string, status: Option<string>, repo: Option<Repository>)
    : (r: (Result<RunReport, string>, seq<Request>))
    ensures repo.None? ==> r == (Err(NotFound(name)), [GetRepo(name)])
    ensures repo.Some? ==> r.1 == [GetRepo(name), ListRuns(name, status)]
    ensures r.0.Ok? ==> repo.Some? && repo.value.runs.Ok?
    ensures r.0.Ok? ==>
      && r.0.value.runs == Take(repo.value.runs.value, 20)
      && r.0.value.failureCount <= |r.0.value.runs| <= 20
      && (r.0.value.failureCount == 0 <==> forall x :: x in r.0.value.runs ==> x.conclusion != Some("failure"))
  {
    if repo.None? then (Err(NotFound(name)), [GetRepo(name)])
    else
      var calls := [GetRepo(name), ListRuns(name, status)];
      match repo.value.runs
      case Err(e) => (Err(e), calls)
      case Ok(runs) =>
        var kept := Take(runs, 20);
        (Ok(RunReport(kept, FailureCount(kept))), calls)
  }

  /** `create_incident_issue`: a missing repository is reported without any
      further request; otherwise one issue is created, titled after the
      incident, with the built body and the incident's labels. */
  function CreateIncidentIssue(name: string, incident: Incident, detected: string, repo: Option<Repository>)
    : (r: (Result<Value, string>, seq<Request>))
    ensures repo.None? ==> r == (Err(NotFound(name)), [GetRepo(name)])
    ensures repo.Some? && IssueBody(incident, detected).Err? ==> r == (Err(IssueBody(incident, detected).error), [GetRepo(name)])
    ensures repo.Some? && IssueBody(incident, detected).Ok? ==>
      r.1 == [GetRepo(name), CreateIssue(name, "[INCIDENT] " + incident.title, IssueBody(incident, detected).value,
                                         IncidentLabels(incident))]
      && r.0 == repo.value.issue
  {
    if repo.None? then (Err(NotFound(name)), [GetRepo(name)])
    else
      match IssueBody(incident, detected)
      case Err(e) => (Err(e), [GetRepo(name)])
      case Ok(body) =>
        (repo.value.issue, [GetRepo(name), CreateIssue(name, "[INCIDENT] " + incident.title, body, IncidentLabels(incident))])
  }
}

=== FILE: incident_agent.dfy ===
/** The incident agent: keyword classification, reading an alert's title,
    description and tags from the shapes different monitoring tools send,
    enriching an incident with more services, components and tags, and
    building the incident for an incoming alert. */
module IncidentAgent {
  import opened Wrappers
  import opened Text
  import opened Values
  import opened Models
  import opened Selection
  import opened Orchestrator

  /** The severity keyword table, searched in this order. */
  const SeverityKeywords: seq<(Severity, seq<string>)> := [
    (Critical, ["critical", "fatal", "emergency", "outage", "down",
                "production down", "data loss", "security breach"]),
    (High, ["high", "severe", "major", "degraded", "failing",
            "error rate spike", "latency", "timeout"]),
    (Medium, ["medium", "warning", "elevated", "increased", "performance", "slow"]),
    (Low, ["low", "minor", "info", "informational", "notice"])]

  /** The category keyword table, scored in this order. */
  const CategoryKeywords: seq<(Category, seq<string>)> := [
    (Database, ["database", "db", "sql", "postgres", "mysql", "mongodb",
                "connection pool", "query", "deadlock", "replication"]),
    (Infrastructure, ["server", "vm", "container", "kubernetes", "k8s", "pod",
                      "node", "cluster", "disk", "memory", "cpu"]),
    (Network, ["network", "dns", "load balancer", "firewall", "timeout",
               "connection refused", "unreachable", "latency"]),
    (Security, ["security", "unauthorized", "breach", "attack", "vulnerability",
                "authentication", "permission", "access denied"]),
    (Application, ["application", "api", "service", "endpoint", "error",
                   "exception", "crash", "null pointer"]),
    (Performance, ["performance", "slow", "latency", "response time",
                   "throughput", "bottleneck", "queue"])]

  /** The text the keywords are looked for in. */
  function ClassificationText(title: string, description: string): string {
    Lower(title + " " + description)
  }

  /** How many of the keywords occur in the text. */
  function MatchCount(text: string, keywords: seq<string>): (n: nat)
    ensures n <= |keywords|
    ensures n == 0 <==> !Mentions(text, keywords)
    decreases |keywords|
  {
    if |keywords| == 0 then 0
    else
      var rest := MatchCount(text, keywords[1..]);
      assert forall k :: 1 <= k < |keywords| ==> keywords[1..][k - 1] == keywords[k];
      (if Contains(text, keywords[0]) then 1 else 0) + rest
  }

  /** The score of the k-th category of a table. */
  function Score(text: string, table: seq<(Category, seq<string>)>, k: nat): nat
    requires k < |table|
  {
    MatchCount(text, table[k].1)
  }

  /** The k-th category of the table scores above zero, strictly above
      every category before it, and at least as high as every one after it. */
  predicate FirstBest(text: string, table: seq<(Category, seq<string>)>, k: nat)
    requires k < |table|
  {
    && Score(text, table, k) > 0
    && (forall j :: 0 <= j < k ==> Score(text, table, j) < Score(text, table, k))
    && (forall j :: k < j < |table| ==> Score(text, table, j) <= Score(text, table, k))
  }

  /** The severity `quick_classify` picks: that of the first level of the
      table with a keyword in the text, medium when no level has one. */
  method ClassifySeverity(text: string, table: seq<(Severity, seq<string>)>) returns (severity: Severity)
    ensures (forall k :: 0 <= k < |table| ==> !Mentions(text, table[k].1)) ==> severity == Medium
    ensures (exists k :: 0 <= k < |table| && Mentions(text, table[k].1)) ==>
      exists k ::
        && 0 <= k < |table| && severity == table[k].0
        && Mentions(text, table[k].1)
        && forall j :: 0 <= j < k ==> !Mentions(text, table[j].1)
  {
    severity := Medium;
    var i := 0;
    var found := false;
    while i < |table| && !found
      invariant 0 <= i <= |table|
      invariant !found ==> severity == Medium && forall j :: 0 <= j < i ==> !Mentions(text, table[j].1)
      invariant found ==>
        && 0 < i && severity == table[i - 1].0 && Mentions(text, table[i - 1].1)
        && forall j :: 0 <= j < i - 1 ==> !Mentions(text, table[j].1)
    {
      if Mentions(text, table[i].1) {
        severity := table[i].0;
        found := true;
      }
      i := i + 1;
    }
  }

  /** The category `quick_classify` picks: the first one of the table with
      the highest positive number of keywords in the text, unknown when none
      has any. The table does not list unknown itself. */
  method ClassifyCategory(text: string, table: seq<(Category, seq<string>)>) returns (category: Category)
    requires forall k :: 0 <= k < |table| ==> table[k].0 != Unknown
    ensures category == Unknown <==> forall k :: 0 <= k < |table| ==> Score(text, table, k) == 0
    ensures category != Unknown ==>
      exists k :: 0 <= k < |table| && category == table[k].0 && FirstBest(text, table, k)
  {
    category := Unknown;
    var maxMatches := 0;
    ghost var best := -1;
    var c := 0;
    while c < |table|
      invariant 0 <= c <= |table|
      invariant best == -1 ==>
        && category == Unknown && maxMatches == 0
        && forall j :: 0 <= j < c ==> Score(text, table, j) == 0
      invariant best != -1 ==>
        && 0 <= best < c && category == table[best].0
        && maxMatches == Score(text, table, best) > 0
        && (forall j :: 0 <= j < best ==> Score(text, table, j) < maxMatches)
        && (forall j :: best < j < c ==> Score(text, table, j) <= maxMatches)
    {
      var matches := MatchCount(text, table[c].1);
      if matches > maxMatches {
        maxMatches := matches;
        category := table[c].0;
        best := c;
      }
      c := c + 1;
    }
  }

  /** `quick_classify`: both picks over the lowercased title and description. */
  method QuickClassify(title: string, description: string) returns (severity: Severity, category: Category)
    ensures var text := ClassificationText(title, description);
      (forall k :: 0 <= k < |SeverityKeywords| ==> !Mentions(text, SeverityKeywords[k].1)) ==> severity == Medium
    ensures var text := ClassificationText(title, description);
      (exists k :: 0 <= k < |SeverityKeywords| && Mentions(text, SeverityKeywords[k].1)) ==>
        exists k ::
          && 0 <= k < |SeverityKeywords| && severity == SeverityKeywords[k].0
          && Mentions(text, SeverityKeywords[k].1)
          && forall j :: 0 <= j < k ==> !Mentions(text, SeverityKeywords[j].1)
    ensures var text := ClassificationText(title, description);
      category == Unknown <==> forall k :: 0 <= k < |CategoryKeywords| ==> Score(text, CategoryKeywords, k) == 0
    ensures var text := ClassificationText(title, description);
      category != Unknown ==>
        exists k :: 0 <= k < |CategoryKeywords| && category == CategoryKeywords[k].0 && FirstBest(text, CategoryKeywords, k)
  {
    var text := ClassificationText(title, description);
    severity := ClassifySeverity(text, SeverityKeywords);
    category := ClassifyCategory(text, CategoryKeywords);
  }

  /** Follow the keys through nested dicts; any missing key or non-dict on
      the way gives `None`. */
  function Resolve(v: Value, keys: seq<string>): Value
    decreases |keys|
  {
    if |keys| == 0 then v
    else if v.VDict? && HasKey(v.entries, keys[0]) then Resolve(At(v.entries, keys[0]), keys[1..])
    else VNone
  }

  /** The dotted path resolves to a non-empty string. */
  predicate Found(data: Dict, path: string) {
    var v := Resolve(VDict(data), Split(path, '.'));
    v.VStr? && |v.s| > 0
  }

  /** `_extract_field`: the value of the first path that resolves to a
      non-empty string, or `None` when no path does. */
  function ExtractField(data: Dict, paths: seq<string>): (r: Option<string>)
    ensures r.None? <==> forall i :: 0 <= i < |paths| ==> !Found(data, paths[i])
    ensures r.Some? ==> exists i ::
      && 0 <= i < |paths| && Found(data, paths[i])
      && Resolve(VDict(data), Split(paths[i], '.')) == VStr(r.value)
      && forall j :: 0 <= j < i ==> !Found(data, paths[j])
    decreases |paths|
  {
    if |paths| == 0 then None
    else if Found(data, paths[0]) then Some(Resolve(VDict(data), Split(paths[0], '.')).s)
    else
      var r := ExtractField(data, paths[1..]);
      assert forall i :: 1 <= i < |paths| ==> paths[1..][i - 1] == paths[i];
      r
  }

  /** Where a monitoring tool puts the title and the description. */
  datatype FieldMapping = FieldMapping(title: seq<string>, description: seq<string>)

  const DefaultMapping: FieldMapping :=
    FieldMapping(["title", "name", "subject", "summary"], ["description", "message", "body", "details"])

  /** The mapping for a source, with the default one for any other source. */
  function MappingFor(source: string): FieldMapping {
    if source == "datadog" then
      FieldMapping(["title", "name", "alert_title"], ["message", "body", "description"])
    else if source == "pagerduty" then
      FieldMapping(["incident.title", "title", "summary"], ["incident.description", "description", "details"])
    else if source == "prometheus" then
      FieldMapping(["labels.alertname", "alertname"], ["annotations.description", "annotations.summary"])
    else DefaultMapping
  }

  /** `_extract_alert_info`: the title and description found through the
      source's mapping, or "Unknown Alert" and "" when not found. */
  function ExtractAlertInfo(alert: Dict, source: string): (r: (string, string))
    ensures |r.0| > 0
    ensures ExtractField(alert, MappingFor(source).title).None? ==> r.0 == "Unknown Alert"
    ensures ExtractField(alert, MappingFor(source).title).Some? ==>
      r.0 == ExtractField(alert, MappingFor(source).title).value
    ensures ExtractField(alert, MappingFor(source).description).None? ==> r.1 == ""
    ensures ExtractField(alert, MappingFor(source).description).Some? ==>
      r.1 == ExtractField(alert, MappingFor(source).description).value
  {
    var m := MappingFor(source);
    var title := ExtractField(alert, m.title);
    (title.GetOr("Unknown Alert"), ExtractField(alert, m.description).GetOr(""))
  }

  /** A source other than the three known tools is read like "default". */
  lemma UnknownSourceUsesDefault(alert: Dict, source: string)
    requires source != "datadog" && source != "pagerduty" && source != "prometheus"
    ensures ExtractAlertInfo(alert, source) == ExtractAlertInfo(alert, "default")
    ensures MappingFor(source) == DefaultMapping
  {
  }

  /** The tags one field contributes: a list's items as strings, a dict's
      entries as "key:value", nothing for any other value. */
  function FieldTags(v: Value): (r: seq<string>)
    ensures v.VList? ==> |r| == |v.items| && forall j :: 0 <= j < |r| ==> r[j] == Show(v.items[j])
    ensures v.VDict? ==>
      && |r| == |v.entries|
      && forall j :: 0 <= j < |r| ==> r[j] == v.entries[j].0 + ":" + Show(v.entries[j].1)
    ensures !v.VList? && !v.VDict? ==> r == []
  {
    match v
    case VList(items) => seq(|items|, j requires 0 <= j < |items| => Show(items[j]))
    case VDict(entries) => seq(|entries|, j requires 0 <= j < |entries| => entries[j].0 + ":" + Show(entries[j].1))
    case _ => []
  }

  /** `_extract_tags`: the tags of the "tags", "labels" and "attributes"
      fields, in that order. */
  function ExtractTags(alert: Dict): (r: seq<string>)
    ensures var t, l, a := FieldTags(At(alert, "tags")), FieldTags(At(alert, "labels")), FieldTags(At(alert, "attributes"));
      && |r| == |t| + |l| + |a|
      && r[..|t|] == t && r[|t|..|t| + |l|] == l && r[|t| + |l|..] == a
  {
    FieldTags(At(alert, "tags")) + FieldTags(At(alert, "labels")) + FieldTags(At(alert, "attributes"))
  }

  /** A list of tags is kept as it is. */
  lemma ListTagsExample()
    ensures var r := ExtractTags([("tags", StrList(["production", "critical", "database"]))]);
      "production" in r && "critical" in r && "database" in r
  {
    var t := FieldTags(StrList(["production", "critical", "database"]));
    assert t[0] == "production" && t[1] == "critical" && t[2] == "database";
  }

  /** A dict of labels becomes "key:value" tags. */
  lemma DictTagsExample()
    ensures var r := ExtractTags([("labels", VDict([("environment", VStr("production")), ("service", VStr("api"))]))]);
      "environment:production" in r && "service:api" in r
  {
    var t := FieldTags(VDict([("environment", VStr("production")), ("service", VStr("api"))]));
    assert t[0] == "environment:production" && t[1] == "service:api";
  }

  /** `have.extend(set(more) - set(have))`: the more values not present yet, each
      once. Python's set order is arbitrary; this model takes them in order
      of first appearance, and its contract holds for any order. */
  function ExtendNew(have: seq<string>, more: seq<string>): (r: seq<string>)
    ensures |have| <= |r| && r[..|have|] == have
    ensures forall x :: x in r <==> x in have || x in more
    ensures forall i :: |have| <= i < |r| ==> r[i] !in have
    ensures forall i, j :: |have| <= i < j < |r| ==> r[i] != r[j]
    decreases |more|
  {
    if |more| == 0 then have
    else
      var next := if more[0] in have then have else have + [more[0]];
      var r := ExtendNew(next, more[1..]);
      assert forall x :: x in more <==> x == more[0] || x in more[1..];
      assert r[..|have|] == next[..|have|];
      r
  }

  /** Nothing is added when every more value is present already. */
  lemma {:induction false} ExtendNewPresent(have: seq<string>, more: seq<string>)
    requires forall x :: x in more ==> x in have
    ensures ExtendNew(have, more) == have
    decreases |more|
  {
    if |more| > 0 {
      assert more[0] in have;
      ExtendNewPresent(have, more[1..]);
    }
  }

  /** Extending twice with the same values is extending once. */
  lemma ExtendNewIdempotent(have: seq<string>, more: seq<string>)
    ensures ExtendNew(ExtendNew(have, more), more) == ExtendNew(have, more)
  {
    ExtendNewPresent(ExtendNew(have, more), more);
  }

  /** The data `enrich_incident` reads: each list present or not, and the
      metadata to merge (absent reads as empty). */
  datatype Enrichment = Enrichment(
    services: Option<seq<string>>,
    components: Option<seq<string>>,
    tags: Option<seq<string>>,
    metadata: Dict)

  function ExtendWith(have: seq<string>, more: Option<seq<string>>): seq<string> {
    if more.Some? then ExtendNew(have, more.value) else have
  }

  /** `enrich_incident`: services, components and tags extended with what is
      new, and the metadata updated. */
  function EnrichIncident(incident: Incident, e: Enrichment): (r: Incident)
    ensures r == incident.(affectedServices := r.affectedServices, affectedComponents := r.affectedComponents,
                           tags := r.tags, metadata := Update(incident.metadata, e.metadata))
    ensures e.services.None? ==> r.affectedServices == incident.affectedServices
    ensures e.components.None? ==> r.affectedComponents == incident.affectedComponents
    ensures e.tags.None? ==> r.tags == incident.tags
  {
    incident.(affectedServices := ExtendWith(incident.affectedServices, e.services),
              affectedComponents := ExtendWith(incident.affectedComponents, e.components),
              tags := ExtendWith(incident.tags, e.tags),
              metadata := Update(incident.metadata, e.metadata))
  }

  /** `r` is `have` after extending it with the given values: it holds
      exactly the values of both and opens with `have`. */
  ghost predicate ExtendedBy(have: seq<string>, more: Option<seq<string>>, r: seq<string>) {
    more.Some? ==>
      && (forall x :: x in r <==> x in have || x in more.value)
      && |have| <= |r| && r[..|have|] == have
  }

  /** After enriching, each list holds exactly the union of old and new
      values, starts with the old list, and gains no value twice or one it
      had; enriching again with the same lists changes none of them. */
  lemma EnrichUnion(incident: Incident, e: Enrichment)
    ensures var r := EnrichIncident(incident, e);
      && ExtendedBy(incident.affectedServices, e.services, r.affectedServices)
      && ExtendedBy(incident.affectedComponents, e.components, r.affectedComponents)
      && ExtendedBy(incident.tags, e.tags, r.tags)
      && (NoDup(incident.affectedServices) ==> NoDup(r.affectedServices))
      && (NoDup(incident.affectedComponents) ==> NoDup(r.affectedComponents))
      && (NoDup(incident.tags) ==> NoDup(r.tags))
      && EnrichIncident(r, e).affectedServices == r.affectedServices
      && EnrichIncident(r, e).affectedComponents == r.affectedComponents
      && EnrichIncident(r, e).tags == r.tags
  {
    var r := EnrichIncident(incident, e);
    ExtendNoDup(incident.affectedServices, e.services);
    ExtendNoDup(incident.affectedComponents, e.components);
    ExtendNoDup(incident.tags, e.tags);
    if e.services.Some? { ExtendNewIdempotent(incident.affectedServices, e.services.value); }
    if e.components.Some? { ExtendNewIdempotent(incident.affectedComponents, e.components.value); }
    if e.tags.Some? { ExtendNewIdempotent(incident.tags, e.tags.value); }
  }

  lemma ExtendNoDup(have: seq<string>, more: Option<seq<string>>)
    ensures NoDup(have) ==> NoDup(ExtendWith(have, more))
  {
    if more.Some? && NoDup(have) {
      var r := ExtendNew(have, more.value);
      forall i, j | 0 <= i < j < |r| ensures r[i] != r[j] {
        if j < |have| {
          assert r[i] == have[i] && r[j] == have[j];
        } else if i < |have| {
          assert r[i] == have[i];
        }
      }
    }
  }

  /** Why building the incident for an alert raises: a severity or category
      that is not a member's value, or a field the incident record rejects. */
  datatype Rejection = InvalidSeverity(severity: Value) | InvalidCategory(category: Value) | InvalidField(name: string)

  /** The alert's id: `alert_id`, or `id` when that is missing or empty. */
  function SourceAlertId(alert: Dict): Value {
    Or(At(alert, "alert_id"), At(alert, "id"))
  }

  /** A list of strings, as a list-of-strings field accepts. */
  predicate StringList(v: Value) {
    v.VList? && forall j :: 0 <= j < |v.items| ==> v.items[j].VStr?
  }

  function Strings(v: Value): (r: seq<string>)
    requires StringList(v)
    ensures |r| == |v.items| && forall j :: 0 <= j < |r| ==> VStr(r[j]) == v.items[j]
  {
    seq(|v.items|, j requires 0 <= j < |v.items| => v.items[j].s)
  }

  /** The enumeration member a context entry names, or the rejection. */
  function SeverityIn(ctx: Dict): (r: Result<Severity, Rejection>)
    ensures r.Ok? <==> (GetOr(ctx, "severity", VStr("medium")).VStr?
      && SeverityOf(GetOr(ctx, "severity", VStr("medium")).s).Some?)
    ensures r.Ok? ==> VStr(r.value.Value()) == GetOr(ctx, "severity", VStr("medium"))
    ensures r.Err? ==> r.error == InvalidSeverity(GetOr(ctx, "severity", VStr("medium")))
  {
    var v := GetOr(ctx, "severity", VStr("medium"));
    if v.VStr? && SeverityOf(v.s).Some? then Ok(SeverityOf(v.s).value) else Err(InvalidSeverity(v))
  }

  function CategoryIn(ctx: Dict): (r: Result<Category, Rejection>)
    ensures r.Ok? <==> (GetOr(ctx, "category", VStr("unknown")).VStr?
      && CategoryOf(GetOr(ctx, "category", VStr("unknown")).s).Some?)
    ensures r.Ok? ==> VStr(r.value.Value()) == GetOr(ctx, "category", VStr("unknown"))
    ensures r.Err? ==> r.error == InvalidCategory(GetOr(ctx, "category", VStr("unknown")))
  {
    var v := GetOr(ctx, "category", VStr("unknown"));
    if v.VStr? && CategoryOf(v.s).Some? then Ok(CategoryOf(v.s).value) else Err(InvalidCategory(v))
  }

  /** The metadata an alert's incident keeps: the classification's
      confidence and reasoning, and the alert itself. */
  function AlertMetadata(confidence: Confidence, reasoning: string, alert: Dict): (m: Dict)
    ensures Keys(m) == ["ai_confidence", "ai_reasoning", "original_alert"]
    ensures Get(m, "ai_confidence") == Some(ConfidenceValue(confidence))
    ensures Get(m, "ai_reasoning") == Some(VStr(reasoning))
    ensures Get(m, "original_alert") == Some(VDict(alert))
  {
    var m := [("ai_confidence", ConfidenceValue(confidence)), ("ai_reasoning", VStr(reasoning)),
              ("original_alert", VDict(alert))];
    GetFirst(m, 0); GetFirst(m, 1); GetFirst(m, 2);
    m
  }

  /** The incident for an alert, given the classifier's context: the
      alert's title and description, the context's severity, category and
      affected systems, status detected, the source, the alert's id and tags,
      and the confidence, reasoning and alert kept as metadata. */
  function AlertIncident(alert: Dict, source: string, ctx: Dict, confidence: Confidence, reasoning: string,
                         id: string, now: Time)
    : (r: Result<Incident, Rejection>)
    ensures r.Ok? <==>
      && SeverityIn(ctx).Ok? && CategoryIn(ctx).Ok?
      && (SourceAlertId(alert).VNone? || SourceAlertId(alert).VStr?)
      && StringList(GetOr(ctx, "affected_systems", VList([])))
    ensures r.Ok? ==>
      var info := ExtractAlertInfo(alert, source);
      && r.value.id == id && r.value.title == info.0 && r.value.description == info.1
      && r.value.status == Detected && r.value.sourceSystem == source
      && r.value.severity == SeverityIn(ctx).value && r.value.category == CategoryIn(ctx).value
      && (r.value.sourceAlertId.Some? <==> SourceAlertId(alert).VStr?)
      && (r.value.sourceAlertId.Some? ==> VStr(r.value.sourceAlertId.value) == SourceAlertId(alert))
      && Strings(GetOr(ctx, "affected_systems", VList([]))) == r.value.affectedServices
      && r.value.tags == ExtractTags(alert)
      && r.value.metadata == AlertMetadata(confidence, reasoning, alert)
      && r.value.servicenowTicketId == VNone && r.value.assignedResponders == []
      && r.value.detectedAt == now && r.value.acknowledgedAt.None?
    ensures SeverityIn(ctx).Err? ==> r == Err(SeverityIn(ctx).error)
    ensures SeverityIn(ctx).Ok? && CategoryIn(ctx).Err? ==> r == Err(CategoryIn(ctx).error)
  {
    var info := ExtractAlertInfo(alert, source);
    var severity :- SeverityIn(ctx);
    var category :- CategoryIn(ctx);
    var alertId := SourceAlertId(alert);
    var systems := GetOr(ctx, "affected_systems", VList([]));
    if !(alertId.VNone? || alertId.VStr?) then Err(InvalidField("source_alert_id"))
    else if !StringList(systems) then Err(InvalidField("affected_services"))
    else
      var metadata := AlertMetadata(confidence, reasoning, alert);
      Ok(NewIncident(id, info.0, info.1, severity, now).(
        category := category, sourceSystem := source,
        sourceAlertId := if alertId.VStr? then Some(alertId.s) else None,
        affectedServices := Strings(systems), tags := ExtractTags(alert), metadata := metadata))
  }

  /** `process_alert`: the alert's incident built from the classification of
      the alert's title and description. The classifier's answer is an
      input. */
  function ProcessAlert(alert: Dict, source: string, answer: ModelAnswer, id: string, now: Time): (r: Result<Incident, Rejection>)
    ensures var ctx := ClassifyIncident(answer).context;
      r.Ok? <==>
        && SeverityIn(ctx).Ok? && CategoryIn(ctx).Ok?
        && (SourceAlertId(alert).VNone? || SourceAlertId(alert).VStr?)
        && StringList(GetOr(ctx, "affected_systems", VList([])))
    ensures var d := ClassifyIncident(answer);
      r.Ok? ==>
        && r.value.id == id && r.value.status == Detected && r.value.sourceSystem == source
        && r.value.title == ExtractAlertInfo(alert, source).0
        && r.value.description == ExtractAlertInfo(alert, source).1
        && r.value.severity == SeverityIn(d.context).value && r.value.category == CategoryIn(d.context).value
        && r.value.tags == ExtractTags(alert)
        && (r.value.sourceAlertId.Some? <==> SourceAlertId(alert).VStr?)
        && (r.value.sourceAlertId.Some? ==> VStr(r.value.sourceAlertId.value) == SourceAlertId(alert))
        && r.value.metadata == AlertMetadata(d.confidence, d.reasoning, alert)
    ensures var ctx := ClassifyIncident(answer).context;
      SeverityIn(ctx).Err? ==> r == Err(SeverityIn(ctx).error)
  {
    var decision := ClassifyIncident(answer);
    AlertIncident(alert, source, decision.context, decision.confidence, decision.reasoning, id, now)
  }

  /** When the model cannot be used, the alert becomes a medium incident of
      unknown category with no affected services. */
  lemma ProcessAlertFallback(alert: Dict, source: string, error: string, id: string, now: Time)
    requires SourceAlertId(alert).VNone? || SourceAlertId(alert).VStr?
    ensures var r := ProcessAlert(alert, source, Unusable(error), id, now);
      && r.Ok? && r.value.severity == Medium && r.value.category == Unknown && r.value.affectedServices == []
      && r.value.title == ExtractAlertInfo(alert, source).0 && r.value.sourceSystem == source
  {
    var d := FallbackDecision(error);
    var ctx := d.context;
    assert GetOr(ctx, "severity", VStr("medium")) == VStr("medium");
    assert GetOr(ctx, "category", VStr("unknown")) == VStr("unknown");
    assert GetOr(ctx, "affected_systems", VList([])) == VList([]);
    var r := AlertIncident(alert, source, ctx, d.confidence, d.reasoning, id, now);
    assert Strings(VList([])) == [];
  }

  /** A model answer without a severity raises: the classifier stores
      `None` under "severity", which is not a severity's value. */
  lemma ProcessAlertMissingSeverity(alert: Dict, source: string, j: Dict, id: string, now: Time)
    requires !HasKey(j, "severity") && !HasKey(j, "reasoning")
    requires HasKey(j, "confidence") ==> FloatAccepts(At(j, "confidence"))
    ensures ProcessAlert(alert, source, JsonObject(j), id, now) == Err(InvalidSeverity(VNone))
  {
    MissingSeverityIsNone(j);
    var ctx := ClassifyIncident(JsonObject(j)).context;
    assert GetOr(ctx, "severity", VStr("medium")) == VNone;
  }
}

=== FILE: incident_workflow.dfy ===
/** The fixed seven-step incident response pipeline: ticket, chat alert,
    diagnostics, root cause, wiki page, assignment, monitoring. Each step
    catches its own failures and reports "completed", "failed" or (the alert
    step only) "partial"; later steps see earlier ones only through the
    fields written on the incident, except that the root-cause step is handed
    the diagnostics step's whole report. */
module IncidentWorkflow {
  import opened Wrappers
  import opened Text
  import opened Values
  import opened Models
  import opened Selection
  import opened Collaborators

  /** The chat channel every alert goes to. */
  const IncidentChannel := "#incident-response"

  /** The names the steps report under. */
  const TicketStepName := "Create ServiceNow Ticket"
  const AlertStepName := "Send Slack Alert"
  const DiagnosticsStepName := "Gather Diagnostic Information"
  const AnalysisStepName := "Analyze Root Cause"
  const PageStepName := "Create Confluence Incident Page"
  const AssignStepName := "Assign and Notify"
  const MonitorStepName := "Monitor and Update"

  /** A step report's status; every report starts "pending". */
  datatype ReportStatus = ReportPending | ReportCompleted | ReportFailed | ReportPartial {
    function Value(): string {
      match this
      case ReportPending => "pending"
      case ReportCompleted => "completed"
      case ReportFailed => "failed"
      case ReportPartial => "partial"
    }
  }

  /** What a step reports: its display name, status, the error if any, and
      the remaining keys it set, in the order it set them. */
  datatype StepReport = StepReport(step: string, status: ReportStatus, error: Option<Value>, details: Dict)

  /** The error text a step records for a collaborator reply: the exception
      text when it raised, else the reply's `error` entry. */
  function ErrorOf(r: Reply): Value {
    match r
    case Raised(m) => VStr(m)
    case Failed(e) => VStr(e)
    case Succeeded(p) => At(p, "error")
  }

  /** The payload of a reply, `{}` for one that did not succeed. */
  function PayloadOf(r: Reply): Dict {
    if r.Succeeded? then r.payload else []
  }

  // ============ Helpers ============

  /** `_get_priority`: the priority number is the severity's position in the
      order critical, high, medium, low. */
  function GetPriority(s: Severity): (p: string)
    ensures |p| == 2 && p[0] == 'P' && '1' <= p[1] <= '4'
    ensures AllSeverities[p[1] as int - '1' as int] == s
  {
    match s
    case Critical => "P1"
    case High => "P2"
    case Medium => "P3"
    case Low => "P4"
  }

  /** Distinct severities get distinct priorities. */
  lemma GetPriorityInjective(a: Severity, b: Severity)
    ensures GetPriority(a) == GetPriority(b) ==> a == b
  {
    if GetPriority(a) == GetPriority(b) {
      assert GetPriority(a)[1] == GetPriority(b)[1];
    }
  }

  /** The classification step 1 reports. */
  function Classification(incident: Incident): Value {
    VDict([("severity", VStr(incident.severity.Value())),
           ("category", VStr(incident.category.Value())),
           ("priority", VStr(GetPriority(incident.severity)))])
  }

  // ============ Step 1: ticket ============

  /** Create the ticket. On success the ticket number is written on the
      incident and the classification, with its priority, is reported;
      otherwise the incident is unchanged and the error is reported. */
  method Step1CreateTicket(env: Env, incident: Incident, trace: seq<Call>)
    returns (report: StepReport, inc: Incident, calls: seq<Call>)
    ensures calls == trace + [CreateTicket(incident)]
    ensures report.step == TicketStepName
    ensures var a := env.answer(|trace|, CreateTicket(incident));
      && (report.status == ReportCompleted <==> a.Succeeded?)
      && (report.status == ReportCompleted || report.status == ReportFailed)
      && (a.Succeeded? ==>
            && inc == incident.(servicenowTicketId := At(a.payload, "number"))
            && Get(report.details, "ticket_number") == Some(At(a.payload, "number"))
            && Get(report.details, "classification") == Some(Classification(incident)))
      && (!a.Succeeded? ==> inc == incident && report.error == Some(ErrorOf(a)))
  {
    var reply := env.answer(|trace|, CreateTicket(incident));
    calls := trace + [CreateTicket(incident)];
    inc := incident;
    if reply.Raised? {
      report := StepReport(TicketStepName, ReportFailed, Some(VStr(reply.message)), []);
      return;
    }
    var d := ReplyDict(reply);
    if reply.Succeeded? {
      inc := incident.(servicenowTicketId := At(d, "number"));
      report := StepReport(TicketStepName, ReportCompleted, None,
                           [("ticket_number", At(d, "number")), ("ticket_link", At(d, "link")),
                            ("classification", Classification(incident))]);
      GetFirst(report.details, 2);
    } else {
      report := StepReport(TicketStepName, ReportFailed, Some(At(d, "error")), []);
    }
  }
  // ============ Step 2: chat alert ============

  /** The marker shown in front of the alert, by severity. */
  function SeverityEmoji(s: Severity): string {
    match s
    case Critical => "\U{1F534}"
    case High => "\U{1F7E0}"
    case Medium => "\U{1F7E1}"
    case Low => "\U{1F7E2}"
  }

  /** `', '.join(services) or 'TBD'`. */
  function ServicesOrTbd(services: seq<string>): (r: string)
    ensures |r| > 0
    ensures |services| > 0 && |services[0]| > 0 ==> r == Join(", ", services)
  {
    var joined := Join(", ", services);
    if joined == "" then "TBD" else joined
  }

  /** The alert up to and including the ticket line: a head, the title and
      a tail. */
  function AlertBody(incident: Incident): string {
    AlertHead(incident) + incident.title + AlertTail(incident)
  }

  /** The alert's severity banner and the title label. */
  function AlertHead(incident: Incident): string {
    SeverityEmoji(incident.severity) + " *" + incident.severity.Upper() + " INCIDENT DETECTED*\n\n*Title:* "
  }

  /** The alert's lines after the title, up to the ticket line. */
  function AlertTail(incident: Incident): string {
    "\n*Category:* " + incident.category.Value()
    + "\n*Affected Services:* " + ServicesOrTbd(incident.affectedServices)
    + "\n\n*Description:*\n" + Take(incident.description, 500)
    + "\n\n\U{1F4CB} ServiceNow: " + Show(Or(incident.servicenowTicketId, VStr("Creating..."))) + "\n"
  }

  /** The line naming the incident's own channel. */
  function ChannelLine(incident: Incident): string {
    "\U{1F4AC} Incident Channel: <#" + Show(incident.slackChannelId) + ">"
  }

  /** The alert message as the source builds it. The adjacent string pieces
      are concatenated first and the trailing conditional then applies to the
      whole message, so without an incident channel the message is empty. */
  function AlertMessageAsWritten(incident: Incident): string {
    if Truthy(incident.slackChannelId) then AlertBody(incident) + ChannelLine(incident) else ""
  }

  /** The alert message as evidently intended: the conditional only decides
      whether the channel line is added. */
  function AlertMessage(incident: Incident): string {
    AlertBody(incident) + (if Truthy(incident.slackChannelId) then ChannelLine(incident) else "")
  }

  /** The intended alert always starts with the whole body; it differs from
      the message as written only when there is no channel, where it is the
      body alone. */
  lemma AlertMessageAgrees(incident: Incident)
    ensures IsPrefix(AlertBody(incident), AlertMessage(incident))
    ensures Truthy(incident.slackChannelId) ==> AlertMessage(incident) == AlertMessageAsWritten(incident)
    ensures !Truthy(incident.slackChannelId) ==> AlertMessage(incident) == AlertBody(incident)
  {
    var b := AlertBody(incident);
    var m := AlertMessage(incident);
    assert m[..|b|] == b;
  }

  /** Without an incident channel the message as written is empty, while the
      intended one still names the incident's title. A fresh incident, which
      never has a channel, shows it. */
  lemma AlertMessageAsWrittenDropsAlert(incident: Incident)
    requires !Truthy(incident.slackChannelId)
    ensures AlertMessageAsWritten(incident) == ""
    ensures Contains(AlertMessage(incident), incident.title)
  {
    AlertMessageNamesTitle(incident);
  }

  /** The concrete input: a new incident titled "DB down". */
  lemma AlertMessageAsWrittenExample()
    ensures var i := NewIncident("inc-1", "DB down", "", Critical, 0);
      AlertMessageAsWritten(i) == "" && AlertMessage(i) != ""
  {
    var i := NewIncident("inc-1", "DB down", "", Critical, 0);
    assert |AlertMessage(i)| >= |AlertBody(i)| >= |i.title| > 0;
  }

  /** The intended alert always carries the title. */
  lemma AlertMessageNamesTitle(incident: Incident)
    ensures Contains(AlertMessage(incident), incident.title)
  {
    ContainsMiddle(AlertHead(incident), incident.title, AlertTail(incident));
    ContainsLeft(AlertBody(incident), if Truthy(incident.slackChannelId) then ChannelLine(incident) else "", incident.title);
  }

  /** Create the incident channel, then alert the incident-response channel.
      The channel id is written only when channel creation succeeds; the step
      is "completed" when the alert goes out, "partial" when the alert call
      reports a failure, and "failed" when either call raises. */
  method Step2SendAlert(env: Env, incident: Incident, trace: seq<Call>)
    returns (report: StepReport, inc: Incident, calls: seq<Call>)
    ensures report.step == AlertStepName
    ensures var a := env.answer(|trace|, CreateChannel(incident));
      && (a.Succeeded? ==> inc == incident.(slackChannelId := At(a.payload, "channel_id")))
      && (!a.Succeeded? ==> inc == incident)
      && (a.Raised? ==> calls == trace + [CreateChannel(incident)] && report.status == ReportFailed)
      && (!a.Raised? ==>
            var notify := NotifyTeam(VStr(IncidentChannel), VStr(AlertMessage(inc)), inc);
            var b := env.answer(|trace| + 1, notify);
            && calls == trace + [CreateChannel(incident), notify]
            && (report.status == ReportCompleted <==> b.Succeeded?)
            && (report.status == ReportPartial <==> b.Failed?)
            && (report.status == ReportFailed <==> b.Raised?))
    ensures report.status != ReportCompleted ==> report.error.Some?
  {
    var channel := env.answer(|trace|, CreateChannel(incident));
    calls := trace + [CreateChannel(incident)];
    inc := incident;
    if channel.Raised? {
      report := StepReport(AlertStepName, ReportFailed, Some(VStr(channel.message)), []);
      return;
    }
    var details: Dict := [];
    if channel.Succeeded? {
      inc := incident.(slackChannelId := At(channel.payload, "channel_id"));
      details := [("incident_channel", At(channel.payload, "channel_name")), ("channel_link", At(channel.payload, "link"))];
    }
    var notify := NotifyTeam(VStr(IncidentChannel), VStr(AlertMessage(inc)), inc);
    var reply := env.answer(|calls|, notify);
    calls := calls + [notify];
    if reply.Raised? {
      report := StepReport(AlertStepName, ReportFailed, Some(VStr(reply.message)), details);
    } else if reply.Succeeded? {
      report := StepReport(AlertStepName, ReportCompleted, None,
                           details + [("alert_sent", VBool(true)), ("alert_channel", VStr(IncidentChannel))]);
    } else {
      report := StepReport(AlertStepName, ReportPartial, Some(ErrorOf(reply)), details);
    }
  }
  // ============ Step 3: diagnostics ============

  /** `repositories or [org + "/main-app"]`. */
  function Repos(env: Env, repositories: seq<string>): (r: seq<string>)
    ensures |r| >= 1
    ensures |repositories| == 0 ==> r == [env.githubOrg + "/main-app"]
    ensures |repositories| > 0 ==> r == repositories
  {
    if |repositories| > 0 then repositories else [env.githubOrg + "/main-app"]
  }

  /** Hours of history searched for commits: 48 for critical and high
      incidents, 72 otherwise. */
  function LookBack(s: Severity): (h: int)
    ensures h == 48 <==> (s.Critical? || s.High?)
    ensures h == 72 <==> (s.Medium? || s.Low?)
  {
    match s
    case Critical | High => 48
    case Medium | Low => 72
  }

  /** The three per-repository sweeps of step 3. */
  datatype Probe = CommitsProbe(hoursBack: int, paths: seq<string>) | DeploymentsProbe | RunsProbe

  function ProbeCall(p: Probe, repo: string): Call {
    match p
    case CommitsProbe(h, paths) => AnalyzeCommits(VStr(repo), VInt(h), paths)
    case DeploymentsProbe => GetDeployments(VStr(repo), "production")
    case RunsProbe => GetWorkflowRuns(VStr(repo), "failure")
  }

  /** One call per repository, in order. */
  function ProbeCalls(p: Probe, repos: seq<string>): (r: seq<Call>)
    ensures |r| == |repos|
    decreases |repos|
  {
    if |repos| == 0 then [] else [ProbeCall(p, repos[0])] + ProbeCalls(p, repos[1..])
  }

  /** The i-th call of a sweep probes the i-th repository. */
  lemma {:induction false} ProbeCallsEach(p: Probe, repos: seq<string>, i: nat)
    requires i < |repos|
    ensures ProbeCalls(p, repos)[i] == ProbeCall(p, repos[i])
    decreases |repos|
  {
    if i > 0 {
      ProbeCallsEach(p, repos[1..], i - 1);
    }
  }

  /** Splitting off the first repository's call. */
  lemma ProbeCallsCons(p: Probe, repos: seq<string>, trace: seq<Call>)
    requires |repos| > 0
    ensures trace + ProbeCalls(p, repos) == trace + [ProbeCall(p, repos[0])] + ProbeCalls(p, repos[1..])
  {
    assert ProbeCalls(p, repos) == [ProbeCall(p, repos[0])] + ProbeCalls(p, repos[1..]);
    AppendAssoc(trace, [ProbeCall(p, repos[0])], ProbeCalls(p, repos[1..]));
  }

  /** The sweeps step 3 runs, in order. */
  function Probes(incident: Incident): seq<Probe> {
    [CommitsProbe(LookBack(incident.severity), incident.affectedServices), DeploymentsProbe, RunsProbe]
  }

  /** How many items a sweep keeps per repository: 10 commits, 5 deployments,
      5 failed runs. */
  function Cap(p: Probe): nat {
    if p.CommitsProbe? then 10 else 5
  }

  /** The reply key a sweep reads its items from. */
  function SourceKey(p: Probe): string {
    match p
    case CommitsProbe(_, _) => "commits"
    case DeploymentsProbe => "deployments"
    case RunsProbe => "runs"
  }

  /** The key a sweep reports its items under. */
  function ItemsKey(p: Probe): string {
    match p
    case CommitsProbe(_, _) => "commits"
    case DeploymentsProbe => "deployments"
    case RunsProbe => "failed_runs"
  }

  /** The key step 3 files a sweep's entries under. */
  function SweepKey(k: nat): string {
    if k == 0 then "recent_commits" else if k == 1 then "recent_deployments" else "failed_workflows"
  }

  /** What a sweep records for a repository whose call succeeded: the
      repository, the commit counts (reported by the commit sweep only), and
      the items. */
  datatype RepoEntry = RepoEntry(repository: string, totalCommits: Value, highRelevance: Value, items: seq<Value>)

  /** The entry recorded for a repository whose call succeeded keeps at most
      `Cap(p)` items. */
  function Entry(p: Probe, repo: string, payload: Dict): (e: RepoEntry)
    ensures e.repository == repo && |e.items| <= Cap(p)
    ensures e.items == Take(ItemsOf(GetOr(payload, SourceKey(p), VList([]))), Cap(p))
  {
    RepoEntry(repo, GetOr(payload, "total_commits", VInt(0)), GetOr(payload, "high_relevance_count", VInt(0)),
              Take(ItemsOf(GetOr(payload, SourceKey(p), VList([]))), Cap(p)))
  }

  /** An entry as the dict the report holds. */
  function EntryValue(p: Probe, e: RepoEntry): Value {
    var counts := if p.CommitsProbe? then [("total_commits", e.totalCommits), ("high_relevance", e.highRelevance)] else [];
    VDict([("repository", VStr(e.repository))] + counts + [(ItemsKey(p), VList(e.items))])
  }

  /** Reading an entry's dict back gives its repository and its items. */
  lemma EntryRead(p: Probe, e: RepoEntry)
    ensures Get(EntryValue(p, e).entries, "repository") == Some(VStr(e.repository))
    ensures Get(EntryValue(p, e).entries, ItemsKey(p)) == Some(VList(e.items))
  {
    var d := EntryValue(p, e).entries;
    if p.CommitsProbe? {
      assert d[3] == ("commits", VList(e.items));
      GetFirst(d, 3);
    } else {
      assert d[1] == (ItemsKey(p), VList(e.items));
      GetFirst(d, 1);
    }
  }

  /** How a sweep ends: every repository visited, or a call raised. */
  datatype Sweep = Swept(entries: seq<RepoEntry>, trace: seq<Call>) | Interrupted(message: string, trace: seq<Call>)

  /** Call the probe for each repository in order, recording an entry for
      each call that succeeds; a call that raises ends the sweep. */
  function RunProbe(env: Env, p: Probe, repos: seq<string>, trace: seq<Call>): (r: Sweep)
    ensures r.Swept? ==> r.trace == trace + ProbeCalls(p, repos)
    ensures r.Swept? ==> |r.entries| <= |repos| && forall i :: 0 <= i < |r.entries| ==> |r.entries[i].items| <= Cap(p)
    ensures r.Swept? ==> forall i :: 0 <= i < |r.entries| ==> r.entries[i].repository in repos
    ensures r.Interrupted? ==> |trace| < |r.trace| && r.trace <= trace + ProbeCalls(p, repos)
    decreases |repos|
  {
    if |repos| == 0 then Swept([], trace)
    else
      var c := ProbeCall(p, repos[0]);
      var reply := env.answer(|trace|, c);
      if reply.Raised? then
        ProbeCallsCons(p, repos, trace);
        PrefixOfLonger(trace + [c], ProbeCalls(p, repos[1..]));
        Interrupted(reply.message, trace + [c])
      else
        var entry := if reply.Succeeded? then [Entry(p, repos[0], reply.payload)] else [];
        var rest := RunProbe(env, p, repos[1..], trace + [c]);
        ProbeCallsCons(p, repos, trace);
        match rest
        case Interrupted(m, t) => Interrupted(m, t)
        case Swept(es, t) =>
          assert forall i :: 0 <= i < |es| ==> es[i].repository in repos[1..];
          Swept(entry + es, t)
  }

  /** The placeholder log and metrics summaries step 3 reports. */
  const ErrorLogsSummary: Value :=
    VDict([("status", VStr("collected")), ("sources", StrList(["application", "infrastructure"])),
           ("note", VStr("Integrate with your log aggregation system (ELK, Splunk, etc.)"))])
  const MetricsSummary: Value :=
    VDict([("status", VStr("collected")), ("sources", StrList(["prometheus", "datadog"])),
           ("note", VStr("Integrate with your metrics system"))])

  /** Step 3's findings: the entries of the sweeps that finished, in sweep
      order, and whether all finished (only then are the log and metrics
      summaries added). */
  datatype Diagnostics = Diagnostics(sweeps: seq<seq<RepoEntry>>, complete: bool)

  /** A sweep's entries as the list of dicts the report holds. */
  function SweepRows(p: Probe, entries: seq<RepoEntry>): (rows: seq<Value>)
    ensures |rows| == |entries| && forall i :: 0 <= i < |entries| ==> rows[i] == EntryValue(p, entries[i])
  {
    seq(|entries|, i requires 0 <= i < |entries| => EntryValue(p, entries[i]))
  }

  /** The sweeps' entries as the report's dict. */
  function SweepsValue(probes: seq<Probe>, sweeps: seq<seq<RepoEntry>>): (d: Dict)
    requires |sweeps| <= |probes| <= 3
    ensures |d| == |sweeps|
    ensures forall k :: 0 <= k < |sweeps| ==> d[k] == (SweepKey(k), VList(SweepRows(probes[k], sweeps[k])))
  {
    seq(|sweeps|, k requires 0 <= k < |sweeps| => (SweepKey(k), VList(SweepRows(probes[k], sweeps[k]))))
  }

  /** The `diagnostics` dict of step 3's report. */
  function DiagnosticsValue(incident: Incident, d: Diagnostics): Value
    requires |d.sweeps| <= 3
  {
    var entries := SweepsValue(Probes(incident), d.sweeps);
    VDict(if d.complete then entries + [("error_logs", ErrorLogsSummary), ("metrics", MetricsSummary)] else entries)
  }

  /** Reading a sweep's key from the diagnostics dict gives the sweep's rows
      when that sweep finished, and nothing otherwise. */
  lemma SweepRead(incident: Incident, diag: Diagnostics, k: nat)
    requires |diag.sweeps| <= 3 && k < 3
    ensures var d := EntriesOf(DiagnosticsValue(incident, diag));
      && (k < |diag.sweeps| ==> Get(d, SweepKey(k)) == Some(VList(SweepRows(Probes(incident)[k], diag.sweeps[k]))))
      && (k >= |diag.sweeps| ==> Get(d, SweepKey(k)) == None)
  {
    if k < |diag.sweeps| {
      SweepReadFinished(incident, diag, k);
    } else {
      SweepReadMissing(incident, diag, k);
    }
  }

  lemma SweepReadFinished(incident: Incident, diag: Diagnostics, k: nat)
    requires |diag.sweeps| <= 3 && k < |diag.sweeps|
    ensures Get(EntriesOf(DiagnosticsValue(incident, diag)), SweepKey(k))
         == Some(VList(SweepRows(Probes(incident)[k], diag.sweeps[k])))
  {
    var d := EntriesOf(DiagnosticsValue(incident, diag));
    var e := SweepsValue(Probes(incident), diag.sweeps);
    assert d[..|e|] == e;
    assert forall j :: 0 <= j < k ==> d[j] == e[j];
    GetFirst(d, k);
  }

  lemma SweepReadMissing(incident: Incident, diag: Diagnostics, k: nat)
    requires |diag.sweeps| <= k < 3
    ensures Get(EntriesOf(DiagnosticsValue(incident, diag)), SweepKey(k)) == None
  {
    var e := SweepsValue(Probes(incident), diag.sweeps);
    var key := SweepKey(k);
    assert |key| >= 14;
    forall j | 0 <= j < |e| ensures e[j].0 != key {
      assert e[j].0 == SweepKey(j);
    }
    if diag.complete {
      var d := e + [("error_logs", ErrorLogsSummary), ("metrics", MetricsSummary)];
      assert forall j :: 0 <= j < |e| ==> d[j] == e[j];
      assert d[|e|].0 == "error_logs" && d[|e| + 1].0 == "metrics";
      assert Get(d, key) == None;
    } else {
      assert Get(e, key) == None;
    }
  }

  /** The metrics summary is reported exactly when every sweep finished. */
  lemma MetricsRead(incident: Incident, diag: Diagnostics)
    requires |diag.sweeps| <= 3
    ensures var d := EntriesOf(DiagnosticsValue(incident, diag));
      Get(d, "metrics") == (if diag.complete then Some(MetricsSummary) else None)
  {
    var e := SweepsValue(Probes(incident), diag.sweeps);
    var n := |diag.sweeps|;
    forall j | 0 <= j < n ensures e[j].0 != "metrics" {
      assert e[j].0 == SweepKey(j);
    }
    if diag.complete {
      var d := e + [("error_logs", ErrorLogsSummary), ("metrics", MetricsSummary)];
      assert d[n + 1] == ("metrics", MetricsSummary) && d[n].0 == "error_logs";
      assert forall j :: 0 <= j < n ==> d[j] == e[j];
      GetFirst(d, n + 1);
    } else {
      assert Get(e, "metrics") == None;
    }
  }

  /** Every entry of a sweep keeps at most the probe's cap of items. */
  predicate CappedSweep(p: Probe, entries: seq<RepoEntry>) {
    forall i :: 0 <= i < |entries| ==> |entries[i].items| <= Cap(p)
  }

  /** The calls of the given sweeps, one per repository each, in order. */
  function AllProbeCalls(probes: seq<Probe>, repos: seq<string>): (r: seq<Call>)
    decreases |probes|
  {
    if |probes| == 0 then [] else ProbeCalls(probes[0], repos) + AllProbeCalls(probes[1..], repos)
  }

  /** The outcome of running sweeps in order: the finished sweeps' entries,
      the message of the call that raised (if one did), and the trace. */
  datatype Gathered = Gathered(sweeps: seq<seq<RepoEntry>>, failure: Option<string>, trace: seq<Call>)

  /** Run the sweeps in order until one is interrupted. */
  function Gather(env: Env, probes: seq<Probe>, repos: seq<string>, trace: seq<Call>): (g: Gathered)
    ensures |g.sweeps| <= |probes| && trace <= g.trace
    ensures g.failure.None? <==> |g.sweeps| == |probes|
    ensures g.failure.None? ==> g.trace == trace + AllProbeCalls(probes, repos)
    ensures forall k :: 0 <= k < |g.sweeps| ==> |g.sweeps[k]| <= |repos| && CappedSweep(probes[k], g.sweeps[k])
    decreases |probes|
  {
    if |probes| == 0 then Gathered([], None, trace)
    else
      var sweep := RunProbe(env, probes[0], repos, trace);
      match sweep
      case Interrupted(m, t) =>
        PrefixOfLonger(trace, ProbeCalls(probes[0], repos));
        Gathered([], Some(m), t)
      case Swept(es, t) =>
        PrefixOfLonger(trace, ProbeCalls(probes[0], repos));
        var rest := Gather(env, probes[1..], repos, t);
        AppendAssoc(trace, ProbeCalls(probes[0], repos), AllProbeCalls(probes[1..], repos));
        Gathered([es] + rest.sweeps, rest.failure, rest.trace)
  }

  /** Sweep the repositories (default: the organisation's main application)
      for commits of the look-back window touching the affected services,
      production deployments, and failed CI runs. A raise ends the step as
      "failed" with the sweeps finished so far reported. */
  method Step3GatherDiagnostics(env: Env, incident: Incident, repositories: seq<string>, trace: seq<Call>)
    returns (report: StepReport, diag: Diagnostics, calls: seq<Call>)
    ensures report.step == DiagnosticsStepName
    ensures |diag.sweeps| <= 3
    ensures report.details == [("diagnostics", DiagnosticsValue(incident, diag))]
    ensures report.status == ReportCompleted <==> diag.complete
    ensures report.status == ReportCompleted || report.status == ReportFailed
    ensures report.status == ReportFailed ==> report.error.Some?
    ensures trace <= calls
    ensures diag.complete <==> |diag.sweeps| == 3
    ensures forall k :: 0 <= k < |diag.sweeps| ==>
      |diag.sweeps[k]| <= |Repos(env, repositories)| && CappedSweep(Probes(incident)[k], diag.sweeps[k])
    ensures diag.complete ==> calls == trace + AllProbeCalls(Probes(incident), Repos(env, repositories))
  {
    var g := Gather(env, Probes(incident), Repos(env, repositories), trace);
    diag := Diagnostics(g.sweeps, g.failure.None?);
    calls := g.trace;
    var details := [("diagnostics", DiagnosticsValue(incident, diag))];
    if g.failure.Some? {
      report := StepReport(DiagnosticsStepName, ReportFailed, Some(VStr(g.failure.value)), details);
    } else {
      report := StepReport(DiagnosticsStepName, ReportCompleted, None, details);
    }
  }
  // ============ Step 4: root cause ============

  /** `report.get("diagnostics", {})`. */
  function DiagnosticsOf(report: Dict): Dict {
    EntriesOf(GetOr(report, "diagnostics", VDict([])))
  }

  /** The rows filed under a sweep key, `[]` when there are none. */
  function RowsOf(report: Dict, key: string): seq<Value> {
    ItemsOf(GetOr(DiagnosticsOf(report), key, VList([])))
  }

  /** The commits of every row, in order. */
  function FlattenCommits(rows: seq<Value>): seq<Value>
    decreases |rows|
  {
    if |rows| == 0 then [] else ItemsOf(GetOr(EntriesOf(rows[0]), "commits", VList([]))) + FlattenCommits(rows[1..])
  }

  /** The items of every entry, in order. */
  function SweepItems(entries: seq<RepoEntry>): seq<Value>
    decreases |entries|
  {
    if |entries| == 0 then [] else entries[0].items + SweepItems(entries[1..])
  }

  /** A capped sweep holds at most the cap times its entries. */
  lemma {:induction false} SweepItemsBound(p: Probe, entries: seq<RepoEntry>)
    requires CappedSweep(p, entries)
    ensures |SweepItems(entries)| <= Cap(p) * |entries|
    decreases |entries|
  {
    if |entries| > 0 {
      assert |entries[0].items| <= Cap(p);
      SweepItemsBound(p, entries[1..]);
    }
  }

  /** Flattening the commit sweep's rows gives back its entries' items. */
  lemma {:induction false} FlattenRows(p: Probe, entries: seq<RepoEntry>)
    requires p.CommitsProbe?
    ensures FlattenCommits(SweepRows(p, entries)) == SweepItems(entries)
    decreases |entries|
  {
    if |entries| > 0 {
      EntryRead(p, entries[0]);
      assert SweepRows(p, entries)[1..] == SweepRows(p, entries[1..]);
      FlattenRows(p, entries[1..]);
    }
  }

  /** The commits step 4 reads from step 3's report are the commit sweep's
      items, or none when that sweep did not finish. */
  lemma CommitsFromDiagnostics(incident: Incident, diag: Diagnostics)
    requires |diag.sweeps| <= 3
    ensures FlattenCommits(RowsOf([("diagnostics", DiagnosticsValue(incident, diag))], "recent_commits"))
         == (if |diag.sweeps| > 0 then SweepItems(diag.sweeps[0]) else [])
  {
    SweepRead(incident, diag, 0);
    if |diag.sweeps| > 0 {
      FlattenRows(Probes(incident)[0], diag.sweeps[0]);
    }
  }

  /** After step 3, step 4 analyses at most ten commits per repository. */
  lemma AnalyzedCommitsBound(incident: Incident, diag: Diagnostics, repos: seq<string>)
    requires |diag.sweeps| <= 3
    requires forall k :: 0 <= k < |diag.sweeps| ==>
      |diag.sweeps[k]| <= |repos| && CappedSweep(Probes(incident)[k], diag.sweeps[k])
    ensures |FlattenCommits(RowsOf([("diagnostics", DiagnosticsValue(incident, diag))], "recent_commits"))| <= 10 * |repos|
  {
    CommitsFromDiagnostics(incident, diag);
    if |diag.sweeps| > 0 {
      SweepItemsBound(Probes(incident)[0], diag.sweeps[0]);
      assert Cap(Probes(incident)[0]) == 10;
      assert |SweepItems(diag.sweeps[0])| <= 10 * |diag.sweeps[0]|;
    }
  }

  /** One line per row whose items are present, naming the row's repository. */
  function FlagLines(rows: seq<Value>, itemsKey: string, head: string, tail: string): (r: seq<string>)
    ensures |r| <= |rows|
    decreases |rows|
  {
    if |rows| == 0 then []
    else
      var row := EntriesOf(rows[0]);
      var rest := FlagLines(rows[1..], itemsKey, head, tail);
      if Truthy(At(row, itemsKey)) then [head + Show(At(row, "repository")) + tail] + rest else rest
  }

  /** The same lines computed from typed entries. */
  function Flagged(entries: seq<RepoEntry>, head: string, tail: string): (r: seq<string>)
    ensures |r| <= |entries|
    decreases |entries|
  {
    if |entries| == 0 then []
    else
      var rest := Flagged(entries[1..], head, tail);
      if |entries[0].items| > 0 then [head + entries[0].repository + tail] + rest else rest
  }

  /** A line is flagged exactly when some entry with items names it. */
  lemma {:induction false} FlaggedMembers(entries: seq<RepoEntry>, head: string, tail: string, line: string)
    ensures line in Flagged(entries, head, tail) <==>
      exists i :: 0 <= i < |entries| && |entries[i].items| > 0 && line == head + entries[i].repository + tail
    decreases |entries|
  {
    if |entries| > 0 {
      FlaggedMembers(entries[1..], head, tail, line);
      if line in Flagged(entries[1..], head, tail) {
        var i :| 0 <= i < |entries[1..]| && |entries[1..][i].items| > 0 && line == head + entries[1..][i].repository + tail;
        assert entries[i + 1] == entries[1..][i];
      }
      if exists i :: 0 <= i < |entries| && |entries[i].items| > 0 && line == head + entries[i].repository + tail {
        var i :| 0 <= i < |entries| && |entries[i].items| > 0 && line == head + entries[i].repository + tail;
        if i > 0 {
          assert entries[1..][i - 1] == entries[i];
        }
      }
    }
  }

  /** Reading a sweep's rows flags exactly the entries with items. */
  lemma {:induction false} FlagRows(p: Probe, entries: seq<RepoEntry>, head: string, tail: string)
    ensures FlagLines(SweepRows(p, entries), ItemsKey(p), head, tail) == Flagged(entries, head, tail)
    decreases |entries|
  {
    if |entries| > 0 {
      var rows := SweepRows(p, entries);
      var rest := SweepRows(p, entries[1..]);
      EntryRead(p, entries[0]);
      var row := EntriesOf(rows[0]);
      assert At(row, ItemsKey(p)) == VList(entries[0].items);
      assert Truthy(At(row, ItemsKey(p))) == (|entries[0].items| > 0);
      assert Show(At(row, "repository")) == entries[0].repository;
      forall i | 0 <= i < |rest| ensures rows[1..][i] == rest[i] {
        assert entries[1..][i] == entries[i + 1];
      }
      assert rows[1..] == rest;
      FlagRows(p, entries[1..], head, tail);
    }
  }

  /** The advice closing the recommendations, by category. */
  const DatabaseAdvice := "Check database connection pools and recent schema changes"
  const InfrastructureAdvice := "Verify container/pod health and resource limits"
  const NetworkAdvice := "Check DNS resolution and load balancer health"
  const SecurityAdvice := "Review authentication logs and access patterns"
  const ApplicationAdvice := "Check application logs for exceptions and errors"

  /** The advice added for the categories that have one. */
  function CategoryAdvice(c: Category): (r: Option<string>)
    ensures r.None? <==> (c.Performance? || c.Integration? || c.Unknown?)
  {
    match c
    case Database => Some(DatabaseAdvice)
    case Infrastructure => Some(InfrastructureAdvice)
    case Network => Some(NetworkAdvice)
    case Security => Some(SecurityAdvice)
    case Application => Some(ApplicationAdvice)
    case _ => None
  }

  const RollbackHead := "Recent deployment detected in "
  const RollbackTail := " - consider rollback if needed"
  const BuildHead := "Failed CI/CD runs in "
  const BuildTail := " - investigate build failures"

  /** `_generate_recommendations`: a rollback hint per repository with a
      recent deployment, a build hint per repository with failed runs, then
      the category's advice. */
  function Recommendations(incident: Incident, report: Dict): (r: seq<string>)
    ensures |r| <= |RowsOf(report, "recent_deployments")| + |RowsOf(report, "failed_workflows")| + 1
    ensures CategoryAdvice(incident.category).Some? ==> |r| > 0 && r[|r| - 1] == CategoryAdvice(incident.category).value
  {
    var advice := CategoryAdvice(incident.category);
    FlagLines(RowsOf(report, "recent_deployments"), "deployments", RollbackHead, RollbackTail)
      + FlagLines(RowsOf(report, "failed_workflows"), "failed_runs", BuildHead, BuildTail)
      + (if advice.Some? then [advice.value] else [])
  }

  /** Reading a sweep's rows from step 3's report flags the entries of that
      sweep with items, or nothing when the sweep did not finish. */
  lemma FlagsFromDiagnostics(incident: Incident, diag: Diagnostics, k: nat, head: string, tail: string)
    requires |diag.sweeps| <= 3 && k < 3
    ensures FlagLines(RowsOf([("diagnostics", DiagnosticsValue(incident, diag))], SweepKey(k)),
                      ItemsKey(Probes(incident)[k]), head, tail)
         == Flagged(if k < |diag.sweeps| then diag.sweeps[k] else [], head, tail)
  {
    SweepRead(incident, diag, k);
    if k < |diag.sweeps| {
      FlagRows(Probes(incident)[k], diag.sweeps[k], head, tail);
    }
  }

  /** Given step 3's report, the recommendations are the rollback hints for
      the deployment sweep's entries with deployments, the build hints for
      the run sweep's entries with failed runs, then the advice. */
  lemma RecommendationsFromDiagnostics(incident: Incident, diag: Diagnostics)
    requires |diag.sweeps| <= 3
    ensures var deploys := if |diag.sweeps| > 1 then diag.sweeps[1] else [];
      var runs := if |diag.sweeps| > 2 then diag.sweeps[2] else [];
      var advice := CategoryAdvice(incident.category);
      Recommendations(incident, [("diagnostics", DiagnosticsValue(incident, diag))])
        == Flagged(deploys, RollbackHead, RollbackTail) + Flagged(runs, BuildHead, BuildTail)
           + (if advice.Some? then [advice.value] else [])
  {
    var probes := Probes(incident);
    assert SweepKey(1) == "recent_deployments" && ItemsKey(probes[1]) == "deployments";
    assert SweepKey(2) == "failed_workflows" && ItemsKey(probes[2]) == "failed_runs";
    FlagsFromDiagnostics(incident, diag, 1, RollbackHead, RollbackTail);
    FlagsFromDiagnostics(incident, diag, 2, BuildHead, BuildTail);
  }

  const AnalysisHead := "*Root Cause Analysis Complete*\n\n"

  /** The update posted once the hypothesis is known. */
  function AnalysisUpdate(h: string): string {
    AnalysisHead + Take(h, 500) + "..."
  }

  /** The language-model request of step 4: no logs, the first ten recent
      commits, and the metrics summary. */
  function HypothesisRequest(incident: Incident, diagnostics: Dict): (c: Call)
    ensures c.GenerateHypothesis? && c.incident == incident && c.logs == VNone
    ensures c.recentChanges.VList? && |c.recentChanges.items| <= 10
  {
    var commits := FlattenCommits(RowsOf(diagnostics, "recent_commits"));
    GenerateHypothesis(incident, VNone, VList(Take(commits, 10)), At(DiagnosticsOf(diagnostics), "metrics"))
  }

  /** What step 4 reports besides its status. */
  function AnalysisDetails(h: string, recommendations: seq<string>, analyzed: nat): (d: Dict)
    ensures Get(d, "hypothesis") == Some(VStr(h))
    ensures Get(d, "recommendations") == Some(StrList(recommendations))
    ensures Get(d, "confidence") == Some(VStr("medium"))
    ensures Get(d, "analyzed_commits") == Some(VInt(analyzed))
  {
    var d := [("hypothesis", VStr(h)), ("recommendations", StrList(recommendations)),
              ("confidence", VStr("medium")), ("analyzed_commits", VInt(analyzed))];
    GetFirst(d, 1);
    GetFirst(d, 2);
    GetFirst(d, 3);
    d
  }

  /** Ask the language model for a root-cause hypothesis from the first ten
      recent commits and the metrics summary, record it on the incident, and
      report it with the recommendations; when the incident has a channel,
      post the analysis there. Only a raise of that post fails the step, and
      the hypothesis is kept. */
  method Step4AnalyzeRootCause(env: Env, incident: Incident, diagnostics: Dict, trace: seq<Call>)
    returns (report: StepReport, inc: Incident, calls: seq<Call>)
    ensures report.step == AnalysisStepName
    ensures var ask := HypothesisRequest(incident, diagnostics);
      var h := HypothesisText(env.generate(|trace|, ask));
      var post := PostUpdate(incident.slackChannelId, inc, VStr("analysis_complete"), VStr(AnalysisUpdate(h)));
      && inc == incident.(rootCauseHypothesis := VStr(h))
      && report.details == AnalysisDetails(h, Recommendations(incident, diagnostics),
                                           |FlattenCommits(RowsOf(diagnostics, "recent_commits"))|)
      && (Truthy(incident.slackChannelId) ==> calls == trace + [ask, post])
      && (!Truthy(incident.slackChannelId) ==> calls == trace + [ask])
      && (report.status == ReportFailed <==>
            Truthy(incident.slackChannelId) && env.answer(|trace| + 1, post).Raised?)
      && (report.status == ReportCompleted || report.status == ReportFailed)
  {
    var ask := HypothesisRequest(incident, diagnostics);
    var (ai, t) := Ask(env, trace, ask);
    var h := HypothesisText(ai);
    inc := incident.(rootCauseHypothesis := VStr(h));
    var details := AnalysisDetails(h, Recommendations(incident, diagnostics),
                                   |FlattenCommits(RowsOf(diagnostics, "recent_commits"))|);
    report, calls := PostAnalysis(env, incident.slackChannelId, inc, h, details, t);
    SnocTwice(trace, ask, PostUpdate(incident.slackChannelId, inc, VStr("analysis_complete"), VStr(AnalysisUpdate(h))));
  }

  /** The second half of step 4: post the analysis when the incident has a
      channel; only a raise of that post fails the step. */
  method PostAnalysis(env: Env, channel: Value, inc: Incident, h: string, details: Dict, t: seq<Call>)
    returns (report: StepReport, calls: seq<Call>)
    ensures report.step == AnalysisStepName && report.details == details
    ensures var post := PostUpdate(channel, inc, VStr("analysis_complete"), VStr(AnalysisUpdate(h)));
      && (Truthy(channel) ==> calls == t + [post])
      && (!Truthy(channel) ==> calls == t)
      && (report.status == ReportFailed <==> Truthy(channel) && env.answer(|t|, post).Raised?)
      && (report.status == ReportCompleted || report.status == ReportFailed)
  {
    if Truthy(channel) {
      var post := PostUpdate(channel, inc, VStr("analysis_complete"), VStr(AnalysisUpdate(h)));
      var (reply, t2) := Invoke(env, t, post);
      calls := t2;
      report := AnalysisReport(if reply.Raised? then Some(reply.message) else None, details);
    } else {
      calls := t;
      report := AnalysisReport(None, details);
    }
  }

  /** Step 4's report: failed with the message of the post that raised. */
  function AnalysisReport(raised: Option<string>, details: Dict): (r: StepReport)
    ensures r.step == AnalysisStepName && r.details == details
    ensures r.status == ReportFailed <==> raised.Some?
    ensures r.status == ReportCompleted || r.status == ReportFailed
  {
    StepReport(AnalysisStepName, if raised.Some? then ReportFailed else ReportCompleted,
               if raised.Some? then Some(VStr(raised.value)) else None, details)
  }

  // ============ Raises end a step ============

  /** Every collaborator call a step made after `trace`, except possibly the
      last, returned rather than raised. */
  predicate NoEarlyRaise(env: Env, trace: seq<Call>, calls: seq<Call>) {
    && trace <= calls
    && forall i :: |trace| <= i < |calls| - 1 ==> !env.answer(i, calls[i]).Raised?
  }

  /** The last call a step made raised. */
  predicate EndsInRaise(env: Env, trace: seq<Call>, calls: seq<Call>) {
    |calls| > |trace| && env.answer(|calls| - 1, calls[|calls| - 1]).Raised?
  }

  /** Making the plan's first call and then `k` more of the rest makes the
      first `k + 1` calls of the plan. */
  lemma PlanPrefixStep(trace: seq<Call>, plan: seq<Call>, k: nat)
    requires k < |plan|
    ensures trace + [plan[0]] + plan[1..][..k] == trace + plan[..k + 1]
  {
    calc {
      trace + [plan[0]] + plan[1..][..k];
      trace + ([plan[0]] + plan[1..][..k]);
      { assert [plan[0]] + plan[1..][..k] == plan[..k + 1]; }
      trace + plan[..k + 1];
    }
  }

  /** Make the planned calls in order until one raises: the trace with the
      calls made, and the message of the call that raised, if one did. */
  function RunUntilRaise(env: Env, trace: seq<Call>, plan: seq<Call>): (r: (seq<Call>, Option<string>))
    ensures trace <= r.0 && |r.0| <= |trace| + |plan|
    ensures r.0 == trace + plan[..|r.0| - |trace|]
    ensures r.1.None? ==> r.0 == trace + plan
    ensures r.1.Some? ==> |r.0| > |trace| && env.answer(|r.0| - 1, r.0[|r.0| - 1]) == Raised(r.1.value)
    decreases |plan|
  {
    if |plan| == 0 then (trace, None)
    else
      var reply := env.answer(|trace|, plan[0]);
      if reply.Raised? then (trace + [plan[0]], Some(reply.message))
      else
        var r := RunUntilRaise(env, trace + [plan[0]], plan[1..]);
        assert |trace| + 1 <= |r.0| <= |trace| + |plan|;
        PlanPrefixStep(trace, plan, |r.0| - |trace| - 1);
        r
  }

  /** Only the last call made can have raised, and it raised exactly when a
      message is returned. */
  lemma {:induction false} RunUntilRaiseStops(env: Env, trace: seq<Call>, plan: seq<Call>)
    ensures var r := RunUntilRaise(env, trace, plan);
      && NoEarlyRaise(env, trace, r.0)
      && (r.1.Some? <==> EndsInRaise(env, trace, r.0))
    decreases |plan|
  {
    var r := RunUntilRaise(env, trace, plan);
    if |plan| > 0 && !env.answer(|trace|, plan[0]).Raised? {
      RunUntilRaiseStops(env, trace + [plan[0]], plan[1..]);
      assert r.0[|trace|] == plan[0];
    }
  }

  // ============ Step 5: wiki page ============

  const PageCreated := "\U{1F4C4} Incident page created: "

  /** Create the incident page. On success its id is written on the incident
      and, when there is a channel, the link is posted there; a raise of that
      post fails the step but keeps the page. A failed or raising creation
      fails the step and leaves the incident unchanged. */
  method Step5CreatePage(env: Env, incident: Incident, trace: seq<Call>)
    returns (report: StepReport, inc: Incident, calls: seq<Call>)
    ensures report.step == PageStepName
    ensures report.status == ReportCompleted || report.status == ReportFailed
    ensures NoEarlyRaise(env, trace, calls)
    ensures var c := CreatePostmortem(incident);
      var a := env.answer(|trace|, c);
      && (!a.Succeeded? ==>
            && inc == incident && calls == trace + [c]
            && report.status == ReportFailed && report.error == Some(ErrorOf(a)))
      && (a.Succeeded? ==>
            var post := PostUpdate(incident.slackChannelId, inc, VStr("status_change"),
                                   VStr(PageCreated + Show(At(a.payload, "page_url"))));
            && inc == incident.(confluencePageId := At(a.payload, "page_id"))
            && Get(report.details, "page_id") == Some(At(a.payload, "page_id"))
            && Get(report.details, "page_url") == Some(At(a.payload, "page_url"))
            && calls == trace + [c] + (if Truthy(incident.slackChannelId) then [post] else [])
            && (report.status == ReportFailed <==> EndsInRaise(env, trace, calls)))
  {
    var c := CreatePostmortem(incident);
    var (a, t) := Invoke(env, trace, c);
    calls := t;
    inc := incident;
    if !a.Succeeded? {
      report := StepReport(PageStepName, ReportFailed, Some(ErrorOf(a)), []);
      return;
    }
    inc := incident.(confluencePageId := At(a.payload, "page_id"));
    var details := [("page_id", At(a.payload, "page_id")), ("page_url", At(a.payload, "page_url")),
                    ("page_title", At(a.payload, "title"))];
    GetFirst(details, 1);
    report := StepReport(PageStepName, ReportCompleted, None, details);
    if Truthy(inc.slackChannelId) {
      var post := PostUpdate(inc.slackChannelId, inc, VStr("status_change"),
                             VStr(PageCreated + Show(At(a.payload, "page_url"))));
      var (b, t2) := Invoke(env, calls, post);
      calls := t2;
      if b.Raised? {
        report := report.(status := ReportFailed, error := Some(VStr(b.message)));
      }
    }
  }

  // ============ Step 6: assignment ============

  /** The skills that make a member a fitting assignee, by category. */
  function AssigneeSkills(c: Category): seq<string> {
    match c
    case Database => ["dba", "postgresql", "mysql", "sql"]
    case Infrastructure => ["sre", "devops", "kubernetes"]
    case Security => ["security", "soc"]
    case Network => ["networking", "dns"]
    case Application => ["backend", "developer"]
    case _ => []
  }

  /** `_select_assignee`. */
  function SelectAssignee(incident: Incident, team: seq<TeamMember>): Option<TeamMember> {
    PickAssignee(team, AssigneeSkills(incident.category))
  }

  /** The summary posted once the team is assigned. */
  function AssignmentNotice(jiraUrl: Value, incident: Incident, assignedTo: Value): string {
    "\U{1F465} *Incident Assigned*\n\n*Jira:* " + Show(jiraUrl)
      + "\n*ServiceNow:* " + Show(Or(incident.servicenowTicketId, VStr("N/A")))
      + "\n*Confluence:* " + Show(Or(incident.confluencePageId, VStr("N/A")))
      + "\n*Assigned To:* " + Show(assignedTo)
  }

  /** Whether step 6 assigns the issue: the issue was created and the
      assignee chosen from the team has an email address. */
  predicate Assigns(a: Reply, pick: Option<TeamMember>) {
    a.Succeeded? && pick.Some? && |pick.value.email| > 0
  }

  /** The incident once the assignee, if any, has joined the responders. */
  function Assigned(incident: Incident, a: Reply, pick: Option<TeamMember>): (r: Incident)
    ensures Assigns(a, pick) ==> r == incident.(assignedResponders := incident.assignedResponders + [pick.value.id])
    ensures !Assigns(a, pick) ==> r == incident
  {
    if Assigns(a, pick) then incident.(assignedResponders := incident.assignedResponders + [pick.value.id]) else incident
  }

  /** The call that assembles the response team in the channel. */
  function TeamAssembly(inc: Incident, team: seq<TeamMember>, ch: Value): Call {
    AssembleTeam(inc, SelectResponseTeam(team), ch)
  }

  /** The call that posts the assignment summary, naming the issue's link
      and the assignee when there is one. */
  function AssignmentPost(ch: Value, inc: Incident, a: Reply, assignee: Option<TeamMember>): Call {
    var notice := AssignmentNotice(if a.Succeeded? then At(a.payload, "issue_url") else VStr("N/A"), inc,
                                   if assignee.Some? then VStr(assignee.value.name) else VStr("Unassigned"));
    PostUpdate(ch, inc, VStr("team_assigned"), VStr(notice))
  }

  /** The calls step 6 makes after creating the issue (answered `a`), until
      one raises: the assignment, the team assembly when there is a team and
      a channel, and the summary when there is a channel. */
  function AssignPlan(incident: Incident, team: seq<TeamMember>, a: Reply): (plan: seq<Call>)
    requires !a.Raised?
    ensures var pick := SelectAssignee(incident, team);
      |plan| == (if Assigns(a, pick) then 1 else 0) + (if |team| > 0 && Truthy(incident.slackChannelId) then 1 else 0)
                + (if Truthy(incident.slackChannelId) then 1 else 0)
    ensures var pick := SelectAssignee(incident, team);
      Assigns(a, pick) ==> plan[0] == AssignJiraIssue(At(a.payload, "issue_key"), pick.value.email)
    ensures Truthy(incident.slackChannelId) ==>
      plan[|plan| - 1].PostUpdate? && plan[|plan| - 1].channelId == incident.slackChannelId
      && plan[|plan| - 1].updateType == VStr("team_assigned")
  {
    var pick := SelectAssignee(incident, team);
    var inc := Assigned(incident, a, pick);
    var ch := incident.slackChannelId;
    var assign := if Assigns(a, pick) then [AssignJiraIssue(At(a.payload, "issue_key"), pick.value.email)] else [];
    var assemble := if |team| > 0 && Truthy(ch) then [TeamAssembly(inc, team, ch)] else [];
    var post := if Truthy(ch) then [AssignmentPost(ch, inc, a, if Assigns(a, pick) then pick else None)] else [];
    assign + assemble + post
  }

  /** What step 6 reports besides its status: the issue, the assignee once
      the assignment returned, and the assembled count once the assembly
      returned. */
  function AssignDetails(env: Env, trace: seq<Call>, a: Reply, pick: Option<TeamMember>, assembles: bool,
                         calls: seq<Call>): (d: Dict)
    ensures a.Succeeded? ==> Get(d, "jira_issue") == Some(At(a.payload, "issue_key"))
  {
    var issue := if a.Succeeded? then [("jira_issue", At(a.payload, "issue_key")), ("jira_url", At(a.payload, "issue_url"))] else [];
    var k := |trace| + 1 + (if Assigns(a, pick) then 1 else 0);
    var assignee := if Assigns(a, pick) && |calls| > |trace| + 1 && !env.answer(|trace| + 1, calls[|trace| + 1]).Raised?
                    then [("assigned_to", VStr(pick.value.name))] else [];
    var team := if assembles && |calls| > k && !env.answer(k, calls[k]).Raised?
                then [("team_assembled", GetOr(PayloadOf(env.answer(k, calls[k])), "assembled_count", VInt(0)))] else [];
    issue + assignee + team
  }

  /** Create the tracker issue, then make the calls of `AssignPlan` until one
      raises. A failed creation is passed over; any raise ends the step as
      "failed". The assignee joins the responders once the assignment call
      returns, and stays there whatever happens after. */
  method Step6AssignAndNotify(env: Env, incident: Incident, team: seq<TeamMember>, trace: seq<Call>)
    returns (report: StepReport, inc: Incident, calls: seq<Call>)
    ensures report.step == AssignStepName
    ensures report.status == ReportCompleted || report.status == ReportFailed
    ensures trace + [CreateJiraIssue(incident)] <= calls
    ensures var a := env.answer(|trace|, CreateJiraIssue(incident));
      && (a.Raised? ==> calls == trace + [CreateJiraIssue(incident)] && report.status == ReportFailed)
      && (!a.Raised? ==>
            var r := RunUntilRaise(env, trace + [CreateJiraIssue(incident)], AssignPlan(incident, team, a));
            && calls == r.0
            && (report.status == ReportFailed <==> r.1.Some?)
            && (a.Succeeded? ==> Get(report.details, "jira_issue") == Some(At(a.payload, "issue_key"))))
    ensures var pick := SelectAssignee(incident, team);
      var a := env.answer(|trace|, CreateJiraIssue(incident));
      && (inc == incident || inc == Assigned(incident, a, pick))
      && (report.status == ReportCompleted ==> inc == Assigned(incident, a, pick))
  {
    var jira := CreateJiraIssue(incident);
    var (a, t) := Invoke(env, trace, jira);
    if a.Raised? {
      report := StepReport(AssignStepName, ReportFailed, Some(VStr(a.message)), []);
      inc := incident;
      calls := t;
    } else {
      report, inc, calls := AssignAfterIssue(env, incident, team, a, trace, t);
    }
  }

  /** Step 6 once the issue creation returned `a`. */
  method AssignAfterIssue(env: Env, incident: Incident, team: seq<TeamMember>, a: Reply, trace: seq<Call>, t: seq<Call>)
    returns (report: StepReport, inc: Incident, calls: seq<Call>)
    requires !a.Raised?
    ensures report.step == AssignStepName
    ensures var r := RunUntilRaise(env, t, AssignPlan(incident, team, a));
      && calls == r.0
      && (report.status == ReportFailed <==> r.1.Some?)
      && (report.status == ReportCompleted || report.status == ReportFailed)
    ensures a.Succeeded? ==> Get(report.details, "jira_issue") == Some(At(a.payload, "issue_key"))
    ensures var pick := SelectAssignee(incident, team);
      && (inc == incident || inc == Assigned(incident, a, pick))
      && (report.status == ReportCompleted ==> inc == Assigned(incident, a, pick))
  {
    var pick := SelectAssignee(incident, team);
    var r := RunUntilRaise(env, t, AssignPlan(incident, team, a));
    calls := r.0;
    inc := AssigneeKept(incident, a, pick, r.1.None? || |calls| > |t| + 1);
    var details := AssignDetails(env, trace, a, pick, |team| > 0 && Truthy(incident.slackChannelId), calls);
    report := AssignReport(r.1, details);
  }

  /** The incident after step 6: the assignee stays among the responders
      once the assignment call has returned. */
  function AssigneeKept(incident: Incident, a: Reply, pick: Option<TeamMember>, returned: bool): (r: Incident)
    ensures r == incident || r == Assigned(incident, a, pick)
    ensures returned ==> r == Assigned(incident, a, pick)
  {
    if Assigns(a, pick) && returned then Assigned(incident, a, pick) else incident
  }

  /** Step 6's report: failed with the message of the call that raised. */
  function AssignReport(raised: Option<string>, details: Dict): (r: StepReport)
    ensures r.step == AssignStepName && r.details == details
    ensures r.status == ReportFailed <==> raised.Some?
    ensures r.status == ReportCompleted || r.status == ReportFailed
  {
    StepReport(AssignStepName, if raised.Some? then ReportFailed else ReportCompleted,
               if raised.Some? then Some(VStr(raised.value)) else None, details)
  }

  // ============ Step 7: monitoring ============

  const WorkNote := "Incident workflow completed. Team assigned. Monitoring active."
  const MonitoringMessage :=
    "\U{1F4CA} *Monitoring Active*\n\n• Incident status: *in_progress*\n• Response team assembled\n"
    + "• All systems linked and tracking\n\n_Updates will be automatically posted to this channel._"

  /** Which systems track the incident; the tracker is always reported. */
  function Tracking(incident: Incident): Value {
    VDict([("servicenow", VBool(Truthy(incident.servicenowTicketId))),
           ("slack", VBool(Truthy(incident.slackChannelId))),
           ("confluence", VBool(Truthy(incident.confluencePageId))),
           ("jira", VBool(true))])
  }

  /** The calls step 7 makes: a work note on the ticket, if there is one, and
      the monitoring notice in the channel, if there is one. */
  function MonitorPlan(inc: Incident): seq<Call> {
    (if Truthy(inc.servicenowTicketId) then [AddWorkNote(inc.servicenowTicketId, VStr(WorkNote))] else [])
      + (if Truthy(inc.slackChannelId) then [NotifyTeam(inc.slackChannelId, VStr(MonitoringMessage), inc)] else [])
  }

  /** Mark the incident in progress and acknowledged now, then make the calls
      of `MonitorPlan` until one raises. The status change happens before
      either call, so it stands even when a call raises. */
  method Step7Monitor(env: Env, incident: Incident, trace: seq<Call>)
    returns (report: StepReport, inc: Incident, calls: seq<Call>)
    ensures report.step == MonitorStepName
    ensures inc == incident.(status := InProgress, acknowledgedAt := Some(env.now))
    ensures report.status == ReportCompleted || report.status == ReportFailed
    ensures var r := RunUntilRaise(env, trace, MonitorPlan(inc));
      calls == r.0 && (report.status == ReportFailed <==> r.1.Some?)
    ensures report.status == ReportCompleted ==>
      && Get(report.details, "incident_status") == Some(VStr("in_progress"))
      && Get(report.details, "tracking_enabled") == Some(Tracking(incident))
  {
    inc := incident.(status := InProgress, acknowledgedAt := Some(env.now));
    var r := RunUntilRaise(env, trace, MonitorPlan(inc));
    calls := r.0;
    if r.1.Some? {
      report := StepReport(MonitorStepName, ReportFailed, Some(VStr(r.1.value)), []);
      return;
    }
    var details := [("monitoring_active", VBool(true)), ("incident_status", VStr(inc.status.Value())),
                    ("tracking_enabled", Tracking(inc))];
    GetFirst(details, 1);
    GetFirst(details, 2);
    report := StepReport(MonitorStepName, ReportCompleted, None, details);
  }

  // ============ The pipeline ============

  /** The keys the workflow files the step reports under, in order. */
  const StepKeys: seq<string> := [
    "1_create_servicenow_ticket", "2_send_slack_alert", "3_gather_diagnostics", "4_analyze_root_cause",
    "5_create_confluence_page", "6_assign_and_notify", "7_monitor_and_update"]

  /** What the workflow returns: the step reports by key, and whether it
      succeeded with the errors it caught. */
  datatype WorkflowResult = WorkflowResult(
    incidentId: string,
    workflowName: string,
    steps: seq<(string, StepReport)>,
    success: bool,
    errors: seq<string>)

  /** Given step 3's findings, step 4 makes at most one rollback and one
      build hint per repository, plus the advice. */
  lemma RecommendationsBound(incident: Incident, diag: Diagnostics, repos: seq<string>)
    requires |diag.sweeps| <= 3
    requires forall k :: 0 <= k < |diag.sweeps| ==>
      |diag.sweeps[k]| <= |repos| && CappedSweep(Probes(incident)[k], diag.sweeps[k])
    ensures |Recommendations(incident, [("diagnostics", DiagnosticsValue(incident, diag))])| <= 2 * |repos| + 1
  {
    RecommendationsFromDiagnostics(incident, diag);
  }

  /** A step's status is final: completed or failed. */
  predicate Settled(r: StepReport) {
    r.status == ReportCompleted || r.status == ReportFailed
  }

  /** What the pipeline relies on from step 1: a settled report and only
      the ticket number written. */
  method TicketEffect(env: Env, incident: Incident, trace: seq<Call>)
    returns (r: StepReport, inc: Incident, calls: seq<Call>)
    ensures Settled(r) && inc == incident.(servicenowTicketId := inc.servicenowTicketId)
    ensures calls == trace + [CreateTicket(incident)]
  {
    r, inc, calls := Step1CreateTicket(env, incident, trace);
  }

  /** What the pipeline relies on from step 2: a settled or partial report
      and only the channel written. */
  method AlertEffect(env: Env, incident: Incident, trace: seq<Call>)
    returns (r: StepReport, inc: Incident, calls: seq<Call>)
    ensures (Settled(r) || r.status == ReportPartial) && inc == incident.(slackChannelId := inc.slackChannelId)
    ensures trace <= calls
  {
    r, inc, calls := Step2SendAlert(env, incident, trace);
  }

  /** Steps 1 and 2: the ticket and the alert, which write the ticket number
      and the channel on the incident. */
  method AlertSteps(env: Env, incident: Incident, trace: seq<Call>)
    returns (r1: StepReport, r2: StepReport, inc: Incident, calls: seq<Call>)
    ensures Settled(r1) && (Settled(r2) || r2.status == ReportPartial)
    ensures inc == incident.(servicenowTicketId := inc.servicenowTicketId, slackChannelId := inc.slackChannelId)
    ensures trace + [CreateTicket(incident)] <= calls
  {
    var i1, c1;
    r1, i1, c1 := TicketEffect(env, incident, trace);
    r2, inc, calls := AlertEffect(env, i1, c1);
  }

  /** Steps 3 and 4: diagnostics, then the root-cause analysis of them, which
      writes the hypothesis on the incident. */
  method AnalysisSteps(env: Env, incident: Incident, repositories: seq<string>, trace: seq<Call>)
    returns (r3: StepReport, r4: StepReport, inc: Incident, calls: seq<Call>)
    ensures Settled(r3) && Settled(r4)
    ensures inc == incident.(rootCauseHypothesis := inc.rootCauseHypothesis) && inc.rootCauseHypothesis.VStr?
    ensures trace <= calls
    ensures var n := Get(r4.details, "analyzed_commits");
      n.Some? && n.value.VInt? && n.value.i <= 10 * |Repos(env, repositories)|
    ensures var recs := Get(r4.details, "recommendations");
      recs.Some? && recs.value.VList? && |recs.value.items| <= 2 * |Repos(env, repositories)| + 1
  {
    var diag, c3;
    r3, diag, c3 := Step3GatherDiagnostics(env, incident, repositories, trace);
    AnalyzedCommitsBound(incident, diag, Repos(env, repositories));
    RecommendationsBound(incident, diag, Repos(env, repositories));
    r4, inc, calls := Step4AnalyzeRootCause(env, incident, r3.details, c3);
  }

  /** What the pipeline relies on from step 5: a settled report and only
      the page id written. */
  method PageEffect(env: Env, incident: Incident, trace: seq<Call>)
    returns (r: StepReport, inc: Incident, calls: seq<Call>)
    ensures Settled(r) && inc == incident.(confluencePageId := inc.confluencePageId) && trace <= calls
  {
    r, inc, calls := Step5CreatePage(env, incident, trace);
  }

  /** What the pipeline relies on from step 6: a settled report and only the
      responders written. */
  method AssignEffect(env: Env, incident: Incident, team: seq<TeamMember>, trace: seq<Call>)
    returns (r: StepReport, inc: Incident, calls: seq<Call>)
    ensures Settled(r) && inc == incident.(assignedResponders := inc.assignedResponders) && trace <= calls
  {
    r, inc, calls := Step6AssignAndNotify(env, incident, team, trace);
    assert trace <= trace + [CreateJiraIssue(incident)];
  }

  /** What the pipeline relies on from step 7: a settled report and the
      incident in progress and acknowledged now. */
  method MonitorEffect(env: Env, incident: Incident, trace: seq<Call>)
    returns (r: StepReport, inc: Incident, calls: seq<Call>)
    ensures Settled(r) && inc == incident.(status := InProgress, acknowledgedAt := Some(env.now)) && trace <= calls
  {
    r, inc, calls := Step7Monitor(env, incident, trace);
  }

  /** Steps 5 to 7: the page, the assignment and the monitoring, which write
      the page id, the responders, the status and the acknowledgement. */
  method TrackingSteps(env: Env, incident: Incident, team: seq<TeamMember>, trace: seq<Call>)
    returns (r5: StepReport, r6: StepReport, r7: StepReport, inc: Incident, calls: seq<Call>)
    ensures Settled(r5) && Settled(r6) && Settled(r7)
    ensures inc == incident.(confluencePageId := inc.confluencePageId, assignedResponders := inc.assignedResponders,
                             status := InProgress, acknowledgedAt := Some(env.now))
    ensures trace <= calls
  {
    var i5, c5, i6, c6;
    r5, i5, c5 := PageEffect(env, incident, trace);
    r6, i6, c6 := AssignEffect(env, i5, team, c5);
    r7, inc, calls := MonitorEffect(env, i6, c6);
  }

  /** The reports filed under the seven keys: none left pending, and only
      the alert step may be partial. */
  predicate WellReported(steps: seq<(string, StepReport)>) {
    && |steps| == 7
    && (forall i :: 0 <= i < 7 ==> steps[i].0 == StepKeys[i])
    && (forall i :: 0 <= i < 7 ==> steps[i].1.status != ReportPending)
    && (forall i :: 0 <= i < 7 && i != 1 ==> steps[i].1.status != ReportPartial)
  }

  function StepTable(r1: StepReport, r2: StepReport, r3: StepReport, r4: StepReport,
                     r5: StepReport, r6: StepReport, r7: StepReport): (t: seq<(string, StepReport)>)
    requires Settled(r1) && (Settled(r2) || r2.status == ReportPartial) && Settled(r3) && Settled(r4)
    requires Settled(r5) && Settled(r6) && Settled(r7)
    ensures WellReported(t)
    ensures t[0].1 == r1 && t[1].1 == r2 && t[2].1 == r3 && t[3].1 == r4 && t[4].1 == r5 && t[5].1 == r6 && t[6].1 == r7
  {
    [(StepKeys[0], r1), (StepKeys[1], r2), (StepKeys[2], r3), (StepKeys[3], r4),
     (StepKeys[4], r5), (StepKeys[5], r6), (StepKeys[6], r7)]
  }

  /** Run the seven steps in order on one incident, each seeing the fields
      the earlier ones wrote on it and step 4 seeing step 3's report. Every
      step catches its own failures, so the workflow always reports success
      with no errors; the incident always ends in progress, acknowledged
      now, with a root-cause hypothesis, and only the fields the steps write
      differ from the input. */
  method ExecuteIncidentWorkflow(env: Env, incident: Incident, repositories: seq<string>, team: seq<TeamMember>,
                                 trace: seq<Call>)
    returns (result: WorkflowResult, inc: Incident, calls: seq<Call>)
    ensures result.incidentId == incident.id && result.workflowName == "Incident Response Workflow"
    ensures result.success && result.errors == []
    ensures WellReported(result.steps)
    ensures inc.status == InProgress && inc.acknowledgedAt == Some(env.now) && inc.rootCauseHypothesis.VStr?
    ensures inc == incident.(servicenowTicketId := inc.servicenowTicketId, slackChannelId := inc.slackChannelId,
                             rootCauseHypothesis := inc.rootCauseHypothesis, confluencePageId := inc.confluencePageId,
                             assignedResponders := inc.assignedResponders, status := InProgress,
                             acknowledgedAt := Some(env.now))
    ensures trace + [CreateTicket(incident)] <= calls
    ensures var n := Get(result.steps[3].1.details, "analyzed_commits");
      n.Some? && n.value.VInt? && n.value.i <= 10 * |Repos(env, repositories)|
    ensures var recs := Get(result.steps[3].1.details, "recommendations");
      recs.Some? && recs.value.VList? && |recs.value.items| <= 2 * |Repos(env, repositories)| + 1
  {
    var r1, r2, i2, c2 := AlertSteps(env, incident, trace);
    var r3, r4, i4, c4 := AnalysisSteps(env, i2, repositories, c2);
    assert i4 == incident.(servicenowTicketId := i2.servicenowTicketId, slackChannelId := i2.slackChannelId,
                           rootCauseHypothesis := i4.rootCauseHypothesis);
    var r5, r6, r7, i7, c7 := TrackingSteps(env, i4, team, c4);
    assert trace + [CreateTicket(incident)] <= c4;
    inc := i7;
    calls := c7;
    result := WorkflowResult(incident.id, "Incident Response Workflow", StepTable(r1, r2, r3, r4, r5, r6, r7), true, []);
  }
}

=== FILE: jira_connector.dfy ===
/** The issue tracker connector's own logic: priorities, labels, the issue
    description, the issue request and its address, user assignment and
    transition matching. The tracker is seen through its answers: each
    request either answers or raises, given as a `Result` whose error is the
    exception text. */
module JiraConnector {
  import opened Wrappers
  import opened Text
  import opened Values
  import opened Models

  /** `PRIORITY_MAP` with its default: every severity has a priority, so the
      default "Medium" is never used. */
  function PriorityOf(s: Severity): string {
    match s
    case Critical => "Highest"
    case High => "High"
    case Medium => "Medium"
    case Low => "Low"
  }

  /** Distinct severities get distinct priorities, and only critical
      incidents get the highest one. */
  lemma PriorityFaithful(a: Severity, b: Severity)
    ensures a != b ==> PriorityOf(a) != PriorityOf(b)
    ensures PriorityOf(a) == "Highest" <==> a == Critical
  {
  }

  /** The labels before cleaning: "incident", the severity, the category
      unless it is unknown, and at most the first three tags. */
  function RawLabels(incident: Incident): (r: seq<string>)
    ensures |r| == 2 + (if incident.category == Unknown then 0 else 1) + |Take(incident.tags, 3)|
    ensures r[0] == "incident" && r[1] == incident.severity.Value()
    ensures incident.category != Unknown ==> r[2] == incident.category.Value()
    ensures r[|r| - |Take(incident.tags, 3)|..] == Take(incident.tags, 3)
  {
    ["incident", incident.severity.Value()]
    + (if incident.category.Value() != "unknown" then [incident.category.Value()] else [])
    + Take(incident.tags, 3)
  }

  /** `_get_labels`: the raw labels with every space turned into "-". */
  function Labels(incident: Incident): (r: seq<string>)
    ensures |r| == |RawLabels(incident)|
    ensures forall i :: 0 <= i < |r| ==> r[i] == ReplaceChar(RawLabels(incident)[i], ' ', '-')
  {
    var raw := RawLabels(incident);
    seq(|raw|, i requires 0 <= i < |raw| => ReplaceChar(raw[i], ' ', '-'))
  }

  /** No label holds a space, and a label that had none is kept as it was. */
  lemma LabelsClean(incident: Incident, i: nat)
    requires i < |Labels(incident)|
    ensures ' ' !in Labels(incident)[i]
    ensures ' ' !in RawLabels(incident)[i] ==> Labels(incident)[i] == RawLabels(incident)[i]
  {
    var raw := RawLabels(incident)[i];
    var l := Labels(incident)[i];
    assert forall j :: 0 <= j < |l| ==> l[j] != ' ';
    if ' ' !in raw {
      assert forall j :: 0 <= j < |l| ==> l[j] == raw[j];
    }
  }

  /** The opening of the description: severity, category, status,
      detection time and the description itself. */
  function DetailsSection(incident: Incident, detected: string): (r: seq<string>)
    ensures |r| == 10 && r[0] == "h2. Incident Details"
    ensures r[2] == "*Severity:* " + incident.severity.Upper() && r[8] == incident.description
  {
    ["h2. Incident Details", "",
     "*Severity:* " + incident.severity.Upper(),
     "*Category:* " + incident.category.Value(),
     "*Status:* " + incident.status.Value(),
     "*Detected:* " + detected,
     "", "h3. Description", incident.description, ""]
  }

  /** The affected-services section: present only for a non-empty list. */
  function ServicesSection(services: seq<string>): (r: seq<string>)
    ensures |services| == 0 ==> r == []
    ensures |services| > 0 ==> |r| == |services| + 2 && r[0] == "h3. Affected Services" && r[|r| - 1] == ""
    ensures forall k :: 0 <= k < |services| ==> r[1 + k] == "* " + services[k]
  {
    if |services| > 0 then
      ["h3. Affected Services"] + seq(|services|, k requires 0 <= k < |services| => "* " + services[k]) + [""]
    else []
  }

  /** The root-cause section: present only when a hypothesis is set. */
  function HypothesisSection(h: Value): (r: seq<string>)
    requires Truthy(h) ==> h.VStr?
    ensures |r| == if Truthy(h) then 3 else 0
    ensures Truthy(h) ==> r[0] == "h3. Root Cause Hypothesis" && r[1] == h.s
  {
    if Truthy(h) then ["h3. Root Cause Hypothesis", h.s, ""] else []
  }

  /** The footer line naming the generator. */
  const DescriptionFooter: string := "_Auto-generated by Enterprise Workflow Choreographer_"

  /** The lines of `_build_description`; a hypothesis that is set but is
      not a string makes the join raise. */
  function DescriptionParts(incident: Incident, detected: string): (r: Result<seq<string>, string>)
    ensures r.Err? <==> Truthy(incident.rootCauseHypothesis) && !incident.rootCauseHypothesis.VStr?
    ensures r.Err? ==>
      r.error == JoinItemError(incident.rootCauseHypothesis, 10 + |ServicesSection(incident.affectedServices)| + 1)
    ensures r.Ok? ==>
      var services := ServicesSection(incident.affectedServices);
      var n := 10 + |services| + |HypothesisSection(incident.rootCauseHypothesis)| + 3;
      && |r.value| == n
      && r.value[..10] == DetailsSection(incident, detected)
      && r.value[10..10 + |services|] == services
      && r.value[10 + |services|..n - 3] == HypothesisSection(incident.rootCauseHypothesis)
      && r.value[n - 3] == "----"
      && r.value[n - 1] == "_Internal ID: " + incident.id + "_"
  {
    var h := incident.rootCauseHypothesis;
    if Truthy(h) && !h.VStr? then Err(JoinItemError(h, 10 + |ServicesSection(incident.affectedServices)| + 1))
    else
      var details := DetailsSection(incident, detected);
      var services := ServicesSection(incident.affectedServices);
      var hypothesis := HypothesisSection(h);
      var footer := ["----", DescriptionFooter, "_Internal ID: " + incident.id + "_"];
      var r := details + services + hypothesis + footer;
      assert r[..10] == details;
      assert r[10..10 + |services|] == services;
      assert r[10 + |services|..|r| - 3] == hypothesis;
      Ok(r)
  }

  /** `_build_description`: the lines joined by newlines. */
  function Description(incident: Incident, detected: string): (r: Result<string, string>)
    ensures r.Ok? <==> DescriptionParts(incident, detected).Ok?
    ensures r.Ok? && (forall k :: 0 <= k < |DescriptionParts(incident, detected).value| ==>
                        '\n' !in DescriptionParts(incident, detected).value[k]) ==>
      Split(r.value, '\n') == DescriptionParts(incident, detected).value
  {
    var parts :- DescriptionParts(incident, detected);
    if forall k :: 0 <= k < |parts| ==> '\n' !in parts[k] then JoinSplit(parts, '\n'); Ok(Join("\n", parts))
    else Ok(Join("\n", parts))
  }

  /** The requests made to the tracker, in order. */
  datatype Request =
    | CreateIssue(fields: Dict)
    | FindUser(query: string)
    | Assign(issueKey: string, accountId: Value)
    | GetTransitions(issueKey: string)
    | DoTransition(issueKey: string, transitionId: Value)

  /** The tracker's settings. */
  datatype Config = Config(url: string, projectKey: string)

  /** The fields of the new issue: project, summary, description, type,
      priority and labels. */
  function IssueFields(project: string, incident: Incident, description: string): (r: Dict)
    ensures Get(r, "summary") == Some(VStr("[INCIDENT] " + incident.title))
    ensures Get(r, "priority") == Some(VDict([("name", VStr(PriorityOf(incident.severity)))]))
    ensures Get(r, "labels") == Some(StrList(Labels(incident)))
    ensures Get(r, "project") == Some(VDict([("key", VStr(project))]))
  {
    var r := [("project", VDict([("key", VStr(project))])),
              ("summary", VStr("[INCIDENT] " + incident.title)),
              ("description", VStr(description)),
              ("issuetype", VDict([("name", VStr("Bug"))])),
              ("priority", VDict([("name", VStr(PriorityOf(incident.severity)))])),
              ("labels", StrList(Labels(incident)))];
    GetFirst(r, 0); GetFirst(r, 1); GetFirst(r, 4); GetFirst(r, 5);
    r
  }

  /** A created issue: its key, id and address. */
  datatype Created = Created(issueKey: Value, issueId: Value, issueUrl: string)

  /** `create_incident_issue`: the issue goes to the given project, or to the
      configured one when none (or an empty key) is given; the address is the
      tracker's browse page for the returned key. */
  function CreateIncidentIssue(config: Config, incident: Incident, projectKey: string, detected: string,
                               answer: Result<Dict, string>): (r: (Result<Created, string>, seq<Request>))
    ensures Description(incident, detected).Err? ==> r == (Err(Description(incident, detected).error), [])
    ensures Description(incident, detected).Ok? ==>
      var project := if projectKey != "" then projectKey else config.projectKey;
      && r.1 == [CreateIssue(IssueFields(project, incident, Description(incident, detected).value))]
      && (answer.Err? ==> r.0 == Err(answer.error))
      && (answer.Ok? ==> r.0 == Ok(Created(At(answer.value, "key"), At(answer.value, "id"),
                                            config.url + "/browse/" + Show(At(answer.value, "key")))))
  {
    var project := if projectKey != "" then projectKey else config.projectKey;
    match Description(incident, detected)
    case Err(e) => (Err(e), [])
    case Ok(description) =>
      var calls := [CreateIssue(IssueFields(project, incident, description))];
      match answer
      case Err(e) => (Err(e), calls)
      case Ok(result) =>
        var key := At(result, "key");
        (Ok(Created(key, At(result, "id"), config.url + "/browse/" + Show(key))), calls)
  }

  /** A created issue's address is the tracker's URL followed by the browse
      path and the key, so the key can be read back from it. */
  lemma IssueUrlNamesKey(config: Config, incident: Incident, projectKey: string, detected: string,
                         answer: Result<Dict, string>)
    requires CreateIncidentIssue(config, incident, projectKey, detected, answer).0.Ok?
    requires At(answer.value, "key").VStr?
    ensures var c := CreateIncidentIssue(config, incident, projectKey, detected, answer).0.value;
      var prefix := config.url + "/browse/";
      && IsPrefix(prefix, c.issueUrl) && c.issueUrl[|prefix|..] == c.issueKey.s
  {
  }

  /** `assign_issue`: the user is looked up by email; when none is found the
      assignment fails and nothing is assigned; otherwise the first user's
      account id is used. */
  function AssignIssue(issueKey: string, email: string, users: Result<seq<Dict>, string>,
                       assignment: Result<(), string>): (r: (Result<string, string>, seq<Request>))
    ensures users.Err? ==> r == (Err(users.error), [FindUser(email)])
    ensures users == Ok([]) ==> r == (Err("User not found: " + email), [FindUser(email)])
    ensures users.Ok? && |users.value| > 0 ==>
      && r.1 == [FindUser(email), Assign(issueKey, At(users.value[0], "accountId"))]
      && (r.0.Ok? <==> assignment.Ok?)
      && (r.0.Ok? ==> r.0.value == email)
  {
    match users
    case Err(e) => (Err(e), [FindUser(email)])
    case Ok(found) =>
      if |found| == 0 then (Err("User not found: " + email), [FindUser(email)])
      else
        var calls := [FindUser(email), Assign(issueKey, At(found[0], "accountId"))];
        match assignment
        case Err(e) => (Err(e), calls)
        case Ok(_) => (Ok(email), calls)
  }

  /** A transition offered by the tracker. */
  datatype Transition = Transition(name: string, id: Value)

  /** The first offered transition whose name equals the request, ignoring
      case. */
  function MatchTransition(offered: seq<Transition>, name: string): (r: Option<nat>)
    ensures r.None? <==> forall j :: 0 <= j < |offered| ==> Lower(offered[j].name) != Lower(name)
    ensures r.Some? ==> r.value < |offered| && Lower(offered[r.value].name) == Lower(name)
    ensures r.Some? ==> forall j :: 0 <= j < r.value ==> Lower(offered[j].name) != Lower(name)
    decreases |offered|
  {
    if |offered| == 0 then None
    else if Lower(offered[0].name) == Lower(name) then Some(0)
    else
      match MatchTransition(offered[1..], name)
      case None => None
      case Some(j) => Some(j + 1)
  }

  /** `transition_issue`: the first case-insensitive match is issued; when
      no transition matches, or the match has no usable id, the request fails
      and no transition is issued. */
  function TransitionIssue(issueKey: string, name: string, offered: Result<seq<Transition>, string>,
                           done: Result<(), string>): (r: (Result<string, string>, seq<Request>))
    ensures offered.Err? ==> r == (Err(offered.error), [GetTransitions(issueKey)])
    ensures offered.Ok? ==>
      var m := MatchTransition(offered.value, name);
      && (m.None? || !Truthy(offered.value[m.value].id) ==>
            r == (Err("Transition not found: " + name), [GetTransitions(issueKey)]))
      && (m.Some? && Truthy(offered.value[m.value].id) ==>
            r.1 == [GetTransitions(issueKey), DoTransition(issueKey, offered.value[m.value].id)]
            && (r.0.Ok? <==> done.Ok?) && (r.0.Ok? ==> r.0.value == name))
  {
    match offered
    case Err(e) => (Err(e), [GetTransitions(issueKey)])
    case Ok(ts) =>
      var m := MatchTransition(ts, name);
      if m.None? || !Truthy(ts[m.value].id) then (Err("Transition not found: " + name), [GetTransitions(issueKey)])
      else
        var calls := [GetTransitions(issueKey), DoTransition(issueKey, ts[m.value].id)];
        match done
        case Err(e) => (Err(e), calls)
        case Ok(_) => (Ok(name), calls)
  }

  /** Transition names match regardless of case: asking for "done" picks an
      offered "Done". */
  lemma TransitionIgnoresCase()
    ensures MatchTransition([Transition("In Progress", VInt(21)), Transition("Done", VInt(31))], "done") == Some(1)
  {
    assert Lower("In Progress")[0] == 'i' && Lower("done")[0] == 'd';
    assert Lower("Done") == "done";
  }
}

=== FILE: models.dfy ===
/** The data model: incident enumerations and the records for incidents,
    workflow steps, workflows, team members and action results, with the
    defaults each record takes when a field is not given. Times are opaque
    clock readings. */
module Models {
  import opened Wrappers
  import opened Values

  type Time = nat

  datatype Severity = Critical | High | Medium | Low {
    /** The enumeration's string value. */
    function Value(): string {
      match this
      case Critical => "critical"
      case High => "high"
      case Medium => "medium"
      case Low => "low"
    }

    /** `severity.value.upper()`. */
    function Upper(): string {
      match this
      case Critical => "CRITICAL"
      case High => "HIGH"
      case Medium => "MEDIUM"
      case Low => "LOW"
    }
  }

  datatype Status = Detected | Triaging | InProgress | Mitigated | Resolved | Closed {
    function Value(): string {
      match this
      case Detected => "detected"
      case Triaging => "triaging"
      case InProgress => "in_progress"
      case Mitigated => "mitigated"
      case Resolved => "resolved"
      case Closed => "closed"
    }
  }

  datatype Category =
    | Infrastructure | Application | Database | Network
    | Security | Performance | Integration | Unknown
  {
    function Value(): string {
      match this
      case Infrastructure => "infrastructure"
      case Application => "application"
      case Database => "database"
      case Network => "network"
      case Security => "security"
      case Performance => "performance"
      case Integration => "integration"
      case Unknown => "unknown"
    }
  }

  const AllSeverities: seq<Severity> := [Critical, High, Medium, Low]
  const AllStatuses: seq<Status> := [Detected, Triaging, InProgress, Mitigated, Resolved, Closed]
  const AllCategories: seq<Category> :=
    [Infrastructure, Application, Database, Network, Security, Performance, Integration, Unknown]

  /** `IncidentSeverity(s)`: the member whose value is `s`, if there is one. */
  function SeverityOf(s: string): (r: Option<Severity>)
    ensures r.Some? ==> r.value.Value() == s
    ensures r.None? ==> forall sev: Severity :: sev.Value() != s
  {
    if s == "critical" then Some(Critical)
    else if s == "high" then Some(High)
    else if s == "medium" then Some(Medium)
    else if s == "low" then Some(Low)
    else None
  }

  /** `IncidentStatus(s)`. */
  function StatusOf(s: string): (r: Option<Status>)
    ensures r.Some? ==> r.value.Value() == s
    ensures r.None? ==> forall st: Status :: st.Value() != s
  {
    if s == "detected" then Some(Detected)
    else if s == "triaging" then Some(Triaging)
    else if s == "in_progress" then Some(InProgress)
    else if s == "mitigated" then Some(Mitigated)
    else if s == "resolved" then Some(Resolved)
    else if s == "closed" then Some(Closed)
    else None
  }

  /** `IncidentCategory(s)`. */
  function CategoryOf(s: string): (r: Option<Category>)
    ensures r.Some? ==> r.value.Value() == s
    ensures r.None? ==> forall c: Category :: c.Value() != s
  {
    if s == "infrastructure" then Some(Infrastructure)
    else if s == "application" then Some(Application)
    else if s == "database" then Some(Database)
    else if s == "network" then Some(Network)
    else if s == "security" then Some(Security)
    else if s == "performance" then Some(Performance)
    else if s == "integration" then Some(Integration)
    else if s == "unknown" then Some(Unknown)
    else None
  }

  /** Each enumeration lists its members once, and parsing a member's value
      gives the member back: 4 severities, 6 statuses, 8 categories. */
  lemma EnumerationsComplete()
    ensures |AllSeverities| == 4 && |AllStatuses| == 6 && |AllCategories| == 8
    ensures forall sev: Severity :: sev in AllSeverities && SeverityOf(sev.Value()) == Some(sev)
    ensures forall st: Status :: st in AllStatuses && StatusOf(st.Value()) == Some(st)
    ensures forall c: Category :: c in AllCategories && CategoryOf(c.Value()) == Some(c)
    ensures forall i, j :: 0 <= i < j < 4 ==> AllSeverities[i].Value() != AllSeverities[j].Value()
    ensures forall i, j :: 0 <= i < j < 6 ==> AllStatuses[i].Value() != AllStatuses[j].Value()
    ensures forall i, j :: 0 <= i < j < 8 ==> AllCategories[i].Value() != AllCategories[j].Value()
  {
    SeveritiesComplete();
    StatusesComplete();
    CategoriesComplete();
  }

  lemma SeveritiesComplete()
    ensures forall sev: Severity :: sev in AllSeverities && SeverityOf(sev.Value()) == Some(sev)
    ensures forall i, j :: 0 <= i < j < 4 ==> AllSeverities[i].Value() != AllSeverities[j].Value()
  {
    forall sev: Severity
      ensures sev in AllSeverities && SeverityOf(sev.Value()) == Some(sev)
    {
      match sev
      case Critical =>
      case High => assert AllSeverities[1] == sev;
      case Medium => assert AllSeverities[2] == sev;
      case Low => assert AllSeverities[3] == sev;
    }
  }

  lemma StatusesComplete()
    ensures forall st: Status :: st in AllStatuses && StatusOf(st.Value()) == Some(st)
    ensures forall i, j :: 0 <= i < j < 6 ==> AllStatuses[i].Value() != AllStatuses[j].Value()
  {
    forall st: Status
      ensures st in AllStatuses && StatusOf(st.Value()) == Some(st)
    {
      match st
      case Detected =>
      case Triaging => assert AllStatuses[1] == st;
      case InProgress => assert AllStatuses[2] == st;
      case Mitigated => assert AllStatuses[3] == st;
      case Resolved => assert AllStatuses[4] == st;
      case Closed => assert AllStatuses[5] == st;
    }
  }

  lemma CategoriesComplete()
    ensures forall c: Category :: c in AllCategories && CategoryOf(c.Value()) == Some(c)
    ensures forall i, j :: 0 <= i < j < 8 ==> AllCategories[i].Value() != AllCategories[j].Value()
  {
    forall c: Category
      ensures c in AllCategories && CategoryOf(c.Value()) == Some(c)
    {
      match c
      case Infrastructure =>
      case Application => assert AllCategories[1] == c;
      case Database => assert AllCategories[2] == c;
      case Network => assert AllCategories[3] == c;
      case Security => assert AllCategories[4] == c;
      case Performance => assert AllCategories[5] == c;
      case Integration => assert AllCategories[6] == c;
      case Unknown => assert AllCategories[7] == c;
    }
  }

  /** There is no "open" status. */
  lemma NoOpenStatus()
    ensures StatusOf("open").None?
  {
  }

  datatype Incident = Incident(
    id: string,
    title: string,
    description: string,
    severity: Severity,
    status: Status,
    category: Category,
    sourceSystem: string,
    sourceAlertId: Option<string>,
    affectedServices: seq<string>,
    affectedComponents: seq<string>,
    // The reference fields are assigned from connector payloads without
    // validation, so they hold whatever value the payload carried.
    servicenowTicketId: Value,
    githubIssueUrl: Value,
    slackChannelId: Value,
    confluencePageId: Value,
    assignedTeam: Option<string>,
    assignedResponders: seq<string>,
    rootCauseHypothesis: Value,
    resolutionSteps: seq<string>,
    detectedAt: Time,
    acknowledgedAt: Option<Time>,
    mitigatedAt: Option<Time>,
    resolvedAt: Option<Time>,
    tags: seq<string>,
    metadata: Dict)

  /** No external record, responder, analysis or later timestamp exists yet. */
  predicate Pristine(i: Incident) {
    && i.status == Detected
    && i.sourceAlertId.None?
    && i.servicenowTicketId == VNone && i.githubIssueUrl == VNone
    && i.slackChannelId == VNone && i.confluencePageId == VNone
    && i.assignedTeam.None? && i.assignedResponders == []
    && i.rootCauseHypothesis == VNone && i.resolutionSteps == []
    && i.acknowledgedAt.None? && i.mitigatedAt.None? && i.resolvedAt.None?
  }

  /** `Incident(id=..., title=..., description=..., severity=...)` with every
      other field defaulted. */
  function NewIncident(id: string, title: string, description: string, severity: Severity, now: Time): (r: Incident)
    ensures Pristine(r) && r.category == Unknown && r.sourceSystem == ""
    ensures r.affectedServices == [] && r.affectedComponents == [] && r.tags == [] && r.metadata == []
    ensures r.id == id && r.title == title && r.description == description && r.severity == severity
    ensures r.detectedAt == now
  {
    Incident(id, title, description, severity, Detected, Unknown, "", None, [], [],
             VNone, VNone, VNone, VNone, None, [], VNone, [], now, None, None, None, [], [])
  }

  /** The status a step is in; "skipped" is documented but never assigned. */
  datatype StepStatus = StepPending | StepRunning | StepCompleted | StepFailed {
    function Value(): string {
      match this
      case StepPending => "pending"
      case StepRunning => "running"
      case StepCompleted => "completed"
      case StepFailed => "failed"
    }
  }

  datatype WorkflowStep = WorkflowStep(
    name: string,
    action: string,
    targetTool: string,
    parameters: Dict,
    status: StepStatus,
    result: Option<Dict>,
    error: Option<string>,
    startedAt: Option<Time>,
    completedAt: Option<Time>)

  /** `WorkflowStep(name=..., action=..., target_tool=..., parameters=...)`. */
  function NewStep(name: string, action: string, targetTool: string, parameters: Dict): (r: WorkflowStep)
    ensures r.status == StepPending && r.result.None? && r.error.None?
    ensures r.startedAt.None? && r.completedAt.None?
    ensures r.name == name && r.action == action && r.targetTool == targetTool && r.parameters == parameters
  {
    WorkflowStep(name, action, targetTool, parameters, StepPending, None, None, None, None)
  }

  /** Workflow statuses; `Paused` is declared but no operation sets it. */
  datatype WorkflowStatus = WfPending | WfRunning | WfPaused | WfCompleted | WfFailed {
    function Value(): string {
      match this
      case WfPending => "pending"
      case WfRunning => "running"
      case WfPaused => "paused"
      case WfCompleted => "completed"
      case WfFailed => "failed"
    }
  }

  datatype Workflow = Workflow(
    id: string,
    incidentId: string,
    name: string,
    description: string,
    steps: seq<WorkflowStep>,
    currentStepIndex: int,
    status: WorkflowStatus,
    createdAt: Time,
    startedAt: Option<Time>,
    completedAt: Option<Time>)

  /** `Workflow(id=..., incident_id=..., name=..., description=...)`. */
  function NewWorkflow(id: string, incidentId: string, name: string, description: string, now: Time): (r: Workflow)
    ensures r.status == WfPending && r.steps == [] && r.currentStepIndex == 0
    ensures r.startedAt.None? && r.completedAt.None? && r.createdAt == now
    ensures r.id == id && r.incidentId == incidentId && r.name == name && r.description == description
  {
    Workflow(id, incidentId, name, description, [], 0, WfPending, now, None, None)
  }

  datatype TeamMember = TeamMember(
    id: string,
    name: string,
    email: string,
    slackUserId: Option<string>,
    githubUsername: Option<string>,
    teams: seq<string>,
    skills: seq<string>,
    onCall: bool)

  datatype ActionResult = ActionResult(
    success: bool,
    action: string,
    tool: string,
    message: string,
    data: Option<Dict>,
    error: Option<string>,
    timestamp: Time)

  /** `ActionResult(success=..., action=..., tool=..., message=...)`. */
  function NewActionResult(success: bool, action: string, tool: string, message: string, now: Time): (r: ActionResult)
    ensures r.data.None? && r.error.None?
    ensures r.success == success && r.action == action && r.tool == tool && r.message == message
  {
    ActionResult(success, action, tool, message, None, None, now)
  }
}

=== FILE: orchestrator.dfy ===
/** The AI orchestrator's rule-based parts: the classification it falls back
    to when the language model's answer is unusable, how recommended steps are
    read from the model's answer with per-field defaults, and the default
    step plan used when that answer is unusable. The model itself is an input:
    its answer arrives already parsed, or as a failure. */
module Orchestrator {
  import opened Wrappers
  import opened Text
  import opened Values
  import opened Models
  import opened Choreographer

  /** Where a decision's confidence came from: the model's own figure, as
      the float the decision record stores, the default 0.5 when the answer
      has none, or the 0.1 of the fallback decision. */
  datatype Confidence = FromModel(repr: string) | DefaultHalf | FallbackTenth

  /** The confidence as the float value the record holds. */
  function ConfidenceValue(c: Confidence): (v: Value)
    ensures v.VFloat?
    ensures c.FromModel? ==> v == VFloat(c.repr)
    ensures c.DefaultHalf? ==> v == VFloat("0.5")
    ensures c.FallbackTenth? ==> v == VFloat("0.1")
  {
    match c
    case FromModel(t) => VFloat(t)
    case DefaultHalf => VFloat("0.5")
    case FallbackTenth => VFloat("0.1")
  }

  /** What a float field of a record accepts: a float, an integer, a
      boolean, or the text of a decimal numeral. `None`, other text, lists
      and dicts are rejected. */
  predicate FloatAccepts(v: Value) {
    v.VFloat? || v.VInt? || v.VBool? || (v.VStr? && IsDecimal(v.s))
  }

  /** The `repr` of the float an accepted value becomes. A numeral's text
      is kept as written. */
  function FloatRepr(v: Value): (r: string)
    requires FloatAccepts(v)
    ensures v.VFloat? ==> r == v.repr
    ensures v.VBool? ==> r == (if v.b then "1.0" else "0.0")
  {
    if v.VFloat? then v.repr
    else if v.VInt? then IntToString(v.i) + ".0"
    else if v.VBool? then (if v.b then "1.0" else "0.0")
    else v.s
  }

  /** An `AIDecision` as the classifier returns it. */
  datatype Decision = Decision(decisionType: string, reasoning: string, confidence: Confidence, context: Dict)

  /** The language model's answer once parsed: a JSON object, or unusable
      (the call raised, or the text is not a JSON object), with the error. */
  datatype ModelAnswer = JsonObject(fields: Dict) | Unusable(error: string)

  /** The error text standing for the decision record's rejection of a
      non-string reasoning. */
  const InvalidReasoning: string := "reasoning: Input should be a valid string"

  /** The error text standing for the decision record's rejection of a
      confidence that is not a number. */
  const InvalidConfidence: string := "confidence: Input should be a valid number"

  /** The decision `classify_incident` returns when anything goes wrong. */
  function FallbackDecision(error: string): (d: Decision)
    ensures d.decisionType == "incident_classification" && d.confidence == FallbackTenth
    ensures Get(d.context, "severity") == Some(VStr("medium"))
    ensures Get(d.context, "category") == Some(VStr("unknown"))
    ensures !HasKey(d.context, "affected_systems") && !HasKey(d.context, "priority")
  {
    Decision("incident_classification", "AI classification failed: " + error + ". Using default values.",
             FallbackTenth, [("severity", VStr("medium")), ("category", VStr("unknown"))])
  }

  /** `classify_incident` after the model has answered. A parsed answer gives
      its severity, category and priority (absent ones as `None`) and its
      affected systems (absent as `[]`); its reasoning must be a string and
      its confidence, when present, a number, or the decision record rejects
      them and the fallback is returned. */
  function ClassifyIncident(answer: ModelAnswer): (d: Decision)
    ensures d.decisionType == "incident_classification"
    ensures answer.Unusable? ==> d == FallbackDecision(answer.error)
    ensures answer.JsonObject? && !GetOr(answer.fields, "reasoning", VStr("")).VStr? ==>
      d == FallbackDecision(InvalidReasoning)
    ensures answer.JsonObject? && GetOr(answer.fields, "reasoning", VStr("")).VStr?
            && HasKey(answer.fields, "confidence") && !FloatAccepts(At(answer.fields, "confidence")) ==>
      d == FallbackDecision(InvalidConfidence)
    ensures answer.JsonObject? && GetOr(answer.fields, "reasoning", VStr("")).VStr?
            && (HasKey(answer.fields, "confidence") ==> FloatAccepts(At(answer.fields, "confidence"))) ==>
      var j := answer.fields;
      && d.reasoning == GetOr(j, "reasoning", VStr("")).s
      && d.confidence == (if HasKey(j, "confidence") then FromModel(FloatRepr(At(j, "confidence"))) else DefaultHalf)
      && d.context == ClassificationContext(j)
  {
    match answer
    case Unusable(e) => FallbackDecision(e)
    case JsonObject(j) =>
      var reasoning := GetOr(j, "reasoning", VStr(""));
      var figure := At(j, "confidence");
      if !reasoning.VStr? then FallbackDecision(InvalidReasoning)
      else if HasKey(j, "confidence") && !FloatAccepts(figure) then FallbackDecision(InvalidConfidence)
      else
        Decision("incident_classification", reasoning.s,
                 if HasKey(j, "confidence") then FromModel(FloatRepr(figure)) else DefaultHalf,
                 ClassificationContext(j))
  }

  /** A confidence given as a word is rejected by the decision record, so
      the classification falls back to a medium incident of unknown
      category, however complete the rest of the answer is. */
  lemma WordConfidenceFallsBack(j: Dict)
    requires GetOr(j, "reasoning", VStr("")).VStr? && Get(j, "confidence") == Some(VStr("high"))
    ensures var d := ClassifyIncident(JsonObject(j));
      && d.confidence == FallbackTenth
      && Get(d.context, "severity") == Some(VStr("medium"))
      && Get(d.context, "category") == Some(VStr("unknown"))
  {
    HighNotAccepted();
    assert At(j, "confidence") == VStr("high");
  }

  /** "high" is not a numeral, so the decision record does not accept it. */
  lemma HighNotAccepted()
    ensures !FloatAccepts(VStr("high"))
  {
    assert !IsDecimal("high") by {
      assert "high"[0] != '+' && "high"[0] != '-';
      assert !IsDigit("high"[0]);
    }
  }

  /** The context of a parsed classification: the severity, category and
      recommended priority as the model gave them (`None` when absent) and
      the affected systems (absent as `[]`). */
  function ClassificationContext(j: Dict): (ctx: Dict)
    ensures Get(ctx, "severity") == Some(At(j, "severity"))
    ensures Get(ctx, "category") == Some(At(j, "category"))
    ensures Get(ctx, "affected_systems") == Some(GetOr(j, "affected_systems", VList([])))
    ensures Get(ctx, "priority") == Some(At(j, "recommended_priority"))
  {
    var ctx := [("severity", At(j, "severity")), ("category", At(j, "category")),
                ("affected_systems", GetOr(j, "affected_systems", VList([]))),
                ("priority", At(j, "recommended_priority"))];
    GetFirst(ctx, 0); GetFirst(ctx, 1); GetFirst(ctx, 2); GetFirst(ctx, 3);
    ctx
  }

  /** A model that answers without a severity still yields a severity entry,
      holding `None`: the key is always present in a parsed answer's context,
      so a later `get("severity", "medium")` does not fall back. */
  lemma MissingSeverityIsNone(j: Dict)
    requires !HasKey(j, "severity") && !HasKey(j, "reasoning")
    requires HasKey(j, "confidence") ==> FloatAccepts(At(j, "confidence"))
    ensures Get(ClassifyIncident(JsonObject(j)).context, "severity") == Some(VNone)
  {
  }

  /** `_get_default_workflow_steps`: ticket and channel first, then for a
      critical or high incident a notification and a look at recent commits,
      and a post-mortem last. */
  function DefaultWorkflowSteps(incident: Incident): (r: seq<WorkflowStep>)
    ensures |r| == (if incident.severity.Critical? || incident.severity.High? then 5 else 3)
    ensures forall i :: 0 <= i < |r| ==> r[i].status == StepPending && r[i].result.None?
  {
    var urgent := incident.severity.Critical? || incident.severity.High?;
    [NewStep("Create ServiceNow Ticket", "create_ticket", "servicenow", [("incident_id", VStr(incident.id))]),
     NewStep("Create Incident Channel", "create_channel", "slack", [("incident_id", VStr(incident.id))])]
    + (if urgent then
         [NewStep("Notify Response Team", "notify_team", "slack", [("urgency", VStr("high"))]),
          NewStep("Analyze Recent Changes", "analyze_commits", "github", [("hours_back", VInt(24))])]
       else [])
    + [NewStep("Create Post-Mortem Template", "create_postmortem", "confluence", [("incident_id", VStr(incident.id))])]
  }

  /** The actions of a step list, in order. */
  function ActionsOf(steps: seq<WorkflowStep>): (r: seq<string>)
    ensures |r| == |steps| && forall i :: 0 <= i < |steps| ==> r[i] == steps[i].action
  {
    seq(|steps|, i requires 0 <= i < |steps| => steps[i].action)
  }

  /** The default plan opens with the ticket and the channel, inserts the
      notification and the commit analysis exactly for critical and high
      incidents, ends with the post-mortem, sends each step to the expected
      tool, and uses only actions the choreographer has a handler for. */
  lemma DefaultPlanShape(incident: Incident)
    ensures var r := DefaultWorkflowSteps(incident);
      && (incident.severity.Critical? || incident.severity.High? ==>
            ActionsOf(r) == ["create_ticket", "create_channel", "notify_team", "analyze_commits", "create_postmortem"]
            && r[2].targetTool == "slack" && r[3].targetTool == "github"
            && Get(r[3].parameters, "hours_back") == Some(VInt(24)))
      && (incident.severity.Medium? || incident.severity.Low? ==>
            ActionsOf(r) == ["create_ticket", "create_channel", "create_postmortem"])
      && r[0].targetTool == "servicenow" && r[1].targetTool == "slack" && r[|r| - 1].targetTool == "confluence"
      && forall i :: 0 <= i < |r| ==> HandlerOf(r[i].action).Some?
  {
    var r := DefaultWorkflowSteps(incident);
    var a := ActionsOf(r);
    if incident.severity.Critical? || incident.severity.High? {
      assert a == ["create_ticket", "create_channel", "notify_team", "analyze_commits", "create_postmortem"];
    } else {
      assert a == ["create_ticket", "create_channel", "create_postmortem"];
    }
    forall i | 0 <= i < |r| ensures HandlerOf(r[i].action).Some? {
      assert r[i].action == a[i];
    }
  }

  /** One recommended step read from the model's answer: a dict whose name,
      action and target tool default to "Unknown Step", "unknown" and
      "unknown" and must be strings, and whose parameters default to `{}`
      and must be a dict. Anything else makes the step record reject it. */
  function ParseStep(v: Value): (r: Option<WorkflowStep>)
    ensures r.Some? <==>
      && v.VDict?
      && GetOr(v.entries, "name", VStr("Unknown Step")).VStr?
      && GetOr(v.entries, "action", VStr("unknown")).VStr?
      && GetOr(v.entries, "target_tool", VStr("unknown")).VStr?
      && GetOr(v.entries, "parameters", VDict([])).VDict?
    ensures r.Some? ==>
      && r.value.status == StepPending
      && (!HasKey(v.entries, "name") ==> r.value.name == "Unknown Step")
      && (!HasKey(v.entries, "action") ==> r.value.action == "unknown")
      && (!HasKey(v.entries, "target_tool") ==> r.value.targetTool == "unknown")
      && (!HasKey(v.entries, "parameters") ==> r.value.parameters == [])
      && (HasKey(v.entries, "action") ==> VStr(r.value.action) == At(v.entries, "action"))
  {
    if !v.VDict? then None
    else
      var name := GetOr(v.entries, "name", VStr("Unknown Step"));
      var action := GetOr(v.entries, "action", VStr("unknown"));
      var tool := GetOr(v.entries, "target_tool", VStr("unknown"));
      var params := GetOr(v.entries, "parameters", VDict([]));
      if name.VStr? && action.VStr? && tool.VStr? && params.VDict? then
        Some(NewStep(name.s, action.s, tool.s, params.entries))
      else None
  }

  /** Every item of the answer reads as a step. */
  predicate AllSteps(items: seq<Value>) {
    forall i :: 0 <= i < |items| ==> ParseStep(items[i]).Some?
  }

  /** The steps read from the items, in order. */
  function ParseSteps(items: seq<Value>): (r: seq<WorkflowStep>)
    requires AllSteps(items)
    ensures |r| == |items| && forall i :: 0 <= i < |items| ==> Some(r[i]) == ParseStep(items[i])
  {
    seq(|items|, i requires 0 <= i < |items| => ParseStep(items[i]).value)
  }

  /** The model's answer to the step recommendation: the parsed JSON
      value, or unusable (the call raised, or the text is not JSON). */
  datatype StepsAnswer = Parsed(json: Value) | NoSteps(error: string)

  /** `recommend_workflow_steps`: the model's steps read one by one from
      whatever the parsed answer iterates over, or the default plan as soon
      as the answer cannot be iterated or an item cannot be read as a step. */
  function RecommendWorkflowSteps(incident: Incident, answer: StepsAnswer): (r: seq<WorkflowStep>)
    ensures answer.NoSteps? ==> r == DefaultWorkflowSteps(incident)
    ensures answer.Parsed? && Iterate(answer.json).None? ==> r == DefaultWorkflowSteps(incident)
    ensures answer.Parsed? && Iterate(answer.json).Some? && !AllSteps(Iterate(answer.json).value) ==>
      r == DefaultWorkflowSteps(incident)
    ensures answer.Parsed? && Iterate(answer.json).Some? && AllSteps(Iterate(answer.json).value) ==>
      var items := Iterate(answer.json).value;
      |r| == |items| && forall i :: 0 <= i < |r| ==> Some(r[i]) == ParseStep(items[i])
  {
    match answer
    case NoSteps(_) => DefaultWorkflowSteps(incident)
    case Parsed(v) =>
      var items := Iterate(v);
      if items.Some? && AllSteps(items.value) then ParseSteps(items.value)
      else DefaultWorkflowSteps(incident)
  }

  /** An empty object or an empty text iterates over nothing, so the
      recommendation is the empty plan and not the default one; a non-empty
      text or object yields strings, which are not steps, so it falls back. */
  lemma NonListAnswers(incident: Incident, v: Value)
    requires v.VStr? || v.VDict?
    ensures Truthy(v) ==> RecommendWorkflowSteps(incident, Parsed(v)) == DefaultWorkflowSteps(incident)
    ensures !Truthy(v) ==> RecommendWorkflowSteps(incident, Parsed(v)) == []
  {
    var items := Iterate(v).value;
    if Truthy(v) {
      assert !ParseStep(items[0]).Some?;
    }
  }

  /** An empty object in the answer reads as a step with every default. */
  lemma EmptyStepDefaults()
    ensures ParseStep(VDict([])) == Some(NewStep("Unknown Step", "unknown", "unknown", []))
  {
  }
}

=== FILE: routes.dfy ===
/** The HTTP layer's own logic: the alert payload built from a webhook, the
    severity read from a request, the team members built from request
    dicts, and the workflow summary returned to clients. */
module Routes {
  import opened Wrappers
  import opened Text
  import opened Values
  import opened Models
  import Slack

  /** The fields of an alert webhook request. */
  datatype AlertRequest = AlertRequest(
    source: string,
    alertId: Option<string>,
    title: Option<string>,
    message: Option<string>,
    severity: Option<string>,
    tags: Option<seq<string>>,
    metadata: Option<Dict>)

  function OptStr(s: Option<string>): Value {
    if s.Some? then VStr(s.value) else VNone
  }

  /** The fixed part of the alert payload: the request's fields, with the
      tags defaulting to an empty list. */
  function AlertBase(request: AlertRequest): (r: Dict)
    ensures Keys(r) == ["alert_id", "title", "message", "severity", "tags"]
  {
    [("alert_id", OptStr(request.alertId)), ("title", OptStr(request.title)),
     ("message", OptStr(request.message)), ("severity", OptStr(request.severity)),
     ("tags", StrList(request.tags.GetOr([])))]
  }

  /** `receive_alert`'s payload: the fixed part, then the metadata's
      entries, which win over fixed keys they repeat. */
  function AlertData(request: AlertRequest): Dict {
    Update(AlertBase(request), request.metadata.GetOr([]))
  }

  /** The payload's tags are the metadata's `tags` when it has one, else the
      request's tags, else an empty list. */
  lemma AlertDataTags(request: AlertRequest)
    requires DistinctKeys(request.metadata.GetOr([]))
    ensures var m := request.metadata.GetOr([]);
      Get(AlertData(request), "tags")
        == if HasKey(m, "tags") then Get(m, "tags") else Some(StrList(request.tags.GetOr([])))
  {
    var base := AlertBase(request);
    UpdateGet(base, request.metadata.GetOr([]), "tags");
    GetFirst(base, 4);
  }

  /** Every metadata entry reaches the payload as it is. */
  lemma AlertDataKeepsMetadata(request: AlertRequest, k: string)
    requires DistinctKeys(request.metadata.GetOr([]))
    requires HasKey(request.metadata.GetOr([]), k)
    ensures Get(AlertData(request), k) == Get(request.metadata.GetOr([]), k)
  {
    UpdateGet(AlertBase(request), request.metadata.GetOr([]), k);
  }

  /** `IncidentSeverity(s.lower())` for a non-empty request severity; a
      missing, empty or unknown one gives nothing. */
  function RequestSeverity(s: Option<string>): (r: Option<Severity>)
    ensures r.Some? ==> s.Some? && r.value.Value() == Lower(s.value)
    ensures s.Some? && s.value != "" && (exists sev: Severity :: sev.Value() == Lower(s.value)) ==> r.Some?
  {
    if s.Some? && s.value != "" then SeverityOf(Lower(s.value)) else None
  }

  /** A severity is read from a request exactly when the request names it,
      in any mix of letter case. */
  lemma RequestSeverityIff(x: string, sev: Severity)
    ensures RequestSeverity(Some(x)) == Some(sev) <==> Lower(x) == sev.Value()
  {
    if Lower(x) == sev.Value() {
      assert x != "";
    }
  }

  /** Lower-casing twice is lower-casing once. */
  lemma LowerIdempotent(x: string)
    ensures Lower(Lower(x)) == Lower(x)
  {
    assert forall i :: 0 <= i < |x| ==> LowerChar(LowerChar(x[i])) == LowerChar(x[i]);
  }

  /** Letter case never changes the severity read. */
  lemma RequestSeverityIgnoresCase(x: string)
    ensures RequestSeverity(Some(x)) == RequestSeverity(Some(Lower(x)))
  {
    LowerIdempotent(x);
  }

  /** The manual-incident route's severity: the one named, or none at all
      (an unknown name is dropped rather than refused). */
  function ManualSeverity(s: Option<string>): (r: Option<Severity>)
    ensures r.Some? <==> s.Some? && SeverityOf(Lower(s.value)).Some?
  {
    RequestSeverity(s)
  }

  /** The orchestrate route's severity: the one named, or medium. */
  function OrchestrateSeverity(s: Option<string>): (r: Severity)
    ensures RequestSeverity(s).None? ==> r == Medium
    ensures RequestSeverity(s).Some? ==> r.Value() == Lower(s.value)
  {
    RequestSeverity(s).GetOr(Medium)
  }

  /** Severities other than medium are read only from a request naming them. */
  lemma OrchestrateSeverityNamed(s: Option<string>)
    ensures OrchestrateSeverity(s) != Medium ==> s.Some? && Lower(s.value) == OrchestrateSeverity(s).Value()
    ensures s.None? ==> OrchestrateSeverity(s) == Medium
  {
  }

  /** A team-member field that failed validation: the member's index and
      the field's name. */
  datatype Invalid = Invalid(index: nat, field: string)

  /** The lax boolean parse of the `on_call` field: booleans, 0 and 1, and
      the usual yes/no words in any letter case. */
  function LaxBool(v: Value): (r: Option<bool>)
    ensures v.VBool? ==> r == Some(v.b)
    ensures v.VNone? || v.VList? || v.VDict? ==> r.None?
  {
    match v
    case VBool(b) => Some(b)
    case VInt(i) => if i == 0 then Some(false) else if i == 1 then Some(true) else None
    case VFloat(t) => if t == "0.0" || t == "-0.0" then Some(false) else if t == "1.0" then Some(true) else None
    case VStr(s) =>
      var w := Lower(s);
      if w in ["1", "on", "t", "true", "y", "yes"] then Some(true)
      else if w in ["0", "off", "f", "false", "n", "no"] then Some(false)
      else None
    case _ => None
  }

  /** A string list field: every item a string. */
  function Strings(v: Value): (r: Option<seq<string>>)
    ensures r.Some? ==> v.VList? && |r.value| == |v.items|
    ensures r.Some? ==> forall k :: 0 <= k < |v.items| ==> v.items[k] == VStr(r.value[k])
  {
    if v.VList? then StringItems(v.items) else None
  }

  function StringItems(items: seq<Value>): (r: Option<seq<string>>)
    ensures r.Some? ==> |r.value| == |items| && forall k :: 0 <= k < |items| ==> items[k] == VStr(r.value[k])
    ensures r.None? ==> exists k :: 0 <= k < |items| && !items[k].VStr?
    decreases |items|
  {
    if items == [] then Some([])
    else if !items[0].VStr? then None
    else
      match StringItems(items[1..])
      case None => None
      case Some(rest) => Some([items[0].s] + rest)
  }

  /** The default id of the `index`-th member. */
  function DefaultMemberId(index: nat): string {
    "tm-" + NatToString(index)
  }

  /** A member built from a request dict, as the route builds it: id
      (default "tm-" and the index), name (default "Unknown"), the required
      email, skills (default none) and on-call flag (default false). The
      route passes the chat id under `slack_id`, a name the member does not
      have, so it is dropped and the member never has a chat id. */
  function MemberAsWritten(index: nat, m: Dict): (r: Result<TeamMember, Invalid>)
    ensures r.Ok? ==> r.value.slackUserId.None? && r.value.githubUsername.None? && r.value.teams == []
    ensures r.Ok? ==> VStr(r.value.id) == GetOr(m, "id", VStr(DefaultMemberId(index)))
    ensures r.Ok? ==> VStr(r.value.name) == GetOr(m, "name", VStr("Unknown"))
    ensures r.Ok? ==> VStr(r.value.email) == At(m, "email")
    ensures r.Ok? ==> Some(r.value.skills) == Strings(GetOr(m, "skills", VList([])))
    ensures r.Ok? ==> Some(r.value.onCall) == LaxBool(GetOr(m, "on_call", VBool(false)))
    ensures r.Err? ==> r.error.index == index
    ensures !At(m, "email").VStr? ==> r.Err?
  {
    var id := GetOr(m, "id", VStr(DefaultMemberId(index)));
    var name := GetOr(m, "name", VStr("Unknown"));
    var email := At(m, "email");
    var skills := Strings(GetOr(m, "skills", VList([])));
    var onCall := LaxBool(GetOr(m, "on_call", VBool(false)));
    if !id.VStr? then Err(Invalid(index, "id"))
    else if !name.VStr? then Err(Invalid(index, "name"))
    else if !email.VStr? then Err(Invalid(index, "email"))
    else if skills.None? then Err(Invalid(index, "skills"))
    else if onCall.None? then Err(Invalid(index, "on_call"))
    else Ok(TeamMember(id.s, name.s, email.s, None, None, [], skills.value, onCall.value))
  }

  /** A dict with only an email gives the documented defaults. */
  lemma MemberDefaults(index: nat, email: string)
    ensures MemberAsWritten(index, [("email", VStr(email))])
         == Ok(TeamMember(DefaultMemberId(index), "Unknown", email, None, None, [], [], false))
  {
    var m := [("email", VStr(email))];
    assert Strings(VList([])) == Some([]);
    GetFirst(m, 0);
  }

  /** The chat id the request carries under `slack_id`: none, or a string. */
  function RequestChatId(m: Dict): (r: Result<Option<string>, ()>)
    ensures At(m, "slack_id") == VNone ==> r == Ok(None)
    ensures At(m, "slack_id").VStr? ==> r == Ok(Some(At(m, "slack_id").s))
  {
    match At(m, "slack_id")
    case VNone => Ok(None)
    case VStr(s) => Ok(Some(s))
    case _ => Err(())
  }

  /** The member as evidently intended: as written, but with the request's
      `slack_id` kept as the member's chat id. */
  function Member(index: nat, m: Dict): (r: Result<TeamMember, Invalid>)
    ensures r.Ok? <==> MemberAsWritten(index, m).Ok? && RequestChatId(m).Ok?
    ensures r.Ok? ==> r.value == MemberAsWritten(index, m).value.(slackUserId := RequestChatId(m).value)
  {
    match MemberAsWritten(index, m)
    case Err(e) => Err(e)
    case Ok(member) =>
      match RequestChatId(m)
      case Err(_) => Err(Invalid(index, "slack_user_id"))
      case Ok(chatId) => Ok(member.(slackUserId := chatId))
  }

  /** One member, as written or as intended. */
  function Convert(index: nat, m: Dict, keepChatId: bool): Result<TeamMember, Invalid> {
    if keepChatId then Member(index, m) else MemberAsWritten(index, m)
  }

  /** The members built from `ms[from..]`, numbered by their position in
      `ms`; the first invalid one fails the whole conversion. */
  function MembersFrom(ms: seq<Dict>, from: nat, keepChatId: bool): (r: Result<seq<TeamMember>, Invalid>)
    requires from <= |ms|
    ensures r.Ok? ==> |r.value| == |ms| - from
    ensures r.Ok? ==> forall k :: 0 <= k < |r.value| ==> Ok(r.value[k]) == Convert(from + k, ms[from + k], keepChatId)
    ensures r.Err? ==> exists k :: from <= k < |ms| && Convert(k, ms[k], keepChatId) == Err(r.error)
    decreases |ms| - from
  {
    if from == |ms| then Ok([])
    else
      match Convert(from, ms[from], keepChatId)
      case Err(e) => Err(e)
      case Ok(member) =>
        match MembersFrom(ms, from + 1, keepChatId)
        case Err(e) => Err(e)
        case Ok(rest) =>
          var team := [member] + rest;
          assert forall k :: 0 < k < |team| ==> team[k] == rest[k - 1];
          assert Ok(team[0]) == Convert(from, ms[from], keepChatId);
          Ok(team)
  }

  /** `trigger_incident_workflow`'s team, as written: no list (or an empty
      one) gives no team; otherwise every dict becomes a member. */
  function TeamAsWritten(ms: Option<seq<Dict>>): (r: Result<Option<seq<TeamMember>>, Invalid>)
    ensures ms.None? || ms.value == [] ==> r == Ok(None)
    ensures r.Ok? && r.value.Some? ==> ms.Some? && |r.value.value| == |ms.value|
    ensures r.Ok? && r.value.Some? ==> forall k :: 0 <= k < |ms.value| ==> Ok(r.value.value[k]) == Convert(k, ms.value[k], false)
  {
    if ms.None? || ms.value == [] then Ok(None)
    else
      match MembersFrom(ms.value, 0, false)
      case Err(e) => Err(e)
      case Ok(team) => Ok(Some(team))
  }

  /** The team as evidently intended, keeping each request's chat id. */
  function Team(ms: Option<seq<Dict>>): (r: Result<Option<seq<TeamMember>>, Invalid>)
    ensures ms.None? || ms.value == [] ==> r == Ok(None)
    ensures r.Ok? && r.value.Some? ==> ms.Some? && |r.value.value| == |ms.value|
    ensures r.Ok? && r.value.Some? ==> forall k :: 0 <= k < |ms.value| ==> Ok(r.value.value[k]) == Convert(k, ms.value[k], true)
  {
    if ms.None? || ms.value == [] then Ok(None)
    else
      match MembersFrom(ms.value, 0, true)
      case Err(e) => Err(e)
      case Ok(team) => Ok(Some(team))
  }

  /** As written, no converted member has a chat id, so assembling a
      response team from them always fails without a request. */
  lemma TeamAsWrittenCannotAssemble(ms: Option<seq<Dict>>, incident: Incident, channelId: string,
                                    conversations: map<string, string>)
    requires TeamAsWritten(ms).Ok? && TeamAsWritten(ms).value.Some?
    ensures var team := TeamAsWritten(ms).value.value;
      Slack.AssembleResponseTeam(incident, team, channelId, conversations) == (Err(Slack.NoChatMembers), [])
  {
    var team := TeamAsWritten(ms).value.value;
    forall k | 0 <= k < |team|
      ensures !Slack.HasChatId(team[k])
    {
      assert Ok(team[k]) == Convert(k, ms.value[k], false);
    }
    NoChatIdsNoTeam(team);
  }

  /** Members none of whom has a chat id leave an empty chat team. */
  lemma {:induction false} NoChatIdsNoTeam(team: seq<TeamMember>)
    requires forall k :: 0 <= k < |team| ==> !Slack.HasChatId(team[k])
    ensures Slack.WithChatIds(team) == []
    decreases |team|
  {
    if |team| > 0 {
      NoChatIdsNoTeam(team[1..]);
    }
  }

  /** As intended, a request member with a non-empty `slack_id` joins the
      response team, so assembling it succeeds. */
  lemma TeamCanAssemble(ms: seq<Dict>, k: nat, incident: Incident, channelId: string,
                        conversations: map<string, string>)
    requires Team(Some(ms)).Ok? && Team(Some(ms)).value.Some?
    requires k < |ms| && At(ms[k], "slack_id").VStr? && At(ms[k], "slack_id").s != ""
    ensures var team := Team(Some(ms)).value.value;
      && Slack.HasChatId(team[k])
      && Slack.AssembleResponseTeam(incident, team, channelId, conversations).0.Ok?
  {
    var team := Team(Some(ms)).value.value;
    assert Ok(team[k]) == Convert(k, ms[k], true);
    Slack.WithChatIdsMembers(team, team[k]);
  }

  /** How many steps are in a status. */
  function CountStatus(steps: seq<WorkflowStep>, status: StepStatus): (n: nat)
    ensures n <= |steps|
    decreases |steps|
  {
    if steps == [] then 0
    else (if steps[0].status == status then 1 else 0) + CountStatus(steps[1..], status)
  }

  /** Every step is in exactly one status, so the four counts add up to the
      number of steps. */
  lemma {:induction false} StatusCountsPartition(steps: seq<WorkflowStep>)
    ensures CountStatus(steps, StepPending) + CountStatus(steps, StepRunning)
          + CountStatus(steps, StepCompleted) + CountStatus(steps, StepFailed) == |steps|
    decreases |steps|
  {
    if steps != [] {
      StatusCountsPartition(steps[1..]);
    }
  }

  /** A count reaches the number of steps exactly when every step is in
      that status, and is zero exactly when none is. */
  lemma {:induction false} CountStatusExtremes(steps: seq<WorkflowStep>, status: StepStatus)
    ensures CountStatus(steps, status) == |steps| <==> forall k :: 0 <= k < |steps| ==> steps[k].status == status
    ensures CountStatus(steps, status) == 0 <==> forall k :: 0 <= k < |steps| ==> steps[k].status != status
    decreases |steps|
  {
    if steps != [] {
      CountStatusExtremes(steps[1..], status);
      assert forall k :: 1 <= k < |steps| ==> steps[k] == steps[1..][k - 1];
    }
  }

  /** The workflow summary returned to clients. */
  datatype WorkflowView = WorkflowView(
    id: string,
    incidentId: string,
    name: string,
    status: string,
    currentStep: int,
    totalSteps: nat,
    completedSteps: nat,
    failedSteps: nat,
    createdAt: Time,
    completedAt: Option<Time>)

  /** `_workflow_to_response`: the step count and the counts of completed
      and failed steps, which never exceed it together. */
  function WorkflowResponse(w: Workflow): (r: WorkflowView)
    ensures r.totalSteps == |w.steps|
    ensures r.completedSteps + r.failedSteps <= r.totalSteps
    ensures r.completedSteps == CountStatus(w.steps, StepCompleted)
    ensures r.failedSteps == CountStatus(w.steps, StepFailed)
    ensures r.id == w.id && r.incidentId == w.incidentId && r.status == w.status.Value()
  {
    StatusCountsPartition(w.steps);
    WorkflowView(w.id, w.incidentId, w.name, w.status.Value(), w.currentStepIndex, |w.steps|,
                 CountStatus(w.steps, StepCompleted), CountStatus(w.steps, StepFailed),
                 w.createdAt, w.completedAt)
  }
}

=== FILE: selection.dfy ===
/** List helpers behind team selection: order-preserving filters and the
    "append each candidate not yet selected while fewer than `cap` are
    selected" loop both team selectors share. Membership (`m in selected`)
    is structural equality of team members. */
module Selection {
  import opened Wrappers
  import opened Text
  import opened Models

  predicate NoDup<T(==)>(xs: seq<T>) {
    forall i, j :: 0 <= i < j < |xs| ==> xs[i] != xs[j]
  }

  /** The members with `on_call` set, in input order. */
  function OnCall(ms: seq<TeamMember>): (r: seq<TeamMember>)
    ensures forall m :: m in r <==> m in ms && m.onCall
    ensures multiset(r) <= multiset(ms)
    decreases |ms|
  {
    if |ms| == 0 then []
    else
      assert ms == [ms[0]] + ms[1..];
      (if ms[0].onCall then [ms[0]] else []) + OnCall(ms[1..])
  }

  /** The first element of the on-call list is the first on-call member. */
  lemma {:induction false} OnCallHead(ms: seq<TeamMember>)
    requires |OnCall(ms)| > 0
    ensures exists i :: 0 <= i < |ms| && ms[i] == OnCall(ms)[0] && ms[i].onCall
                        && forall j :: 0 <= j < i ==> !ms[j].onCall
    decreases |ms|
  {
    if !ms[0].onCall {
      OnCallHead(ms[1..]);
      var i :| 0 <= i < |ms[1..]| && ms[1..][i] == OnCall(ms[1..])[0] && ms[1..][i].onCall
               && forall j :: 0 <= j < i ==> !ms[1..][j].onCall;
      assert ms[i + 1] == OnCall(ms)[0];
      forall j | 0 <= j < i + 1 ensures !ms[j].onCall {
        if j > 0 { assert ms[j] == ms[1..][j - 1]; }
      }
    }
  }

  /** `any(skill in m.skills for skill in relevant)`. */
  predicate HasAnySkill(m: TeamMember, relevant: seq<string>) {
    exists s :: s in relevant && s in m.skills
  }

  /** The members having one of the `relevant` skills, in input order. */
  function WithSkills(ms: seq<TeamMember>, relevant: seq<string>): (r: seq<TeamMember>)
    ensures forall m :: m in r <==> m in ms && HasAnySkill(m, relevant)
    decreases |ms|
  {
    if |ms| == 0 then []
    else (if HasAnySkill(ms[0], relevant) then [ms[0]] else []) + WithSkills(ms[1..], relevant)
  }

  /** For each candidate in order: append it when it is not selected yet and
      fewer than `cap` members are selected. */
  function FillUpTo(selected: seq<TeamMember>, candidates: seq<TeamMember>, cap: nat): (r: seq<TeamMember>)
    ensures |selected| <= |r| && r[..|selected|] == selected
    ensures |r| <= (if |selected| > cap then |selected| else cap)
    ensures |r| > |selected| ==> |selected| < cap
    ensures forall i :: |selected| <= i < |r| ==> r[i] in candidates && r[i] !in r[..i]
    ensures forall c :: c in candidates ==> c in r || |r| >= cap
    ensures NoDup(selected) ==> NoDup(r)
    decreases |candidates|
  {
    if |candidates| == 0 then selected
    else
      var c := candidates[0];
      var next := if c !in selected && |selected| < cap then selected + [c] else selected;
      var r := FillUpTo(next, candidates[1..], cap);
      assert r[..|selected|] == next[..|selected|];
      assert forall x :: x in candidates[1..] ==> x in candidates;
      FillStepFresh(selected, next, r, candidates);
      r
  }

  /** One step of the fill keeps every appended member a fresh candidate. */
  lemma FillStepFresh(selected: seq<TeamMember>, next: seq<TeamMember>, r: seq<TeamMember>, candidates: seq<TeamMember>)
    requires |candidates| > 0
    requires next == selected || (next == selected + [candidates[0]] && candidates[0] !in selected)
    requires |next| <= |r| && r[..|next|] == next
    requires forall i :: |next| <= i < |r| ==> r[i] in candidates[1..] && r[i] !in r[..i]
    ensures forall i :: |selected| <= i < |r| ==> r[i] in candidates && r[i] !in r[..i]
  {
    assert r[..|selected|] == selected;
    forall i | |selected| <= i < |r| ensures r[i] in candidates && r[i] !in r[..i] {
      if i < |next| {
        assert r[i] == next[i] == candidates[0];
        assert r[..i] == selected;
      }
    }
  }

  /** Every member the fill appends was a candidate and was not selected
      before, so counts grow by at most one per distinct candidate. */
  lemma {:induction false} FillUpToCounts(selected: seq<TeamMember>, candidates: seq<TeamMember>, cap: nat, x: TeamMember)
    ensures var r := FillUpTo(selected, candidates, cap);
            multiset(r)[x] == multiset(selected)[x]
            || (multiset(selected)[x] == 0 && multiset(r)[x] == 1 && x in candidates)
    decreases |candidates|
  {
    if |candidates| > 0 {
      var c := candidates[0];
      var next := if c !in selected && |selected| < cap then selected + [c] else selected;
      FillUpToCounts(next, candidates[1..], cap, x);
      if next != selected {
        assert multiset(next) == multiset(selected) + multiset{c};
      }
    }
  }

  /** A fill from candidates drawn from `pool`, started from a selection
      within `pool`, stays within `pool`. */
  lemma {:induction false} FillUpToWithin(selected: seq<TeamMember>, candidates: seq<TeamMember>, cap: nat, pool: multiset<TeamMember>)
    requires multiset(selected) <= pool
    requires forall c :: c in candidates ==> c in pool
    ensures multiset(FillUpTo(selected, candidates, cap)) <= pool
  {
    var r := FillUpTo(selected, candidates, cap);
    forall x ensures multiset(r)[x] <= pool[x] {
      FillUpToCounts(selected, candidates, cap, x);
    }
  }

  lemma {:induction false} SubMultisetSameSize<T>(a: multiset<T>, b: multiset<T>)
    requires a <= b && |a| == |b|
    ensures a == b
  {
    var d := b - a;
    assert b == a + d;
    assert |d| == 0;
  }
  /** A list is duplicate-free iff no element occurs twice in its multiset. */
  lemma {:induction false} NoDupCounts<T>(xs: seq<T>)
    ensures NoDup(xs) <==> forall x :: multiset(xs)[x] <= 1
    decreases |xs|
  {
    if |xs| > 0 {
      NoDupCounts(xs[1..]);
      assert xs == [xs[0]] + xs[1..];
      if NoDup(xs) {
        assert NoDup(xs[1..]) by {
          forall i, j | 0 <= i < j < |xs| - 1 ensures xs[1..][i] != xs[1..][j] {
            assert xs[1..][i] == xs[i + 1] && xs[1..][j] == xs[j + 1];
          }
        }
        assert xs[0] !in xs[1..] by {
          forall k | 0 <= k < |xs| - 1 ensures xs[1..][k] != xs[0] {
            assert xs[1..][k] == xs[k + 1];
          }
        }
      } else {
        var i, j :| 0 <= i < j < |xs| && xs[i] == xs[j];
        if i == 0 {
          assert xs[1..][j - 1] == xs[0];
          assert multiset(xs)[xs[0]] == 1 + multiset(xs[1..])[xs[0]];
        } else {
          assert xs[1..][i - 1] == xs[i] && xs[1..][j - 1] == xs[j];
          assert !NoDup(xs[1..]);
          var x :| multiset(xs[1..])[x] > 1;
          assert multiset(xs)[x] >= multiset(xs[1..])[x];
        }
      }
    }
  }

  /** A sub-multiset of a duplicate-free list's elements, as a list, is
      duplicate-free too. */
  lemma {:induction false} NoDupWithin<T>(xs: seq<T>, ys: seq<T>)
    requires NoDup(ys) && multiset(xs) <= multiset(ys)
    ensures NoDup(xs)
  {
    NoDupCounts(ys);
    NoDupCounts(xs);
    forall x ensures multiset(xs)[x] <= 1 {
      assert multiset(xs)[x] <= multiset(ys)[x];
    }
  }

  /** A prefix holds no more of any element than the whole list. */
  lemma {:induction false} PrefixWithin<T>(xs: seq<T>, n: nat)
    requires n <= |xs|
    ensures multiset(xs[..n]) <= multiset(xs)
  {
    assert xs == xs[..n] + xs[n..];
  }
  /** At most two on-call members, then the members with one of the `skills`,
      then anyone, never repeating a member and stopping at five. */
  function SelectTeam(all: seq<TeamMember>, skills: seq<string>): seq<TeamMember> {
    FillUpTo(FillUpTo(Take(OnCall(all), 2), WithSkills(all, skills), 5), all, 5)
  }

  /** The selection has at most five members, drawn from the input without
      taking anyone more often than they occur, and starts with the first at
      most two on-call members in input order. */
  lemma SelectTeamBounds(all: seq<TeamMember>, skills: seq<string>)
    ensures var r := SelectTeam(all, skills);
      var first := Take(OnCall(all), 2);
      && |r| <= 5
      && multiset(r) <= multiset(all)
      && |first| <= |r| && r[..|first|] == first
  {
    SelectTeamWithin(all, skills);
    SelectTeamPrefix(all, skills);
  }

  lemma SelectTeamWithin(all: seq<TeamMember>, skills: seq<string>)
    ensures multiset(SelectTeam(all, skills)) <= multiset(all)
  {
    var onCall := OnCall(all);
    var first := Take(onCall, 2);
    var mid := FillUpTo(first, WithSkills(all, skills), 5);
    PrefixWithin(onCall, |first|);
    FillUpToWithin(first, WithSkills(all, skills), 5, multiset(all));
    FillUpToWithin(mid, all, 5, multiset(all));
  }

  lemma SelectTeamPrefix(all: seq<TeamMember>, skills: seq<string>)
    ensures var r := SelectTeam(all, skills);
      var first := Take(OnCall(all), 2);
      |first| <= |r| && r[..|first|] == first
  {
    var first := Take(OnCall(all), 2);
    var mid := FillUpTo(first, WithSkills(all, skills), 5);
    var r := FillUpTo(mid, all, 5);
    assert r[..|first|] == r[..|mid|][..|first|];
  }

  /** A member without one of the `skills` is only added once every member
      with one is already selected: skill-matched members come first. */
  lemma SelectTeamSkilledFirst(all: seq<TeamMember>, skills: seq<string>)
    ensures var r := SelectTeam(all, skills);
      forall j :: |Take(OnCall(all), 2)| <= j < |r| && !HasAnySkill(r[j], skills) ==>
        forall m :: m in all && HasAnySkill(m, skills) ==> m in r[..j]
  {
    var first := Take(OnCall(all), 2);
    var mid := FillUpTo(first, WithSkills(all, skills), 5);
    var r := FillUpTo(mid, all, 5);
    var skilled := WithSkills(all, skills);
    forall i | |first| <= i < |mid| ensures HasAnySkill(r[i], skills) {
      assert r[i] == r[..|mid|][i] == mid[i];
      assert mid[i] in skilled;
    }
    forall j | |first| <= j < |r| && !HasAnySkill(r[j], skills)
      ensures forall m :: m in all && HasAnySkill(m, skills) ==> m in r[..j]
    {
      assert j >= |mid|;
      assert |mid| < 5;
      assert forall c :: c in skilled ==> c in mid;
      PrefixKeeps(mid, r, skilled, j);
    }
  }

  /** Whatever a prefix of `r` holds, every longer prefix holds too. */
  lemma PrefixKeeps(mid: seq<TeamMember>, r: seq<TeamMember>, xs: seq<TeamMember>, j: nat)
    requires |mid| <= j <= |r| && r[..|mid|] == mid
    requires forall c :: c in xs ==> c in mid
    ensures forall c :: c in xs ==> c in r[..j]
  {
    forall c | c in xs ensures c in r[..j] {
      var k :| 0 <= k < |mid| && mid[k] == c;
      assert r[..j][k] == c;
    }
  }

  /** For a duplicate-free input the selection is duplicate-free, and with at
      most five members it holds every one of them. */
  lemma SelectTeamDistinct(all: seq<TeamMember>, skills: seq<string>)
    requires NoDup(all)
    ensures var r := SelectTeam(all, skills);
      && NoDup(r)
      && (|all| <= 5 ==> multiset(r) == multiset(all))
  {
    var r := SelectTeam(all, skills);
    SelectTeamBounds(all, skills);
    NoDupWithin(r, all);
    if |all| <= 5 {
      if |r| >= 5 {
        var d := multiset(all) - multiset(r);
        assert multiset(all) == multiset(r) + d;
        SubMultisetSameSize(multiset(r), multiset(all));
      } else {
        NoDupCounts(all);
        forall x ensures multiset(r)[x] == multiset(all)[x] {
          if x in all {
            assert x in r;
          }
        }
      }
    }
  }

  /** The first member with one of the `relevant` skills, if any. */
  function FirstWithSkill(ms: seq<TeamMember>, relevant: seq<string>): (r: Option<TeamMember>)
    ensures r.None? <==> forall m :: m in ms ==> !HasAnySkill(m, relevant)
    decreases |ms|
  {
    if |ms| == 0 then None
    else if HasAnySkill(ms[0], relevant) then Some(ms[0])
    else
      assert forall m :: m in ms[1..] ==> m in ms;
      FirstWithSkill(ms[1..], relevant)
  }

  /** The member found is the earliest skilled one. */
  lemma {:induction false} FirstWithSkillIndex(ms: seq<TeamMember>, relevant: seq<string>)
    requires FirstWithSkill(ms, relevant).Some?
    ensures exists i :: 0 <= i < |ms| && ms[i] == FirstWithSkill(ms, relevant).value && HasAnySkill(ms[i], relevant)
                        && forall j :: 0 <= j < i ==> !HasAnySkill(ms[j], relevant)
    decreases |ms|
  {
    if !HasAnySkill(ms[0], relevant) {
      FirstWithSkillIndex(ms[1..], relevant);
      var i :| 0 <= i < |ms[1..]| && ms[1..][i] == FirstWithSkill(ms[1..], relevant).value
               && HasAnySkill(ms[1..][i], relevant)
               && forall j :: 0 <= j < i ==> !HasAnySkill(ms[1..][j], relevant);
      assert ms[i + 1] == ms[1..][i];
      forall j | 0 <= j < i + 1 ensures !HasAnySkill(ms[j], relevant) {
        if j > 0 { assert ms[j] == ms[1..][j - 1]; }
      }
    }
  }

  /** The assignee: the first on-call member, else the first member with a
      relevant skill, else the first member; none for an empty team. */
  function PickAssignee(ms: seq<TeamMember>, relevant: seq<string>): (r: Option<TeamMember>)
    ensures r.None? <==> |ms| == 0
    ensures r.Some? ==> r.value in ms
    ensures |OnCall(ms)| > 0 ==> r == Some(OnCall(ms)[0])
    ensures |OnCall(ms)| == 0 && FirstWithSkill(ms, relevant).Some? ==> r == FirstWithSkill(ms, relevant)
    ensures |OnCall(ms)| == 0 && FirstWithSkill(ms, relevant).None? && |ms| > 0 ==> r == Some(ms[0])
  {
    var onCall := OnCall(ms);
    if |onCall| > 0 then Some(onCall[0])
    else
      var skilled := FirstWithSkill(ms, relevant);
      if skilled.Some? then
        FirstWithSkillIndex(ms, relevant);
        skilled
      else if |ms| > 0 then Some(ms[0])
      else None
  }

  /** The assignee is the first on-call member; failing that the first
      skilled one; failing that the first member. */
  lemma PickAssigneeIndex(ms: seq<TeamMember>, relevant: seq<string>)
    requires |ms| > 0
    ensures var r := PickAssignee(ms, relevant).value;
      exists i :: 0 <= i < |ms| && ms[i] == r && (
        || (ms[i].onCall && forall j :: 0 <= j < i ==> !ms[j].onCall)
        || ((forall m :: m in ms ==> !m.onCall) && HasAnySkill(ms[i], relevant)
            && forall j :: 0 <= j < i ==> !HasAnySkill(ms[j], relevant))
        || ((forall m :: m in ms ==> !m.onCall && !HasAnySkill(m, relevant)) && i == 0))
  {
    if |OnCall(ms)| > 0 {
      OnCallHead(ms);
    } else if FirstWithSkill(ms, relevant).Some? {
      FirstWithSkillIndex(ms, relevant);
    } else {
      assert ms[0] == PickAssignee(ms, relevant).value;
    }
  }

  /** Nobody has one of no skills. */
  lemma {:induction false} WithNoSkills(ms: seq<TeamMember>)
    ensures WithSkills(ms, []) == []
    decreases |ms|
  {
    if |ms| > 0 {
      WithNoSkills(ms[1..]);
    }
  }

  /** At most two on-call members, then anyone, never repeating a member and
      stopping at five. */
  function SelectResponseTeam(all: seq<TeamMember>): seq<TeamMember> {
    FillUpTo(Take(OnCall(all), 2), all, 5)
  }

  /** The response team is the skill-driven selection with no relevant
      skills, so it inherits that selection's bounds. */
  lemma ResponseTeamIsSelectTeam(all: seq<TeamMember>)
    ensures SelectResponseTeam(all) == SelectTeam(all, [])
    ensures var r := SelectResponseTeam(all);
      var first := Take(OnCall(all), 2);
      && |r| <= 5 && multiset(r) <= multiset(all)
      && |first| <= |r| && r[..|first|] == first
      && (NoDup(all) ==> NoDup(r))
      && (NoDup(all) && |all| <= 5 ==> multiset(r) == multiset(all))
  {
    WithNoSkills(all);
    SelectTeamBounds(all, []);
    if NoDup(all) {
      SelectTeamDistinct(all, []);
    }
  }
}

=== FILE: servicenow.dfy ===
/** The service-desk connector's own logic: impact and urgency, the
    assignment group, the ticket description and payload, and the update
    requests. The service desk is seen through its answers: the decoded
    response body, or the transport error's text. */
module ServiceNow {
  import opened Wrappers
  import opened Text
  import opened Values
  import opened Models

  /** `SEVERITY_MAP` with its default 3, which no severity reaches. */
  function Impact(s: Severity): int {
    match s
    case Critical => 1
    case High => 2
    case Medium => 3
    case Low => 4
  }

  /** `URGENCY_MAP` with its default 2, which no severity reaches. */
  function Urgency(s: Severity): int {
    match s
    case Critical => 1
    case High => 2
    case Medium => 2
    case Low => 3
  }

  /** Both scales run from 1 (most pressing) to 4; impact tells severities
      apart, urgency is never less pressing than impact, and urgency follows
      the order impact gives. */
  lemma ImpactUrgencyScale(a: Severity, b: Severity)
    ensures 1 <= Urgency(a) <= Impact(a) <= 4
    ensures Impact(a) == Impact(b) ==> a == b
    ensures Impact(a) < Impact(b) ==> Urgency(a) <= Urgency(b)
    ensures Impact(a) == 1 <==> a == Critical
  {
  }

  /** `_get_assignment_group`: six categories have their own group, the
      rest go to "IT Support". */
  function AssignmentGroup(c: Category): string {
    match c
    case Infrastructure => "Platform Engineering"
    case Database => "Database Administration"
    case Security => "Security Operations"
    case Network => "Network Operations"
    case Application => "Application Support"
    case Performance => "Performance Engineering"
    case _ => "IT Support"
  }

  /** Exactly integration and unknown incidents fall back to "IT Support",
      and the six routed categories reach six different groups. */
  lemma AssignmentGroupRouting(a: Category, b: Category)
    ensures AssignmentGroup(a) == "IT Support" <==> a == Integration || a == Unknown
    ensures AssignmentGroup(a) == AssignmentGroup(b) && AssignmentGroup(a) != "IT Support" ==> a == b
  {
  }

  /** One optional description line: present for a non-empty list. */
  function ListLine(caption: string, xs: seq<string>): (r: seq<string>)
    ensures |r| == if |xs| > 0 then 1 else 0
    ensures |xs| > 0 ==> r[0] == caption + ": " + Join(", ", xs)
  {
    if |xs| > 0 then [caption + ": " + Join(", ", xs)] else []
  }

  /** The line that opens the generated block. */
  const GeneratedMarker: string := "--- Auto-generated by Workflow Choreographer ---"

  /** The lines of `_build_description`: the incident's own description,
      the generated block, and one line each for the services, components
      and tags that are present. */
  function DescriptionParts(incident: Incident, detected: string): (r: seq<string>)
    ensures |r| == 6 + |ListLine("Affected Services", incident.affectedServices)|
                     + |ListLine("Affected Components", incident.affectedComponents)|
                     + |ListLine("Tags", incident.tags)|
    ensures r[0] == incident.description
    ensures r[3] == "Internal ID: " + incident.id
    ensures r[6..] == ListLine("Affected Services", incident.affectedServices)
                    + ListLine("Affected Components", incident.affectedComponents)
                    + ListLine("Tags", incident.tags)
  {
    var head := [incident.description, "", GeneratedMarker,
                 "Internal ID: " + incident.id, "Source: " + incident.sourceSystem, "Detected at: " + detected];
    var tail := ListLine("Affected Services", incident.affectedServices)
                + ListLine("Affected Components", incident.affectedComponents)
                + ListLine("Tags", incident.tags);
    assert (head + tail)[6..] == tail;
    head + tail
  }

  /** With no services, components or tags, the description is just the
      incident's description and the generated block. */
  lemma DescriptionBare(incident: Incident, detected: string)
    requires incident.affectedServices == [] && incident.affectedComponents == [] && incident.tags == []
    ensures |DescriptionParts(incident, detected)| == 6
  {
  }

  /** A description with every list present has one line per list, in the
      order services, components, tags. */
  lemma DescriptionFull(incident: Incident, detected: string)
    requires incident.affectedServices != [] && incident.affectedComponents != [] && incident.tags != []
    ensures var r := DescriptionParts(incident, detected);
      && |r| == 9
      && r[6] == "Affected Services: " + Join(", ", incident.affectedServices)
      && r[7] == "Affected Components: " + Join(", ", incident.affectedComponents)
      && r[8] == "Tags: " + Join(", ", incident.tags)
  {
    var r := DescriptionParts(incident, detected);
    assert r[6..][0] == r[6] && r[6..][1] == r[7] && r[6..][2] == r[8];
  }

  /** `_build_description`: the lines joined by newlines. */
  function Description(incident: Incident, detected: string): (r: string)
    ensures IsPrefix(incident.description, r)
  {
    var parts := DescriptionParts(incident, detected);
    JoinHead(parts);
    Join("\n", parts)
  }

  /** A newline-join of several parts opens with the first. */
  lemma JoinHead(parts: seq<string>)
    requires |parts| > 1
    ensures IsPrefix(parts[0], Join("\n", parts))
  {
    assert Join("\n", parts) == parts[0] + ("\n" + Join("\n", parts[1..]));
  }

  /** The new ticket's fields, around the built description. */
  function Payload(incident: Incident, description: string): (r: Dict)
    ensures |r| == 11
  {
    [("short_description", VStr(incident.title)),
     ("description", VStr(description)),
     ("impact", VInt(Impact(incident.severity))),
     ("urgency", VInt(Urgency(incident.severity))),
     ("category", VStr(incident.category.Value())),
     ("subcategory", VStr("")),
     ("contact_type", VStr("monitoring")),
     ("caller_id", VStr("")),
     ("assignment_group", VStr(AssignmentGroup(incident.category))),
     ("u_affected_services", VStr(Join(", ", incident.affectedServices))),
     ("u_external_reference", VStr(incident.id))]
  }

  /** The payload's short description is the incident's title. */
  lemma PayloadTitle(incident: Incident, description: string)
    ensures Get(Payload(incident, description), "short_description") == Some(VStr(incident.title))
  {
    GetFirst(Payload(incident, description), 0);
  }

  /** The payload carries the impact and urgency of the severity. */
  lemma PayloadScales(incident: Incident, description: string)
    ensures var r := Payload(incident, description);
      && Get(r, "impact") == Some(VInt(Impact(incident.severity)))
      && Get(r, "urgency") == Some(VInt(Urgency(incident.severity)))
  {
    var r := Payload(incident, description);
    GetFirst(r, 2); GetFirst(r, 3);
  }

  /** The payload routes the ticket to the category's group. */
  lemma PayloadGroup(incident: Incident, description: string)
    ensures Get(Payload(incident, description), "assignment_group") == Some(VStr(AssignmentGroup(incident.category)))
  {
    GetFirst(Payload(incident, description), 8);
  }

  /** The payload names the affected services, joined by ", ". */
  lemma PayloadServices(incident: Incident, description: string)
    ensures Get(Payload(incident, description), "u_affected_services") == Some(VStr(Join(", ", incident.affectedServices)))
  {
    GetFirst(Payload(incident, description), 9);
  }

  /** The payload refers back to the internal incident id. */
  lemma PayloadReference(incident: Incident, description: string)
    ensures Get(Payload(incident, description), "u_external_reference") == Some(VStr(incident.id))
  {
    GetFirst(Payload(incident, description), 10);
  }

  /** The incident table's path, and the path of a ticket's page. */
  const TablePath: string := "/api/now/table/incident"
  const TicketLinkPath: string := "/nav_to.do?uri=incident.do?sys_id="

  /** The requests made to the service desk, in order. */
  datatype Request = Post(path: string, body: Dict) | Patch(path: string, body: Dict)

  /** A created ticket: its system id, number and link. */
  datatype Created = Created(sysId: Value, number: Value, link: string)

  /** The `result` member of a response body; a result that is not a dict
      cannot be read and raises. */
  function ResultOf(body: Dict): (r: Result<Dict, string>)
    ensures !HasKey(body, "result") ==> r == Ok([])
    ensures HasKey(body, "result") ==> (r.Ok? <==> At(body, "result").VDict?)
  {
    SubDict(body, "result")
  }

  /** `create_incident`: one request with the payload; the link opens the
      ticket with the returned system id. */
  function CreateIncident(baseUrl: string, incident: Incident, detected: string, answer: Result<Dict, string>)
    : (r: (Result<Created, string>, seq<Request>))
    ensures r.1 == [Post(TablePath, Payload(incident, Description(incident, detected)))]
    ensures answer.Err? ==> r.0 == Err(answer.error)
    ensures r.0.Ok? ==> answer.Ok? && ResultOf(answer.value).Ok?
    ensures r.0.Ok? ==>
      var result := ResultOf(answer.value).value;
      && r.0.value.sysId == At(result, "sys_id") && r.0.value.number == At(result, "number")
      && r.0.value.link == baseUrl + TicketLinkPath + Show(At(result, "sys_id"))
  {
    var calls := [Post(TablePath, Payload(incident, Description(incident, detected)))];
    match answer
    case Err(e) => (Err(e), calls)
    case Ok(body) =>
      match ResultOf(body)
      case Err(e) => (Err(e), calls)
      case Ok(result) =>
        var sysId := At(result, "sys_id");
        (Ok(Created(sysId, At(result, "number"), baseUrl + TicketLinkPath + Show(sysId))), calls)
  }

  /** `update_incident`: one request patching the ticket with the updates.
      The response's `result` member is passed on as it is, whatever its
      type, and an absent one reads as an empty dict. */
  function UpdateIncident(sysId: string, updates: Dict, answer: Result<Dict, string>)
    : (r: (Result<Value, string>, seq<Request>))
    ensures r.1 == [Patch(TablePath + "/" + sysId, updates)]
    ensures r.0.Ok? <==> answer.Ok?
    ensures answer.Err? ==> r.0 == Err(answer.error)
    ensures answer.Ok? && HasKey(answer.value, "result") ==> r.0.value == At(answer.value, "result")
    ensures answer.Ok? && !HasKey(answer.value, "result") ==> r.0.value == VDict([])
  {
    var calls := [Patch(TablePath + "/" + sysId, updates)];
    match answer
    case Err(e) => (Err(e), calls)
    case Ok(body) => (Ok(GetOr(body, "result", VDict([]))), calls)
  }

  /** `add_work_note`: an update carrying only the note. */
  function AddWorkNote(sysId: string, note: string, answer: Result<Dict, string>)
    : (r: (Result<Value, string>, seq<Request>))
    ensures r.0.Ok? <==> answer.Ok?
    ensures |r.1| == 1 && Keys(r.1[0].body) == ["work_notes"] && Get(r.1[0].body, "work_notes") == Some(VStr(note))
  {
    UpdateIncident(sysId, [("work_notes", VStr(note))], answer)
  }

  /** `add_comment`: an update carrying only the comment. */
  function AddComment(sysId: string, comment: string, answer: Result<Dict, string>)
    : (r: (Result<Value, string>, seq<Request>))
    ensures r.0.Ok? <==> answer.Ok?
    ensures |r.1| == 1 && Keys(r.1[0].body) == ["comments"] && Get(r.1[0].body, "comments") == Some(VStr(comment))
  {
    UpdateIncident(sysId, [("comments", VStr(comment))], answer)
  }

  /** The service desk's code for the resolved state. */
  const ResolvedState: int := 6

  /** `resolve_incident`: an update setting the resolved state with the
      close code and notes, and nothing else. */
  function ResolveIncident(sysId: string, code: string, notes: string, answer: Result<Dict, string>)
    : (r: (Result<Value, string>, seq<Request>))
    ensures r.0.Ok? <==> answer.Ok?
    ensures |r.1| == 1 && r.1[0].Patch? && r.1[0].path == TablePath + "/" + sysId
    ensures Keys(r.1[0].body) == ["state", "close_code", "close_notes"]
    ensures Get(r.1[0].body, "state") == Some(VInt(ResolvedState))
    ensures Get(r.1[0].body, "close_code") == Some(VStr(code))
    ensures Get(r.1[0].body, "close_notes") == Some(VStr(notes))
  {
    var updates := [("state", VInt(ResolvedState)), ("close_code", VStr(code)), ("close_notes", VStr(notes))];
    GetFirst(updates, 0); GetFirst(updates, 1); GetFirst(updates, 2);
    UpdateIncident(sysId, updates, answer)
  }
}

=== FILE: slack.dfy ===
/** The chat connector's own logic: the incident channel's name, topic and
    purpose, the summary and notification blocks, mentions, and assembling
    a response team. The chat service is seen through its answers: each
    request answers or raises, given as a `Result` whose error is the
    exception text. Characters outside ASCII are written as escapes. */
module Slack {
  import opened Wrappers
  import opened Text
  import opened Values
  import opened Models

  /** `SEVERITY_EMOJI`: red, orange, yellow and green circles. */
  function SeverityEmoji(s: Severity): string {
    match s
    case Critical => "\U{1F534}"
    case High => "\U{1F7E0}"
    case Medium => "\U{1F7E1}"
    case Low => "\U{1F7E2}"
  }

  /** Every severity has its own emoji, so the white-circle default is
      never used. */
  lemma SeverityEmojiDistinct(a: Severity, b: Severity)
    ensures a != b ==> SeverityEmoji(a) != SeverityEmoji(b)
    ensures SeverityEmoji(a) != "\U{26AA}"
  {
  }

  /** The character a title character becomes in a channel name. */
  function SafeChar(c: char): char {
    if IsAlnum(c) then c else '-'
  }

  /** A character a channel name's title part may hold. */
  predicate ChannelChar(c: char) {
    ('a' <= c <= 'z') || ('0' <= c <= '9') || c == '-'
  }

  /** `safe_title`: the lower-cased title with every other character turned
      into "-", cut to 30 characters. */
  function SafeTitle(title: string): (r: string)
    ensures |r| <= 30 && |r| == if |title| < 30 then |title| else 30
    ensures forall i :: 0 <= i < |r| ==> r[i] == SafeChar(LowerChar(title[i]))
    ensures forall i :: 0 <= i < |r| ==> ChannelChar(r[i])
  {
    var lowered := Lower(title);
    var safe := seq(|lowered|, i requires 0 <= i < |lowered| => SafeChar(lowered[i]));
    Take(safe, 30)
  }

  /** A title already made of lower-case letters, digits and dashes, and
      no longer than 30 characters, is its own safe form. */
  lemma SafeTitleKeepsSafe(title: string)
    requires |title| <= 30 && forall i :: 0 <= i < |title| ==> ChannelChar(title[i])
    ensures SafeTitle(title) == title
  {
    var r := SafeTitle(title);
    assert forall i :: 0 <= i < |r| ==> r[i] == title[i];
  }

  /** The channel name's prefix: "inc-", the first four letters of the
      severity, and the detection date. */
  function ChannelPrefix(s: Severity, date: string): string {
    "inc-" + Take(s.Value(), 4) + "-" + date + "-"
  }

  /** The incident channel's name: the prefix, then the safe title. The date
      is the detection time formatted as YYYYMMDD. */
  function ChannelName(incident: Incident, date: string): (r: string)
    ensures IsPrefix(ChannelPrefix(incident.severity, date), r)
    ensures r[|ChannelPrefix(incident.severity, date)|..] == SafeTitle(incident.title)
    ensures |r| <= |date| + 40
  {
    ChannelPrefix(incident.severity, date) + SafeTitle(incident.title)
  }

  /** The severity part is four letters for every severity but "low". */
  lemma ChannelSeverityPart(s: Severity)
    ensures Take(s.Value(), 4) == (match s case Critical => "crit" case High => "high" case Medium => "medi" case Low => "low")
  {
  }

  /** The channel topic: the siren, the upper-cased severity and the title,
      cut to the 250 characters the chat service allows. */
  function Topic(incident: Incident): (r: string)
    ensures |r| <= 250
    ensures IsPrefix(r, "\U{1F6A8} " + incident.severity.Upper() + " Incident: " + incident.title)
    ensures |incident.title| <= 200 ==> r == "\U{1F6A8} " + incident.severity.Upper() + " Incident: " + incident.title
  {
    Take("\U{1F6A8} " + incident.severity.Upper() + " Incident: " + incident.title, 250)
  }

  /** The chat service's message blocks, as far as their content goes. */
  datatype Block =
    | Header(text: string)
    | Section(text: string)
    | Divider
    | Fields(texts: seq<string>)
    | Context(text: string)

  /** `_post_incident_summary`'s blocks: the header, the title and
      description, a divider and the fields, then a services section when
      services are known and a ticket section when a ticket exists. */
  function SummaryBlocks(incident: Incident, detected: string): (r: seq<Block>)
    ensures |r| == 4 + (if |incident.affectedServices| > 0 then 1 else 0)
                     + (if Truthy(incident.servicenowTicketId) then 1 else 0)
    ensures r[0] == Header(SeverityEmoji(incident.severity) + " " + incident.severity.Upper() + " INCIDENT")
    ensures r[1] == Section("*" + incident.title + "*\n\n" + incident.description)
    ensures |incident.affectedServices| > 0 ==>
      r[4] == Section("*Affected Services:* " + Join(", ", incident.affectedServices))
    ensures Truthy(incident.servicenowTicketId) ==>
      r[|r| - 1] == Section("\U{1F4CB} *ServiceNow Ticket:* " + Show(incident.servicenowTicketId))
  {
    [Header(SeverityEmoji(incident.severity) + " " + incident.severity.Upper() + " INCIDENT"),
     Section("*" + incident.title + "*\n\n" + incident.description),
     Divider,
     Fields(["*Category:*\n" + incident.category.Value(), "*Status:*\n" + incident.status.Value(),
             "*Detected:*\n" + detected, "*ID:*\n`" + Take(incident.id, 8) + "...`"])]
    + (if |incident.affectedServices| > 0 then
         [Section("*Affected Services:* " + Join(", ", incident.affectedServices))] else [])
    + (if Truthy(incident.servicenowTicketId) then
         [Section("\U{1F4CB} *ServiceNow Ticket:* " + Show(incident.servicenowTicketId))] else [])
  }

  /** `_build_notification_blocks`: the message as one section, and a
      context line about the incident exactly when one is given. */
  function NotificationBlocks(message: string, incident: Option<Incident>): (r: seq<Block>)
    ensures |r| == if incident.Some? then 2 else 1
    ensures r[0] == Section(message)
    ensures incident.Some? ==>
      var i := incident.value;
      r[1] == Context(SeverityEmoji(i.severity) + " " + i.severity.Upper() + " | " + i.category.Value()
                      + " | ID: " + Take(i.id, 8))
  {
    [Section(message)]
    + (match incident
       case None => []
       case Some(i) =>
         [Context(SeverityEmoji(i.severity) + " " + i.severity.Upper() + " | " + i.category.Value()
                  + " | ID: " + Take(i.id, 8))])
  }

  /** The mention of one user. */
  function Mention(userId: string): string {
    "<@" + userId + ">"
  }

  /** The mentions of several users, space-separated. */
  function MentionList(userIds: seq<string>): (r: string)
    ensures forall k :: 0 <= k < |userIds| ==> Contains(r, Mention(userIds[k]))
  {
    var ms := seq(|userIds|, k requires 0 <= k < |userIds| => Mention(userIds[k]));
    forall k | 0 <= k < |userIds| ensures Contains(Join(" ", ms), Mention(userIds[k])) {
      JoinContainsPart(" ", ms, k);
    }
    Join(" ", ms)
  }

  /** The message `notify_team` sends: unchanged without mentions, otherwise
      the mentions, a blank line, and the message. */
  function WithMentions(message: string, userIds: seq<string>): (r: string)
    ensures |userIds| == 0 ==> r == message
    ensures |userIds| > 0 ==> r == MentionList(userIds) + "\n\n" + message
  {
    if |userIds| > 0 then MentionList(userIds) + "\n\n" + message else message
  }

  /** The message always ends the text sent, and every mentioned user is
      named in it. */
  lemma WithMentionsKeepsMessage(message: string, userIds: seq<string>)
    ensures var r := WithMentions(message, userIds);
      && |message| <= |r| && r[|r| - |message|..] == message
      && forall k :: 0 <= k < |userIds| ==> Contains(r, Mention(userIds[k]))
  {
    var r := WithMentions(message, userIds);
    if |userIds| > 0 {
      forall k | 0 <= k < |userIds| ensures Contains(r, Mention(userIds[k])) {
        ContainsLeft(MentionList(userIds), "\n\n" + message, Mention(userIds[k]));
        assert r == MentionList(userIds) + ("\n\n" + message);
      }
    }
  }

  /** The requests made to the chat service, in order. */
  datatype Request =
    | CreateChannel(name: string)
    | SetTopic(channel: string, topic: string)
    | SetPurpose(channel: string, purpose: string)
    | PostMessage(channel: string, text: string, blocks: seq<Block>)
    | Invite(channel: string, users: string)
    | OpenDirect(user: string)

  /** The fixed openings of the channel's purpose and link. */
  const PurposePrefix: string := "Incident response channel. ID: "
  const RedirectPrefix: string := "https://slack.com/app_redirect?channel="

  /** A created channel: its id, name and link. */
  datatype Channel = Channel(id: string, name: string, link: string)

  /** `create_incident_channel`: create the channel, then set its topic and
      purpose and post the summary, stopping at the first request that
      raises. */
  function CreateIncidentChannel(incident: Incident, date: string, detected: string,
                                 created: Result<string, string>, topicSet: Result<(), string>,
                                 purposeSet: Result<(), string>, posted: Result<(), string>)
    : (r: (Result<Channel, string>, seq<Request>))
    ensures |r.1| >= 1 && r.1[0] == CreateChannel(ChannelName(incident, date))
    ensures created.Err? ==> r == (Err(created.error), [CreateChannel(ChannelName(incident, date))])
    ensures created.Ok? ==> |r.1| >= 2 && r.1[1] == SetTopic(created.value, Topic(incident))
    ensures r.0.Ok? <==> created.Ok? && topicSet.Ok? && purposeSet.Ok? && posted.Ok?
    ensures r.0.Ok? ==>
      && |r.1| == 4
      && r.1[2] == SetPurpose(created.value, PurposePrefix + incident.id)
      && r.1[3] == PostMessage(created.value, "Incident: " + incident.title, SummaryBlocks(incident, detected))
      && r.0.value == Channel(created.value, ChannelName(incident, date),
                              RedirectPrefix + created.value)
  {
    var name := ChannelName(incident, date);
    match created
    case Err(e) => (Err(e), [CreateChannel(name)])
    case Ok(id) =>
      var topic := SetTopic(id, Topic(incident));
      var purpose := SetPurpose(id, PurposePrefix + incident.id);
      var summary := PostMessage(id, "Incident: " + incident.title, SummaryBlocks(incident, detected));
      if topicSet.Err? then (Err(topicSet.error), [CreateChannel(name), topic])
      else if purposeSet.Err? then (Err(purposeSet.error), [CreateChannel(name), topic, purpose])
      else if posted.Err? then (Err(posted.error), [CreateChannel(name), topic, purpose, summary])
      else (Ok(Channel(id, name, RedirectPrefix + id)),
            [CreateChannel(name), topic, purpose, summary])
  }

  /** What a posted message returns: its timestamp and channel. */
  datatype Posted = Posted(ts: Value, channel: Value)

  /** `notify_team`: one message with the mentions prefixed and the
      notification blocks. */
  function NotifyTeam(channel: string, message: string, incident: Option<Incident>, userIds: seq<string>,
                      answer: Result<Posted, string>): (r: (Result<Posted, string>, seq<Request>))
    ensures r.0 == answer
    ensures r.1 == [PostMessage(channel, WithMentions(message, userIds),
                                NotificationBlocks(WithMentions(message, userIds), incident))]
  {
    var text := WithMentions(message, userIds);
    (answer, [PostMessage(channel, text, NotificationBlocks(text, incident))])
  }

  /** The update types with their own marker, in the order of the map. */
  const UpdateTypes: seq<string> := [
    "status_change", "team_assigned", "analysis_complete", "mitigation_started", "resolved", "escalation"]

  /** The marker opening an update: one per known update type, a memo for
      any other type. */
  function UpdateEmoji(updateType: string): string {
    if updateType == "status_change" then "\U{1F4CA}"
    else if updateType == "team_assigned" then "\U{1F465}"
    else if updateType == "analysis_complete" then "\U{1F50D}"
    else if updateType == "mitigation_started" then "\U{1F6E0}\U{FE0F}"
    else if updateType == "resolved" then "\U{2705}"
    else if updateType == "escalation" then "\U{2B06}\U{FE0F}"
    else "\U{1F4DD}"
  }

  /** The memo marks exactly the unknown update types, and two known types
      never share a marker. */
  lemma UpdateEmojiKnown(a: string, b: string)
    ensures UpdateEmoji(a) == "\U{1F4DD}" <==> a !in UpdateTypes
    ensures a in UpdateTypes && b in UpdateTypes && a != b ==> UpdateEmoji(a) != UpdateEmoji(b)
  {
  }

  /** `post_incident_update`: one message to the channel whose text carries
      the details, with a section of the marked details and a context line
      with the incident's status and the time of the update; the answer is
      the posted timestamp or the chat error's text. */
  function PostIncidentUpdate(channel: string, incident: Incident, updateType: string, details: string,
                              clock: string, answer: Result<Value, string>): (r: (Result<Value, string>, seq<Request>))
    ensures r.0 == answer
    ensures |r.1| == 1 && r.1[0].PostMessage? && r.1[0].channel == channel
    ensures IsPrefix("Incident Update: ", r.1[0].text) && r.1[0].text[|"Incident Update: "|..] == details
    ensures |r.1[0].blocks| == 2 && r.1[0].blocks[0].Section? && r.1[0].blocks[1].Context?
    ensures IsPrefix(UpdateEmoji(updateType), r.1[0].blocks[0].text)
    ensures Contains(r.1[0].blocks[0].text, details)
    ensures Contains(r.1[0].blocks[1].text, incident.status.Value())
  {
    var head := UpdateEmoji(updateType) + " *Incident Update*\n";
    var status := "Status: *" + incident.status.Value() + ("* | Updated: " + clock);
    ContainsAppended(head, details);
    ContainsMiddle("Status: *", incident.status.Value(), "* | Updated: " + clock);
    (answer, [PostMessage(channel, "Incident Update: " + details, [Section(head + details), Context(status)])])
  }

  /** `send_direct_message`: open the conversation with the user, then
      notify it; nothing is posted when it cannot be opened. */
  function SendDirectMessage(userId: string, message: string, incident: Option<Incident>,
                             conversation: Result<string, string>, answer: Result<Posted, string>)
    : (r: (Result<Posted, string>, seq<Request>))
    ensures conversation.Err? ==> r == (Err(conversation.error), [OpenDirect(userId)])
    ensures conversation.Ok? ==> r.0 == answer && |r.1| == 2 && r.1[0] == OpenDirect(userId)
    ensures conversation.Ok? ==> r.1[1] == PostMessage(conversation.value, message, NotificationBlocks(message, incident))
  {
    match conversation
    case Err(e) => (Err(e), [OpenDirect(userId)])
    case Ok(dm) =>
      var (res, calls) := NotifyTeam(dm, message, incident, [], answer);
      (res, [OpenDirect(userId)] + calls)
  }

  /** A member has a usable chat id. */
  predicate HasChatId(m: TeamMember) {
    m.slackUserId.Some? && m.slackUserId.value != ""
  }

  /** The members that have a chat user id, in order. */
  function WithChatIds(members: seq<TeamMember>): (r: seq<TeamMember>)
    ensures |r| <= |members|
    ensures forall k :: 0 <= k < |r| ==> HasChatId(r[k])
    decreases |members|
  {
    if |members| == 0 then []
    else if HasChatId(members[0]) then [members[0]] + WithChatIds(members[1..])
    else WithChatIds(members[1..])
  }

  /** The team is exactly the members with a chat id. */
  lemma {:induction false} WithChatIdsMembers(members: seq<TeamMember>, m: TeamMember)
    ensures m in WithChatIds(members) <==> m in members && HasChatId(m)
    decreases |members|
  {
    if |members| > 0 {
      WithChatIdsMembers(members[1..], m);
      assert m in members <==> m == members[0] || m in members[1..];
    }
  }

  /** The chat ids of the members. */
  function ChatIds(members: seq<TeamMember>): (r: seq<string>)
    ensures |r| == |members| && forall k :: 0 <= k < |members| ==> r[k] == members[k].slackUserId.GetOr("")
  {
    seq(|members|, k requires 0 <= k < |members| => members[k].slackUserId.GetOr(""))
  }

  /** The fixed texts of the roster, the summons and the missing-team error. */
  const RosterHeading: string := "*\U{1F6A8} Incident Response Team Assembled*\n"
  const RosterClosing: string := "\n_Please acknowledge your participation with a \U{1F44D} reaction._"
  const SummonsOpening: string := "You've been added to incident response team for: *"
  const SummonsJoin: string := "*\n\nPlease join <#"
  const NoChatMembers: string := "No team members with Slack IDs"

  /** A roster line: the member's mention and at most three skills, or
      "General" for a member without skills. */
  function RosterLine(m: TeamMember): string
  {
    "\U{2022} " + Mention(m.slackUserId.GetOr("")) + " - "
    + (if |m.skills| > 0 then Join(", ", Take(m.skills, 3)) else "General")
  }

  /** The roster message: a heading, one line per member, and a request to
      acknowledge. */
  function Roster(members: seq<TeamMember>): (r: seq<string>)
    ensures |r| == |members| + 2
    ensures forall k :: 0 <= k < |members| ==> r[k + 1] == RosterLine(members[k])
  {
    [RosterHeading]
    + seq(|members|, k requires 0 <= k < |members| => RosterLine(members[k]))
    + [RosterClosing]
  }

  /** The direct message each member receives. */
  function Summons(incident: Incident, channelId: string): string {
    SummonsOpening + incident.title + SummonsJoin
    + channelId + "> immediately."
  }

  /** The direct messages to the members, in order: the conversations
      that open, by user id; a member whose conversation cannot be opened
      gets nothing posted. */
  function DirectMessages(members: seq<TeamMember>, incident: Incident, channelId: string,
                          conversations: map<string, string>): (r: seq<Request>)
    ensures |members| <= |r| <= 2 * |members|
    decreases |members|
  {
    if |members| == 0 then []
    else
      var id := members[0].slackUserId.GetOr("");
      var message := Summons(incident, channelId);
      [OpenDirect(id)]
      + (if id in conversations then [PostMessage(conversations[id], message, NotificationBlocks(message, Some(incident)))]
         else [])
      + DirectMessages(members[1..], incident, channelId, conversations)
  }

  /** The roster as one message. */
  function RosterMessage(team: seq<TeamMember>): string
  {
    Join("\n", Roster(team))
  }

  /** The requests made for a team: the invitation, the roster, and the
      direct messages. */
  function TeamRequests(team: seq<TeamMember>, incident: Incident, channelId: string,
                        conversations: map<string, string>): (r: seq<Request>)
    ensures |r| >= 2 + |team|
    ensures r[0] == Invite(channelId, Join(",", ChatIds(team)))
    ensures r[1] == PostMessage(channelId, RosterMessage(team), NotificationBlocks(RosterMessage(team), None))
  {
    var roster := RosterMessage(team);
    [Invite(channelId, Join(",", ChatIds(team))), PostMessage(channelId, roster, NotificationBlocks(roster, None))]
    + DirectMessages(team, incident, channelId, conversations)
  }

  /** `assemble_response_team`: only members with a chat id take part; with
      none it fails without any request. Otherwise they are invited, the
      roster is posted and each is messaged directly, and the count of
      those members is returned whatever those requests answer. */
  function AssembleResponseTeam(incident: Incident, members: seq<TeamMember>, channelId: string,
                                conversations: map<string, string>): (r: (Result<nat, string>, seq<Request>))
    ensures |WithChatIds(members)| == 0 ==> r == (Err(NoChatMembers), [])
    ensures |WithChatIds(members)| > 0 ==>
      r == (Ok(|WithChatIds(members)|), TeamRequests(WithChatIds(members), incident, channelId, conversations))
  {
    var team := WithChatIds(members);
    if |team| == 0 then (Err(NoChatMembers), [])
    else (Ok(|team|), TeamRequests(team, incident, channelId, conversations))
  }

  /** `invite_users_to_channel`: one request inviting the comma-joined ids;
      on success the count of ids is returned. */
  function InviteUsers(channelId: string, userIds: seq<string>, answer: Result<(), string>)
    : (r: (Result<nat, string>, seq<Request>))
    ensures r.1 == [Invite(channelId, Join(",", userIds))]
    ensures r.0.Ok? <==> answer.Ok?
    ensures r.0.Ok? ==> r.0.value == |userIds|
  {
    (if answer.Ok? then Ok(|userIds|) else Err(answer.error), [Invite(channelId, Join(",", userIds))])
  }
}

=== FILE: text.dfy ===
/** String helpers with Python semantics: substring test (`p in s`), slicing
    (`s[:n]`), `str.join`, `str.split`, `str.replace`, `str.lower` and
    `str.isalnum` (both restricted to ASCII), and `str(n)` for integers. */
module Text {

  predicate IsPrefix(p: string, s: string) {
    |p| <= |s| && s[..|p|] == p
  }

  /** Python's `p in s` for strings. */
  predicate Contains(s: string, p: string)
    decreases |s|
  {
    IsPrefix(p, s) || (|s| > 0 && Contains(s[1..], p))
  }

  lemma {:induction false} ContainsAt(s: string, p: string, i: nat)
    requires i + |p| <= |s| && s[i..i + |p|] == p
    ensures Contains(s, p)
    decreases i
  {
    if i == 0 {
      assert s[..|p|] == s[0..|p|];
    } else {
      assert s[1..][i - 1..i - 1 + |p|] == s[i..i + |p|];
      ContainsAt(s[1..], p, i - 1);
    }
  }

  lemma {:induction false} ContainsPrefixed(c: string, s: string, p: string)
    requires Contains(s, p)
    ensures Contains(c + s, p)
    decreases |c|
  {
    if |c| > 0 {
      ContainsPrefixed(c[1..], s, p);
      assert (c + s)[1..] == c[1..] + s;
      assert Contains((c + s)[1..], p);
    } else {
      assert c + s == s;
    }
  }

  lemma {:induction false} ContainsSelf(s: string)
    ensures Contains(s, s)
  {
    assert IsPrefix(s, s);
  }

  lemma {:induction false} ContainsAppended(s: string, t: string)
    ensures Contains(s + t, t)
  {
    ContainsSelf(t);
    ContainsPrefixed(s, t, t);
  }

  lemma {:induction false} ContainsLeft(s: string, t: string, p: string)
    requires Contains(s, p)
    ensures Contains(s + t, p)
    decreases |s|
  {
    if IsPrefix(p, s) {
      assert (s + t)[..|p|] == s[..|p|];
    } else {
      ContainsLeft(s[1..], t, p);
      assert (s + t)[1..] == s[1..] + t;
    }
  }

  /** A text that holds `q` holds everything `q` holds. */
  lemma {:induction false} ContainsTrans(s: string, q: string, p: string)
    requires Contains(s, q) && Contains(q, p)
    ensures Contains(s, p)
    decreases |s|
  {
    if IsPrefix(q, s) {
      assert s == q + s[|q|..];
      ContainsLeft(q, s[|q|..], p);
    } else {
      ContainsTrans(s[1..], q, p);
    }
  }

  lemma ContainsMiddle(a: string, b: string, c: string)
    ensures Contains(a + b + c, b)
  {
    ContainsSelf(b);
    ContainsLeft(b, c, b);
    assert a + b + c == a + (b + c);
    ContainsPrefixed(a, b + c, b);
  }

  /** `any(kw in text for kw in keywords)`: some keyword occurs in the text. */
  predicate Mentions(text: string, keywords: seq<string>) {
    exists k :: 0 <= k < |keywords| && Contains(text, keywords[k])
  }

  /** Python's `s[:n]`. */
  function Take<T>(s: seq<T>, n: nat): (r: seq<T>)
    ensures |r| <= n && |r| <= |s|
    ensures n <= |s| ==> |r| == n
    ensures r == s[..|r|]
  {
    if n <= |s| then s[..n] else s
  }

  function LowerChar(c: char): char {
    if 'A' <= c <= 'Z' then (c as int + 32) as char else c
  }

  /** Python's `str.lower()` on ASCII letters; every other character is kept. */
  function Lower(s: string): (r: string)
    ensures |r| == |s|
    ensures forall i :: 0 <= i < |s| ==> r[i] == LowerChar(s[i])
  {
    seq(|s|, i requires 0 <= i < |s| => LowerChar(s[i]))
  }

  /** Python's `str.isalnum()` on one ASCII character. */
  predicate IsAlnum(c: char) {
    ('a' <= c <= 'z') || ('A' <= c <= 'Z') || ('0' <= c <= '9')
  }

  /** `sep.join(xs)`. */
  function Join(sep: string, xs: seq<string>): string
    decreases |xs|
  {
    if |xs| == 0 then ""
    else if |xs| == 1 then xs[0]
    else xs[0] + sep + Join(sep, xs[1..])
  }

  lemma {:induction false} JoinConsHead(sep: string, c: string, xs: seq<string>)
    requires |xs| >= 1
    ensures Join(sep, [c + xs[0]] + xs[1..]) == c + Join(sep, xs)
  {
    var ys := [c + xs[0]] + xs[1..];
    assert ys[1..] == xs[1..];
  }

  /** Every part of `xs` occurs in `sep.join(xs)`. */
  lemma {:induction false} JoinContainsPart(sep: string, xs: seq<string>, k: nat)
    requires k < |xs|
    ensures Contains(Join(sep, xs), xs[k])
    decreases |xs|
  {
    if |xs| == 1 {
      ContainsSelf(xs[0]);
    } else if k == 0 {
      ContainsSelf(xs[0]);
      ContainsLeft(xs[0], sep + Join(sep, xs[1..]), xs[0]);
      assert xs[0] + sep + Join(sep, xs[1..]) == xs[0] + (sep + Join(sep, xs[1..]));
    } else {
      JoinContainsPart(sep, xs[1..], k - 1);
      ContainsPrefixed(xs[0] + sep, Join(sep, xs[1..]), xs[k]);
    }
  }

  /** Python's `s.split(sep)` for a one-character separator: the pieces between
      separators, with `""` for empty pieces, and `[""]` for the empty string. */
  function Split(s: string, sep: char): (r: seq<string>)
    ensures |r| >= 1
    ensures forall i :: 0 <= i < |r| ==> sep !in r[i]
    decreases |s|
  {
    if |s| == 0 then [""]
    else
      var rest := Split(s[1..], sep);
      if s[0] == sep then [""] + rest
      else [[s[0]] + rest[0]] + rest[1..]
  }

  /** Joining the pieces of a split with the separator gives back the string. */
  lemma {:induction false} SplitJoin(s: string, sep: char)
    ensures Join([sep], Split(s, sep)) == s
    decreases |s|
  {
    if |s| > 0 {
      var rest := Split(s[1..], sep);
      SplitJoin(s[1..], sep);
      if s[0] == sep {
        var r := [""] + rest;
        assert r[1..] == rest;
        assert Join([sep], r) == "" + [sep] + Join([sep], rest);
        assert s == [s[0]] + s[1..];
      } else {
        JoinConsHead([sep], [s[0]], rest);
        assert s == [s[0]] + s[1..];
      }
    }
  }

  /** A string without the separator splits into itself. */
  lemma {:induction false} SplitWithout(s: string, sep: char)
    requires sep !in s
    ensures Split(s, sep) == [s]
    decreases |s|
  {
    if |s| > 0 {
      SplitWithout(s[1..], sep);
      assert [s[0]] + s[1..] == s;
    }
  }

  /** Splitting `a + [sep] + b`, for `a` without the separator, gives `a`
      followed by the pieces of `b`. */
  lemma {:induction false} SplitAfter(a: string, b: string, sep: char)
    requires sep !in a
    ensures Split(a + [sep] + b, sep) == [a] + Split(b, sep)
    decreases |a|
  {
    var s := a + [sep] + b;
    if |a| == 0 {
      assert s == [sep] + b;
      assert s[1..] == b;
    } else {
      SplitAfter(a[1..], b, sep);
      assert s[1..] == a[1..] + [sep] + b;
      assert [s[0]] + a[1..] == a;
    }
  }

  /** Splitting a join gives the parts back when no part holds the
      separator: `s.split(sep)` undoes `sep.join(parts)`. */
  lemma {:induction false} JoinSplit(parts: seq<string>, sep: char)
    requires |parts| > 0
    requires forall k :: 0 <= k < |parts| ==> sep !in parts[k]
    ensures Split(Join([sep], parts), sep) == parts
    decreases |parts|
  {
    if |parts| == 1 {
      SplitWithout(parts[0], sep);
    } else {
      assert forall k :: 0 <= k < |parts[1..]| ==> parts[1..][k] == parts[k + 1];
      JoinSplit(parts[1..], sep);
      SplitAfter(parts[0], Join([sep], parts[1..]), sep);
      assert [parts[0]] + parts[1..] == parts;
    }
  }

  /** Python's `s.replace(a, b)` for single characters. */
  function ReplaceChar(s: string, a: char, b: char): (r: string)
    ensures |r| == |s|
    ensures forall i :: 0 <= i < |s| ==> r[i] == (if s[i] == a then b else s[i])
  {
    seq(|s|, i requires 0 <= i < |s| => if s[i] == a then b else s[i])
  }

  /** Python's `s.replace(pat, rep)`: non-overlapping occurrences, left to
      right. Only a non-empty `pat` is used in the system. */
  function ReplaceAll(s: string, pat: string, rep: string): string
    requires |pat| > 0
    decreases |s|
  {
    if |s| < |pat| then s
    else if s[..|pat|] == pat then rep + ReplaceAll(s[|pat|..], pat, rep)
    else [s[0]] + ReplaceAll(s[1..], pat, rep)
  }

  /** Without an occurrence of `pat`, replacing changes nothing. */
  lemma {:induction false} ReplaceAllAbsent(s: string, pat: string, rep: string)
    requires |pat| > 0
    requires !Contains(s, pat)
    ensures ReplaceAll(s, pat, rep) == s
    decreases |s|
  {
    if |s| >= |pat| {
      assert !IsPrefix(pat, s);
      ReplaceAllAbsent(s[1..], pat, rep);
      assert s == [s[0]] + s[1..];
    }
  }

  /** Replacing a present `pat` by `e + pat` leaves `e + pat` in the text. */
  lemma {:induction false} ReplaceAllKeepsOld(s: string, pat: string, e: string)
    requires |pat| > 0
    requires Contains(s, pat)
    ensures Contains(ReplaceAll(s, pat, e + pat), e + pat)
    decreases |s|
  {
    assert |s| >= |pat| by {
      if |s| < |pat| {
        assert !IsPrefix(pat, s);
        assert |s| > 0;
        NotContainsShort(s[1..], pat);
      }
    }
    if s[..|pat|] == pat {
      ContainsSelf(e + pat);
      ContainsLeft(e + pat, ReplaceAll(s[|pat|..], pat, e + pat), e + pat);
    } else {
      assert !IsPrefix(pat, s);
      ReplaceAllKeepsOld(s[1..], pat, e);
      ContainsPrefixed([s[0]], ReplaceAll(s[1..], pat, e + pat), e + pat);
    }
  }

  lemma {:induction false} NotContainsShort(s: string, p: string)
    requires |s| < |p|
    ensures !Contains(s, p)
    decreases |s|
  {
    if |s| > 0 {
      NotContainsShort(s[1..], p);
    }
  }

  /** Whatever contains `x + p` contains `p`. */
  lemma {:induction false} ContainsTail(s: string, x: string, p: string)
    requires Contains(s, x + p)
    ensures Contains(s, p)
    decreases |s|
  {
    if IsPrefix(x + p, s) {
      assert s[|x|..|x| + |p|] == (x + p)[|x|..];
      ContainsAt(s, p, |x|);
    } else {
      ContainsTail(s[1..], x, p);
    }
  }

  /** A pattern whose first character does not recur in it, occurring once
      between two stretches free of it, is replaced exactly there. */
  lemma {:induction false} ReplaceAllSole(a: string, p: string, b: string, rep: string)
    requires |p| > 0 && p[0] !in p[1..]
    requires !Contains(a, p) && !Contains(b, p)
    ensures ReplaceAll(a + p + b, p, rep) == a + rep + b
    decreases |a|
  {
    var s := a + p + b;
    if |a| == 0 {
      assert s[..|p|] == p && s[|p|..] == b;
      ReplaceAllAbsent(b, p, rep);
    } else {
      NoEarlyMatch(a, p, b);
      assert s[1..] == a[1..] + p + b;
      ReplaceAllSole(a[1..], p, b, rep);
      assert ReplaceAll(s, p, rep) == [a[0]] + (a[1..] + rep + b);
      assert a == [a[0]] + a[1..];
    }
  }

  /** Before the sole occurrence, no match can start inside `a`. */
  lemma NoEarlyMatch(a: string, p: string, b: string)
    requires |a| > 0 && |p| > 0 && p[0] !in p[1..]
    requires !Contains(a, p)
    ensures (a + p + b)[..|p|] != p
  {
    var s := a + p + b;
    if |p| <= |a| {
      assert s[..|p|] == a[..|p|];
    } else {
      assert p[1..][|a| - 1] == p[|a|] != s[..|p|][|a|];
    }
  }

  /** Concatenation is associative. */
  lemma AppendAssoc<T>(a: seq<T>, b: seq<T>, c: seq<T>)
    ensures a + (b + c) == a + b + c
  {
  }

  /** Two appended elements are one appended pair. */
  lemma SnocTwice<T>(s: seq<T>, x: T, y: T)
    ensures s + [x] + [y] == s + [x, y]
  {
  }

  /** A sequence is a prefix of itself extended. */
  lemma PrefixOfLonger<T>(a: seq<T>, b: seq<T>)
    ensures a <= a + b
  {
    assert (a + b)[..|a|] == a;
  }

  function DigitChar(d: nat): char
    requires d < 10
  {
    "0123456789"[d]
  }

  predicate IsDigit(c: char) {
    '0' <= c <= '9'
  }

  /** Python's `str(n)` for a natural number. */
  function NatToString(n: nat): (r: string)
    ensures |r| >= 1
    ensures forall i :: 0 <= i < |r| ==> IsDigit(r[i])
    decreases n
  {
    if n < 10 then [DigitChar(n)] else NatToString(n / 10) + [DigitChar(n % 10)]
  }

  /** Python's `str(i)` for an integer. */
  function IntToString(i: int): string {
    if i < 0 then "-" + NatToString(-i) else NatToString(i)
  }

  /** The value of a string of decimal digits (Python's `int(s)`). */
  function DecimalValue(s: string): nat
    requires forall i :: 0 <= i < |s| ==> IsDigit(s[i])
    decreases |s|
  {
    if |s| == 0 then 0
    else
      assert IsDigit(s[|s| - 1]);
      DecimalValue(s[..|s| - 1]) * 10 + (s[|s| - 1] as int - '0' as int)
  }

  /** `int(str(n)) == n`: the decimal rendering of a number reads back as it. */
  lemma {:induction false} DecimalRoundTrip(n: nat)
    ensures DecimalValue(NatToString(n)) == n
    decreases n
  {
    if n >= 10 {
      var r := NatToString(n);
      DecimalRoundTrip(n / 10);
      assert r[..|r| - 1] == NatToString(n / 10);
    }
  }

  /** Only decimal digits. */
  predicate AllDigits(s: string) {
    forall i :: 0 <= i < |s| ==> IsDigit(s[i])
  }

  /** A decimal numeral as `float(s)` reads it: an optional sign, then
      digits with at most one point among them, and at least one digit. */
  predicate IsDecimal(s: string) {
    var t := if |s| > 0 && (s[0] == '+' || s[0] == '-') then s[1..] else s;
    && t != "" && t != "."
    && (AllDigits(t) || exists k :: 0 <= k < |t| && t[k] == '.' && AllDigits(t[..k]) && AllDigits(t[k + 1..]))
  }
}

=== FILE: values.dfy ===
/** Python's dynamic values as they flow through step parameters, connector
    replies and alert payloads: `None`, booleans, integers, floats, strings,
    lists and dicts. A float is held as its `repr` text ("0.5", "1e+20"), so
    its zero is "0.0" or "-0.0". A dict keeps its insertion order as a list
    of key/value pairs. */
module Values {
  import opened Wrappers
  import opened Text

  datatype Value =
    | VNone
    | VBool(b: bool)
    | VInt(i: int)
    | VFloat(repr: string)
    | VStr(s: string)
    | VList(items: seq<Value>)
    | VDict(entries: seq<(string, Value)>)

  type Dict = seq<(string, Value)>

  /** `d.get(k)`: the value stored under `k`, if any. */
  function Get(d: Dict, k: string): (r: Option<Value>)
    ensures r.Some? <==> exists j :: 0 <= j < |d| && d[j].0 == k
    ensures r.Some? ==> (d[0].0 == k ==> r.value == d[0].1)
    decreases |d|
  {
    if |d| == 0 then None
    else if d[0].0 == k then Some(d[0].1)
    else Get(d[1..], k)
  }

  /** The first entry with a key is the one a lookup finds. */
  lemma {:induction false} GetFirst(d: Dict, j: nat)
    requires j < |d| && forall i :: 0 <= i < j ==> d[i].0 != d[j].0
    ensures Get(d, d[j].0) == Some(d[j].1)
    decreases j
  {
    if j > 0 {
      assert d[1..][j - 1] == d[j];
      GetFirst(d[1..], j - 1);
    }
  }

  /** `d.get(k, default)`. */
  function GetOr(d: Dict, k: string, default: Value): Value {
    Get(d, k).GetOr(default)
  }

  /** `d.get(k)` where a missing key reads as `None`. */
  function At(d: Dict, k: string): Value {
    GetOr(d, k, VNone)
  }

  predicate HasKey(d: Dict, k: string) {
    Get(d, k).Some?
  }

  function Keys(d: Dict): seq<string> {
    seq(|d|, j requires 0 <= j < |d| => d[j].0)
  }

  /** `d[k] = v`: replaces the entry for `k` in place, or appends a new one. */
  function Put(d: Dict, k: string, v: Value): (r: Dict)
    ensures |r| == |d| || |r| == |d| + 1
    decreases |d|
  {
    if |d| == 0 then [(k, v)]
    else if d[0].0 == k then [(k, v)] + d[1..]
    else [d[0]] + Put(d[1..], k, v)
  }

  /** After `d[k] = v`, reading `k` gives `v` and every other key is unchanged. */
  lemma {:induction false} PutGet(d: Dict, k: string, v: Value, k2: string)
    ensures Get(Put(d, k, v), k2) == (if k2 == k then Some(v) else Get(d, k2))
    decreases |d|
  {
    if |d| > 0 && d[0].0 != k {
      PutGet(d[1..], k, v, k2);
      var r := Put(d, k, v);
      assert r[1..] == Put(d[1..], k, v);
    }
  }

  /** `d.update(e)`: writes every entry of `e`, in order. */
  function Update(d: Dict, e: Dict): (r: Dict)
    decreases |e|
  {
    if |e| == 0 then d else Update(Put(d, e[0].0, e[0].1), e[1..])
  }

  /** Python dicts never repeat a key. */
  predicate DistinctKeys(d: Dict) {
    forall i, j :: 0 <= i < j < |d| ==> d[i].0 != d[j].0
  }

  /** After `d.update(e)`, keys of `e` read as in `e` and the other keys as in `d`. */
  lemma {:induction false} UpdateGet(d: Dict, e: Dict, k: string)
    requires DistinctKeys(e)
    ensures Get(Update(d, e), k) == (if HasKey(e, k) then Get(e, k) else Get(d, k))
    decreases |e|
  {
    if |e| > 0 {
      UpdateGet(Put(d, e[0].0, e[0].1), e[1..], k);
      PutGet(d, e[0].0, e[0].1, k);
      if e[0].0 == k {
        assert !HasKey(e[1..], k);
      }
    }
  }

  /** Python truthiness. */
  predicate Truthy(v: Value) {
    match v
    case VNone => false
    case VBool(b) => b
    case VInt(i) => i != 0
    case VFloat(t) => t != "0.0" && t != "-0.0"
    case VStr(s) => |s| > 0
    case VList(items) => |items| > 0
    case VDict(entries) => |entries| > 0
  }

  /** `a or b`. */
  function Or(a: Value, b: Value): (r: Value)
    ensures Truthy(a) ==> r == a
    ensures !Truthy(a) ==> r == b
  {
    if Truthy(a) then a else b
  }

  /** Python's `repr(v)`, with strings quoted but not escaped. */
  function Repr(v: Value): string
  {
    match v
    case VStr(s) => "'" + s + "'"
    case VList(items) =>
      "[" + Join(", ", seq(|items|, j requires 0 <= j < |items| => Repr(items[j]))) + "]"
    case VDict(entries) =>
      "{" + Join(", ", seq(|entries|, j requires 0 <= j < |entries| =>
        "'" + entries[j].0 + "': " + Repr(entries[j].1))) + "}"
    case _ => Scalar(v)
  }

  function Scalar(v: Value): string {
    match v
    case VNone => "None"
    case VBool(b) => if b then "True" else "False"
    case VInt(i) => IntToString(i)
    case VFloat(t) => t
    case VStr(s) => s
    case _ => ""
  }

  /** Python's `str(v)`: strings as they are, every other value as its repr. */
  function Show(v: Value): (r: string)
    ensures v.VStr? ==> r == v.s
  {
    if v.VList? || v.VDict? then Repr(v) else Scalar(v)
  }

  /** A list of strings as a Python list value. */
  function StrList(xs: seq<string>): (r: Value)
    ensures r.VList? && |r.items| == |xs|
    ensures forall j :: 0 <= j < |xs| ==> r.items[j] == VStr(xs[j])
  {
    VList(seq(|xs|, j requires 0 <= j < |xs| => VStr(xs[j])))
  }

  /** `type(v).__name__`. */
  function TypeName(v: Value): string {
    match v
    case VNone => "NoneType"
    case VBool(_) => "bool"
    case VInt(_) => "int"
    case VFloat(_) => "float"
    case VStr(_) => "str"
    case VList(_) => "list"
    case VDict(_) => "dict"
  }

  /** The text of the error `str.join` raises for the item at `index` that
      is not a string. */
  function JoinItemError(v: Value, index: nat): string {
    "sequence item " + NatToString(index) + ": expected str instance, " + TypeName(v) + " found"
  }

  /** `d.get(k, {})` read on as a dict: a present value that is not a dict
      has no `.get` and raises. */
  function SubDict(d: Dict, k: string): (r: Result<Dict, string>)
    ensures !HasKey(d, k) ==> r == Ok([])
    ensures HasKey(d, k) ==> (r.Ok? <==> At(d, k).VDict?)
    ensures HasKey(d, k) && r.Ok? ==> r.value == At(d, k).entries
  {
    var v := GetOr(d, k, VDict([]));
    if v.VDict? then Ok(v.entries)
    else Err("'" + TypeName(v) + "' object has no attribute 'get'")
  }

  /** `for c in v`: a list yields its items, a string its characters and a
      dict its keys; anything else cannot be iterated. */
  function Iterate(v: Value): (r: Option<seq<Value>>)
    ensures r.None? <==> !(v.VList? || v.VStr? || v.VDict?)
    ensures v.VList? ==> r == Some(v.items)
    ensures v.VStr? ==> |r.value| == |v.s| && forall i :: 0 <= i < |v.s| ==> r.value[i] == VStr([v.s[i]])
    ensures v.VDict? ==> |r.value| == |v.entries| && forall i :: 0 <= i < |v.entries| ==> r.value[i] == VStr(v.entries[i].0)
  {
    match v
    case VList(items) => Some(items)
    case VStr(s) => Some(seq(|s|, i requires 0 <= i < |s| => VStr([s[i]])))
    case VDict(entries) => Some(seq(|entries|, i requires 0 <= i < |entries| => VStr(entries[i].0)))
    case _ => None
  }

  /** `v` if it is a list, else `[]`. */
  function ItemsOf(v: Value): seq<Value> {
    if v.VList? then v.items else []
  }

  /** `v` if it is a dict, else `{}`. */
  function EntriesOf(v: Value): Dict {
    if v.VDict? then v.entries else []
  }
}

=== FILE: wrappers.dfy ===
/** Failure-compatible wrapper datatypes used throughout the model:
    `Option` for Python's `Optional[...]`/`None`, and `Result` for operations
    that either produce a value or fail with an error message. */
module Wrappers {

  datatype Option<+T> = None | Some(value: T) {

    predicate IsFailure() {
      None?
    }

    function PropagateFailure<U>(): Option<U>
      requires None?
    {
      None
    }

    function Extract(): T
      requires Some?
    {
      value
    }

    /** Python's `x or default` on an optional value that is present iff `Some`. */
    function GetOr(default: T): T {
      match this
      case Some(v) => v
      case None => default
    }
  }

  datatype Result<+R, +E> = Ok(value: R) | Err(error: E) {

    predicate IsFailure() {
      Err?
    }

    function PropagateFailure<U>(): Result<U, E>
      requires Err?
    {
      Err(error)
    }

    function Extract(): R
      requires Ok?
    {
      value
    }
  }
}
